=== FILE: README.md ===
# nexgen rules, modelled in Dafny

nexgen writes NeXus/NXmx HDF5 files for X-ray and electron diffraction
experiments at Diamond Light Source. Writing the files is I/O. Underneath it
sits a set of deterministic rules that decide what gets written, and this
project models those rules as pure Dafny functions with contracts and lemmas:

- **Virtual-dataset planner** (`Vds`, `NxmxWriter`). A run of frames
  `[start, start + frames)` is split across external data files of at most
  1000 frames each. The pieces are laid end to end in the virtual dataset,
  and links the run never touches are dropped. The writer also derives the
  meta-file and data-file names, the collection time and the default VDS
  shape.
- **Scan geometry** (`Axes`, `ScanUtils`, `NxsWrite`, `Goniometer`, `ScanSpec`).
  - The `Axis` record and the rules that pick the oscillation axis and the
    grid axes, both the list-based helpers and the `Axis`-based ones.
  - Scan points: a line of `n` evenly spaced points, inclusive, and the
    outer-by-inner product, optionally snaked.
  - How a `Goniometer` reconciles a stored scan with its axes.
- **Serial crystallography** (`SsxChip`, `SsxExpt`, `SsxEiger`).
  - Fixed-target chip blocks, numbered in column-snake order.
  - Decoding block numbers from a chip map, and the start of every block.
  - The extruder, fixed-target and 3D grid-scan experiments.
  - The input validation of the SSX Eiger writer.
- **Names and paths** (`Utils`, `Paths`, `WriteUtils`, `Source`, `MrcTools`,
  `GdaJson`).
  - Data-file templates and NeXus file names.
  - `depends_on` strings and instrument names.
  - The imgCIF to McStas conversion.
  - MRC output names and GDA dependency names.
- **Metadata lookup and dispatch** (`Metafile`, `MetaReader`, `EdTools`,
  `Detector`, `CliUtils`, `CliConfig`, `EdMrcToNexus`, `GdaRequest`,
  `DataWriter`).
  - First-match searches over the object paths of a Dectris or Singla
    master file.
  - Bit-depth to data-type maps and detector-type dispatch.
  - Required-key checks.
  - The TVIPS and Ceta-D binning tables of the MRC converter.
  - The blank-image gap masks of the test-data generator.

Shared pieces live in two modules:

- `Wrappers` holds `Option`, `Result` and one `Error` constructor per Python
  exception class the code raises.
- `Text` holds the Python built-ins the code relies on: substring tests,
  ASCII case mapping, `str.replace`, `"%0Nd"` formatting, `round`, and
  insertion-ordered dictionaries, modelled as association lists.

Where the source updates an object in place, the model returns the updated
value. Positions are `real`.

Several members take an `asWritten` flag for the faults listed under
"## Findings": `true` follows the code as written and `false` follows the
evident intent. The flag selects the goniometer's scan reconciliation, the
chip-map decoding of a fixed-target run (`RunFixedTarget`, `RunExperiment`,
`WriterWith`) and the data-file template of the NeXus writer
(`DataFileTemplate`, `DataFilesList`). The writer's count of scan points
calls the goniometer as the code does, so it uses the as-written rule.

The frame planner `split_datasets` walks the links in file order and clips
each one to the requested range. It neither sorts the links nor checks them
for overlap, and the model does the same.

## Model

| member | source | states |
|---|---|---|
| Vds.DestFrames | src/nexgen/tools/vds_tools.py:40-52 | the destination length is stop minus start when the link stops inside its source or below 1000 frames, and source length minus start otherwise |
| Vds.DestShape | src/nexgen/tools/vds_tools.py:40-52 | the destination keeps the source's image dimensions and has `DestFrames` frames |
| Vds.Add | src/nexgen/tools/vds_tools.py:54-64 | the sum of two datasets is unnamed and keeps the first one's image size |
| Vds.AddDestFrames | src/nexgen/tools/vds_tools.py:54-64 | appending two datasets that stop inside their sources adds their destination lengths, and the sum also stops inside its source |
| Vds.LinkAt | src/nexgen/tools/vds_tools.py:143-148 | the dataset built for link `k` carries that link's name and the collection's image size |
| Vds.Links | src/nexgen/tools/vds_tools.py:141-158 | the loop returns at most one dataset per link, and each kept one starts below 1000, stops in `(0, 1000]` and has at most 1000 source frames |
| Vds.SplitDatasets | src/nexgen/tools/vds_tools.py:116-121 | `ValueError` exactly when the start index is negative or past the data length; otherwise every dataset's start, stop and source length lie within one 1000-frame link |
| Vds.LinksAreSubsequence | src/nexgen/tools/vds_tools.py:142-154 | the returned datasets are named after the links, in link order, each link at most once |
| Vds.LinksComeFromPositions | src/nexgen/tools/vds_tools.py:142-156 | every returned dataset is exactly the dataset the loop builds for some link position |
| Vds.SplitDatasetsLinks | src/nexgen/tools/vds_tools.py:142-156 | link `k` has source length `min(1000, frames - 1000 k)`, and the result names the links in order |
| Vds.LinksSum | src/nexgen/tools/vds_tools.py:138-156 | the frames the links contribute are those of `[start, start + n)` that fall inside the links, and the links dropped would have contributed none |
| Vds.ClampSumClosed | src/nexgen/tools/vds_tools.py:145-147 | capping a frame index to each 1000-frame link and summing over `m` links gives `min(max(x - 1000 k, 0), 1000 m)` |
| Vds.SplitDatasetsFrameCount | src/nexgen/tools/vds_tools.py:132-156 | the datasets together hold the requested frames clipped to the links' capacity; when the links can hold the request, exactly the VDS frame count (the default being all frames from the start index) |
| Vds.SplitDatasetsStopInSource | src/nexgen/tools/vds_tools.py:142-154 | when the VDS asks for no more frames than the data holds, no dataset stops past the end of its source |
| Vds.SumDataset | src/nexgen/tools/vds_tools.py:172 | the `reduce(operator.add, ...)` of the datasets keeps the first dataset's image size |
| Vds.SliceLength | src/nexgen/tools/vds_tools.py:177-180 | a dataset that stops inside its source advances the layout by stop minus start, whichever branch is taken |
| Vds.Slices | src/nexgen/tools/vds_tools.py:175-189 | one destination slice per dataset, the first starting at 0, each starting where the previous ended, each as long as its dataset |
| Vds.VirtualLayout | src/nexgen/tools/vds_tools.py:172-191 | `TypeError` exactly for an empty list (reduce without an initial value); otherwise one slice per dataset and the first dataset's image size |
| Vds.SumDatasetFrames | src/nexgen/tools/vds_tools.py:172-173 | the summed dataset's destination length equals the total length of the slices |
| Vds.SumSlicesIsSumLengths | src/nexgen/tools/vds_tools.py:177-180 | for datasets that stop inside their sources the slices sum to the datasets' frame counts |
| Vds.VirtualLayoutContiguous | src/nexgen/tools/vds_tools.py:172-191 | the layout is contiguous: it starts at 0, ends at its own length, which is the total frame count, and each slice holds its dataset's frames |
| Vds.ImageVdsDatasets | src/nexgen/tools/vds_tools.py:216-238 | no link is a `KeyError`; a single link with more than 1000 frames is used whole; otherwise the datasets are those of `split_datasets` with the default shape filled in |
| Vds.ImageVdsLayout | src/nexgen/tools/vds_tools.py:240 | a failure to find or split the links fails the writer |
| Vds.ImageVdsCoversRequest | src/nexgen/tools/vds_tools.py:194-240 | with a start index inside the data and enough links, the VDS holds every frame from the start index to the end |
| Vds.ImageVdsDefaultShape | src/nexgen/tools/vds_tools.py:219-223 | passing the default shape explicitly lays out the same thing as passing none |
| Vds.ImageVdsCoversExplicitShape | src/nexgen/tools/vds_tools.py:219-240 | the same coverage when the shape is passed explicitly |
| Vds.KeptFrom | src/nexgen/tools/vds_tools.py:354-362 | the names kept from index `i` on are the names at the used positions, one for one and in link order |
| Vds.KeptIndices | src/nexgen/tools/vds_tools.py:354-362 | the positions kept from `i` on rise strictly and are exactly the links that neither end before the VDS nor start after it |
| Vds.CleanUnusedLinks | src/nexgen/tools/vds_tools.py:345-362 | no link is a `KeyError`; a single link, or links that hold exactly the VDS, are all kept; otherwise the names kept are those of the used links in link order, and every link that is not wholly before or after the VDS is kept |
| Vds.CumulativeMonotone | src/nexgen/tools/vds_tools.py:356-360 | with non-negative lengths the running frame totals never decrease |
| Vds.OverlappingLinkKept | src/nexgen/tools/vds_tools.py:354-362 | a link whose frames meet the VDS range is never removed |
| Vds.UnusedLinkRemoved | src/nexgen/tools/vds_tools.py:354-362 | when the pass removes links, a link wholly before or wholly after the VDS is gone from the names kept |
| Vds.CleanUnusedLinksSucceeds | src/nexgen/tools/vds_tools.py:345-362 | with non-negative frame counts no link is deleted twice, so the pass never fails on a non-empty link list |
| NxmxWriter.MetaFile | src/nexgen/nxs_write/nxmx_writer.py:68-76 | a meta file exists exactly when the detector has one; it sits beside the NeXus file, ends in `_meta.h5` and starts with the image file name when one is given, or the NeXus stem otherwise |
| NxmxWriter.MetaFileNamesNexusFile | src/nexgen/nxs_write/nxmx_writer.py:68-76 | the meta file of `run.nxs` leads back to `run.nxs` through `get_nexus_filename` |
| NxmxWriter.TaggedSiblingNamesNexus | src/nexgen/nxs_write/nxmx_writer.py:74-76 | any `<stem>_<tag>.h5` beside `<stem>.nxs` leads back to that NeXus file |
| NxmxWriter.CeilDiv | src/nexgen/nxs_write/nxmx_writer.py:95 | `math.ceil(a / b)` is the least `r` with `a <= r b` |
| NxmxWriter.DataFilesHoldRun | src/nexgen/nxs_write/nxmx_writer.py:78-80 | the files counted by `ceil(n / 1000)` hold exactly the run's `n` images, so the collection time is the exposure time per image summed over the files |
| NxmxWriter.FullFilesSum | src/nexgen/nxs_write/nxmx_writer.py:95 | `n` files with `1000 (n - 1) < tot <= 1000 n` hold `tot` frames |
| NxmxWriter.FillIndex | src/nexgen/nxs_write/nxmx_writer.py:95-103 | on the templates the writer builds (`get_filename_template`'s, or `<image_filename>_%06d.h5` for a name without `%`) filling succeeds and leaves no `%` behind; a template without `%` is a `TypeError` |
| NxmxWriter.FillIndexSplit | src/nexgen/nxs_write/nxmx_writer.py:103 | filling replaces the directive by the number padded to six digits and keeps the text on both sides |
| NxmxWriter.DataFileTemplate | src/nexgen/nxs_write/nxmx_writer.py:96-102 | without an image file name the template is the one `get_filename_template` derives from the NeXus file, as written or by the corrected rule; with one it is `<image_filename>_%06d.h5` beside the NeXus file and holds the `%06d` to number with |
| NxmxWriter.DataFilesList | src/nexgen/nxs_write/nxmx_writer.py:95-105 | by either template rule: `ceil(n / 1000)` files, just enough to hold the images, file `k` being the template filled with `k + 1`; it fails exactly when the template cannot be derived or, with images to name, cannot be filled |
| NxmxWriter.DataFilesAsWrittenKeepPath | src/nexgen/nxs_write/nxmx_writer.py:96-103 | as written, a `.h5` file with "master" in its directory but not its stem is its own template, and without a `%` in its path naming the first data file raises `TypeError` |
| NxmxWriter.FirstDataFile | src/nexgen/nxs_write/nxmx_writer.py:96-103 | by the corrected rule, a template `<stem>_%06d.h5` in `<parent>` names the first data file `<stem>_000001.h5` in `<parent>` |
| NxmxWriter.DataFilesOfMasterDirectoryMetaFile | src/nexgen/nxs_write/nxmx_writer.py:96-103 | for `/dls/master/run_meta.h5` with images, the data-file list raises `TypeError` as written, and starts with `/dls/master/run_000001.h5` by the corrected rule |
| NxmxWriter.MetaStemTemplate | src/nexgen/utils.py:96-101 | the corrected template of `/dls/master/run_meta.h5` is `/dls/master/run_%06d.h5` |
| NxmxWriter.NumberedFiles | src/nexgen/nxs_write/nxmx_writer.py:103 | `n` paths, the `k`-th the template filled with `k + 1` |
| NxmxWriter.NexusFileTemplate | src/nexgen/nxs_write/nxmx_writer.py:97 | the template of `<stem>.nxs` is `<stem>_%06d.h5` in the same directory, with no `./` for a bare name |
| NxmxWriter.DataFileOfNexus | src/nexgen/nxs_write/nxmx_writer.py:95-105 | data file `k` of `run.nxs` is `run_<k + 1, six digits>.h5` in the same directory |
| NxmxWriter.FilledDataFile | src/nexgen/nxs_write/nxmx_writer.py:100-103 | filling the template `<stem>_%06d.h5` in `<parent>`, the current directory included, with `i` names `<stem>_<i, six digits>.h5` in `<parent>` |
| NxmxWriter.DataFilesRoundTrip | src/nexgen/nxs_write/nxmx_writer.py:95-105 | each data file of `run.nxs` is `run_00000k.h5` beside it and leads back to `run.nxs` |
| NxmxWriter.DefaultVdsShape | src/nexgen/nxs_write/nxmx_writer.py:258-271 | an explicit shape is kept; otherwise the shape takes the goniometer's number of scan points (whether or not it matched `tot_num_imgs - offset`) and the detector's image size, failing exactly when that count fails |
| NxmxWriter.WriteVds | src/nexgen/nxs_write/nxmx_writer.py:258-302 | the tiled writer is used exactly for a "jungfrau" description; the image writer gets the whole run, the offset and the VDS shape; `nimages` is rewritten, to the VDS frame count, exactly when the VDS holds fewer frames than the run |
| NxmxWriter.WriteVdsCoversRun | src/nexgen/nxs_write/nxmx_writer.py:258-289 | with a scan that agrees with the run and enough links, the VDS written holds every frame from the offset to the end |
| NxmxWriter.WriteVdsDefaultCall | src/nexgen/nxs_write/nxmx_writer.py:258-302 | with the default shape the image writer gets `(tot - offset, *image_size)`, and `nimages` is rewritten exactly when the offset is positive |
| NxmxWriter.DefaultShapeFollowsScan | src/nexgen/nxs_write/nxmx_writer.py:258-271 | the default frame count is the scan's number of points, and equals `tot - offset` exactly when the scan agrees |
| Axes.MakeAxis | src/nexgen/nxs_utils/axes.py:46-59 | the axis keeps every field it is given, and a vector or offset passed as a `Point3D` or as a tuple is stored as the same coordinates |
| Axes.DefaultAxis | src/nexgen/nxs_utils/axes.py:50-53 | the defaults place the axis at 0, not moving, with no steps and no offset |
| Axes.PointAndTupleAgree | src/nexgen/nxs_utils/axes.py:55-59 | building an axis from `Point3D`s or from the same coordinates as tuples gives the same axis |
| Axes.Units | src/nexgen/nxs_utils/axes.py:61-66 | "mm" exactly for a translation, "deg" exactly for anything else |
| Axes.EndPos | src/nexgen/nxs_utils/axes.py:68-71 | a still axis, or one with a single step, ends where it starts |
| Axes.IsScanIffEndDiffers | src/nexgen/nxs_utils/axes.py:68-77 | with two or more steps, an axis is a scan axis exactly when its end position differs from its start |
| ScanSpec.Line | src/nexgen/nxs_utils/scan_utils.py:157-160 | `n` evenly spaced points from start to stop inclusive, one point sitting at start, none for a non-positive count, all equal when start and stop agree |
| Text.Reverse | src/nexgen/nxs_utils/scan_utils.py:185 | `~line` holds the same points in reverse order: same length, element i taken from the far end |
| ScanSpec.Row | src/nexgen/nxs_utils/scan_utils.py:179-190 | a row of the product holds one point per inner point |
| ScanSpec.Product | src/nexgen/nxs_utils/scan_utils.py:179-202 | the product `outer * inner` has one point per pair of points |
| ScanSpec.ProductFirstRow | src/nexgen/nxs_utils/scan_utils.py:179-202 | the outer axis is the slow one: the first row holds the outer axis's first value while the inner axis runs through its points in order |
| ScanSpec.ProductLastPoint | src/nexgen/nxs_utils/scan_utils.py:179-202 | the last point has the outer axis at its last value and the inner axis at its last value, or at its first when the last row of a snaked scan runs backwards |
| ScanUtils.Rotations | src/nexgen/nxs_utils/scan_utils.py:77 | the rotation axes of the list, and only those |
| ScanUtils.Moving | src/nexgen/nxs_utils/scan_utils.py:81 | the axes of the list that move, and only those |
| ScanUtils.IdentifyOscAxis | src/nexgen/nxs_utils/scan_utils.py:72-88 | no axes is `ScanAxisNotFoundError`; a single rotation axis is the answer whether or not it moves; exactly one moving rotation axis is the answer; otherwise the default exactly when no rotation axis moves, `ScanAxisNotFoundError` exactly when several do; any other answer is a rotation axis's name |
| ScanUtils.GridNames | src/nexgen/nxs_utils/scan_utils.py:112-113 | exactly the names of the moving translation axes |
| ScanUtils.GridNamesAppend | src/nexgen/nxs_utils/scan_utils.py:112-113 | the names of two runs of axes are those of the first run followed by those of the second, so the names keep the axes' order |
| ScanUtils.IdentifyGridScanAxes | src/nexgen/nxs_utils/scan_utils.py:106-114 | `ScanAxisNotFoundError` exactly for no axes; otherwise exactly the names of the moving translation axes, possibly none |
| ScanUtils.IdentifyGridScanAxesAppend | src/nexgen/nxs_utils/scan_utils.py:106-114 | the names found in two non-empty runs of axes are those of the first run followed by those of the second, so the names keep the axes' order |
| ScanUtils.CalculateScanPoints | src/nexgen/nxs_utils/scan_utils.py:146-205 | a rotation scan of a non-rotation axis, or a grid with a non-translation axis, is `ScanAxisError`; a still rotation without a count is `ValueError`; a rotation scan is one line of its axis and a single translation is the line of its own steps |
| ScanUtils.RotationScanPoints | src/nexgen/nxs_utils/scan_utils.py:146-160 | a rotation scan has one point per image (a given count overrides the axis's steps), starts at the start position, ends at `end_pos`, steps by the increment, and repeats the start position when the axis does not move |
| ScanUtils.GridScanPoints | src/nexgen/nxs_utils/scan_utils.py:179-205 | a grid of two translations gives the outer then the inner axis, `n1 n2` points each, the outer ending at its `end_pos`, the inner at its `end_pos` unless snaked over an even number of rows, when it is back at its start |
| ScanUtils.GridScanDict | src/nexgen/nxs_utils/scan_utils.py:179-205 | the grid is the scanspec product of the two axis lines, outer axis first, snaked as asked |
| ScanUtils.AxisLineEnds | src/nexgen/nxs_utils/scan_utils.py:173-178 | an axis's line has one point per step, from `start_pos` to `end_pos` |
| ScanUtils.AxisLineStepsByIncrement | src/nexgen/nxs_utils/axes.py:68-71 | with two or more steps, scanspec's line from the start to `end_pos` has its last point at `end_pos` and steps by exactly the axis's increment |
| NxsWrite.OfType | src/nexgen/nxs_write/__init__.py:98-101 | the entries of the list with the given type, and only those |
| NxsWrite.Changing | src/nexgen/nxs_write/__init__.py:106 | the entries whose start and end differ, and only those |
| NxsWrite.FindOscAxis | src/nexgen/nxs_write/__init__.py:92-114 | no axes is `ValueError`; a sole rotation axis is returned whether or not it moves; no rotation axis gives the default; any other name returned is a rotation axis, and among several rotation axes one that moves |
| NxsWrite.FindOscAxisByMovingCount | src/nexgen/nxs_write/__init__.py:103-113 | among several rotation axes: none moving gives the default, one moving gives its name, and it fails exactly when more than one moves |
| NxsWrite.FindGridScanAxes | src/nexgen/nxs_write/__init__.py:138-153 | `ValueError` exactly for no axes; otherwise exactly the translation axes whose start and end differ, possibly none |
| NxsWrite.FindGridScanAxesAppend | src/nexgen/nxs_write/__init__.py:143-153 | the names found in two non-empty runs of entries are those of the first run followed by those of the second, so the names keep the entries' order |
| NxsWrite.Entry | src/nexgen/nxs_write/__init__.py:98-101 | the list columns of an `Axis` are its name, start, end position and type string |
| NxsWrite.EntriesOfRotations | src/nexgen/nxs_write/__init__.py:98-101 | filtering the columns by "rotation" gives the columns of the rotation axes |
| NxsWrite.EntriesChanging | src/nexgen/nxs_write/__init__.py:106 | for axes with at least two steps, the entries whose ends differ are those of the moving axes |
| NxsWrite.RotationsStepped | src/nexgen/nxs_write/__init__.py:98-101 | the rotation axes of a stepped goniometer are stepped too |
| NxsWrite.FindOscAxisAgrees | src/nexgen/nxs_write/__init__.py:92-114 | the list-based rule and `identify_osc_axis` succeed together and name the same axis whenever every axis has at least two steps |
| NxsWrite.GridNamesAsEntries | src/nexgen/nxs_write/__init__.py:144-153 | the moving translation names of `identify_grid_scan_axes` are those the list-based loop collects |
| NxsWrite.FindGridScanAxesAgrees | src/nexgen/nxs_write/__init__.py:138-153 | the list-based rule and `identify_grid_scan_axes` succeed together and return the same names whenever every axis has at least two steps |
| NxsWrite.ChooseSpacing | src/nexgen/nxs_write/__init__.py:196-205 | `ValueError` exactly when both or neither of increments and image counts are given; otherwise the one given is used |
| NxsWrite.StepCount | src/nexgen/nxs_write/__init__.py:209 | `round(abs(start - end) / inc)` is within one half of the quotient, and a zero increment is `ZeroDivisionError` |
| NxsWrite.RotationRange | src/nexgen/nxs_write/__init__.py:207-222 | a rotation yields one axis; a per-axis tuple count is a `TypeError`; with an increment it fails exactly when the increment is zero, and a positive increment gives `round(abs(start - end) / inc)` image starts, rounding half to even |
| NxsWrite.LinearRange | src/nexgen/nxs_write/__init__.py:224-235 | a translation yields one axis; a one-element tuple is unwrapped and a longer one fails; a count gives the line of that many points from start to end, and a positive increment gives `round(abs(start - end) / inc) + 1` points |
| NxsWrite.GridRange | src/nexgen/nxs_write/__init__.py:237-263 | a single count is a `TypeError`, a one-element tuple is `ValueError`; otherwise the first axis comes first and two distinct axes get equally many points |
| NxsWrite.CalculateScanRange | src/nexgen/nxs_write/__init__.py:190-205 | non-list axes are `TypeError`; no axes, or both or neither of increments and counts, are `ValueError`; a result is keyed first by the first axis |
| NxsWrite.ImageWidth | src/nexgen/nxs_write/__init__.py:218-219 | shortening the end by one image width leaves `n - 1` widths between start and the new end |
| NxsWrite.RotationRangeCoversImages | src/nexgen/nxs_write/__init__.py:207-222 | a rotation by count, or by an increment that divides the range, gives `n` image starts from `start`, one width apart, the last image ending at `end` |
| NxsWrite.RotationStopByCount | src/nexgen/nxs_write/__init__.py:217-221 | by count, the line stops one image width before the end |
| NxsWrite.RotationStopByIncrement | src/nexgen/nxs_write/__init__.py:208-216 | by an increment that divides the range, the line stops one increment before the end, in either direction |
| NxsWrite.LineSteps | src/nexgen/nxs_write/__init__.py:221 | a line of `n` points whose spacing is the width steps by exactly that width |
| NxsWrite.IncrementIsWidth | src/nexgen/nxs_write/__init__.py:209-216 | an increment dividing the range into `n` parts rounds to `n` images and is one image width, signed towards the end |
| NxsWrite.RotationRangeExample | src/nexgen/nxs_write/__init__.py:207-222 | omega from 0 to 2 by 0.5 gives the image starts 0, 0.5, 1 and 1.5 |
| NxsWrite.LinearRangeReachesEnd | src/nexgen/nxs_write/__init__.py:224-235 | an increment dividing a translation's range gives one point per increment from start to end inclusive |
| NxsWrite.GridRangeSize | src/nexgen/nxs_write/__init__.py:237-265 | a per-axis tuple `(n0, n1)` gives both axes, in order, `n0 n1` points each |
| NxsWrite.AxisThrough | src/nexgen/nxs_utils/axes.py:68-71 | an axis of `n` steps can be chosen to start and end anywhere |
| NxsWrite.GridRangeMatchesScanPoints | src/nexgen/nxs_write/__init__.py:237-265 | the list-based grid and `calculate_scan_points` give the same positions for the same two translation axes |
| Goniometer.FindAxis | src/nexgen/nxs_utils/goniometer.py:62-67 | the index of the first axis with that name, and `None` exactly when no axis has it |
| Goniometer.AxisIndex | src/nexgen/nxs_utils/goniometer.py:49-50 | indexing `axes_list` with the lookup succeeds exactly when the axis exists; a missing axis indexes with `None`, a `TypeError` |
| Goniometer.FindAxisByName | src/nexgen/nxs_utils/goniometer.py:62-67 | the lookup depends on the names alone, so updating positions never moves an axis |
| Goniometer.Unique | src/nexgen/nxs_utils/goniometer.py:69-78 | each scan value exactly once, no value missing, the first one first |
| Goniometer.FirstIndex | src/nexgen/nxs_utils/goniometer.py:75-77 | the position where a value is first seen in the scan |
| Goniometer.UniqueInFirstVisitOrder | src/nexgen/nxs_utils/goniometer.py:69-78 | the distinct values come in the order they are first collected, not sorted, so a reverse scan stays reversed |
| Goniometer.UpdateAxisFromScanAsWritten | src/nexgen/nxs_utils/goniometer.py:50-60 | as written: an empty scan is `IndexError`; the axis keeps its name, type and vector, starts at the scan's first value, counts its distinct values, takes the rounded first step as increment when there are several, and keeps its old increment when only one position is visited |
| Goniometer.StillScanKeepsMovingAsWritten | src/nexgen/nxs_utils/goniometer.py:55-57 | as written, a moving axis whose scan stays at one position keeps its old increment and still counts as a scan axis |
| Goniometer.UniqueOfConstant | src/nexgen/nxs_utils/goniometer.py:69-78 | a scan that stays at one position has that single distinct value |
| Goniometer.UpdateAxisFromScan | src/nexgen/nxs_utils/goniometer.py:50-60 | the intended update: an empty scan is `IndexError`; otherwise the axis keeps its identity and follows the scan (start at the first value, increment the rounded first step, one step per distinct value, still when one position is visited) |
| Goniometer.StillScanStopsAxis | src/nexgen/nxs_utils/goniometer.py:55-57 | after the intended update an axis whose scan stays at one position is not a scan axis and ends where it starts |
| Goniometer.UpdateAxisFromScanIdempotent | src/nexgen/nxs_utils/goniometer.py:50-60 | updating from the same scan twice changes nothing more |
| Goniometer.UpdateAxisWith | src/nexgen/nxs_utils/goniometer.py:50-60 | either update, as written or corrected: an empty scan is `IndexError`, otherwise the axis keeps its identity and follows the scan by that rule |
| Goniometer.CheckAndUpdate | src/nexgen/nxs_utils/goniometer.py:46-60 | by either rule: succeeds exactly when every scan key names an axis with a non-empty scan (otherwise `TypeError`, `KeyError` or `IndexError`); keeps the number of axes and each axis's identity |
| Goniometer.CheckAndUpdateFollowsScan | src/nexgen/nxs_utils/goniometer.py:46-60 | after the update, as written or corrected, every scanned axis follows its scan by that rule (as written, a still scan keeps the old increment) and every axis no key names is unchanged |
| Goniometer.CheckAndUpdateStep | src/nexgen/nxs_utils/goniometer.py:48-60 | one key brings its axis in line with its scan by the rule in use, leaves the other axes as they were and leaves the lookup unchanged |
| Goniometer.StepScanned | src/nexgen/nxs_utils/goniometer.py:48-60 | after one key and the rest, every key's axis follows its scan by the rule in use |
| Goniometer.StepUntouched | src/nexgen/nxs_utils/goniometer.py:48-60 | after one key and the rest, an axis no key names is as it was |
| Goniometer.UntouchedLater | src/nexgen/nxs_utils/goniometer.py:48-49 | an axis no key names is not named by the later keys either, once the lookup is unchanged |
| Goniometer.MakeGonio | src/nexgen/nxs_utils/goniometer.py:28-36 | without a scan the axes are stored as given; with one, construction, as written or corrected, succeeds exactly when every scan key can be applied, and then every scanned axis follows its scan by that rule |
| Goniometer.StillScanConstructorAsWritten | src/nexgen/nxs_utils/goniometer.py:28-60 | a moving axis built with a scan that stays at one position is still a scan axis with its old increment as written, and stops once corrected |
| Goniometer.UpdateIf | src/nexgen/nxs_utils/goniometer.py:106-107 | without `update` the axes are left alone; with it the update succeeds exactly when every scan key can be applied, and every scanned axis then follows its scan |
| Goniometer.FromStoredScan | src/nexgen/nxs_utils/goniometer.py:87-109 | a stored scan gives one oscillation axis with a position per grid point; it is returned as the oscillation scan exactly when there is no grid part; with `update` every scanned axis follows its scan |
| Goniometer.TranslationAxes | src/nexgen/nxs_utils/goniometer.py:114-118 | the grid options' axis order when given, otherwise the moving translation axes |
| Goniometer.Turn | src/nexgen/nxs_utils/goniometer.py:121-124 | the scan direction multiplies one axis's increment by its sign and leaves everything else alone; the positive direction changes nothing |
| Goniometer.GridPart | src/nexgen/nxs_utils/goniometer.py:128-140 | building the grid keeps the axis names |
| Goniometer.FromAxes | src/nexgen/nxs_utils/goniometer.py:111-147 | a scan built from the axes keeps the axis names and has one oscillation position per grid point |
| Goniometer.DefineScanWith | src/nexgen/nxs_utils/goniometer.py:80-147 | every scan definition that succeeds, as written or corrected, keeps oscillation and grid lengths in step; without a stored scan the axis names are kept; with one and `update` every scanned axis follows its scan |
| Goniometer.DefineScanFromGoniometerAxesAsWritten | src/nexgen/nxs_utils/goniometer.py:80-147 | as written: lengths in step; with a stored scan and no update it agrees with the intended definition; with an update every scanned axis follows its scan as written |
| Goniometer.DefineScanFromGoniometerAxes | src/nexgen/nxs_utils/goniometer.py:80-147 | the intended definition: lengths in step, axis names kept, a stored scan returned whole as the oscillation scan exactly when it has no grid part, and every scanned axis following its scan after an update |
| Goniometer.FindOwnAxis | src/nexgen/nxs_utils/goniometer.py:62-67 | with distinct names, looking an axis up by its own name finds it |
| Goniometer.SoleRotationFound | src/nexgen/nxs_utils/goniometer.py:111-112 | a single rotation axis is the oscillation axis and is found by its name |
| Goniometer.StoredRotationScanKept | src/nexgen/nxs_utils/goniometer.py:87-94 | a stored rotation scan is returned as the oscillation scan, with no grid |
| Goniometer.StoredGridScanOscillation | src/nexgen/nxs_utils/goniometer.py:96-104 | a stored grid is returned as the grid, and the oscillation axis gets one position per grid point, all at its start when it does not move |
| Goniometer.GridSize | src/nexgen/nxs_utils/goniometer.py:136-142 | a ready grid has at least one point |
| Goniometer.GridScanOscillation | src/nexgen/nxs_utils/goniometer.py:128-147 | with the intended oscillation axis a two-axis grid gives both axes one position per grid point and the oscillation axis as many |
| Goniometer.ReadyGridPart | src/nexgen/nxs_utils/goniometer.py:128-140 | two ready translation axes are left as they are and both get one position per grid point |
| Goniometer.GridScanFirstAxisTranslationAsWritten | src/nexgen/nxs_utils/goniometer.py:143-145 | as written, a grid whose first listed axis is a translation fails with `ScanAxisError`, while the intended definition succeeds |
| Goniometer.RotationOnlyScan | src/nexgen/nxs_utils/goniometer.py:120-126 | with no moving translation axis the scan is the rotation alone, one point per step from the start, the last point turned by the scan direction |
| Goniometer.RotationOnlyFromAxes | src/nexgen/nxs_utils/goniometer.py:110-126 | under either reading of the grid branch, a lone rotation axis with no translation axis gives no grid and its own `num_steps` points from its start to `start_pos + sign * increment * (num_steps - 1)` |
| Goniometer.DefineScanAxesForEventMode | src/nexgen/nxs_utils/goniometer.py:155-173 | a stored rotation scan is returned whole; a stored grid gives a still omega and the grid; otherwise the oscillation axis runs from its start to the given non-zero end position |
| Goniometer.EventRangeSpansRotationScan | src/nexgen/nxs_utils/goniometer.py:165-173 | without an end position the event-mode range of a plain rotation is the first and last position of its image-mode scan |
| Goniometer.NumberOfScanPoints | src/nexgen/nxs_utils/goniometer.py:175-185 | as written or corrected: the length of the stored scan's first axis, an empty stored scan failing; with no stored scan it counts the scan the axes define by that rule, and fails exactly when defining it does |
| Goniometer.GridNumberOfScanPoints | src/nexgen/nxs_utils/goniometer.py:175-185 | corrected: a goniometer with a two-axis grid and no stored scan counts one point per grid point |
| Goniometer.GridNumberOfScanPointsAsWritten | src/nexgen/nxs_utils/goniometer.py:175-185 | as written, the same goniometer with a translation listed first fails with `ScanAxisError` |
| SsxChip.Column | src/nexgen/beamlines/SSX_chip.py:86-91 | a column of the loop visits each of its `y_blocks` rows once |
| SsxChip.ColumnsFromClosedForm | src/nexgen/beamlines/SSX_chip.py:85-91 | the nested loops from column `x` on visit `(nx - x) ny` blocks, the `k`-th being block `x ny + k` of the snake |
| SsxChip.SnakeCoordsClosedForm | src/nexgen/beamlines/SSX_chip.py:83-91 | the visiting order has one entry per block and its `k`-th entry is column `k / ny`, going up on even columns and down on odd ones |
| SsxChip.SnakeCoordInGrid | src/nexgen/beamlines/SSX_chip.py:85-91 | every visited position lies in the block grid |
| SsxChip.SnakeCoordInjective | src/nexgen/beamlines/SSX_chip.py:85-91 | no block is visited twice |
| SsxChip.SnakeIndexInverts | src/nexgen/beamlines/SSX_chip.py:85-91 | every block of the grid is visited, at the position `SnakeIndex` gives |
| SsxChip.SnakeCoordBijective | src/nexgen/beamlines/SSX_chip.py:85-91 | the visiting order is a bijection from `0 .. nx ny - 1` onto the block grid |
| SsxChip.BlockKeyRoundTrip | src/nexgen/beamlines/SSX_chip.py:93 | the two-digit key of a block number reads back as that number |
| SsxChip.BlockKeysDistinct | src/nexgen/beamlines/SSX_chip.py:93 | different block numbers get different keys |
| SsxChip.TablePairsClosedForm | src/nexgen/beamlines/SSX_chip.py:92-93 | `zip` pairs the key of `k + 1` with the `k`-th visited block, for every block |
| SsxChip.ConversionTableSnake | src/nexgen/beamlines/SSX_chip.py:74-94 | the table has one entry per block; entry `k` is key `k + 1` padded to two digits with the `k`-th block of the snake |
| SsxChip.ConversionTableIsSnake | src/nexgen/beamlines/SSX_chip.py:74-94 | the table is laid out along the snake, numbered from 1 |
| SsxChip.ConversionTableBijective | src/nexgen/beamlines/SSX_chip.py:74-94 | the table is a bijection between block keys and the block grid: every value is in the grid, no block or key appears twice, and every block appears |
| SsxChip.SnakeTableBijective | src/nexgen/beamlines/SSX_chip.py:74-94 | any table laid out along the snake is such a bijection |
| SsxChip.SnakeTableInGrid | src/nexgen/beamlines/SSX_chip.py:85-91 | a snake table's blocks lie in the grid |
| SsxChip.SnakeTableInjective | src/nexgen/beamlines/SSX_chip.py:85-91 | a snake table names no block twice |
| SsxChip.SnakeTableKeysDistinct | src/nexgen/beamlines/SSX_chip.py:92-93 | a snake table has no repeated key |
| SsxChip.SnakeTableOnto | src/nexgen/beamlines/SSX_chip.py:85-91 | a snake table names every block of the grid |
| SsxChip.SnakeTableAt | src/nexgen/beamlines/SSX_chip.py:85-93 | block `(x, y)` sits in the table at its snake position |
| SsxChip.ConversionTableTwoByTwo | src/nexgen/beamlines/SSX_chip.py:74-94 | a 2 x 2 chip numbers its blocks "01" to "04" at (0,0), (0,1), (1,1) and (1,0) |
| SsxChip.TwoByTwoEntries | src/nexgen/beamlines/SSX_chip.py:85-93 | the keys and visited blocks of a 2 x 2 chip, one by one |
| SsxChip.DecodeBlockInvertsSnake | src/nexgen/beamlines/SSX_chip.py:117-124 | with the column length the numbering uses, decoding block `b` gives the `(b - 1)`-th visited block |
| SsxChip.BlockPairs | src/nexgen/beamlines/SSX_chip.py:117-126 | one entry per block number of the map |
| SsxChip.ReadChipMapWith | src/nexgen/beamlines/SSX_chip.py:110-127 | no map, or a map listing as many blocks as the chip has, means the full chip; a zero column length fails the decoding with `ZeroDivisionError` exactly when there is a block to decode |
| SsxChip.ReadChipMapAsWritten | src/nexgen/beamlines/SSX_chip.py:110-127 | as written, decoding with `x_blocks` blocks to a column; the full-chip rule is the same |
| SsxChip.ReadChipMap | src/nexgen/beamlines/SSX_chip.py:110-127 | decoding with the `y_blocks` blocks of one column; full chip exactly for no map or a full-length map, and a failure only for a zero column length |
| SsxChip.ReadChipMapBy | src/nexgen/beamlines/SSX_chip.py:110-127 | by the rule in use, as written (`x_blocks` to a column) or corrected (`y_blocks`): full chip exactly for no map or a full-length map, and `ZeroDivisionError` exactly for a partial map with a zero column length under that rule |
| SsxChip.BlockPairsDistinct | src/nexgen/beamlines/SSX_chip.py:115-126 | distinct block numbers give distinct keys, so no entry of the dict is overwritten |
| SsxChip.ReadChipMapBlocks | src/nexgen/beamlines/SSX_chip.py:115-127 | a partial map gives the dict of its blocks' entries |
| SsxChip.ReadChipMapMatchesTable | src/nexgen/beamlines/SSX_chip.py:97-127 | reading a partial map places each block exactly where the conversion table places that key, on every chip |
| SsxChip.ConversionTableLength | src/nexgen/beamlines/SSX_chip.py:92-94 | the table has one entry per block |
| SsxChip.ReadChipMapIsPairs | src/nexgen/beamlines/SSX_chip.py:115-127 | a map of distinct blocks reads as the entries of its blocks, in map order |
| SsxChip.BlockPairMatchesTable | src/nexgen/beamlines/SSX_chip.py:117-126 | the entry decoded for block `b` is the table's `b`-th entry |
| SsxChip.BlockKeyExamples | src/nexgen/beamlines/SSX_chip.py:116 | blocks 1, 3 and 4 are keyed "01", "03" and "04" |
| SsxChip.DecodeExamples | src/nexgen/beamlines/SSX_chip.py:117-124 | block 4 of a 2 x 2 chip is (1,0), block 3 is (1,1), and block 3 of a three-row chip is (0,2) |
| SsxChip.ReadChipMapExample | src/nexgen/beamlines/SSX_chip.py:97-127 | blocks 1 and 4 of a 2 x 2 chip read as "01" at (0,0) and "04" at (1,0) |
| SsxChip.ReadChipMapAsWrittenMisplacesBlock | src/nexgen/beamlines/SSX_chip.py:118-124 | on a 2 x 3 chip the table puts block 3 at the top of the first column, the code as written at (1,1), the corrected decoding at (0,2) |
| SsxChip.MatchIntoAbsent | src/nexgen/beamlines/SSX_chip.py:134-136 | a table entry whose block is not scanned adds nothing |
| SsxChip.MatchIntoDistinct | src/nexgen/beamlines/SSX_chip.py:134-136 | the inner loop assigns the scanned block's value to the table key, or nothing when it is not scanned |
| SsxChip.ConvertIntoRenames | src/nexgen/beamlines/SSX_chip.py:133-136 | the outer loop appends, in table order, each scanned block under its table key |
| SsxChip.ConvertIntoUnfold | src/nexgen/beamlines/SSX_chip.py:133-136 | one table entry of the loop against the reference renaming |
| SsxChip.ConvertIntoStep | src/nexgen/beamlines/SSX_chip.py:133-136 | one step appends the first scanned block and keeps the keys fresh for the rest |
| SsxChip.BlocksConversionRenames | src/nexgen/beamlines/SSX_chip.py:130-137 | `fullchip_blocks_conversion` re-keys the scanned blocks by table number, in table order, keeping their values |
| SsxChip.StartOf | src/nexgen/beamlines/SSX_chip.py:201-214 | the fast axis starts at the block's column offset, rounded to three places; the scan runs upwards exactly on even columns |
| SsxChip.StartPairs | src/nexgen/beamlines/SSX_chip.py:201-214 | one start per listed block |
| SsxChip.ComputeGoniometerFullSnake | src/nexgen/beamlines/SSX_chip.py:178-199 | a full chip gives one start per block, keyed by the table's blocks in snake order, upwards exactly on even columns |
| SsxChip.ComputeGoniometerBlocksStarts | src/nexgen/beamlines/SSX_chip.py:200-216 | listed blocks keep their keys and order, and each starts where its coordinates place it |
| SsxChip.ChipMapStartsMatchFullChip | src/nexgen/beamlines/SSX_chip.py:140-216 | the start of each block of a chip map is the start the full chip gives the same block |
| SsxChip.TableEntriesStarts | src/nexgen/beamlines/SSX_chip.py:178-216 | table entries start where the full chip starts the same blocks |
| SsxChip.FullChipStartsRenamed | src/nexgen/beamlines/SSX_chip.py:130-137 | converting a full chip's starts renames every block to its table key and keeps the starts in order |
| SsxChip.RenamedInOrder | src/nexgen/beamlines/SSX_chip.py:133-136 | renaming entries that line up with the table keeps every value in place |
| SsxChip.RenamedAll | src/nexgen/beamlines/SSX_chip.py:133-136 | when the table names a scanned block at every position the renaming is total |
| SsxChip.BlockFourStart | src/nexgen/beamlines/SSX_chip.py:190-199 | on the default 2 x 2 chip block (1,0) starts at 2.375 on the slow axis and 3.175 on the fast one, and runs downwards |
| SsxExpt.Field | src/nexgen/beamlines/SSX_expt.py:125-133 | `chip_info[key][1]`: a missing key is `KeyError`, an entry shorter than two is `IndexError`, otherwise the second element |
| Text.Trunc | src/nexgen/beamlines/SSX_expt.py:183 | `int()` of a float rounds toward zero |
| SsxExpt.IntOf | src/nexgen/beamlines/SSX_expt.py:183 | `int(v)` keeps an int, truncates a float, reads a string of digits, and is `ValueError` on anything else |
| SsxExpt.IntOfDecimalString | src/nexgen/beamlines/SSX_expt.py:183 | the written form of a count reads back as that count |
| SsxExpt.AsInt | src/nexgen/beamlines/SSX_chip.py:48-50 | an integer chip field accepts an int, a float without fractional part, or a string of digits, and refuses the rest with `ValueError` |
| SsxExpt.AsReal | src/nexgen/beamlines/SSX_chip.py:49-53 | a float chip field accepts an int, a float, or a string of digits |
| SsxExpt.ChipOf | src/nexgen/beamlines/SSX_expt.py:122-134 | the chip is built only when every chip key is present with a value, and is named "fastchip" |
| SsxExpt.ChipKeysDistinct | src/nexgen/beamlines/SSX_chip.py:15-29 | the chip dictionary keys are distinct |
| SsxExpt.InfoOfDistinct | src/nexgen/beamlines/SSX_chip.py:15-29 | the dictionary written for a chip has the chip keys, once each, in order |
| SsxExpt.InfoOfFields | src/nexgen/beamlines/SSX_expt.py:125-133 | each chip field of that dictionary is the value stored under its key |
| SsxExpt.ChipOfInfoOf | src/nexgen/beamlines/SSX_expt.py:122-134 | reading back the dictionary written for a chip gives that chip |
| SsxExpt.InfoOfFieldValues | src/nexgen/beamlines/SSX_expt.py:125-133 | each field of the written dictionary holds the chip's own value |
| SsxExpt.ChipOfFields | src/nexgen/beamlines/SSX_expt.py:122-134 | any dictionary whose fields hold a chip's values gives that chip |
| SsxExpt.ChipOfNeedsEveryKey | src/nexgen/beamlines/SSX_expt.py:122-134 | a chip dictionary missing any chip key is refused |
| SsxExpt.ModelDump | src/nexgen/beamlines/SSX_expt.py:70 | the pump information holds the four pump fields in declaration order |
| SsxExpt.StopRotations | src/nexgen/beamlines/SSX_expt.py:53-56 | every rotation axis stops moving and nothing else changes |
| SsxExpt.StopRotationsIdempotent | src/nexgen/beamlines/SSX_expt.py:53-56 | stopping the rotations twice is stopping them once |
| SsxExpt.RunExtruder | src/nexgen/beamlines/SSX_expt.py:52-74 | an oscillation axis that is missing is `IndexError`; the axes keep their number |
| SsxExpt.StillRotationScan | src/nexgen/beamlines/SSX_expt.py:60-68 | a rotation that does not move, given `n` steps, scans as its start repeated `n` times |
| SsxExpt.PumpInfoWithoutRepeat | src/nexgen/beamlines/SSX_expt.py:70-72 | popping `pump_repeat` leaves the first three pump fields |
| SsxExpt.ExtruderHoldsStill | src/nexgen/beamlines/SSX_expt.py:52-74 | an extruder run scans its rotation axis as the start repeated once per image, stops every rotation, gives the axis `num_imgs` steps, and drops `pump_repeat`; a translation as oscillation axis is refused |
| SsxExpt.MatchCount | src/nexgen/beamlines/SSX_expt.py:107 | at most one match per goniometer axis |
| SsxExpt.MatchCountAtLeastOne | src/nexgen/beamlines/SSX_expt.py:107 | a goniometer axis named among the scan axes is counted |
| SsxExpt.MatchCountOfTwo | src/nexgen/beamlines/SSX_expt.py:107-112 | two different axes named among the scan axes pass the check |
| SsxExpt.BlockGrid | src/nexgen/beamlines/SSX_expt.py:157-178 | a block's grid gives both axes equally many points |
| SsxExpt.RoundAll | src/nexgen/beamlines/SSX_expt.py:179-180 | `np.round(values, 3)` rounds each point, keeping their number |
| SsxExpt.Grids | src/nexgen/beamlines/SSX_expt.py:162-180 | the reference scan gives both axes equally many points |
| SsxExpt.BlockScanIsGrid | src/nexgen/beamlines/SSX_expt.py:157-178 | one block scans as the snaked grid of its two temporary axes, slow axis first |
| SsxExpt.ExtendBoth | src/nexgen/beamlines/SSX_expt.py:179-180 | one pass appends the block's rounded points to both axes |
| SsxExpt.ScanBlocksConcatenates | src/nexgen/beamlines/SSX_expt.py:162-180 | the scan is every block's rounded grid appended in block order |
| SsxExpt.BlockGridSize | src/nexgen/beamlines/SSX_expt.py:163-178 | a block's grid has one point per window |
| SsxExpt.GridsLength | src/nexgen/beamlines/SSX_expt.py:162-180 | every scanned block contributes one point per window |
| SsxExpt.RepeatEachClosedForm | src/nexgen/beamlines/SSX_expt.py:184-186 | repeating each point `N` times makes point `i` the input's point `i / N` |
| SsxExpt.RepeatEachAt | src/nexgen/beamlines/SSX_expt.py:186 | one point of the repetition, from the rest of it |
| SsxExpt.RepeatAll | src/nexgen/beamlines/SSX_expt.py:186 | the dict comprehension keeps the axes, in order |
| SsxExpt.RunFixedTarget | src/nexgen/beamlines/SSX_expt.py:107-192 | with the chip map read as written or by the corrected rule: a scan axis missing from the goniometer, or an empty chip dictionary, is `ValueError`; on success the chip was read, the rotations are stopped, and the pump information gains `n_exposures` |
| SsxExpt.FixedTargetOk | src/nexgen/beamlines/SSX_expt.py:107-192 | the successful run, step by step, for the blocks the chip map decodes to under the rule in use |
| SsxExpt.RepeatEachOnce | src/nexgen/beamlines/SSX_expt.py:184-186 | a single exposure repeats nothing |
| SsxExpt.FullChipBlockCount | src/nexgen/beamlines/SSX_expt.py:149-152 | a full chip scans every block |
| SsxExpt.ChipMapBlockCount | src/nexgen/beamlines/SSX_expt.py:153-155 | a partial map of distinct blocks scans exactly those blocks |
| SsxExpt.FixedTargetScan | src/nexgen/beamlines/SSX_expt.py:107-192 | under either chip-map rule, each axis's scan is the blocks' rounded grids in block order, each point repeated `N` times when `N > 1`, and the pump information gains `n_exposures = N` |
| SsxExpt.PutSecond | src/nexgen/beamlines/SSX_expt.py:162 | the scan starts with both axes empty, slow first |
| SsxExpt.DumpLacks | src/nexgen/beamlines/SSX_expt.py:189-190 | the dumped pump fields hold neither `n_exposures` nor `repeat`, so both are appended |
| SsxExpt.RepeatPair | src/nexgen/beamlines/SSX_expt.py:186 | repeating a two-axis scan repeats each axis |
| SsxExpt.FixedTargetScanLength | src/nexgen/beamlines/SSX_expt.py:162-186 | both axes get one point per window of every scanned block, times the exposure count when it is above 1 |
| SsxExpt.FixedTargetExampleCounts | src/nexgen/beamlines/SSX_expt.py:137-186 | on a 2 x 2 chip of 20 x 20 windows one block scans 400 points and four blocks 1600, doubled with two exposures, under either chip-map rule |
| SsxExpt.FixedTargetAsWrittenMisplacesBlock | src/nexgen/beamlines/SSX_expt.py:137-162 | on a 2 x 3 chip the map `[3]` makes the run scan, as written, the block decoded at (1,1), and by the corrected rule the block at (0,2), where the conversion table puts block 3 |
| SsxExpt.Run3DGridScan | src/nexgen/beamlines/SSX_expt.py:219-224 | no scans are returned, and a missing exposure count or pump repeat fails |
| SsxExpt.GridRunPumpInfo | src/nexgen/beamlines/SSX_expt.py:219-224 | the pump information gains `repeat` and then `n_exposures`, after the four pump fields |
| SsxExpt.SameExposureCount | src/nexgen/beamlines/SSX_expt.py:183-190 | the 3D grid scan and the fixed-target run on the same chip dictionary record the same exposure count |
| SsxEiger.VdsDtypeFromBitDepth | src/nexgen/beamlines/SSX_Eiger_nxs.py:59-66 | 32 bits exactly give `uint32`, 8 bits exactly give `uint8`, every other depth gives `uint16` |
| SsxEiger.DtypeFromOwnBits | src/nexgen/beamlines/SSX_Eiger_nxs.py:59-66 | each data type is chosen by its own bit depth |
| SsxEiger.PumpProbeWith | src/nexgen/beamlines/SSX_Eiger_nxs.py:228-243 | without pump the default settings; with pump the exposure and delay given, pump repeat 0 unless a fixed target reads it from the chip dictionary, which is a `TypeError` when there is none; a fixed target succeeds exactly when `int(chip_info["PUMP_REPEAT"][1])` does, and records that as the pump repeat |
| SsxEiger.PumpDelayFromExposure | src/nexgen/beamlines/SSX_Eiger_nxs.py:233-238 | as written the recorded delay is always the pump exposure, so it differs from the delay passed whenever the two differ; read from its own key it is the delay passed |
| SsxEiger.RunExperiment | src/nexgen/beamlines/SSX_Eiger_nxs.py:310-343 | under either chip-map rule, an experiment type the `match` does not take leaves the scan unbound (`NameError`); an extruder keeps the image count; a fixed target resets it to the length of its `sam_x` scan |
| SsxEiger.WriterWith | src/nexgen/beamlines/SSX_Eiger_nxs.py:150-343 | with `asWritten` also selecting the chip-map rule of the run: an unknown beamline and, after it, an unknown experiment type are refused; the oscillation axis is the one given (default phi) on I19-2 and omega elsewhere; the VDS data type follows the bit depth, 32 by default; `det_z` must exist |
| SsxEiger.EmptyChipmapIsFullChip | src/nexgen/beamlines/SSX_Eiger_nxs.py:185-187 | an empty chip map is treated as no map, that is the full chip |
| SsxEiger.WriterImageCount | src/nexgen/beamlines/SSX_Eiger_nxs.py:310-342 | the image count is the one passed for an extruder and the scan length for a fixed target |
| SsxEiger.ExperimentTypeCaseInsensitive | src/nexgen/beamlines/SSX_Eiger_nxs.py:189-192 | with the experiment type compared in lower case throughout, its case makes no difference |
| SsxEiger.SameLowerSameWriter | src/nexgen/beamlines/SSX_Eiger_nxs.py:189-192 | two spellings of one experiment type do the same thing |
| SsxEiger.MixedCaseTypeFailsAsWritten | src/nexgen/beamlines/SSX_Eiger_nxs.py:189-192 | as written, a type that passes the lower-case check but is not lower case itself reaches no `match` case and fails with `NameError` |
| SsxEiger.CapitalisedExtruderFailsAsWritten | src/nexgen/beamlines/SSX_Eiger_nxs.py:313-346 | as written, "Extruder" on I24 fails with `NameError` |
| Paths.RFind | src/nexgen/tools/mrc_tools.py:172-174 | `str.rfind`: the index of the last occurrence, or -1 when there is none |
| Paths.RFindIsLast | src/nexgen/tools/mrc_tools.py:172-174 | a position holding the character with none after it is what `rfind` returns |
| Paths.Suffix | src/nexgen/utils.py:91-101 | pathlib's suffix: from the last dot on, or empty when the name has no proper extension |
| Paths.StemSuffixSplit | src/nexgen/utils.py:91-101 | the stem and the suffix split the name without loss |
| Paths.Posix | src/nexgen/utils.py:107 | `as_posix()` ends with the file name, and is the bare name exactly when the directory is `.` |
| Paths.ParsePosix | src/nexgen/nxs_write/nxmx_writer.py:103 | `Path(s)` names the part after the last slash |
| Paths.ParsePosixInverts | src/nexgen/nxs_write/nxmx_writer.py:103 | `Path(p.as_posix())` is `p` again |
| Paths.StemOfJoin | src/nexgen/utils.py:91-101 | `base.ext` has stem `base` and suffix `.ext` |
| Utils.FilenameTemplateAsWritten | src/nexgen/utils.py:91-107 | as written: a name that is neither `.nxs` nor `.h5` is `NameError`; `<stem>.nxs` gives `<stem>_%06d.h5` beside it |
| Utils.TemplateAsWrittenKeepsPath | src/nexgen/utils.py:96-101 | as written, an `.h5` file whose directory mentions "master" but whose stem does not gets back its own path, with nothing to number the data files by |
| Utils.MasterDirectoryMetaFile | src/nexgen/utils.py:96-101 | `/dls/master/run_meta.h5` is such a file |
| Utils.RunMetaName | src/nexgen/utils.py:91-101 | `run_meta.h5` has suffix `.h5` and stem `run_meta` |
| Utils.RunMetaPath | src/nexgen/utils.py:96 | the path of `/dls/master/run_meta.h5` mentions "master" |
| Utils.NoMasterInRunMeta | src/nexgen/utils.py:97 | the stem `run_meta` does not mention "master" |
| Utils.FilenameTemplate | src/nexgen/utils.py:91-107 | the corrected rule: a template exactly for a `.nxs` file or an `.h5` file whose stem mentions "master" or "meta"; `NameError` otherwise |
| Utils.FilenameTemplateHasPlaceholder | src/nexgen/utils.py:91-107 | every template the corrected rule returns holds a `%06d` to number the data files with |
| Utils.PlaceholderSurvivesPath | src/nexgen/utils.py:98-107 | joining a name with its directory keeps the placeholder |
| Utils.NexusFilename | src/nexgen/utils.py:110-132 | the NeXus file sits beside its input, ends in `.nxs`, and is named after the root of the input's stem, with `_copy` for a copy |
| Utils.RootOfTaggedStem | src/nexgen/utils.py:43 | stripping a `_meta`, `_master` or `_<digits>` tag inverts appending it |
| Utils.NatToStringDigits | src/nexgen/utils.py:43 | `str(n)` is made of decimal digits |
| Utils.ZeroPadIsRunTag | src/nexgen/utils.py:43 | a zero-padded file number is a tag, so it is stripped again when a data file's NeXus name is derived |
| Utils.UntaggedStemKept | src/nexgen/utils.py:122-126 | a stem without underscore is kept whole |
| Utils.Imgcif2Mcstas | src/nexgen/utils.py:273-285 | the imgCIF frame becomes McStas by reversing x and z and keeping y |
| Utils.Coord2Mcstas | src/nexgen/utils.py:288-299 | the identity matrix leaves a vector as it is, and each unit vector is sent to the matching column of the matrix |
| Utils.Coord2McstasLinear | src/nexgen/utils.py:288-299 | the conversion is linear: it maps a combination of two vectors to the same combination of their images |
| Utils.Imgcif2McstasIsMatrixProduct | src/nexgen/utils.py:273-299 | the imgCIF conversion is the general conversion with the matrix `diag(-1, 1, -1)` |
| Utils.Imgcif2McstasInvolution | src/nexgen/utils.py:273-285 | converting twice returns the original vector |
| Utils.FindInDict | src/nexgen/utils.py:54-57 | true exactly when some entry has the key |
| Utils.IsoTimestamp | src/nexgen/utils.py:243-270 | `None` stays `None`; anything but a float or a string is `ValueError`; a string fails exactly when no format validates it; every timestamp returned ends in "Z" |
| Utils.WithZulu | src/nexgen/utils.py:268-269 | the result always ends in "Z" |
| WriteUtils.SetDependency | src/nexgen/nxs_write/write_utils.py:38-56 | "." ends the dependency chain whatever the path; with no path (or an empty one) the value is the transformation name; otherwise it is the path, one "/" when the path lacks it, then the name |
| WriteUtils.TrailingSlashIrrelevant | src/nexgen/nxs_write/write_utils.py:51-54 | giving the path with or without its trailing "/" yields the same `depends_on` value |
| WriteUtils.DependencySplits | src/nexgen/nxs_write/write_utils.py:51-54 | the value splits back into the slash-terminated path and the transformation name |
| WriteUtils.DependencyExamples | src/nexgen/nxs_write/write_utils.py:49-56 | "." under a transformations path stays "."; "sam_z" under "/entry" becomes "/entry/sam_z" |
| WriteUtils.CalculateOrigin | src/nexgen/nxs_write/write_utils.py:88-99 | mode "1" gives a module offset of 1.0; any other mode gives the length of the origin's first two components |
| WriteUtils.OriginProjectsToBeamCentre | src/nexgen/nxs_write/write_utils.py:88-94 | for orthonormal fast and slow axes the detector origin, projected on each axis, is minus the beam centre times the pixel size along that axis |
| WriteUtils.FindNumberOfImages | src/nexgen/nxs_write/write_utils.py:102-117 | fails with `KeyError` exactly when some file has no dataset under the key; otherwise returns the sum of the first dimensions over all files |
| WriteUtils.FramesMissing | src/nexgen/nxs_write/write_utils.py:114-116 | one file lacking the dataset leaves the whole count undefined |
| WriteUtils.FramesAppend | src/nexgen/nxs_write/write_utils.py:113-117 | the image count of two lists of files put together is the sum of their counts |
| WriteUtils.NoFilesNoImages | src/nexgen/nxs_write/write_utils.py:113 | an empty list of files counts zero images |
| WriteUtils.CompressedCopy | src/nexgen/nxs_write/write_utils.py:170-198 | data and a file name together raise `ValueError`; a dataset is written exactly when that does not happen, a non-empty file name comes with a dataset key, and the filter in lower case is blosc or bitshuffle; bitshuffle's block size defaults to 0; a file's data is read from the given key |
| WriteUtils.CompressedCopyIgnoresCase | src/nexgen/nxs_write/write_utils.py:170-198 | the filter is chosen without regard to case: the lower-case choice gives the same outcome |
| Source.DefaultSource | src/nexgen/nxs_utils/source.py:20-38 | without a facility the source is Diamond Light Source (DLS), a "Synchrotron X-ray Source", with no facility id and no probe |
| Source.FacilityId | src/nexgen/nxs_utils/source.py:58 | the facility id is "DIAMOND" when none was given, the given one otherwise |
| Source.InstrumentName | src/nexgen/nxs_utils/source.py:58-66 | the instrument name starts with the facility id and ends with the beamline, and is ten characters longer than both together for a synchrotron type, one otherwise |
| Source.InstrumentNameParts | src/nexgen/nxs_utils/source.py:58-66 | for two sources with the same facility id and beamline, the names agree exactly when both or neither are synchrotrons |
| Source.ElectronSourceIsNotSynchrotron | src/nexgen/nxs_utils/source.py:60-64 | an "Electron Source" does not count as a synchrotron |
| Source.DiamondInstrumentName | src/nexgen/nxs_utils/source.py:23-28 | the default facility names its instrument "DIAMOND BEAMLINE <beamline>" |
| Source.MicroscopeInstrumentName | src/nexgen/nxs_utils/source.py:58-64 | an electron source with id "DIAMOND MICROSCOPE" on m12 is named "DIAMOND MICROSCOPE m12" |
| Source.SourceDict | src/nexgen/nxs_utils/source.py:68-79 | the dictionary starts with name, type, short_name and beamline_name holding the facility's values |
| Source.SourceDictOptionalKeys | src/nexgen/nxs_utils/source.py:75-78 | probe and facility_id are keys exactly when they are non-empty strings, and then hold those strings |
| Source.ToDict | src/nexgen/nxs_utils/source.py:81-83 | the dictionary written has the four fixed keys first and the optional keys exactly when set |
| Source.DefaultSourceDict | src/nexgen/nxs_utils/source.py:20-38 | the default source's dictionary has exactly the four fixed keys, with the beamline under beamline_name |
| Detector.SensorThickness | src/nexgen/nxs_utils/detector.py:101-106 | an Eiger's sensor is 0.450mm thick exactly when it is silicon and 0.750mm otherwise; every other detector kind reports the thickness it stores |
| Detector.ThicknessExamples | src/nexgen/nxs_utils/detector.py:101-106 | Si and CdTe Eigers give 0.450mm and 0.750mm; the Tristan, Singla, Jungfrau and Ceta defaults give 0.5mm, 0.450mm, 0.320mm and 0.014mm |
| Detector.ConstantsHaveCommonKeys | src/nexgen/nxs_utils/detector.py:20-70 | every kind's constants table starts with flatfield, flatfield_applied, pixel_mask and pixel_mask_applied and has software_version; the kinds without a meta file have exactly those five keys |
| Detector.MetaFileHoldsMask | src/nexgen/nxs_utils/detector.py:112-114 | a detector writes a meta file (Eiger, Tristan) exactly when its constants give a string for pixel_mask rather than `None` |
| Detector.MakeModule | src/nexgen/nxs_utils/detector.py:267-275 | the module stores both vectors as plain triples, whether given as points or tuples, with module_offset "1" |
| Detector.ModulePointAndTupleAgree | src/nexgen/nxs_utils/detector.py:271-275 | passing the module vectors as points or as tuples builds the same module |
| Detector.ModuleInfo | src/nexgen/nxs_utils/detector.py:338-340 | the module information is a dictionary of exactly fast_axis, slow_axis and module_offset |
| Detector.ModuleInfoRoundTrip | src/nexgen/nxs_utils/detector.py:338-340 | the module can be rebuilt from its dictionary |
| Detector.MakeDetector | src/nexgen/nxs_utils/detector.py:289-309 | the detector's module is built from the first and second module vectors |
| Detector.DetectorMode | src/nexgen/nxs_utils/detector.py:330-336 | only a Tristan has a mode field, and reports it; every other kind reports "images" |
| Detector.DefaultModes | src/nexgen/nxs_utils/detector.py:142 | a default Tristan records events, a Tristan set to images records images, and an Eiger records images |
| Metafile.Containing | src/nexgen/tools/metafile.py:224-227 | the paths kept are exactly the walked paths whose name contains the key, and none is kept exactly when no path contains it |
| Metafile.FirstContaining | src/nexgen/tools/metafile.py:224-228 | no path is found exactly when no walked path contains the key; a path found is a walked path containing the key |
| Metafile.FirstContainingIsFirst | src/nexgen/tools/metafile.py:224-228 | the path found is the head of the list of all matches, and every walked path before it lacks the key |
| Metafile.Find | src/nexgen/tools/metafile.py:224-258 | each `find_*` lookup returns the first walked path containing its key, or `None` exactly when there is none |
| Metafile.FirstLowerEqual | src/nexgen/tools/metafile.py:206 | a path found equals the name ignoring case; no path is found exactly when none does |
| Metafile.FindWithApplied | src/nexgen/tools/metafile.py:204-222 | without the exact mask (flatfield) path the answer is `(None, None)`; with it, the "applied" path is the first one containing the applied key, or `None` |
| Metafile.FindWithAppliedFinds | src/nexgen/tools/metafile.py:204-222 | for a lower-case name the search cannot fail, and it returns a path exactly when the walk holds the name, that path equal to the name ignoring case |
| Metafile.FindMaskAndFlatfield | src/nexgen/tools/metafile.py:36-46 | `find_mask` and `find_flatfield` return a path exactly when `hasMask` and `hasFlatfield` hold |
| Metafile.Read | src/nexgen/tools/metafile.py:21-22 | reading `path[0]` succeeds exactly when the path is a non-empty dataset, and gives its first element |
| Metafile.ReadEach | src/nexgen/tools/metafile.py:109-111 | reading every listed path gives one value per path, each the path's first element; failure means some path cannot be read |
| Metafile.ReadAll | src/nexgen/tools/metafile.py:116-132 | `get_pixel_size` and `get_beam_center` give `None` when no path contains the key, and otherwise one value per matching path |
| Metafile.DetectorSize | src/nexgen/tools/metafile.py:105-114 | the detector size is the values of the pixels_in_detector paths in reverse order, slow axis first, or `None` when there are none |
| Metafile.ReadFirst | src/nexgen/tools/metafile.py:134-165 | the single-value getters give `None` without a matching path, and otherwise the first element of the first matching path |
| Metafile.SensorInformation | src/nexgen/tools/metafile.py:153-159 | a missing sensor_material or sensor_thickness path raises `IndexError`; otherwise the first values of both paths are returned |
| Metafile.Unwrap | src/nexgen/tools/metafile.py:74-79 | a one-element dataset becomes its element, decoded when it is bytes; a longer one is kept whole |
| Metafile.UnwrapAll | src/nexgen/tools/metafile.py:71-80 | every item of the `_dectris` group keeps its name and position and holds its unwrapped value |
| Metafile.DectrisConfigKeepsItems | src/nexgen/tools/metafile.py:71-80 | with distinct item names, the configuration has the group's items as keys, and looking one up gives its unwrapped value |
| Metafile.ReadConfigDset | src/nexgen/tools/metafile.py:82-84 | without a `config` dataset the read raises `KeyError`; otherwise it gives the evaluated dictionary |
| Text.Lookup | src/nexgen/tools/metafile.py:89 | indexing the configuration succeeds exactly when it has the key, with the key's value |
| Metafile.CountSetting | src/nexgen/tools/metafile.py:86-100 | with a `_dectris` group the count comes from its configuration; without one, a file with no path containing the key raises `IndexError` |
| Metafile.Setting | src/nexgen/tools/metafile.py:167-202 | with a `_dectris` group the value is found exactly when that configuration has the key; with neither the group, a `config` dataset nor a matching path, the answer is `None` |
| Metafile.CountOf | src/nexgen/tools/metafile.py:89 | a count is read exactly when the configuration holds a single integer |
| Metafile.FullNumberOfImages | src/nexgen/tools/metafile.py:102-103 | the full number of images is the trigger count times the images per trigger, both read as integers |
| Metafile.NumberOfModules | src/nexgen/tools/metafile.py:277-279 | the count of top-level keys of the form ts_qty_module and two digits is zero exactly when no key has that form |
| Metafile.NumberOfModulesAppend | src/nexgen/tools/metafile.py:277-279 | counting the modules of two lists of keys put together adds their counts |
| Metafile.ModuleKeyExamples | src/nexgen/tools/metafile.py:14 | ts_qty_module00 and ts_qty_module01 count as two modules; ts_qty_module1, with one digit, does not count |
| MetaReader.DefineVdsDataType | src/nexgen/tools/meta_reader.py:33-40 | the VDS data type is `uint32` exactly when the stored bit depth equals 32, `uint8` exactly when it equals 8, and `uint16` otherwise, a missing bit depth included |
| MetaReader.DataTypeAgreesWithWriter | src/nexgen/tools/meta_reader.py:35-40 | for an integer bit depth, the meta-file rule and the serial-crystallography writer's rule pick the same data type |
| MetaReader.PositionOf | src/nexgen/tools/meta_reader.py:74-77 | a configured start or increment is used as a position exactly when it is a single number |
| MetaReader.DistanceInMm | src/nexgen/tools/meta_reader.py:85-86 | a missing detector distance cannot be converted; a bare number is metres and must be positive, and becomes millimetres by a factor of 1000 |
| MetaReader.UpdateAxis | src/nexgen/tools/meta_reader.py:72-87 | an axis keeps its name, dependency, type, vector and offset; its start and increment are replaced only by configured `<name>_start` and `<name>_increment` (the increment only when the start is configured); the oscillation axis takes the full number of images; `det_z` takes the detector distance in mm |
| MetaReader.UpdateEach | src/nexgen/tools/meta_reader.py:72 | every axis of the list is updated in place and order; the update fails only when some axis's update fails |
| MetaReader.ChosenConfig | src/nexgen/tools/meta_reader.py:66-69 | the `config` dataset is read only when asked for and present; the `_dectris` group is read otherwise |
| MetaReader.UpdateAxesFromMeta | src/nexgen/tools/meta_reader.py:60-64 | without a `_dectris` group no axis changes; otherwise the list keeps its length |
| MetaReader.UpdateAxesPerAxis | src/nexgen/tools/meta_reader.py:66-87 | after an update the oscillation axis has the full number of images as its step count, every other axis keeps its own, and an axis with no configured start that is neither `det_z` nor the oscillation axis is left unchanged |
| MetaReader.UpdateAxisOk | src/nexgen/tools/meta_reader.py:72-83 | away from `det_z`, updating an axis succeeds whenever its configured start and increment, if any, are numbers |
| MetaReader.OscillationExample | src/nexgen/tools/meta_reader.py:72-83 | with omega configured at 90 with no increment while phi oscillates, omega starts at 90.0, has increment 0.0 and keeps its step count |
| EdTools.ReadValue | src/nexgen/tools/ed_tools.py:44-45 | reading a path's whole value succeeds exactly when the path is a dataset, and gives that dataset |
| EdTools.Getter | src/nexgen/tools/ed_tools.py:53-152 | each getter gives `None` when no walked path contains its key, and otherwise the value stored at the first path that does |
| EdTools.FullNumberOfImages | src/nexgen/tools/ed_tools.py:65-66 | the full number of images exists exactly when both the image and the trigger counts are integers, and is their product |
| EdTools.EndingIn | src/nexgen/tools/ed_tools.py:77 | the paths kept are exactly those whose last "/"-separated segment is the name |
| EdTools.GetCorrection | src/nexgen/tools/ed_tools.py:74-104 | with no path naming the mask (flatfield) the answer is `(False, None)`; without an "applied" path among them the flag is `False`; the array is `None` exactly when no such path ends in the name, and otherwise is the value of the first that does |
| EdTools.EndingInNarrowed | src/nexgen/tools/ed_tools.py:75-77 | narrowing to the paths containing the name before looking for the paths ending in it loses none of them |
| EdTools.ExtractExposureTime | src/nexgen/tools/ed_tools.py:164-185 | a file that is not a Singla master gives nothing; a Singla master gives its count_time |
| EdTools.ExtractStartTime | src/nexgen/tools/ed_tools.py:188-209 | a file that is not a Singla master, or one without a data_collection_date, gives nothing |
| EdTools.ExposureTimeFound | src/nexgen/tools/ed_tools.py:164-185 | for a Singla master, the exposure time is the value at the first path that mentions count_time |
| EdTools.StartTimeFound | src/nexgen/tools/ed_tools.py:188-209 | for a Singla master, the start time is the value at the first path that mentions data_collection_date, as parsed, and a parse error is passed on |
| EdTools.OtherInfo | src/nexgen/tools/ed_tools.py:241-245 | the detector information holds five further values |
| EdTools.ExtractDetectorInfo | src/nexgen/tools/ed_tools.py:212-247 | a file that is not a Singla master gives nothing; otherwise the dictionary has the nine keys in order, beginning with the mask array, its applied flag, the flatfield array and its applied flag |
| EdTools.InfoDict | src/nexgen/tools/ed_tools.py:237-245 | the nine detector-information keys hold the mask, its flag, the flatfield, its flag, then the five further values in order |
| EdTools.FindBeamCentre | src/nexgen/tools/ed_tools.py:281-287 | without a mask array there is no beam centre, and a beam centre found means a mask array was found |
| EdTools.NoMaskNoBeamCentre | src/nexgen/tools/ed_tools.py:281-287 | a master file with no path naming a pixel mask has no mask and so no beam centre |
| CliUtils.Phil2Dict | src/nexgen/command_line/cli_utils.py:48-52 | the cleaned dictionary holds exactly the entries whose key does not contain `__phil_` |
| CliUtils.Phil2DictIdempotent | src/nexgen/command_line/cli_utils.py:48-52 | cleaning a cleaned dictionary changes nothing |
| CliUtils.AddTristanSpecGet | src/nexgen/command_line/cli_utils.py:42-45 | after injecting the Tristan specification, a key it holds without `__phil` takes its value, and every other key keeps the detector scope's value |
| CliUtils.AsVectors | src/nexgen/command_line/cli_utils.py:73 | a list of vectors is taken element by element, each becoming the tuple of its components; a plain number among them raises `TypeError` |
| CliUtils.Components | src/nexgen/command_line/cli_utils.py:73 | `tuple(v)` of a vector holds its components in order |
| CliUtils.Reals | src/nexgen/command_line/cli_utils.py:135 | a tuple of numbers is the tuple of its own numbers |
| CliUtils.Triples | src/nexgen/command_line/cli_utils.py:76-78 | a list three times as long as the axes is cut into consecutive triples, triple j starting at index 3j |
| CliUtils.SplitArrays | src/nexgen/command_line/cli_utils.py:71-86 | `ValueError` is raised exactly when the list has neither one element per axis nor three per axis; a list three times as long never fails, whatever its elements; the result has at most one entry per axis |
| CliUtils.SplitArraysFlatRoundTrip | src/nexgen/command_line/cli_utils.py:75-79 | a list three times as long as distinct axes, of any elements, is split with the axes as keys, and joining the triples again gives the list back |
| CliUtils.TriplesFlatten | src/nexgen/command_line/cli_utils.py:76-78 | joining the consecutive triples of a list gives the list back |
| CliUtils.SplitArraysPaired | src/nexgen/command_line/cli_utils.py:72-74 | with one vector per distinct axis, each axis is paired with the components of its own vector, in order |
| CliUtils.ZipDistinct | src/nexgen/command_line/cli_utils.py:73 | pairing distinct axis names with values gives a dictionary with those names as keys and those values, in order |
| CliUtils.Apply | src/nexgen/command_line/cli_utils.py:135-145 | a 3 by 3 conversion applies exactly to three-component vectors |
| CliUtils.ApplyElems | src/nexgen/command_line/cli_utils.py:135-145 | a split vector converts exactly when it holds three numbers, into the tuple of the converted numbers; otherwise `ValueError` |
| CliUtils.ApplyAll | src/nexgen/command_line/cli_utils.py:135-139 | converting a list of split vectors succeeds exactly when every one holds three numbers, converting each in place |
| CliUtils.Convert | src/nexgen/command_line/cli_utils.py:133-145 | every goniometer vector and offset, detector vector, both module axes and the module offsets, when present, are converted |
| CliUtils.SplitGeometry | src/nexgen/command_line/cli_utils.py:115-129 | the split keeps the module's fast and slow axes and splits the module offsets only when they are given |
| CliUtils.ReframeArrays | src/nexgen/command_line/cli_utils.py:114-153 | a frame called mcstas in any case is only split; imgcif in any case is split and converted by the fixed imgCIF mapping; any other frame that differs from the coordinate system's convention raises `ValueError` |
| CliUtils.ImgcifReframesSplit | src/nexgen/command_line/cli_utils.py:133-136 | for imgCIF the goniometer vectors written are the split vectors with their first and last components negated |
| CliUtils.ConvertedImgcif | src/nexgen/command_line/cli_utils.py:135 | converting a list with the imgCIF mapping negates the first and last components of every vector |
| CliUtils.ImgcifTwice | src/nexgen/command_line/cli_utils.py:135 | the imgCIF mapping negates the first and last components, so applying it twice gives the vector back |
| CliUtils.TristanParams | src/nexgen/command_line/cli_utils.py:211-218 | a Tristan without a description and an image size raises `ValueError`; otherwise it gets the passed description, and any extra parameters must not override a constant |
| CliUtils.EigerParams | src/nexgen/command_line/cli_utils.py:219-241 | an Eiger without the five required values raises `ValueError`; otherwise it takes the passed underload, its constants are emptied exactly when there is no meta file and exactly five values were passed, and extra values without a meta file must not override a constant |
| CliUtils.EigerRequiredPresent | src/nexgen/command_line/cli_utils.py:220-229 | the Eiger check demands description, image_size, sensor_material, overload and underload |
| CliUtils.SetDetectorParams | src/nexgen/command_line/cli_utils.py:211-246 | a name containing "tristan" in any case builds a Tristan, else one containing "eiger" builds an Eiger; any other name raises `UnknownDetectorTypeError` |
| CliUtils.SetDetectorNeedsDescription | src/nexgen/command_line/cli_utils.py:212-229 | without a description among the parameters neither detector can be set up |
| CliUtils.PassedConstants | src/nexgen/command_line/cli_utils.py:306-313 | exactly the Eiger constants the detector scope holds are passed on, each with the scope's value |
| CliUtils.PickFrom | src/nexgen/command_line/cli_utils.py:307-311 | an entry is picked exactly when its key is in the list and in the scope, with the scope's value |
| CliUtils.PickFromAppend | src/nexgen/command_line/cli_utils.py:307-311 | picking under two runs of keys picks under the first, then under the second, so the entries keep the table's order |
| CliUtils.NothingPicked | src/nexgen/command_line/cli_utils.py:307-311 | a scope holding none of the keys passes nothing on |
| CliUtils.CliKwargs | src/nexgen/command_line/cli_utils.py:316-324 | as written the keyword arguments have no description and an underload that is the literal list `["underload"]`; corrected, they carry the scope's description and underload |
| CliUtils.AsWrittenKwargs | src/nexgen/command_line/cli_utils.py:319-323 | the keyword arguments as written hold the given underload and no description |
| CliUtils.CorrectedKwargs | src/nexgen/command_line/cli_utils.py:316-323 | with the description put first, the keyword arguments hold both the description and the underload |
| CliUtils.KwargsWithoutConstants | src/nexgen/command_line/cli_utils.py:316-323 | a scope without Eiger constants passes exactly the five required values, description first |
| CliUtils.CliDetectorParams | src/nexgen/command_line/cli_utils.py:316-324 | as written, setting up the detector from the command-line scopes always fails |
| CliUtils.CliDetectorParamsEiger | src/nexgen/command_line/cli_utils.py:316-324 | corrected, an Eiger scope with the five required values and no constants, with a meta file, gives the Eiger with the scope's own values |
| CliUtils.SetEiger | src/nexgen/command_line/cli_utils.py:219-238 | the five required values in order, with a meta file, build that Eiger with its constants kept |
| CliUtils.EigerWithMeta | src/nexgen/command_line/cli_utils.py:219-238 | with a meta file the Eiger branch reads only the five required values, whatever else is passed |
| CliUtils.GonioNumSteps | src/nexgen/command_line/cli_utils.py:356-364 | the step count is non-zero exactly when the axis moves and the data are images with a non-zero count, and then it is that count |
| CliUtils.GonioAxisScansImages | src/nexgen/command_line/cli_utils.py:356-364 | a moving rotation axis of an image collection, with that step count, scans one position per image, from its start to its end |
| CliConfig.FirstMatch | src/nexgen/command_line/cli_config.py:53-64 | a kind is chosen exactly when the text contains some name, and it is the kind of the first name contained; none contained raises `ValueError` |
| CliConfig.DescriptionKind | src/nexgen/command_line/cli_config.py:53-64 | a description containing "eiger" in any case is an Eiger; a Tristan exactly when it contains "tristan" but not "eiger"; `ValueError` exactly when it names none of eiger, tristan, jungfrau, singla or ceta |
| CliConfig.DescriptionKindIsFirstMatch | src/nexgen/command_line/cli_config.py:53-64 | the chain of tests is the first-match search over the names in the order eiger, tristan, jungfrau, singla, ceta |
| CliConfig.FieldNames | src/nexgen/nxs_utils/detector.py:73-242 | every detector dataclass declares description first and image_size second |
| CliConfig.FieldValues | src/nexgen/nxs_utils/detector.py:73-242 | a detector has one value per declared field, description and image size first |
| CliConfig.AsDict | src/nexgen/nxs_utils/detector.py:73-242 | a detector's dictionary has its field names as keys, in declaration order, with its values |
| CliConfig.FromValues | src/nexgen/command_line/cli_config.py:53-62 | a detector built from one value per field is of the requested kind and holds exactly those values |
| CliConfig.FromValuesInverts | src/nexgen/command_line/cli_config.py:53-62 | building a detector from its own field values gives it back |
| CliConfig.RequiredCount | src/nexgen/nxs_utils/detector.py:73-242 | every kind has at least description and image_size without a default, and no more required fields than fields |
| CliConfig.Prototype | src/nexgen/nxs_utils/detector.py:73-242 | each kind has a detector with every default taken |
| CliConfig.Defaults | src/nexgen/nxs_utils/detector.py:73-242 | a field has no default exactly when it is one of the leading required fields |
| CliConfig.Gather | src/nexgen/command_line/cli_config.py:53-62 | gathering succeeds exactly when every field is given or has a default, taking the given value first; a required field not given raises `TypeError` |
| CliConfig.Build | src/nexgen/command_line/cli_config.py:53-62 | a keyword that is not a field, or a required field not given, raises `TypeError`; otherwise the detector is of the kind asked for, each field holding the value given or else its default |
| CliConfig.ParseParams | src/nexgen/command_line/cli_config.py:47-64 | a detector dataclass passes unchanged; a dictionary without a description raises `KeyError`, one whose description is not a string `TypeError`, one naming no kind `ValueError`; a parsed dictionary keeps its description and has the kind the description names |
| CliConfig.FieldNamesDistinct | src/nexgen/nxs_utils/detector.py:73-242 | no detector dataclass declares a field twice |
| CliConfig.ParseAsDict | src/nexgen/command_line/cli_config.py:47-64 | parsing the dictionary of a detector whose description names its own kind gives that detector back |
| CliConfig.UnknownDescription | src/nexgen/command_line/cli_config.py:63-64 | a dictionary whose description has none of the letters i, j and a in any case is refused with `ValueError` |
| CliConfig.NoKindWithoutLetters | src/nexgen/command_line/cli_config.py:53-64 | every kind name holds an i, a j or an a, so a description without those letters names no kind |
| CliConfig.MakeGonioConfig | src/nexgen/command_line/cli_config.py:21-25 | the goniometer section is accepted exactly when its scan type is missing, "rotation" or "grid"; it keeps its axes and defaults to no scan axis, a rotation and no snaking |
| CliConfig.GonioConfigDefaults | src/nexgen/command_line/cli_config.py:21-25 | with only the axes given the goniometer is an unsnaked rotation with no scan axis; giving every field back rebuilds any goniometer section |
| CliConfig.MakeDetectorConfig | src/nexgen/command_line/cli_config.py:39-45 | a detector section fails with its parameters' error; with parsed parameters it is accepted exactly when the mode is missing, "images" or "events", and the mode defaults to "images" |
| CliConfig.DetectorConfigModeAgain | src/nexgen/command_line/cli_config.py:39-45 | a detector section built once is accepted again with the mode it settled on, giving the same configuration |
| CliConfig.ConfigFormat | src/nexgen/command_line/cli_config.py:82-94 | a file is read as JSON exactly when its suffix is ".json", as YAML exactly when it is ".yaml"; anything else raises `IOError` |
| CliConfig.FormatOfExtension | src/nexgen/command_line/cli_config.py:85-93 | a name made of a stem and an extension is read as JSON or YAML exactly when the extension is "json" or "yaml" |
| CliConfig.HiddenJsonRefused | src/nexgen/command_line/cli_config.py:85-93 | a file called just ".json" has no suffix and is refused with `IOError` |
| EdMrcToNexus.CheckMetadata | src/nexgen/command_line/ED_mrc_to_nexus.py:70-79 | the check passes exactly when no field that defaults to `None` is still unset, and raises `ValueError` otherwise |
| EdMrcToNexus.DefaultsIncomplete | src/nexgen/command_line/ED_mrc_to_nexus.py:39-79 | a fresh template never passes the check |
| EdMrcToNexus.TvipsBinning | src/nexgen/command_line/ED_mrc_to_nexus.py:92-106 | the binning exists exactly for square images of 4096, 2048, 1024 or 512 pixels, and is 4096 over the width (1, 2, 4 or 8); any other size raises `ValueError` |
| EdMrcToNexus.OverwriteFromTvips | src/nexgen/command_line/ED_mrc_to_nexus.py:85-114 | the TVIPS preset names the detector, sets a pixel size of 0.0155 times the binning, an overload of 8000 times its square, an underload of 0 and the rotation axis (1, 0, 0), and changes no other field; a non-standard size raises `ValueError` |
| EdMrcToNexus.TvipsOverloadByWidth | src/nexgen/command_line/ED_mrc_to_nexus.py:95-110 | the TVIPS overload times the square of the image width is always 8000 times 4096 squared |
| EdMrcToNexus.CetadBinning | src/nexgen/command_line/ED_mrc_to_nexus.py:133-136 | the Ceta-D binning is 2 exactly for a 2048 by 2048 image, and 1 otherwise |
| EdMrcToNexus.OverwriteFromCetad | src/nexgen/command_line/ED_mrc_to_nexus.py:117-148 | the Ceta-D preset sets the detector name, a pixel size of 0.014 times the binning, an overload of 8000 times its square, an underload of -1000, an empty short name, the electron-source type, the DIAMOND id and int32 data; as written the facility name is left alone, corrected it is "Diamond Light Source"; no other field changes |
| EdMrcToNexus.CetadFacilityName | src/nexgen/command_line/ED_mrc_to_nexus.py:141 | from a fresh template the Ceta-D preset leaves the facility name "unknown" as written, and sets "Diamond Light Source" once corrected |
| EdMrcToNexus.OverwriteFromMrc | src/nexgen/command_line/ED_mrc_to_nexus.py:151-203 | the image count is the first dimension of a three-dimensional stack and otherwise the number of files; each optional header value (the beam centre only with both coordinates) replaces its field only when present; the data types and pixel counts are always taken; the facility, detector and detector limits are kept |
| EdMrcToNexus.FloorThickness | src/nexgen/command_line/ED_mrc_to_nexus.py:310-311 | a thickness closer to zero than 1e-30 becomes 1e-30, any other is kept, so the result is never zero |
| EdMrcToNexus.OverwriteFromCommandLine | src/nexgen/command_line/ED_mrc_to_nexus.py:206-343 | each of the detector name, facility name, pixel size, sensor material, overload and data type is the argument when given and kept when absent; the thickness is floored; as written the facility type argument is never applied, corrected it is; a complete record stays complete |
| EdMrcToNexus.CommandLineSetsFacilityAndAxes | src/nexgen/command_line/ED_mrc_to_nexus.py:206-343 | the facility id and short name, the three axes, the detector type and the source are each the argument when given and kept when absent |
| EdMrcToNexus.CommandLineSetsScanAndBeam | src/nexgen/command_line/ED_mrc_to_nexus.py:206-343 | the distance, wavelength, start angle, increment, exposure time, beam centre and underload are each the argument when given and kept when absent; a given thickness is floored |
| EdMrcToNexus.CommandLineIdempotent | src/nexgen/command_line/ED_mrc_to_nexus.py:206-343 | applying the same arguments a second time changes nothing more |
| EdMrcToNexus.NoArgsOnlyFloorsThickness | src/nexgen/command_line/ED_mrc_to_nexus.py:206-343 | with no argument given only the thickness floor applies |
| EdMrcToNexus.FacilityTypeArgument | src/nexgen/command_line/ED_mrc_to_nexus.py:206-343 | a facility type given on the command line that differs from the template is lost as written and kept once corrected |
| EdMrcToNexus.CheckMrcInputs | src/nexgen/command_line/ED_mrc_to_nexus.py:374-376 | the inputs are accepted exactly when every one ends with ".mrc"; otherwise `ValueError` is raised |
| EdMrcToNexus.PrepareMetadata | src/nexgen/command_line/ED_mrc_to_nexus.py:368-391 | a non-MRC input raises `ValueError` and no input at all `IndexError`; metadata that comes through is complete, lists the given files, and has the image count, pixel counts and original data type of the first file's header |
| EdMrcToNexus.SourceOf | src/nexgen/command_line/ED_mrc_to_nexus.py:436-440 | the source handed to the writer takes the facility name as its beamline, with the metadata's id, type, probe and short name |
| EdMrcToNexus.CetadSourceName | src/nexgen/command_line/ED_mrc_to_nexus.py:436-440 | with no facility name on the command line a Ceta-D run's source is named "unknown" as written and "Diamond Light Source" once corrected |
| EdMrcToNexus.CetadFullHeaderComplete | src/nexgen/command_line/ED_mrc_to_nexus.py:368-391 | a Ceta-D run whose header has every optional value passes the check, whatever the command line adds |
| EdMrcToNexus.UnknownDetectorNeedsPixelSize | src/nexgen/command_line/ED_mrc_to_nexus.py:382-391 | without a preset and without a pixel size on the command line the check fails |
| EdMrcToNexus.CetadDataTypeFromHeader | src/nexgen/command_line/ED_mrc_to_nexus.py:195-197 | the Ceta-D preset's int32 gives way to the header's data type unless the command line names one |
| EdMrcToNexus.NumImagesMatchStack | src/nexgen/command_line/ED_mrc_to_nexus.py:154-157 | the image count written equals the frame count of the stack built from the same files |
| MrcTools.MrcOutputName | src/nexgen/tools/mrc_tools.py:170-177 | a name holding an underscore, digits and ".mrc" anywhere loses everything from its last underscore and gains ".h5"; any other name has every ".mrc" replaced by ".h5" |
| MrcTools.NumberedHasUnderscore | src/nexgen/tools/mrc_tools.py:172-175 | a name matching the numbered pattern always has an underscore to split at |
| MrcTools.NumberedOutput | src/nexgen/tools/mrc_tools.py:160-175 | a stem, an underscore, an image number and ".mrc" give the stem with ".h5" |
| MrcTools.PlainOutput | src/nexgen/tools/mrc_tools.py:163-177 | a single stack named without dots or underscores just changes its extension to ".h5" |
| MrcTools.MrcFiles | src/nexgen/tools/mrc_tools.py:179-185 | the inputs stacked are exactly those whose absolute path ends with ".mrc", never more than were given |
| MrcTools.AllMrcKept | src/nexgen/tools/mrc_tools.py:179-185 | when every input is an MRC file all of them are stacked, in order |
| MrcTools.MrcFilesIdempotent | src/nexgen/tools/mrc_tools.py:179-185 | filtering the kept inputs again keeps them all |
| MrcTools.ChooseDtype | src/nexgen/tools/mrc_tools.py:192-195 | the data type written is the one asked for, or the first file's own when none or an empty one is given |
| MrcTools.StackShape | src/nexgen/tools/mrc_tools.py:189-274 | no file at all raises `IndexError`; a single three-dimensional file is its own stack; two-dimensional images succeed exactly when no file has more than two dimensions, giving one frame per file; anything else raises `ValueError` |
| MrcTools.ToHdf5DataFile | src/nexgen/tools/mrc_tools.py:170-274 | no input raises `IndexError`; a conversion names its output after the first input as given and takes its data type and stack shape from the MRC inputs only |
| DataWriter.ModuleLayout | src/nexgen/tools/data_writer.py:50-52 | a description naming no entry of the module table keeps the layout it started with; otherwise the layout is that of the last entry the description contains |
| DataWriter.StripeRanges | src/nexgen/tools/data_writer.py:57-62 | the loop over modules 1 to n paints n column ranges, range k running from the end of module k+1 to the start of module k+2 |
| DataWriter.StripeRangesCover | src/nexgen/tools/data_writer.py:57-69 | a pixel is painted by the stripe loop exactly when it lies in one of the n gaps between modules |
| DataWriter.StripesClosedForm | src/nexgen/tools/data_writer.py:57-69 | a pixel x lies in a gap stripe exactly when (x + gap) mod (module + gap) is below the gap and the quotient is between 1 and n |
| DataWriter.ModulesActive | src/nexgen/tools/data_writer.py:57-69 | no gap stripe reaches into the active area of any module |
| DataWriter.IntraRanges | src/nexgen/tools/data_writer.py:72-78 | the intra-module loop paints, for each module, the column in the middle of it and the one before |
| DataWriter.IntraRangesCover | src/nexgen/tools/data_writer.py:72-78 | a pixel is painted by the intra-module loop exactly when it is one of the two middle columns of some module |
| DataWriter.PaintRanges | src/nexgen/tools/data_writer.py:57-78 | painting the ranges one after the other, clipped to the axis as slices are, marks exactly the pixels some range covers |
| DataWriter.MaskImage | src/nexgen/tools/data_writer.py:54-69 | the image has the requested shape and holds 65535 at every painted column or row and 0 elsewhere |
| DataWriter.BuildAnEiger | src/nexgen/tools/data_writer.py:34-80 | without a module layout from the description or the argument the build raises `TypeError`; otherwise the blank image has the requested shape, with 65535 exactly on the column gaps, the two middle columns of each module and the row gaps |
| DataWriter.BuildATristan | src/nexgen/tools/data_writer.py:83-122 | a description naming no Tristan size leaves the module count unbound (`NameError`); otherwise the blank image has the requested shape, with 65535 exactly on the column and row gaps |
| DataWriter.EigerModuleInterior | src/nexgen/tools/data_writer.py:56-78 | inside an Eiger module, away from its two middle columns, every pixel is active |
| DataWriter.DatasetSizesAsWritten | src/nexgen/tools/data_writer.py:153 | as written the images are split into n div 1000 datasets of 1000 and one last dataset of n mod 1000, even when that is 0; the sizes add up to n |
| DataWriter.DatasetSizes | src/nexgen/tools/data_writer.py:154-159 | corrected, the sizes add up to n, none exceeds 1000, all but the last are 1000, and none is empty unless n is 0 |
| DataWriter.FileCount | src/nexgen/command_line/nexus_generator.py:477-482 | the generator provides one file up to 1000 images and otherwise one per started thousand |
| DataWriter.DatasetSizesFitFiles | src/nexgen/tools/data_writer.py:154-159 | the corrected split has exactly as many datasets as the generator provides files |
| DataWriter.DatasetSizesAsWrittenOverrun | src/nexgen/tools/data_writer.py:153 | for a positive multiple of 1000 images the split as written has one dataset more than the files the generator provides |
| DataWriter.DatasetSizesAgree | src/nexgen/tools/data_writer.py:153-159 | for any count that is not a positive multiple of 1000 both splits are the same |
| DataWriter.GenerateImageFiles | src/nexgen/tools/data_writer.py:125-175 | each file gets the image count of its dataset, in order; a split with a different number of datasets than files raises `ValueError`; the image has the requested shape, blank zeros for a detector that is neither an Eiger nor a Tristan |
| DataWriter.ThousandImagesRejected | src/nexgen/tools/data_writer.py:153-165 | as written, writing a positive multiple of 1000 images into the files the generator provides always fails |
| DataWriter.GeneratorFilesFit | src/nexgen/tools/data_writer.py:154-159 | corrected, the files the generator provides always fit the split, and the image counts add up to the total |
| GdaRequest.AxisChoice | src/nexgen/beamlines/GDAtools/ExtendedRequest.py:35-37 | the axis choice is the element's text of the same length in lower case: each letter is kept or lowered, and no upper-case letter remains |
| GdaRequest.ScanRange | src/nexgen/beamlines/GDAtools/ExtendedRequest.py:76-85 | the special case for a zero oscillation range gives what the general rule gives: the rotation ends `number_of_images` ranges after its start |
| GdaRequest.ReadScan | src/nexgen/beamlines/GDAtools/ExtendedRequest.py:62-106 | omega is the scan axis exactly when it is chosen, phi otherwise; the six goniometer axes appear once each, the scan axis runs over the scan range in steps of the oscillation range, the other rotation axis and kappa sit still at their values and the sample stages at zero |
| GdaRequest.ReadScanIgnoresCase | src/nexgen/beamlines/GDAtools/ExtendedRequest.py:35-37 | two requests whose axis choices differ only in case give the same scan |
| GdaRequest.ReadScanLookup | src/nexgen/beamlines/GDAtools/ExtendedRequest.py:87-104 | looked up by name, the scan axis finds its range, the other rotation axis its fixed position and kappa its own |
| GdaRequest.ScanCoversImages | src/nexgen/beamlines/GDAtools/ExtendedRequest.py:76-93 | the rotation of the scan axis spans one oscillation range per image, stepping by that range |
| GdaRequest.ReadScanOmegaExample | src/nexgen/beamlines/GDAtools/ExtendedRequest.py:76-106 | ten images of 2 degrees from -180 on omega end at -160 with phi still, and count ten images |
| GdaRequest.DetPosition | src/nexgen/beamlines/GDAtools/ExtendedRequest.py:109-126 | the position is [angle, sample-detector distance]; the angle is zero for a Tristan, checked first, two-theta for an Eiger and zero for anything else |
| GdaRequest.DetPositionAngle | src/nexgen/beamlines/GDAtools/ExtendedRequest.py:122-126 | for a non-zero two-theta, the angle read is two-theta exactly when the description names an Eiger and not a Tristan |
| GdaJson.SecondPart | src/nexgen/beamlines/GDAtools/GDAjson2params.py:28 | the part between the first and second underscores holds no underscore |
| GdaJson.SecondPartBetween | src/nexgen/beamlines/GDAtools/GDAjson2params.py:28 | the second part of `a_b` or `a_b_rest`, with `a` and `b` free of underscores, is exactly `b` |
| GdaJson.FindDependsOn | src/nexgen/beamlines/GDAtools/GDAjson2params.py:27-31 | a name without underscore is its own dependency unless it is a bare stage letter; a name with one depends on its second part, which becomes `sam_<part>` exactly when the part is x, y or z and stays as it is otherwise; no dependency is ever a bare "x", "y" or "z" |
| GdaJson.FindDependsOnIdempotent | src/nexgen/beamlines/GDAtools/GDAjson2params.py:27-31 | resolving a resolved dependency changes nothing |
| GdaJson.StageDepends | src/nexgen/beamlines/GDAtools/GDAjson2params.py:27-31 | a name `<prefix>_<axis>` depends on that axis, or on `sam_<axis>` when the axis is a sample stage |
| GdaJson.AxisOf | src/nexgen/beamlines/GDAtools/GDAjson2params.py:43-49 | an entry becomes an axis of its own name, vector and dependency, a rotation exactly when its type says "rotation", at rest |
| GdaJson.AxisOfUnits | src/nexgen/beamlines/GDAtools/GDAjson2params.py:43-49 | an axis read from a GDA entry is in degrees exactly when the entry says "rotation", in millimetres otherwise |
| GdaJson.AxesAt | src/nexgen/beamlines/GDAtools/GDAjson2params.py:37-66 | reading the axes fails with `KeyError` exactly when some value is a detector block, which has no "location"; otherwise at most one axis per value is read |
| GdaJson.AxesAtMembers | src/nexgen/beamlines/GDAtools/GDAjson2params.py:40-50 | the axes read are exactly the axes of the entries at the location asked for |
| GdaJson.AxesAtCons | src/nexgen/beamlines/GDAtools/GDAjson2params.py:40-50 | one more entry in front adds its axis, if it is at the location, in front of the others |
| GdaJson.AxesAtParts | src/nexgen/beamlines/GDAtools/GDAjson2params.py:40-50 | without detector blocks, the axes read are the entries' contributions in file order |
| GdaJson.AxisPartsAppend | src/nexgen/beamlines/GDAtools/GDAjson2params.py:40-50 | the axes of two runs of entries are those of the first run followed by those of the second |
| GdaJson.GoniometerAxes | src/nexgen/beamlines/GDAtools/GDAjson2params.py:37-51 | the goniometer axes are the "sample" entries with their dependencies resolved |
| GdaJson.DetectorAxes | src/nexgen/beamlines/GDAtools/GDAjson2params.py:53-66 | the detector axes are the "detector" entries with their dependencies as written |
| GdaJson.AxisFileSplits | src/nexgen/beamlines/GDAtools/GDAjson2params.py:37-66 | in a file of axis entries both readings succeed, every "sample" entry is a goniometer axis and every "detector" entry a detector axis |
| GdaJson.GeometryFileAxes | src/nexgen/beamlines/GDAtools/GDAjson2params.py:33-66 | a geometry file of omega, the frame, sam_x, phi on sam_x and det_z gives three goniometer axes in file order and one detector axis; the frame is skipped |
| GdaJson.MaterialName | src/nexgen/beamlines/GDAtools/GDAjson2params.py:72-76 | the name changes only for "Silicon", which becomes "Si"; the result is never "Silicon" |
| GdaJson.MaterialNameIdempotent | src/nexgen/beamlines/GDAtools/GDAjson2params.py:72-76 | a shortened material name is left alone when read again |
| GdaJson.MaterialAgrees | src/nexgen/beamlines/GDAtools/GDAjson2params.py:70-101 | the Tristan and the Eiger readers name the same material the same way |
| GdaJson.WithUnits | src/nexgen/beamlines/GDAtools/GDAjson2params.py:96-99 | one entry per size, each ending in the units; removing the units again gives back the sizes |
| GdaJson.TristanFromBlock | src/nexgen/beamlines/GDAtools/GDAjson2params.py:70-92 | a Tristan block gives an event-mode Tristan with the block's description and type; its image size turned round is the block's data size, its pixel sizes with the units removed are the block's turned round, its thickness is the value followed by its units, its material is named |
| GdaJson.EigerFromBlock | src/nexgen/beamlines/GDAtools/GDAjson2params.py:93-109 | an Eiger block gives an Eiger of the block's own size, whatever its length, overload 50649 and underload -1, pixel sizes that give back the block's once the units are removed, and its material named |
| GdaJson.DetectorParamsFromFile | src/nexgen/beamlines/GDAtools/GDAjson2params.py:68-113 | a "tristan" block wins over an "eiger" one; with neither, `UnknownDetectorTypeError`; a detector read is a Tristan exactly when the file has a "tristan" block |
| GdaJson.EigerFileParams | src/nexgen/beamlines/GDAtools/GDAjson2params.py:93-109 | the file of a single Eiger, whatever its size list, gives that Eiger with its size untouched and each pixel size followed by its units |
| GdaJson.TristanSizeReversed | src/nexgen/beamlines/GDAtools/GDAjson2params.py:87 | a Tristan's (fast, slow) data size becomes the (slow, fast) image size |
| GdaJson.ReverseTwice | src/nexgen/beamlines/GDAtools/GDAjson2params.py:83-87 | turning a list round twice gives it back, so the reversed sizes lose nothing |
| GdaJson.FastAndSlow | src/nexgen/beamlines/GDAtools/GDAjson2params.py:115-132 | the vectors come from the "eiger" block when the type names an Eiger, in any case, and from the "tristan" block otherwise; a missing block raises `KeyError` |
| GdaJson.FastAndSlowSameBlock | src/nexgen/beamlines/GDAtools/GDAjson2params.py:68-132 | for a file with a "tristan" block and a type not naming an Eiger, the parameters and the vectors both come from that block |
| GdaJson.FastAndSlowOfEigerFile | src/nexgen/beamlines/GDAtools/GDAjson2params.py:93-132 | for the file of a single Eiger and a type naming an Eiger, the parameters and the vectors both come from the Eiger block |

Some members are one-line instances of a general member and carry no
contract of their own. The general member's row states their behaviour:

- `Metafile.PixelSize` and `Metafile.BeamCenter` (metafile.py:116-132) are
  `Metafile.ReadAll` with the keys "pixel_size" and "beam_center".
- `Metafile.Wavelength`, `Metafile.DetectorDistance`,
  `Metafile.SaturationValue` and `Metafile.BitDepthImage`
  (metafile.py:134-165) are `Metafile.ReadFirst` with their keys.
- `Metafile.ReadDectrisConfig` (metafile.py:71-80) is stated by
  `Metafile.DectrisConfigKeepsItems`.
- The `EdTools` getters from `NumberOfImages` to `SoftwareVersion`
  (ed_tools.py:53-152) are `EdTools.Getter` with their keys. `GetMask` and
  `GetFlatfield` (ed_tools.py:74-104) are `EdTools.GetCorrection` with
  "pixel_mask" and "flatfield".
- `NxmxWriter.CollectionTime` (nxmx_writer.py:78-80) is stated by
  `NxmxWriter.DataFilesHoldRun`.
- The constructors `Detector.EigerDetector`, `Detector.TristanDetector`,
  `Detector.CetaDetector`, `Detector.SinglaDetector` and
  `Detector.JungfrauDetector` (detector.py:73-256) fill in the dataclass
  defaults. `Detector.SensorThickness` and `Detector.DefaultModes` state
  what the writer reads from them.

## Left out

- HDF5 reading and writing through h5py and hdf5plugin is not modelled. This covers the NX class writers, the file copies, the chunk writes of the image generator, `vds_file_writer` and `find_datasets_in_file`. A file is given to the model as the list of object paths a visit yields, plus the values and shapes of its datasets.
- The tiled Jungfrau VDS layout is not modelled. The model records only that a "jungfrau" description selects it.
- Reading XML, JSON, YAML and MRC files is not modelled. A GDA request is a record of already-converted numbers, a GDA JSON file is an ordered dictionary, a configuration file is chosen by suffix only, and an MRC header is an `MrcHeader` parameter.
- pint unit conversion, datetime parsing and formatting, and logging are not modelled. `get_iso_timestamp` keeps only its `None` and type guards; the calendar conversion is a parameter.
- Floating point is not modelled: positions and times are exact `real`s. `round(x, 3)` is round-half-even applied to the exact value.
- `hypot` in `calculate_origin` mode "2" and `centroid_max` in `find_beam_centre` are parameters, because they are floating-point numerics. The region-of-interest arithmetic of `find_beam_centre` is left out with them.
- Randomness is not modelled. That covers the pseudo event lists and the event-file generator.
- The command-line front ends, argparse/freephil parsing and the beamline orchestration scripts are not modelled, because they only wire the modelled rules to I/O. The exceptions are `call_writers`' step rule, `main`'s `.mrc` check, and `nexus_generator`'s file count, which the image generator is compared against.
- scanspec's internals are not modelled. `ScanSpec` states only the points a line and a product produce.
- The validation and type coercion of the configuration library (pydantic) is not modelled. Already-typed parameters are distinguished from raw dicts by a constructor.
- Python's `\d` matches every Unicode decimal digit. The model's `IsDigit` accepts only ASCII `0`-`9`, so Tristan module keys and numbered file stems with other digits are not recognised.
- Case mapping is ASCII only (`Text.Lower`). Python's `str.lower` also maps non-ASCII letters.
- MetaReader.PositionOf: an axis start or increment stored as an array or as text is refused with `TypeError`. The source assigns whatever value is stored, which breaks only later, because positions in the model are numbers.
- MrcTools.StackShape: two-dimensional images of different shapes still give the first image's shape. In the source, copying a mismatched image into the stack fails, or is broadcast, by NumPy's rules.
- NxmxWriter.FillIndex: an image file name given by the user that holds its own `%` directives, such as "run_%d", "run_%6d", "100%%" or "%s", is refused with `ValueError`. Python's `%` operator fills, escapes or rejects those by its own rules.
- `get_detector_description` only reads the parameters' `description` field. The model reads that field directly, as the writer's "jungfrau" test does.
- Axes.EndPos: its contract states only the still and single-step cases. The general value, `num_steps - 1` increments from the start, is stated by `ScanUtils.AxisLineStepsByIncrement` and `Goniometer.RotationOnlyDefinition` instead, because a closed form on this widely used function burdens every proof that mentions it.
- CliUtils.ApplyElems: a split vector holding anything but three numbers is refused with `ValueError`. numpy would multiply three equal-length vectors as a 3 by 3 matrix instead, a shape the writer never uses.
- CliUtils.StrParam, CliUtils.IntParam and CliUtils.SizeParam: a parameter of the wrong type is refused at once with `TypeError`. The source stores it in the dataclass and fails later, with `AttributeError` or another error, where the value is first used.
- Metafile.CountOf: a trigger or image count stored as an array or a real is refused with `TypeError`. The source multiplies whatever values it reads, so a real count gives a real product.
- EdTools.FullNumberOfImages: only two integer counts are multiplied, and any other pair is refused with `TypeError`. The source multiplies whatever values it reads, so a real count gives a real product, and an array broadcasts. The model keeps the result an integer because it becomes the oscillation axis's step count.
- Paths.Posix: of pathlib's normalisation, only the dropped "." directory of a bare name is modelled. Repeated slashes and "." components inside a directory, such as "a//b" or "a/./b", are kept as written, where pathlib collapses them.
- Paths.ParsePosix: a path ending in "/" keeps an empty name, as `os.path.basename` does (so `MrcTools` names its output as the source does); `pathlib.Path` would drop the trailing slash instead.
- Stale duplicate modules that the current ones supersede are not modelled. For example, tools/VDS_tools.py is replaced by tools/vds_tools.py.

## Findings

| source | as written | input that shows it | evidently intended | confidence | as-written member | corrected member |
|---|---|---|---|---|---|---|
| src/nexgen/beamlines/SSX_Eiger_nxs.py:236-238 | the pump delay is read from the `pump_exp` key | pump exposure 0.1 and pump delay 0.5: the recorded delay is 0.1 | the delay comes from `pump_delay` | not executed | SsxEiger.PumpDelayFromExposure | SsxEiger.PumpProbeWith |
| src/nexgen/nxs_utils/goniometer.py:57 | `increment == 0.0` is a comparison, so the increment is kept | a rotation axis with increment 0.1 and a stored scan that stays at 0.0: it still counts as a scan axis | the increment becomes 0 and the axis stops | not executed | Goniometer.StillScanKeepsMovingAsWritten | Goniometer.StillScanStopsAxis |
| src/nexgen/nxs_utils/goniometer.py:143-145 | the oscillation points of a grid are computed from the first axis in the list | a goniometer whose first axis is `sam_z`, a translation: `ScanAxisError` | they come from the oscillation axis | not executed | Goniometer.GridScanFirstAxisTranslationAsWritten | Goniometer.GridScanOscillation |
| src/nexgen/utils.py:96-101 | "master" or "meta" is searched for in the whole path, then replaced in the stem only | `/dls/master/run_meta.h5`: the template is the file's own path with no index placeholder, so naming its data files raises `TypeError` (`NxmxWriter.DataFilesOfMasterDirectoryMetaFile`) | the word is searched for in the stem | not executed | Utils.TemplateAsWrittenKeepsPath | Utils.FilenameTemplateHasPlaceholder |
| src/nexgen/command_line/ED_mrc_to_nexus.py:141 | the Ceta-D preset sets `m.facility`, which no later step reads | any Ceta-D run without `--facility-name`: the source name stays "unknown" | it sets `m.facility_name` | not executed | EdMrcToNexus.CetadFacilityName | EdMrcToNexus.CetadSourceName |
| src/nexgen/beamlines/SSX_chip.py:118-124 | the column of a block is found with `x_blocks` as the column length | block 3 of a chip with 2 columns of 3 blocks: decoded to (1,1) | (0,2), where the conversion table puts it | not executed | SsxChip.ReadChipMapAsWrittenMisplacesBlock | SsxChip.ReadChipMapMatchesTable |
| src/nexgen/beamlines/SSX_Eiger_nxs.py:189-192 | the type is checked in lower case but dispatched as given | experiment type "Extruder" on I24: `NameError` | dispatch on the lower-case type | not executed | SsxEiger.MixedCaseTypeFailsAsWritten | SsxEiger.ExperimentTypeCaseInsensitive |
| src/nexgen/command_line/cli_utils.py:316-324 | the description is passed only as the detector name, so it is missing from the keyword arguments, and underload is the literal list `["underload"]` | any Eiger or Tristan scope: the required-key check raises `ValueError` | pass the description among the keyword arguments, with the scope's own underload | not executed | CliUtils.CliDetectorParams | CliUtils.CliDetectorParamsEiger |
| src/nexgen/tools/data_writer.py:153 | a positive multiple of 1000 images gets a trailing empty dataset | 1000 images: sizes [1000, 0] against the one file the generator provides, so `ValueError` | no empty trailing dataset | not executed | DataWriter.DatasetSizesAsWrittenOverrun | DataWriter.GeneratorFilesFit |
| src/nexgen/command_line/ED_mrc_to_nexus.py:206-343 | `--facility-type` is accepted but never copied into the metadata | `--facility-type "X-ray Source"`: the source type stays "Electron Source" | the argument overrides the facility type | not executed | EdMrcToNexus.FacilityTypeArgument | EdMrcToNexus.OverwriteFromCommandLine |

=== FILE: axes.dfy ===
/** The `Axis` record of `nexgen/nxs_utils/axes.py`: a goniometer or
    detector axis with its scan parameters. */
module Axes {
  import opened Utils

  datatype TransformationType = Rotation | Translation

  /** After `__post_init__` the vector and the offset are plain triples,
      whichever form they were given in. */
  datatype Axis = Axis(
    name: string,
    depends: string,
    kind: TransformationType,
    vector: Point3D,
    startPos: real,
    increment: real,
    numSteps: int,
    offset: Point3D)

  /** How a vector or offset may be passed: a `Point3D` or a plain tuple. */
  datatype VectorArg = PointArg(p: Point3D) | TupleArg(x: real, y: real, z: real)

  function AsTriple(v: VectorArg): Point3D {
    match v
    case PointArg(p) => Point3D(p.x, p.y, p.z)
    case TupleArg(x, y, z) => Point3D(x, y, z)
  }

  /** The dataclass constructor with its defaults made explicit by the
      caller; `__post_init__` stores both vectors as triples. */
  function MakeAxis(name: string, depends: string, kind: TransformationType, vector: VectorArg,
                    startPos: real, increment: real, numSteps: int, offset: VectorArg): (r: Axis)
    ensures r.name == name && r.depends == depends && r.kind == kind
    ensures r.startPos == startPos && r.increment == increment && r.numSteps == numSteps
    ensures vector.PointArg? ==> r.vector == vector.p
    ensures vector.TupleArg? ==> r.vector == Point3D(vector.x, vector.y, vector.z)
    ensures offset.PointArg? ==> r.offset == offset.p
    ensures offset.TupleArg? ==> r.offset == Point3D(offset.x, offset.y, offset.z)
  {
    Axis(name, depends, kind, AsTriple(vector), startPos, increment, numSteps, AsTriple(offset))
  }

  /** An axis with the dataclass defaults: at 0, not moving, no steps,
      no offset. */
  function DefaultAxis(name: string, depends: string, kind: TransformationType, vector: VectorArg): (r: Axis)
    ensures r.startPos == 0.0 && r.increment == 0.0 && r.numSteps == 0
    ensures r.offset == Point3D(0.0, 0.0, 0.0)
  {
    MakeAxis(name, depends, kind, vector, 0.0, 0.0, 0, TupleArg(0.0, 0.0, 0.0))
  }

  /** The two ways of passing the same coordinates build the same axis. */
  lemma PointAndTupleAgree(name: string, depends: string, kind: TransformationType, p: Point3D,
                           startPos: real, increment: real, numSteps: int, o: Point3D)
    ensures MakeAxis(name, depends, kind, PointArg(p), startPos, increment, numSteps, PointArg(o))
         == MakeAxis(name, depends, kind, TupleArg(p.x, p.y, p.z), startPos, increment, numSteps, TupleArg(o.x, o.y, o.z))
  {
  }

  /** `units`: millimetres for a translation, degrees otherwise. */
  function Units(a: Axis): (r: string)
    ensures r == "mm" <==> a.kind == Translation
    ensures r == "deg" <==> a.kind != Translation
  {
    if a.kind == Translation then "mm" else "deg"
  }

  /** `end_pos`: the last point of a scan, counting `numSteps` points from
      the start, as scanspec does. */
  function EndPos(a: Axis): (r: real)
    ensures a.increment == 0.0 ==> r == a.startPos
    ensures a.numSteps == 1 ==> r == a.startPos
  {
    a.startPos + a.increment * (a.numSteps - 1) as real
  }

  /** `is_scan`: the axis moves. */
  predicate IsScan(a: Axis) {
    a.increment != 0.0
  }

  /** An axis moves exactly when its scan ends somewhere other than where it
      starts, given it has more than one step. */
  lemma IsScanIffEndDiffers(a: Axis)
    requires a.numSteps >= 2
    ensures IsScan(a) <==> EndPos(a) != a.startPos
  {
    if IsScan(a) {
      assert (a.numSteps - 1) as real > 0.0;
      assert a.increment * (a.numSteps - 1) as real != 0.0;
    }
  }
}

=== FILE: cli_config.dfy ===
/** The configuration models of `nexgen/command_line/cli_config.py`: the
    choice of detector kind from a raw parameter dict, the file format
    chosen by suffix, and the defaults of the goniometer and detector
    sections. Validation errors of the configuration library are
    `ValueError`s. */
module CliConfig {
  import opened Wrappers
  import opened Text
  import opened Paths
  import opened Axes
  import opened Detector
  import opened CliUtils

  // ------------------------------------------------------ detector kinds

  datatype Kind = EigerKind | TristanKind | JungfrauKind | SinglaKind | CetaKind

  /** The names looked for in a description, in the order they are tried,
      and the kind each selects. */
  const KindNames: seq<string> := ["eiger", "tristan", "jungfrau", "singla", "ceta"]
  const Kinds: seq<Kind> := [EigerKind, TristanKind, JungfrauKind, SinglaKind, CetaKind]

  function KindOf(p: DetectorParams): Kind {
    match p
    case Eiger(_, _, _, _, _, _, _) => EigerKind
    case Tristan(_, _, _, _, _, _, _) => TristanKind
    case Jungfrau(_, _, _, _, _, _, _, _) => JungfrauKind
    case Singla(_, _, _, _, _, _, _, _) => SinglaKind
    case Ceta(_, _, _, _, _, _, _, _) => CetaKind
  }

  /** The first of `names` that `text` contains selects the kind at the
      same place; none gives `ValueError`. */
  function FirstMatch(text: string, names: seq<string>, kinds: seq<Kind>): (r: Result<Kind>)
    requires |names| == |kinds|
    ensures r.Err? <==> forall i :: 0 <= i < |names| ==> !Contains(text, names[i])
    ensures r.Err? ==> r == Err(ValueError)
    ensures r.Ok? ==> exists i :: 0 <= i < |names| && Contains(text, names[i]) && kinds[i] == r.value
                                 && forall j :: 0 <= j < i ==> !Contains(text, names[j])
  {
    if |names| == 0 then Err(ValueError)
    else if Contains(text, names[0]) then Ok(kinds[0])
    else
      var r := FirstMatch(text, names[1..], kinds[1..]);
      assert forall i :: 1 <= i < |names| ==> names[i] == names[1..][i - 1] && kinds[i] == kinds[1..][i - 1];
      if r.Ok? then
        var i :| 0 <= i < |names[1..]| && Contains(text, names[1..][i]) && kinds[1..][i] == r.value
                 && forall j :: 0 <= j < i ==> !Contains(text, names[1..][j]);
        assert forall j :: 0 <= j < i + 1 ==> !Contains(text, names[j]) by {
          forall j | 0 <= j < i + 1 ensures !Contains(text, names[j]) {
            if j > 0 { assert names[j] == names[1..][j - 1]; }
          }
        }
        r
      else r
  }

  /** The kind a description names, tried in the order of `_parse_params`. */
  function DescriptionKind(description: string): (r: Result<Kind>)
    ensures Contains(Lower(description), "eiger") ==> r == Ok(EigerKind)
    ensures r == Ok(TristanKind) <==> !Contains(Lower(description), "eiger") && Contains(Lower(description), "tristan")
    ensures r == Err(ValueError) <==>
              !Contains(Lower(description), "eiger") && !Contains(Lower(description), "tristan")
              && !Contains(Lower(description), "jungfrau") && !Contains(Lower(description), "singla")
              && !Contains(Lower(description), "ceta")
  {
    var low := Lower(description);
    if Contains(low, "eiger") then Ok(EigerKind)
    else if Contains(low, "tristan") then Ok(TristanKind)
    else if Contains(low, "jungfrau") then Ok(JungfrauKind)
    else if Contains(low, "singla") then Ok(SinglaKind)
    else if Contains(low, "ceta") then Ok(CetaKind)
    else Err(ValueError)
  }

  /** The chain of tests is the first-match search over the name table. */
  lemma DescriptionKindIsFirstMatch(description: string)
    ensures DescriptionKind(description) == FirstMatch(Lower(description), KindNames, Kinds)
  {
    var low := Lower(description);
    assert FirstMatch(low, KindNames[5..], Kinds[5..]) == Err(ValueError);
    assert FirstMatch(low, KindNames[4..], Kinds[4..])
           == if Contains(low, "ceta") then Ok(CetaKind) else Err(ValueError);
    assert FirstMatch(low, KindNames[3..], Kinds[3..])
           == if Contains(low, "singla") then Ok(SinglaKind) else FirstMatch(low, KindNames[4..], Kinds[4..]);
    assert FirstMatch(low, KindNames[2..], Kinds[2..])
           == if Contains(low, "jungfrau") then Ok(JungfrauKind) else FirstMatch(low, KindNames[3..], Kinds[3..]);
    assert FirstMatch(low, KindNames[1..], Kinds[1..])
           == if Contains(low, "tristan") then Ok(TristanKind) else FirstMatch(low, KindNames[2..], Kinds[2..]);
  }

  // ------------------------------------------------------ dataclass fields

  /** The dataclass fields of each kind, in declaration order. */
  function FieldNames(k: Kind): (r: seq<string>)
    ensures |r| >= 2 && r[0] == "description" && r[1] == "image_size"
  {
    match k
    case EigerKind => ["description", "image_size", "sensor_material", "overload", "underload", "pixel_size", "detector_type"]
    case TristanKind => ["description", "image_size", "sensor_material", "sensor_thickness", "pixel_size", "detector_type", "mode"]
    case JungfrauKind => ["description", "image_size", "sensor_material", "sensor_thickness", "overload", "underload", "pixel_size", "detector_type"]
    case SinglaKind => ["description", "image_size", "sensor_material", "sensor_thickness", "overload", "underload", "pixel_size", "detector_type"]
    case CetaKind => ["description", "image_size", "pixel_size", "sensor_material", "sensor_thickness", "detector_type", "overload", "underload"]
  }

  /** The values of the fields, in the order of `FieldNames`. */
  function FieldValues(p: DetectorParams): (r: seq<Param>)
    ensures |r| == |FieldNames(KindOf(p))|
    ensures r[0] == PStr(p.description) && r[1] == PSize(p.imageSize)
  {
    match p
    case Eiger(d, s, m, o, u, px, t) => [PStr(d), PSize(s), PStr(m), PInt(o), PInt(u), PList(px), PStr(t)]
    case Tristan(d, s, m, th, px, t, mode) => [PStr(d), PSize(s), PStr(m), PStr(th), PList(px), PStr(t), PStr(mode)]
    case Jungfrau(d, s, m, th, o, u, px, t) => [PStr(d), PSize(s), PStr(m), PStr(th), PInt(o), PInt(u), PList(px), PStr(t)]
    case Singla(d, s, m, th, o, u, px, t) => [PStr(d), PSize(s), PStr(m), PStr(th), PInt(o), PInt(u), PList(px), PStr(t)]
    case Ceta(d, s, px, m, th, t, o, u) => [PStr(d), PSize(s), PList(px), PStr(m), PStr(th), PStr(t), PInt(o), PInt(u)]
  }

  /** `dataclasses.asdict`: each field name with its value. */
  function AsDict(p: DetectorParams): (r: Dict<string, Param>)
    ensures Keys(r) == FieldNames(KindOf(p)) && Values(r) == FieldValues(p)
  {
    Zip(FieldNames(KindOf(p)), FieldValues(p))
  }

  function ListParam(p: Param): (r: Result<seq<string>>) ensures r.Ok? <==> p.PList? { if p.PList? then Ok(p.items) else Err(TypeError) }

  /** The dataclass built from one value per field; a value of the wrong
      kind is refused. */
  function FromValues(k: Kind, vals: seq<Param>): (r: Result<DetectorParams>)
    requires |vals| == |FieldNames(k)|
    ensures r.Ok? ==> KindOf(r.value) == k && FieldValues(r.value) == vals
  {
    match k
    case EigerKind =>
      var d :- StrParam(vals[0]); var s :- SizeParam(vals[1]); var m :- StrParam(vals[2]);
      var o :- IntParam(vals[3]); var u :- IntParam(vals[4]); var px :- ListParam(vals[5]); var t :- StrParam(vals[6]);
      Ok(Eiger(d, s, m, o, u, px, t))
    case TristanKind =>
      var d :- StrParam(vals[0]); var s :- SizeParam(vals[1]); var m :- StrParam(vals[2]);
      var th :- StrParam(vals[3]); var px :- ListParam(vals[4]); var t :- StrParam(vals[5]); var mode :- StrParam(vals[6]);
      Ok(Tristan(d, s, m, th, px, t, mode))
    case JungfrauKind =>
      var d :- StrParam(vals[0]); var s :- SizeParam(vals[1]); var m :- StrParam(vals[2]); var th :- StrParam(vals[3]);
      var o :- IntParam(vals[4]); var u :- IntParam(vals[5]); var px :- ListParam(vals[6]); var t :- StrParam(vals[7]);
      Ok(Jungfrau(d, s, m, th, o, u, px, t))
    case SinglaKind =>
      var d :- StrParam(vals[0]); var s :- SizeParam(vals[1]); var m :- StrParam(vals[2]); var th :- StrParam(vals[3]);
      var o :- IntParam(vals[4]); var u :- IntParam(vals[5]); var px :- ListParam(vals[6]); var t :- StrParam(vals[7]);
      Ok(Singla(d, s, m, th, o, u, px, t))
    case CetaKind =>
      var d :- StrParam(vals[0]); var s :- SizeParam(vals[1]); var px :- ListParam(vals[2]); var m :- StrParam(vals[3]);
      var th :- StrParam(vals[4]); var t :- StrParam(vals[5]); var o :- IntParam(vals[6]); var u :- IntParam(vals[7]);
      Ok(Ceta(d, s, px, m, th, t, o, u))
  }

  /** Building from a dataclass's own values gives it back. */
  lemma FromValuesInverts(p: DetectorParams)
    ensures FromValues(KindOf(p), FieldValues(p)) == Ok(p)
  {
  }

  /** The number of leading fields without a default. */
  function RequiredCount(k: Kind): (n: nat)
    ensures 2 <= n <= |FieldNames(k)|
  {
    if k == EigerKind then 5 else 2
  }

  /** The dataclass of each kind with every default taken. */
  function Prototype(k: Kind): (p: DetectorParams)
    ensures KindOf(p) == k
  {
    match k
    case EigerKind => EigerDetector("", [0, 0], "", 0, 0)
    case TristanKind => TristanDetector("", [0, 0])
    case JungfrauKind => JungfrauDetector("", [0, 0])
    case SinglaKind => SinglaDetector("", [0, 0])
    case CetaKind => CetaDetector("", [0, 0])
  }

  /** The default of each field, `None` for a required one. */
  function Defaults(k: Kind): (r: seq<Option<Param>>)
    ensures |r| == |FieldNames(k)|
    ensures forall i :: 0 <= i < |r| ==> (r[i].None? <==> i < RequiredCount(k))
  {
    var proto := FieldValues(Prototype(k));
    seq(|proto|, i requires 0 <= i < |proto| => if i < RequiredCount(k) then None else Some(proto[i]))
  }

  /** One value per field: the argument given, else the default; a
      required field not given raises `TypeError`. */
  function Gather(f: Dict<string, Param>, names: seq<string>, defaults: seq<Option<Param>>): (r: Result<seq<Param>>)
    requires |names| == |defaults|
    ensures r.Ok? <==> forall i :: 0 <= i < |names| ==> HasKey(f, names[i]) || defaults[i].Some?
    ensures r.Err? ==> r == Err(TypeError)
    ensures r.Ok? ==> |r.value| == |names|
                      && forall i :: 0 <= i < |names| ==>
                           r.value[i] == (if HasKey(f, names[i]) then Get(f, names[i]).value else defaults[i].value)
  {
    if |names| == 0 then Ok([])
    else
      var v :- match Get(f, names[0])
               case Some(x) => Ok(x)
               case None => if defaults[0].Some? then Ok(defaults[0].value) else Err(TypeError);
      var rest := Gather(f, names[1..], defaults[1..]);
      assert forall i :: 1 <= i < |names| ==> names[i] == names[1..][i - 1] && defaults[i] == defaults[1..][i - 1];
      if rest.Err? then
        assert !(HasKey(f, names[1..][0]) || defaults[1..][0].Some?) || exists i :: 1 <= i < |names| && !(HasKey(f, names[i]) || defaults[i].Some?);
        Err(TypeError)
      else Ok([v] + rest.value)
  }

  /** Only the dataclass's own fields may be passed as keywords. */
  predicate OnlyFields(f: Dict<string, Param>, names: seq<string>) {
    forall i :: 0 <= i < |f| ==> f[i].0 in names
  }

  /** `KindDetector(**params)`: an unknown keyword or a missing required
      field raises `TypeError`; every field given is kept and every other
      takes its default. */
  function Build(k: Kind, f: Dict<string, Param>): (r: Result<DetectorParams>)
    ensures !OnlyFields(f, FieldNames(k)) ==> r == Err(TypeError)
    ensures (exists i :: 0 <= i < RequiredCount(k) && !HasKey(f, FieldNames(k)[i])) ==> r == Err(TypeError)
    ensures r.Ok? ==> KindOf(r.value) == k
    ensures r.Ok? ==> forall i :: 0 <= i < |FieldNames(k)| ==>
                        FieldValues(r.value)[i] == (if HasKey(f, FieldNames(k)[i]) then Get(f, FieldNames(k)[i]).value
                                                    else FieldValues(Prototype(k))[i])
  {
    if !OnlyFields(f, FieldNames(k)) then Err(TypeError)
    else
      var vals :- Gather(f, FieldNames(k), Defaults(k));
      FromValues(k, vals)
  }

  /** What `_parse_params` receives: a detector already built, or the
      raw dict of its fields. */
  datatype ParamsInput = Typed(params: DetectorParams) | Raw(fields: Dict<string, Param>)

  /** `DetectorConfig._parse_params`: a built detector passes unchanged;
      a raw dict is built as the kind its description names. A missing
      description raises `KeyError`; one that is not a string cannot be
      lowered. */
  function ParseParams(input: ParamsInput): (r: Result<DetectorParams>)
    ensures input.Typed? ==> r == Ok(input.params)
    ensures input.Raw? && !HasKey(input.fields, "description") ==> r == Err(KeyError)
    ensures input.Raw? && HasKey(input.fields, "description") && !Get(input.fields, "description").value.PStr? ==> r == Err(TypeError)
    ensures (input.Raw? && HasKey(input.fields, "description") && Get(input.fields, "description").value.PStr?
             && DescriptionKind(Get(input.fields, "description").value.s).Err?) ==> r == Err(ValueError)
    ensures input.Raw? && r.Ok? ==>
              var d := Get(input.fields, "description").value;
              d.PStr? && r.value.description == d.s && Ok(KindOf(r.value)) == DescriptionKind(d.s)
  {
    match input
    case Typed(p) => Ok(p)
    case Raw(f) =>
      var d :- Lookup(f, "description");
      var description :- StrParam(d);
      var k :- DescriptionKind(description);
      var r := Build(k, f);
      assert r.Ok? ==> FieldValues(r.value)[0] == PStr(r.value.description);
      r
  }

  /** The field names of every kind are all different. */
  lemma FieldNamesDistinct(k: Kind)
    ensures forall i, j :: 0 <= i < j < |FieldNames(k)| ==> FieldNames(k)[i] != FieldNames(k)[j]
  {
  }

  /** Parsing the dict of a detector whose description names its own
      kind gives that detector back. */
  lemma ParseAsDict(p: DetectorParams)
    requires DescriptionKind(p.description) == Ok(KindOf(p))
    ensures ParseParams(Raw(AsDict(p))) == Ok(p)
  {
    var k := KindOf(p);
    var names := FieldNames(k);
    var f := AsDict(p);
    FieldNamesDistinct(k);
    assert DistinctKeys(f) by {
      forall i, j | 0 <= i < j < |f| ensures f[i].0 != f[j].0 {
        assert f[i].0 == names[i] && f[j].0 == names[j];
      }
    }
    forall i | 0 <= i < |names| ensures Get(f, names[i]) == Some(FieldValues(p)[i]) {
      GetDistinct(f, i);
    }
    assert OnlyFields(f, names) by {
      forall i | 0 <= i < |f| ensures f[i].0 in names {
        assert f[i].0 == names[i];
      }
    }
    assert Get(f, "description") == Some(PStr(p.description));
    var g := Gather(f, names, Defaults(k));
    assert g.Ok? by {
      forall i | 0 <= i < |names| ensures HasKey(f, names[i]) {
        assert Get(f, names[i]).Some?;
      }
    }
    assert g.value == FieldValues(p);
    FromValuesInverts(p);
  }

  /** A description naming no known kind is refused, as for a detector
      called "NewDetector", whose lowered name has none of the letters
      every kind name needs. */
  lemma UnknownDescription(f: Dict<string, Param>, d: string)
    requires Get(f, "description") == Some(PStr(d))
    requires 'i' !in Lower(d) && 'j' !in Lower(d) && 'a' !in Lower(d)
    ensures ParseParams(Raw(f)) == Err(ValueError)
  {
    NoKindWithoutLetters(d);
  }

  /** Every kind name holds an 'i', a 'j' or an 'a', so a description
      without those letters names no kind. */
  lemma NoKindWithoutLetters(description: string)
    requires 'i' !in Lower(description) && 'j' !in Lower(description) && 'a' !in Lower(description)
    ensures DescriptionKind(description) == Err(ValueError)
  {
    var low := Lower(description);
    if Contains(low, "eiger") { ContainsChars(low, "eiger", 1); }
    if Contains(low, "tristan") { ContainsChars(low, "tristan", 2); }
    if Contains(low, "jungfrau") { ContainsChars(low, "jungfrau", 0); }
    if Contains(low, "singla") { ContainsChars(low, "singla", 1); }
    if Contains(low, "ceta") { ContainsChars(low, "ceta", 3); }
  }

  // -------------------------------------------------------- config sections

  datatype ScanType = RotationScan | GridScan

  function ScanTypeName(t: ScanType): string {
    match t
    case RotationScan => "rotation"
    case GridScan => "grid"
  }

  datatype GonioConfig = GonioConfig(axes: seq<Axis>, scanAxis: Option<string>, scanType: ScanType, snakedScan: bool)

  /** `GonioConfig(...)` from the fields given: `scan_axis` defaults to
      `None`, `scan_type` to "rotation" and must be "rotation" or "grid",
      `snaked_scan` to `False`. */
  function MakeGonioConfig(axes: seq<Axis>, scanAxis: Option<Option<string>>, scanType: Option<string>,
                           snakedScan: Option<bool>): (r: Result<GonioConfig>)
    ensures r.Ok? <==> scanType.None? || scanType.value == "rotation" || scanType.value == "grid"
    ensures r.Err? ==> r == Err(ValueError)
    ensures r.Ok? ==> r.value.axes == axes
    ensures r.Ok? ==> r.value.scanAxis == scanAxis.GetOr(None) && r.value.snakedScan == snakedScan.GetOr(false)
    ensures r.Ok? ==> ScanTypeName(r.value.scanType) == scanType.GetOr("rotation")
  {
    var t :- match scanType
             case None => Ok(RotationScan)
             case Some(s) => if s == "rotation" then Ok(RotationScan) else if s == "grid" then Ok(GridScan) else Err(ValueError);
    Ok(GonioConfig(axes, scanAxis.GetOr(None), t, snakedScan.GetOr(false)))
  }

  /** With only the axes given the goniometer is a plain rotation with no
      named scan axis; giving every field back rebuilds any config. */
  lemma GonioConfigDefaults(axes: seq<Axis>, c: GonioConfig)
    ensures MakeGonioConfig(axes, None, None, None) == Ok(GonioConfig(axes, None, RotationScan, false))
    ensures MakeGonioConfig(c.axes, Some(c.scanAxis), Some(ScanTypeName(c.scanType)), Some(c.snakedScan)) == Ok(c)
  {
  }

  datatype DetectorConfig = DetectorConfig(params: DetectorParams, mode: string)

  /** The detector section: its parameters parsed first, then `mode`,
      which defaults to "images" and must be "images" or "events". */
  function MakeDetectorConfig(params: ParamsInput, mode: Option<string>): (r: Result<DetectorConfig>)
    ensures ParseParams(params).Err? ==> r == Err(ParseParams(params).error)
    ensures ParseParams(params).Ok? ==>
              (r.Ok? <==> mode.None? || mode.value == "images" || mode.value == "events")
    ensures r.Ok? ==> Ok(r.value.params) == ParseParams(params) && r.value.mode == mode.GetOr("images")
  {
    var p :- ParseParams(params);
    var m := mode.GetOr("images");
    if m == "images" || m == "events" then Ok(DetectorConfig(p, m)) else Err(ValueError)
  }

  /** A detector section built once is accepted again with the mode it
      settled on, and gives the same configuration. */
  lemma DetectorConfigModeAgain(params: ParamsInput, mode: Option<string>)
    requires MakeDetectorConfig(params, mode).Ok?
    ensures MakeDetectorConfig(params, Some(MakeDetectorConfig(params, mode).value.mode))
         == MakeDetectorConfig(params, mode)
  {
  }

  // ------------------------------------------------------------ file format

  datatype Format = Json | Yaml

  /** `CliConfig.from_file`: the suffix of the file name picks the reader,
      exactly and case-sensitively; any other suffix, or none, raises
      `IOError`. */
  function ConfigFormat(file: FilePath): (r: Result<Format>)
    ensures r == Ok(Json) <==> Suffix(file.name) == ".json"
    ensures r == Ok(Yaml) <==> Suffix(file.name) == ".yaml"
    ensures r.Err? <==> Suffix(file.name) != ".json" && Suffix(file.name) != ".yaml"
    ensures r.Err? ==> r == Err(IOError)
  {
    var suffix := Suffix(file.name);
    if suffix == ".json" then Ok(Json)
    else if suffix == ".yaml" then Ok(Yaml)
    else Err(IOError)
  }

  /** A name of a stem and an extension is read as JSON or YAML exactly
      when the extension is "json" or "yaml". */
  lemma FormatOfExtension(dir: string, base: string, ext: string)
    requires |base| > 0 && |ext| > 0 && '.' !in ext
    ensures ConfigFormat(FilePath(dir, base + "." + ext)) == Ok(Json) <==> ext == "json"
    ensures ConfigFormat(FilePath(dir, base + "." + ext)) == Ok(Yaml) <==> ext == "yaml"
  {
    StemOfJoin(base, ext);
    var suffix := "." + ext;
    assert suffix[1..] == ext;
  }

  /** A name that is only the extension has no suffix, so it is refused. */
  lemma HiddenJsonRefused(dir: string)
    ensures ConfigFormat(FilePath(dir, ".json")) == Err(IOError)
  {
    RFindIsLast(".json", '.', 0);
  }
}

=== FILE: cli_utils.dfy ===
/** The pure parts of `nexgen/command_line/cli_utils.py`: cleaning parsed
    parameter scopes, splitting flat vector lists per axis, converting
    vectors to the McStas frame, and choosing the detector parameters. */
module CliUtils {
  import opened Wrappers
  import opened Text
  import opened Utils
  import Detector
  import Axes
  import ScanUtils

  // ------------------------------------------------------- parameter scopes

  /** `phil2dict`: every key containing `__phil_` is deleted. */
  function Phil2Dict<V(!new)>(d: Dict<string, V>): (r: Dict<string, V>)
    ensures forall e :: e in r <==> e in d && !Contains(e.0, "__phil_")
  {
    FilterKeys(d, k => !Contains(k, "__phil_"))
  }

  /** Cleaning twice changes nothing more. */
  lemma Phil2DictIdempotent<V(!new)>(d: Dict<string, V>)
    ensures Phil2Dict(Phil2Dict(d)) == Phil2Dict(d)
  {
    FilterAgain(d, k => !Contains(k, "__phil_"));
  }

  lemma {:induction false} FilterAgain<V(!new)>(d: Dict<string, V>, keep: string -> bool)
    ensures FilterKeys(FilterKeys(d, keep), keep) == FilterKeys(d, keep)
  {
    if |d| > 0 {
      FilterAgain(d[1..], keep);
    }
  }

  /** `add_tristan_spec`: every entry of the specification scope whose key
      lacks `__phil` is injected into the detector scope, in order. */
  function AddTristanSpec<V>(detector: Dict<string, V>, spec: Dict<string, V>): (r: Dict<string, V>)
    decreases |spec|
  {
    if |spec| == 0 then detector
    else
      var next := if Contains(spec[0].0, "__phil") then detector else Put(detector, spec[0].0, spec[0].1);
      AddTristanSpec(next, spec[1..])
  }

  /** After the injection a key takes the specification's value when the
      specification has it and it lacks `__phil`; every other key keeps
      the detector's value. */
  lemma {:induction false} AddTristanSpecGet<V>(detector: Dict<string, V>, spec: Dict<string, V>, k: string)
    requires DistinctKeys(spec)
    ensures HasKey(spec, k) && !Contains(k, "__phil") ==> Get(AddTristanSpec(detector, spec), k) == Get(spec, k)
    ensures !HasKey(spec, k) || Contains(k, "__phil") ==> Get(AddTristanSpec(detector, spec), k) == Get(detector, k)
    decreases |spec|
  {
    if |spec| > 0 {
      var next := if Contains(spec[0].0, "__phil") then detector else Put(detector, spec[0].0, spec[0].1);
      assert DistinctKeys(spec[1..]) by {
        forall a, b | 0 <= a < b < |spec[1..]| ensures spec[1..][a].0 != spec[1..][b].0 {
          assert spec[a + 1].0 != spec[b + 1].0;
        }
      }
      AddTristanSpecGet(next, spec[1..], k);
      assert Keys(spec) == [spec[0].0] + Keys(spec[1..]);
      if spec[0].0 == k {
        assert !HasKey(spec[1..], k) by {
          forall b | 0 <= b < |spec[1..]| ensures spec[1..][b].0 != k {
            assert spec[0].0 != spec[b + 1].0;
          }
        }
        if !Contains(k, "__phil") {
          GetPut(detector, k, spec[0].1);
        }
      } else if !Contains(spec[0].0, "__phil") {
        GetPutOther(detector, spec[0].0, spec[0].1, k);
      }
    }
  }

  // ------------------------------------------------------------ vector lists

  /** An element of a parsed vector list: a number, or an already split
      vector. */
  datatype Elem = Num(x: real) | Vec(v: seq<real>)

  /** `tuple(v)` of a vector: its components, each a number. */
  function Components(v: seq<real>): (r: seq<Elem>)
    ensures |r| == |v| && forall k :: 0 <= k < |v| ==> r[k] == Num(v[k])
  {
    seq(|v|, k requires 0 <= k < |v| => Num(v[k]))
  }

  predicate AllNumbers(v: seq<Elem>) {
    forall k :: 0 <= k < |v| ==> v[k].Num?
  }

  /** The numbers of a list holding only numbers. */
  function Reals(v: seq<Elem>): (r: seq<real>)
    requires AllNumbers(v)
    ensures Components(r) == v
  {
    var r := seq(|v|, k requires 0 <= k < |v| => v[k].x);
    assert Components(r) == v;
    r
  }

  /** `tuple(v)` for each element: numbers cannot be iterated. */
  function AsVectors(elems: seq<Elem>): (r: Result<seq<seq<Elem>>>)
    ensures r.Ok? <==> forall i :: 0 <= i < |elems| ==> elems[i].Vec?
    ensures r.Err? ==> r.error == TypeError
    ensures r.Ok? ==> |r.value| == |elems| && forall i :: 0 <= i < |elems| ==> r.value[i] == Components(elems[i].v)
  {
    if |elems| == 0 then Ok([])
    else if elems[0].Num? then Err(TypeError)
    else
      var rest := AsVectors(elems[1..]);
      assert forall i :: 1 <= i < |elems| ==> elems[i] == elems[1..][i - 1];
      if rest.Err? then rest else Ok([Components(elems[0].v)] + rest.value)
  }

  /** Consecutive triples of a list three times as long as `n`. */
  function Triples<T>(xs: seq<T>, n: nat): (r: seq<seq<T>>)
    requires |xs| == 3 * n
    ensures |r| == n && forall j :: 0 <= j < n ==> r[j] == xs[3 * j .. 3 * j + 3]
  {
    seq(n, j requires 0 <= j < n => xs[3 * j .. 3 * j + 3])
  }

  /** `split_arrays`: one vector per axis when the lengths agree,
      consecutive triples of whatever the list holds when it is three
      times as long, and a `ValueError` otherwise. A repeated axis name
      keeps its first place and its last vector. */
  function SplitArrays(names: seq<string>, elems: seq<Elem>): (r: Result<Dict<string, seq<Elem>>>)
    ensures r == Err(ValueError) <==> |elems| != |names| && |elems| != 3 * |names|
    ensures |elems| == 3 * |names| ==> r.Ok?
    ensures r.Ok? ==> |r.value| <= |names|
  {
    if |names| == |elems| then
      var vs :- AsVectors(elems);
      Ok(DictOf(Zip(names, vs)))
    else if |elems| == 3 * |names| then
      Ok(DictOf(Zip(names, Triples(elems, |names|))))
    else Err(ValueError)
  }

  function Flatten<T>(vs: seq<seq<T>>): (r: seq<T>) {
    if |vs| == 0 then [] else vs[0] + Flatten(vs[1..])
  }

  /** Distinct names stay distinct keys whatever values go with them. */
  lemma ZipDistinct<V>(names: seq<string>, values: seq<V>)
    requires |names| == |values| && DistinctKeys(Zip(names, names))
    ensures DistinctKeys(Zip(names, values))
    ensures Keys(Zip(names, values)) == names && Values(Zip(names, values)) == values
  {
    var pairs := Zip(names, values);
    forall a, b | 0 <= a < b < |pairs| ensures pairs[a].0 != pairs[b].0 {
      assert Zip(names, names)[a].0 == names[a] && Zip(names, names)[b].0 == names[b];
    }
  }

  /** Splitting a flat list over distinct axes and joining the triples
      again gives the list back, whatever its elements are, and axis j
      gets the j-th triple. */
  lemma SplitArraysFlatRoundTrip(names: seq<string>, elems: seq<Elem>)
    requires DistinctKeys(Zip(names, names))
    requires |names| > 0 && |elems| == 3 * |names|
    ensures SplitArrays(names, elems).Ok?
    ensures Keys(SplitArrays(names, elems).value) == names
    ensures Flatten(Values(SplitArrays(names, elems).value)) == elems
  {
    var t := Triples(elems, |names|);
    ZipDistinct(names, t);
    DictOfDistinct(Zip(names, t));
    assert SplitArrays(names, elems) == Ok(Zip(names, t));
    TriplesFlatten(elems, |names|);
  }

  lemma {:induction false} TriplesFlatten<T>(xs: seq<T>, n: nat)
    requires |xs| == 3 * n
    ensures Flatten(Triples(xs, n)) == xs
  {
    if n > 0 {
      var t := Triples(xs, n);
      TriplesFlatten(xs[3..], n - 1);
      assert t[1..] == Triples(xs[3..], n - 1) by {
        forall j | 0 <= j < n - 1 ensures t[1..][j] == Triples(xs[3..], n - 1)[j] {
          var a, b := xs[3 * (j + 1) .. 3 * (j + 1) + 3], xs[3..][3 * j .. 3 * j + 3];
          assert |a| == 3 == |b|;
          assert forall k :: 0 <= k < 3 ==> a[k] == xs[3 * j + 3 + k] == b[k];
          assert a == b;
        }
      }
      assert t[0] == xs[..3];
      assert xs[..3] + xs[3..] == xs;
    }
  }

  /** With as many vectors as distinct axes each axis gets the components
      of its own vector. */
  lemma SplitArraysPaired(names: seq<string>, elems: seq<Elem>)
    requires DistinctKeys(Zip(names, names))
    requires |elems| == |names|
    requires forall i :: 0 <= i < |elems| ==> elems[i].Vec?
    ensures SplitArrays(names, elems).Ok? && |SplitArrays(names, elems).value| == |names|
    ensures forall i :: 0 <= i < |names| ==> SplitArrays(names, elems).value[i] == (names[i], Components(elems[i].v))
  {
    var vs := AsVectors(elems).value;
    ZipDistinct(names, vs);
    DictOfDistinct(Zip(names, vs));
  }

  // ---------------------------------------------------------- frame change

  datatype GonioGeometry = GonioGeometry(axes: seq<string>, vectors: seq<Elem>, offsets: seq<Elem>)
  datatype DetectorGeometry = DetectorGeometry(axes: seq<string>, vectors: seq<Elem>)
  datatype ModuleGeometry = ModuleGeometry(fastAxis: seq<real>, slowAxis: seq<real>, offsets: Option<seq<Elem>>)

  /** The convention name and the base vectors of a user frame. */
  datatype CoordSystem = CoordSystem(convention: string, x: Point3D, y: Point3D, z: Point3D)

  /** The arrays after `reframe_arrays`. */
  datatype Reframed = Reframed(
    gonioVectors: seq<seq<Elem>>,
    gonioOffsets: seq<seq<Elem>>,
    detectorVectors: seq<seq<Elem>>,
    fastAxis: seq<real>,
    slowAxis: seq<real>,
    moduleOffsets: Option<seq<seq<Elem>>>)

  /** A 3 by 3 matrix applied to a vector: a vector of another length does
      not fit. */
  function Apply(f: Point3D -> Point3D, v: seq<real>): (r: Result<seq<real>>)
    ensures r.Ok? <==> |v| == 3
    ensures r.Ok? ==> r.value == [f(Point3D(v[0], v[1], v[2])).x, f(Point3D(v[0], v[1], v[2])).y, f(Point3D(v[0], v[1], v[2])).z]
  {
    if |v| != 3 then Err(ValueError)
    else
      var p := f(Point3D(v[0], v[1], v[2]));
      Ok([p.x, p.y, p.z])
  }

  /** The matrix applied to a split vector: it must hold three numbers. */
  function ApplyElems(f: Point3D -> Point3D, v: seq<Elem>): (r: Result<seq<Elem>>)
    ensures r.Ok? <==> |v| == 3 && AllNumbers(v)
    ensures r.Err? ==> r.error == ValueError
    ensures r.Ok? ==> Apply(f, Reals(v)).Ok? && r.value == Components(Apply(f, Reals(v)).value)
  {
    if |v| != 3 || !AllNumbers(v) then Err(ValueError)
    else Ok(Components(Apply(f, Reals(v)).value))
  }

  function ApplyAll(f: Point3D -> Point3D, vs: seq<seq<Elem>>): (r: Result<seq<seq<Elem>>>)
    ensures r.Ok? <==> forall i :: 0 <= i < |vs| ==> |vs[i]| == 3 && AllNumbers(vs[i])
    ensures r.Ok? ==> |r.value| == |vs| && forall i :: 0 <= i < |vs| ==> ApplyElems(f, vs[i]) == Ok(r.value[i])
  {
    if |vs| == 0 then Ok([])
    else
      var rest := ApplyAll(f, vs[1..]);
      assert forall i :: 1 <= i < |vs| ==> vs[i] == vs[1..][i - 1];
      if |vs[0]| != 3 || !AllNumbers(vs[0]) then Err(ValueError)
      else if rest.Err? then rest
      else Ok([ApplyElems(f, vs[0]).value] + rest.value)
  }

  /** Every elems of the geometry converted with `f`. */
  function Convert(f: Point3D -> Point3D, s: Reframed): (r: Result<Reframed>)
    ensures r.Ok? ==> ApplyAll(f, s.gonioVectors) == Ok(r.value.gonioVectors)
                      && ApplyAll(f, s.gonioOffsets) == Ok(r.value.gonioOffsets)
                      && ApplyAll(f, s.detectorVectors) == Ok(r.value.detectorVectors)
                      && Apply(f, s.fastAxis) == Ok(r.value.fastAxis) && Apply(f, s.slowAxis) == Ok(r.value.slowAxis)
                      && (r.value.moduleOffsets.Some? <==> s.moduleOffsets.Some?)
                      && (s.moduleOffsets.Some? ==> ApplyAll(f, s.moduleOffsets.value) == Ok(r.value.moduleOffsets.value))
  {
    var gv :- ApplyAll(f, s.gonioVectors);
    var go :- ApplyAll(f, s.gonioOffsets);
    var dv :- ApplyAll(f, s.detectorVectors);
    var fast :- Apply(f, s.fastAxis);
    var slow :- Apply(f, s.slowAxis);
    var mo :- if s.moduleOffsets.None? then Ok(None)
              else var o :- ApplyAll(f, s.moduleOffsets.value); Ok(Some(o));
    Ok(Reframed(gv, go, dv, fast, slow, mo))
  }

  /** The splitting step: one vector per axis, the module offsets split
      over the fast and slow axes when given. */
  function SplitGeometry(g: GonioGeometry, d: DetectorGeometry, m: ModuleGeometry): (r: Result<Reframed>)
    ensures r.Ok? ==> r.value.fastAxis == m.fastAxis && r.value.slowAxis == m.slowAxis
    ensures r.Ok? ==> (r.value.moduleOffsets.Some? <==> m.offsets.Some?)
  {
    var gv :- SplitArrays(g.axes, g.vectors);
    var go :- SplitArrays(g.axes, g.offsets);
    var dv :- SplitArrays(d.axes, d.vectors);
    var mo :- if m.offsets.None? then Ok(None)
              else var o :- SplitArrays(["fast_axis", "slow_axis"], m.offsets.value); Ok(Some(Values(o)));
    Ok(Reframed(Values(gv), Values(go), Values(dv), m.fastAxis, m.slowAxis, mo))
  }

  function ImgcifConversion(p: Point3D): Point3D { Imgcif2Mcstas(p) }

  /** `reframe_arrays`: split, then convert unless the frame is already
      McStas; imgCIF has its own fixed conversion, any other frame must
      match the convention of the coordinate system given. */
  function ReframeArrays(g: GonioGeometry, d: DetectorGeometry, m: ModuleGeometry,
                         frame: string, system: Option<CoordSystem>): (r: Result<Reframed>)
    ensures r.Ok? ==> SplitGeometry(g, d, m).Ok?
    ensures Lower(frame) == "mcstas" ==> r == SplitGeometry(g, d, m)
    ensures Lower(frame) == "imgcif" && SplitGeometry(g, d, m).Ok? ==>
              r == Convert(ImgcifConversion, SplitGeometry(g, d, m).value)
    ensures (Lower(frame) != "mcstas" && Lower(frame) != "imgcif" && SplitGeometry(g, d, m).Ok?
             && system.Some? && system.value.convention != frame) ==> r == Err(ValueError)
  {
    var split :- SplitGeometry(g, d, m);
    if Lower(frame) == "mcstas" then Ok(split)
    else if Lower(frame) == "imgcif" then Convert(ImgcifConversion, split)
    else
      match system
      case None => Err(TypeError)
      case Some(c) =>
        if frame != c.convention then Err(ValueError)
        else
          var mat := Mat3(c.x, c.y, c.z);
          Convert(p => Coord2Mcstas(p, mat), split)
  }

  /** Each of `turned` is the imgCIF mapping of the vector of `plain` at
      the same place: first and last components negated, and mapping it
      again gives that vector back. */
  predicate ImgcifTurned(plain: seq<seq<Elem>>, turned: seq<seq<Elem>>) {
    |plain| == |turned|
    && forall i :: 0 <= i < |plain| ==>
         |plain[i]| == 3 && AllNumbers(plain[i])
         && turned[i] == [Num(-plain[i][0].x), plain[i][1], Num(-plain[i][2].x)]
         && ApplyElems(ImgcifConversion, turned[i]) == Ok(plain[i])
  }

  /** In any spelling of imgCIF the goniometer vectors are the split
      vectors turned into McStas. */
  lemma ImgcifReframesSplit(g: GonioGeometry, d: DetectorGeometry, m: ModuleGeometry,
                            frame: string, system: Option<CoordSystem>)
    requires Lower(frame) == "imgcif"
    requires ReframeArrays(g, d, m, frame, system).Ok?
    ensures SplitGeometry(g, d, m).Ok?
    ensures ImgcifTurned(SplitGeometry(g, d, m).value.gonioVectors, ReframeArrays(g, d, m, frame, system).value.gonioVectors)
  {
    var split := SplitGeometry(g, d, m).value;
    var reframed := ReframeArrays(g, d, m, frame, system).value;
    assert Convert(ImgcifConversion, split) == Ok(reframed);
    ConvertedImgcif(split.gonioVectors, reframed.gonioVectors);
  }

  lemma ConvertedImgcif(plain: seq<seq<Elem>>, turned: seq<seq<Elem>>)
    requires ApplyAll(ImgcifConversion, plain) == Ok(turned)
    ensures ImgcifTurned(plain, turned)
  {
    forall i | 0 <= i < |plain|
      ensures |plain[i]| == 3 && AllNumbers(plain[i])
              && turned[i] == [Num(-plain[i][0].x), plain[i][1], Num(-plain[i][2].x)]
              && ApplyElems(ImgcifConversion, turned[i]) == Ok(plain[i])
    {
      assert ApplyElems(ImgcifConversion, plain[i]) == Ok(turned[i]);
      ImgcifTwice(plain[i]);
    }
  }

  /** The imgCIF mapping negates the first and last components, so it
      undoes itself. */
  lemma ImgcifTwice(v: seq<Elem>)
    requires |v| == 3 && AllNumbers(v)
    ensures ApplyElems(ImgcifConversion, v) == Ok([Num(-v[0].x), v[1], Num(-v[2].x)])
    ensures ApplyElems(ImgcifConversion, [Num(-v[0].x), v[1], Num(-v[2].x)]) == Ok(v)
  {
    var w := [Num(-v[0].x), v[1], Num(-v[2].x)];
    assert Reals(v) == [v[0].x, v[1].x, v[2].x];
    assert Reals(w) == [-v[0].x, v[1].x, -v[2].x];
    assert [--v[0].x, v[1].x, --v[2].x] == Reals(v);
  }

  // ------------------------------------------------------ detector settings

  /** A keyword argument value as parsed from the command line. */
  datatype Param = PStr(s: string) | PInt(i: int) | PSize(size: seq<int>) | PBool(b: bool)
                 | PList(items: seq<string>) | PNone

  function StrParam(p: Param): (r: Result<string>) ensures r.Ok? <==> p.PStr? { if p.PStr? then Ok(p.s) else Err(TypeError) }
  function IntParam(p: Param): (r: Result<int>) ensures r.Ok? <==> p.PInt? { if p.PInt? then Ok(p.i) else Err(TypeError) }
  function SizeParam(p: Param): (r: Result<seq<int>>) ensures r.Ok? <==> p.PSize? { if p.PSize? then Ok(p.size) else Err(TypeError) }

  const TristanRequired: seq<string> := ["description", "image_size"]
  const EigerRequired: seq<string> := ["description", "image_size", "sensor_material", "overload", "underload"]

  predicate HasAll(params: Dict<string, Param>, keys: seq<string>) {
    forall k :: k in keys ==> HasKey(params, k)
  }

  /** Some constant of the table, named by its keys, is among the
      parameters. */
  predicate OverridesConstant(params: Dict<string, Param>, names: seq<string>) {
    exists i :: 0 <= i < |names| && HasKey(params, names[i])
  }

  /** The parameters chosen, and whether the Eiger constants table was
      emptied (every value set to `None`), which happens in place when
      no meta file is used and only the five required values are given. */
  datatype DetectorSetup = DetectorSetup(params: Detector.DetectorParams, constantsCleared: bool)

  /** The Tristan branch: the two required values, and no constant may
      be passed when more are given. */
  function TristanParams(params: Dict<string, Param>): (r: Result<DetectorSetup>)
    ensures !HasAll(params, TristanRequired) ==> r == Err(ValueError)
    ensures r.Ok? ==> r.value.params.Tristan? && !r.value.constantsCleared
                      && Ok(r.value.params.description) == StrParam(Get(params, "description").value)
                      && (|params| > 2 ==> !OverridesConstant(params, Detector.TristanConstantNames))
  {
    if !HasAll(params, TristanRequired) then Err(ValueError)
    else
      var description :- StrParam(Get(params, "description").value);
      var size :- SizeParam(Get(params, "image_size").value);
      if |params| > 2 && OverridesConstant(params, Detector.TristanConstantNames) then Err(TypeError)
      else Ok(DetectorSetup(Detector.TristanDetector(description, size), false))
  }

  /** The Eiger branch: the five required values; without a meta file
      no constant may be passed when more are given, and the table is
      emptied when exactly five are. */
  function EigerParams(params: Dict<string, Param>, useMeta: bool): (r: Result<DetectorSetup>)
    ensures !HasAll(params, EigerRequired) ==> r == Err(ValueError)
    ensures r.Ok? ==> r.value.params.Eiger?
                      && Ok(r.value.params.underload) == IntParam(Get(params, "underload").value)
                      && (r.value.constantsCleared <==> !useMeta && |params| == 5)
                      && (!useMeta && |params| > 5 ==> !OverridesConstant(params, Detector.EigerConstantNames))
  {
    if !HasAll(params, EigerRequired) then Err(ValueError)
    else
      EigerRequiredPresent(params);
      var description :- StrParam(Get(params, "description").value);
      var size :- SizeParam(Get(params, "image_size").value);
      var material :- StrParam(Get(params, "sensor_material").value);
      var overload :- IntParam(Get(params, "overload").value);
      var underload :- IntParam(Get(params, "underload").value);
      var p := Detector.EigerDetector(description, size, material, overload, underload);
      if !useMeta && |params| > 5 && OverridesConstant(params, Detector.EigerConstantNames) then Err(TypeError)
      else Ok(DetectorSetup(p, !useMeta && |params| == 5))
  }

  lemma EigerRequiredPresent(params: Dict<string, Param>)
    requires HasAll(params, EigerRequired)
    ensures HasKey(params, "description") && HasKey(params, "image_size") && HasKey(params, "sensor_material")
            && HasKey(params, "overload") && HasKey(params, "underload")
  {
    assert EigerRequired[0] == "description" && EigerRequired[1] == "image_size";
    assert EigerRequired[2] == "sensor_material" && EigerRequired[3] == "overload" && EigerRequired[4] == "underload";
  }

  /** `set_detector_params`: a name mentioning Tristan is checked first,
      then one mentioning Eiger; no other detector is supported. The
      constants are assigned with `det_params[k] = ...`, which a
      parameters dataclass does not support, so passing any constant
      raises `TypeError`. Values of the wrong kind are outside the model. */
  function SetDetectorParams(name: string, useMeta: bool, params: Dict<string, Param>): (r: Result<DetectorSetup>)
    ensures !Contains(Lower(name), "tristan") && !Contains(Lower(name), "eiger") ==> r == Err(UnknownDetectorTypeError)
    ensures Contains(Lower(name), "tristan") ==> r == TristanParams(params)
    ensures !Contains(Lower(name), "tristan") && Contains(Lower(name), "eiger") ==> r == EigerParams(params, useMeta)
  {
    if Contains(Lower(name), "tristan") then TristanParams(params)
    else if Contains(Lower(name), "eiger") then EigerParams(params, useMeta)
    else Err(UnknownDetectorTypeError)
  }

  /** The Eiger constants the detector description passes on: every key
      of the table that the detector scope has, in the table's order. */
  function PassedConstants(detector: Dict<string, Param>): (r: Dict<string, Param>)
    ensures forall e :: e in r ==> e.0 in Detector.EigerConstantNames && Get(detector, e.0) == Some(e.1)
    ensures forall k :: k in Detector.EigerConstantNames && HasKey(detector, k) ==> (k, Get(detector, k).value) in r
  {
    PickFrom(detector, Detector.EigerConstantNames)
  }

  /** The entries of `detector` under the given keys, for the keys it
      has, in the keys' order. */
  function PickFrom(detector: Dict<string, Param>, keys: seq<string>): (r: Dict<string, Param>)
    ensures forall e :: e in r ==> e.0 in keys && Get(detector, e.0) == Some(e.1)
    ensures forall k :: k in keys && HasKey(detector, k) ==> (k, Get(detector, k).value) in r
  {
    if |keys| == 0 then []
    else
      var rest := PickFrom(detector, keys[1..]);
      match Get(detector, keys[0])
      case None => rest
      case Some(v) => [(keys[0], v)] + rest
  }

  /** Picking under two runs of keys picks under the first run, then
      under the second: the entries keep the keys' order. */
  lemma {:induction false} PickFromAppend(detector: Dict<string, Param>, a: seq<string>, b: seq<string>)
    ensures PickFrom(detector, a + b) == PickFrom(detector, a) + PickFrom(detector, b)
  {
    if |a| > 0 {
      assert (a + b)[1..] == a[1..] + b;
      PickFromAppend(detector, a[1..], b);
    } else {
      assert a + b == b;
    }
  }

  /** The keyword arguments `call_writers` passes to
      `set_detector_params`. As written the description goes only into
      the detector name, not into the keyword arguments, and the
      underload is the literal list `["underload"]`; the corrected call
      passes both from the scope. */
  function CliKwargs(asWritten: bool, detector: Dict<string, Param>, name: string): (r: Result<Dict<string, Param>>)
    ensures r.Ok? && asWritten ==> !HasKey(r.value, "description")
    ensures r.Ok? && asWritten ==> Get(r.value, "underload") == Some(PList(["underload"]))
    ensures r.Ok? && !asWritten ==> Get(r.value, "description") == Get(detector, "description")
                                    && Get(r.value, "underload") == Get(detector, "underload")
  {
    var constants := if Contains(Lower(name), "eiger") then PassedConstants(detector) else [];
    var size :- Lookup(detector, "image_size");
    var material :- Lookup(detector, "sensor_material");
    var overload :- Lookup(detector, "overload");
    var underload :- if asWritten then Ok(PList(["underload"])) else Lookup(detector, "underload");
    var kwargs := [("image_size", size), ("sensor_material", material), ("overload", overload), ("underload", underload)];
    ConstantsLackDescription(constants);
    if asWritten then
      AsWrittenKwargs(size, material, overload, underload, constants);
      Ok(kwargs + constants)
    else
      var description :- Lookup(detector, "description");
      CorrectedKwargs(description, size, material, overload, underload, constants);
      Ok([("description", description)] + kwargs + constants)
  }

  lemma AsWrittenKwargs(size: Param, material: Param, overload: Param, underload: Param, constants: Dict<string, Param>)
    requires !HasKey(constants, "description")
    ensures var all := [("image_size", size), ("sensor_material", material), ("overload", overload), ("underload", underload)] + constants;
            Get(all, "underload") == Some(underload) && !HasKey(all, "description")
  {
    var kwargs := [("image_size", size), ("sensor_material", material), ("overload", overload), ("underload", underload)];
    FourKeys(kwargs);
    GetDistinct(kwargs, 3);
    GetKeepsPrefix(kwargs, constants, "underload");
    HasKeyAppend(kwargs, constants, "description");
  }

  /** The four keyword names passed besides the constants are different
      from each other and from "description". */
  lemma FourKeys(kwargs: Dict<string, Param>)
    requires |kwargs| == 4 && Keys(kwargs) == ["image_size", "sensor_material", "overload", "underload"]
    ensures DistinctKeys(kwargs) && !HasKey(kwargs, "description")
  {
    assert kwargs[0].0 == "image_size" && kwargs[1].0 == "sensor_material";
    assert kwargs[2].0 == "overload" && kwargs[3].0 == "underload";
  }

  lemma CorrectedKwargs(description: Param, size: Param, material: Param, overload: Param, underload: Param,
                        constants: Dict<string, Param>)
    ensures var all := [("description", description)]
                       + [("image_size", size), ("sensor_material", material), ("overload", overload), ("underload", underload)]
                       + constants;
            Get(all, "underload") == Some(underload) && Get(all, "description") == Some(description)
  {
    var kwargs := [("description", description)]
                  + [("image_size", size), ("sensor_material", material), ("overload", overload), ("underload", underload)];
    assert DistinctKeys(kwargs);
    GetDistinct(kwargs, 4);
    GetKeepsPrefix(kwargs, constants, "underload");
    GetKeepsPrefix(kwargs, constants, "description");
  }

  lemma ConstantsLackDescription(constants: Dict<string, Param>)
    requires forall e :: e in constants ==> e.0 in Detector.EigerConstantNames
    ensures !HasKey(constants, "description") && !HasKey(constants, "underload")
  {
    assert "description" !in Detector.EigerConstantNames && "underload" !in Detector.EigerConstantNames;
    forall i | 0 <= i < |constants| ensures constants[i].0 != "description" && constants[i].0 != "underload" {
      assert constants[i] in constants;
    }
  }

  lemma {:induction false} GetKeepsPrefix<V>(a: Dict<string, V>, b: Dict<string, V>, k: string)
    requires HasKey(a, k)
    ensures Get(a + b, k) == Get(a, k)
  {
    if a[0].0 != k {
      assert (a + b)[1..] == a[1..] + b;
      GetKeepsPrefix(a[1..], b, k);
    }
  }

  /** `call_writers` choosing the detector parameters. */
  function CliDetectorParams(asWritten: bool, detector: Dict<string, Param>, metafile: bool): (r: Result<DetectorSetup>)
    ensures asWritten ==> r.Err?
  {
    var description :- Lookup(detector, "description");
    var name :- StrParam(description);
    var kwargs :- CliKwargs(asWritten, detector, name);
    SetDetectorNeedsDescription(name, metafile, kwargs);
    SetDetectorParams(name, metafile, kwargs)
  }

  /** Neither supported detector can be set up without a description. */
  lemma SetDetectorNeedsDescription(name: string, useMeta: bool, params: Dict<string, Param>)
    ensures !HasKey(params, "description") ==> SetDetectorParams(name, useMeta, params).Err?
  {
    assert "description" in TristanRequired && "description" in EigerRequired;
  }

  /** The corrected call: an Eiger scope with the five required values
      and no constants, used with a meta file, gives the Eiger with the
      scope's own underload. */
  lemma CliDetectorParamsEiger(detector: Dict<string, Param>, d: string, size: seq<int>,
                               material: string, overload: int, underload: int)
    requires Get(detector, "description") == Some(PStr(d)) && Contains(Lower(d), "eiger") && !Contains(Lower(d), "tristan")
    requires Get(detector, "image_size") == Some(PSize(size))
    requires Get(detector, "sensor_material") == Some(PStr(material))
    requires Get(detector, "overload") == Some(PInt(overload))
    requires Get(detector, "underload") == Some(PInt(underload))
    requires forall k :: k in Detector.EigerConstantNames ==> !HasKey(detector, k)
    ensures CliDetectorParams(false, detector, true) == Ok(DetectorSetup(Detector.EigerDetector(d, size, material, overload, underload), false))
  {
    var params := [("description", PStr(d)), ("image_size", PSize(size)), ("sensor_material", PStr(material)),
                   ("overload", PInt(overload)), ("underload", PInt(underload))];
    KwargsWithoutConstants(detector, d, size, material, overload, underload);
    assert CliDetectorParams(false, detector, true) == SetDetectorParams(d, true, params);
    SetEiger(d, size, material, overload, underload);
  }

  lemma SetEiger(d: string, size: seq<int>, material: string, overload: int, underload: int)
    ensures var params := [("description", PStr(d)), ("image_size", PSize(size)), ("sensor_material", PStr(material)),
                           ("overload", PInt(overload)), ("underload", PInt(underload))];
            EigerParams(params, true) == Ok(DetectorSetup(Detector.EigerDetector(d, size, material, overload, underload), false))
  {
    var params := [("description", PStr(d)), ("image_size", PSize(size)), ("sensor_material", PStr(material)),
                   ("overload", PInt(overload)), ("underload", PInt(underload))];
    RequiredLookups(params);
    EigerWithMeta(params, d, size, material, overload, underload);
  }

  /** Five entries under the five required names, in that order, are
      found where they stand. */
  lemma RequiredLookups(params: Dict<string, Param>)
    requires |params| == 5
    requires params[0].0 == "description" && params[1].0 == "image_size" && params[2].0 == "sensor_material"
    requires params[3].0 == "overload" && params[4].0 == "underload"
    ensures Get(params, "description") == Some(params[0].1) && Get(params, "image_size") == Some(params[1].1)
    ensures Get(params, "sensor_material") == Some(params[2].1) && Get(params, "overload") == Some(params[3].1)
    ensures Get(params, "underload") == Some(params[4].1)
  {
    assert DistinctKeys(params);
    GetDistinct(params, 0);
    GetDistinct(params, 1);
    GetDistinct(params, 2);
    GetDistinct(params, 3);
    GetDistinct(params, 4);
  }

  /** A scope with no Eiger constant passes exactly the five required
      values, description first. */
  lemma KwargsWithoutConstants(detector: Dict<string, Param>, d: string, size: seq<int>,
                               material: string, overload: int, underload: int)
    requires Get(detector, "description") == Some(PStr(d))
    requires Get(detector, "image_size") == Some(PSize(size))
    requires Get(detector, "sensor_material") == Some(PStr(material))
    requires Get(detector, "overload") == Some(PInt(overload))
    requires Get(detector, "underload") == Some(PInt(underload))
    requires forall k :: k in Detector.EigerConstantNames ==> !HasKey(detector, k)
    ensures CliKwargs(false, detector, d)
            == Ok([("description", PStr(d)), ("image_size", PSize(size)), ("sensor_material", PStr(material)),
                   ("overload", PInt(overload)), ("underload", PInt(underload))])
  {
    NothingPicked(detector, Detector.EigerConstantNames);
    assert PassedConstants(detector) == [];
    assert Lookup(detector, "description") == Ok(PStr(d));
    assert Lookup(detector, "image_size") == Ok(PSize(size));
    assert Lookup(detector, "sensor_material") == Ok(PStr(material));
    assert Lookup(detector, "overload") == Ok(PInt(overload));
    assert Lookup(detector, "underload") == Ok(PInt(underload));
    var kwargs := [("image_size", PSize(size)), ("sensor_material", PStr(material)),
                   ("overload", PInt(overload)), ("underload", PInt(underload))];
    var constants := if Contains(Lower(d), "eiger") then PassedConstants(detector) else [];
    assert constants == [];
    assert CliKwargs(false, detector, d) == Ok([("description", PStr(d))] + kwargs + constants);
    var full := [("description", PStr(d)), ("image_size", PSize(size)), ("sensor_material", PStr(material)),
                 ("overload", PInt(overload)), ("underload", PInt(underload))];
    ConsFour(("description", PStr(d)), kwargs[0], kwargs[1], kwargs[2], kwargs[3]);
    assert full + [] == full;
  }

  lemma ConsFour<T>(a: T, b: T, c: T, d: T, e: T)
    ensures [a] + [b, c, d, e] == [a, b, c, d, e]
  {
  }

  /** With a meta file, the five required values are all the Eiger
      branch reads. */
  lemma EigerWithMeta(params: Dict<string, Param>, d: string, size: seq<int>,
                      material: string, overload: int, underload: int)
    requires Get(params, "description") == Some(PStr(d))
    requires Get(params, "image_size") == Some(PSize(size))
    requires Get(params, "sensor_material") == Some(PStr(material))
    requires Get(params, "overload") == Some(PInt(overload))
    requires Get(params, "underload") == Some(PInt(underload))
    ensures EigerParams(params, true) == Ok(DetectorSetup(Detector.EigerDetector(d, size, material, overload, underload), false))
  {
    assert HasAll(params, EigerRequired) by {
      forall k | k in EigerRequired ensures HasKey(params, k) {
        assert Get(params, k).Some?;
      }
    }
  }

  lemma {:induction false} NothingPicked(detector: Dict<string, Param>, keys: seq<string>)
    requires forall k :: k in keys ==> !HasKey(detector, k)
    ensures PickFrom(detector, keys) == []
  {
    if |keys| > 0 {
      NothingPicked(detector, keys[1..]);
    }
  }

  // ------------------------------------------------------------ scan steps

  /** The step count `call_writers` gives a goniometer axis: the image
      count for a moving axis of an image collection, 0 for a still axis
      or event data. */
  function GonioNumSteps(increment: real, dataType: (string, int)): (n: int)
    ensures n != 0 <==> dataType.0 == "images" && increment != 0.0 && dataType.1 != 0
    ensures n != 0 ==> n == dataType.1
  {
    var num := if increment == 0.0 then 0 else dataType.1;
    if dataType.0 == "images" then num else 0
  }

  /** A moving rotation axis of an image collection, given that step
      count, has a rotation scan of one position per image, from its start
      to its end. */
  lemma GonioAxisScansImages(a: Axes.Axis, dataType: (string, int))
    requires a.kind == Axes.Rotation && a.increment != 0.0
    requires dataType.0 == "images" && dataType.1 >= 1
    requires a.numSteps == GonioNumSteps(a.increment, dataType)
    ensures var r := ScanUtils.CalculateScanPoints(a, None, true, true, None);
            && r.Ok? && |r.value| == 1 && r.value[0].0 == a.name
            && |r.value[0].1| == dataType.1 && r.value[0].1[0] == a.startPos
            && (dataType.1 >= 2 ==> r.value[0].1[dataType.1 - 1] == Axes.EndPos(a))
  {
    ScanUtils.RotationScanPoints(a, None);
  }
}

=== FILE: data_writer.dfy ===
/** The blank-image generator of `nexgen/tools/data_writer.py`: the Eiger
    and Tristan gap masks and the split of the images into datasets of at
    most 1000. Writing the HDF5 files is left out; an image is the
    sequence of its rows. */
module DataWriter {
  import opened Wrappers
  import opened Text

  /** Module counts: (across the fast axis, along the slow axis). */
  type Layout = (nat, nat)

  const EigerModules: seq<(string, Layout)> := [("1M", (1, 2)), ("4M", (2, 4)), ("9M", (3, 6)), ("16M", (4, 8))]
  const TristanModules: seq<(string, Layout)> := [("10M", (2, 5)), ("2M", (1, 2))]

  /** Module and gap sizes in pixels, as (slow, fast). */
  const EigerModSize: (nat, nat) := (512, 1028)
  const EigerGapSize: (nat, nat) := (38, 12)
  const TristanModSize: (nat, nat) := (515, 2069)
  const TristanGapSize: (nat, nat) := (117, 45)

  /** The value of a gap pixel; every other pixel is 0. */
  const GapValue := 65535

  type Image = seq<seq<int>>

  // ---------------------------------------------------------- module count

  /** The module count for a description: every table key found in it
      replaces the count, so the last key found wins; without any the
      starting value stays. */
  function ModuleLayout(desc: string, table: seq<(string, Layout)>, start: Option<Layout>): (r: Option<Layout>)
    ensures (forall i :: 0 <= i < |table| ==> !Contains(desc, table[i].0)) ==> r == start
    ensures (exists i :: 0 <= i < |table| && Contains(desc, table[i].0)) ==>
              exists i :: 0 <= i < |table| && Contains(desc, table[i].0) && r == Some(table[i].1)
                          && forall j :: i < j < |table| ==> !Contains(desc, table[j].0)
    decreases |table|
  {
    if |table| == 0 then start
    else
      var next := if Contains(desc, table[0].0) then Some(table[0].1) else start;
      var r := ModuleLayout(desc, table[1..], next);
      assert forall i :: 1 <= i < |table| ==> table[i] == table[1..][i - 1];
      r
  }

  // --------------------------------------------------------------- stripes

  /** Pixel `x` lies in the `k`-th gap after the modules (from 1): from the
      end of `k` modules and `k - 1` gaps to the end of `k` modules and
      `k` gaps. */
  predicate InStripe(x: int, k: int, mod: nat, gap: nat) {
    k * mod + (k - 1) * gap <= x < k * (mod + gap)
  }

  predicate InGapStripes(x: int, n: nat, mod: nat, gap: nat) {
    exists k :: 1 <= k <= n && InStripe(x, k, mod, gap)
  }

  /** The half-open pixel ranges a loop over `1..n` paints. */
  function StripeRanges(n: nat, mod: nat, gap: nat): (r: seq<(int, int)>)
    ensures |r| == n
    ensures forall k :: 0 <= k < n ==> r[k] == ((k + 1) * mod + k * gap, (k + 1) * (mod + gap))
  {
    seq(n, k requires 0 <= k < n => ((k + 1) * mod + k * gap, (k + 1) * (mod + gap)))
  }

  predicate Covered(x: int, ranges: seq<(int, int)>) {
    exists j :: 0 <= j < |ranges| && ranges[j].0 <= x < ranges[j].1
  }

  lemma StripeRangesCover(x: int, n: nat, mod: nat, gap: nat)
    ensures Covered(x, StripeRanges(n, mod, gap)) <==> InGapStripes(x, n, mod, gap)
  {
    var r := StripeRanges(n, mod, gap);
    if Covered(x, r) {
      var j :| 0 <= j < |r| && r[j].0 <= x < r[j].1;
      assert InStripe(x, j + 1, mod, gap);
    }
    if InGapStripes(x, n, mod, gap) {
      var k :| 1 <= k <= n && InStripe(x, k, mod, gap);
      assert r[k - 1].0 <= x < r[k - 1].1;
    }
  }

  /** A quotient fixed by a remainder below the divisor. */
  lemma DivideExactly(a: int, b: int, q: int, m: int)
    requires b > 0 && a == q * b + m && 0 <= m < b
    ensures a / b == q && a % b == m
  {
    var q' := a / b;
    var m' := a % b;
    assert a == q' * b + m';
    if q' > q {
      MulMonotone(q + 1, q', b);
      assert false;
    } else if q' < q {
      MulMonotone(q' + 1, q, b);
      assert false;
    }
  }

  /** The stripes in closed form: `x` is a gap pixel exactly when `x +
      gap` sits within the first `gap` pixels of a period of `mod + gap`,
      in periods 1 to `n`. */
  lemma StripesClosedForm(x: int, n: nat, mod: nat, gap: nat)
    requires mod > 0 && gap > 0
    ensures InGapStripes(x, n, mod, gap)
            <==> (x + gap) % (mod + gap) < gap && 1 <= (x + gap) / (mod + gap) <= n
  {
    var p := mod + gap;
    if InGapStripes(x, n, mod, gap) {
      var k :| 1 <= k <= n && InStripe(x, k, mod, gap);
      StripeQuotient(x, k, mod, gap);
    }
    if (x + gap) % p < gap && 1 <= (x + gap) / p <= n {
      QuotientStripe(x, mod, gap);
    }
  }

  lemma StripeQuotient(x: int, k: int, mod: nat, gap: nat)
    requires mod > 0 && gap > 0 && InStripe(x, k, mod, gap)
    ensures (x + gap) % (mod + gap) < gap && (x + gap) / (mod + gap) == k
  {
    var p := mod + gap;
    Distribute(k, mod, gap);
    DivideExactly(x + gap, p, k, x + gap - k * p);
  }

  lemma QuotientStripe(x: int, mod: nat, gap: nat)
    requires mod > 0 && gap > 0 && (x + gap) % (mod + gap) < gap
    ensures InStripe(x, (x + gap) / (mod + gap), mod, gap)
  {
    var p := mod + gap;
    var k := (x + gap) / p;
    assert x + gap == k * p + (x + gap) % p;
    Distribute(k, mod, gap);
  }

  lemma Distribute(k: int, mod: int, gap: int)
    ensures k * (mod + gap) == k * mod + k * gap && (k - 1) * gap == k * gap - gap
  {
  }

  /** No gap crosses the active area of a module: pixel `x` of the
      module `k` (from 0) is never in a stripe. */
  lemma ModulesActive(k: nat, x: nat, n: nat, mod: nat, gap: nat)
    requires mod > 0 && gap > 0 && x < mod
    ensures !InGapStripes(k * (mod + gap) + x, n, mod, gap)
  {
    var p := mod + gap;
    var y := k * p + x;
    StripesClosedForm(y, n, mod, gap);
    if x + gap < p {
      DivideExactly(y + gap, p, k, x + gap);
    } else {
      DivideExactly(y + gap, p, k + 1, x + gap - p);
    }
  }

  /** The column in the middle of Eiger module `k`: the gap inside it
      covers this column and the one before. */
  function Mid(k: int): int {
    EigerModSize.1 / 2 + k * (EigerModSize.1 + EigerGapSize.1)
  }

  function IntraRanges(n: nat): (r: seq<(int, int)>)
    ensures |r| == n
    ensures forall k :: 0 <= k < n ==> r[k] == (Mid(k) - 1, Mid(k) + 1)
  {
    seq(n, k requires 0 <= k < n => (Mid(k) - 1, Mid(k) + 1))
  }

  predicate InIntraGap(x: int, n: nat) {
    exists k :: 0 <= k < n && (x == Mid(k) - 1 || x == Mid(k))
  }

  lemma IntraRangesCover(x: int, n: nat)
    ensures Covered(x, IntraRanges(n)) <==> InIntraGap(x, n)
  {
    var r := IntraRanges(n);
    if Covered(x, r) {
      var j :| 0 <= j < |r| && r[j].0 <= x < r[j].1;
      assert x == Mid(j) - 1 || x == Mid(j);
    }
    if InIntraGap(x, n) {
      var k :| 0 <= k < n && (x == Mid(k) - 1 || x == Mid(k));
      assert r[k].0 <= x < r[k].1;
    }
  }

  /** Painting each range in turn, as the slice assignments do: a slice
      past the end of the axis paints only what lies inside it. */
  method PaintRanges(width: nat, ranges: seq<(int, int)>) returns (mask: seq<bool>)
    ensures |mask| == width
    ensures forall x :: 0 <= x < width ==> (mask[x] <==> Covered(x, ranges))
  {
    mask := seq(width, _ => false);
    var i := 0;
    while i < |ranges|
      invariant 0 <= i <= |ranges|
      invariant |mask| == width
      invariant forall x :: 0 <= x < width ==> (mask[x] <==> Covered(x, ranges[..i]))
    {
      var lo, hi := ranges[i].0, ranges[i].1;
      var prev := mask;
      mask := seq(width, x requires 0 <= x < width => prev[x] || (lo <= x < hi));
      forall x | 0 <= x < width
        ensures mask[x] <==> Covered(x, ranges[..i + 1])
      {
        if Covered(x, ranges[..i + 1]) {
          var j :| 0 <= j < i + 1 && ranges[..i + 1][j].0 <= x < ranges[..i + 1][j].1;
          if j < i { assert ranges[..i][j] == ranges[..i + 1][j]; }
        }
        if Covered(x, ranges[..i]) {
          var j :| 0 <= j < i && ranges[..i][j].0 <= x < ranges[..i][j].1;
          assert ranges[..i + 1][j] == ranges[..i][j];
        }
        if lo <= x < hi {
          assert ranges[..i + 1][i] == ranges[i];
        }
      }
      i := i + 1;
    }
    assert ranges[..|ranges|] == ranges;
  }

  /** The image with the painted columns and rows at the gap value. */
  function MaskImage(rows: nat, cols: seq<bool>, rowMask: seq<bool>): (im: Image)
    requires |rowMask| == rows
    ensures |im| == rows && forall y :: 0 <= y < rows ==> |im[y]| == |cols|
    ensures forall y, x :: 0 <= y < rows && 0 <= x < |cols| ==>
              im[y][x] == (if cols[x] || rowMask[y] then GapValue else 0)
  {
    seq(rows, y requires 0 <= y < rows => seq(|cols|, x requires 0 <= x < |cols| => if cols[x] || rowMask[y] then GapValue else 0))
  }

  /** Eiger gap pixels: a column stripe, the two middle columns of a
      module, or a row stripe. */
  predicate EigerGap(y: int, x: int, n: Layout) {
    InGapStripes(x, n.0, EigerModSize.1, EigerGapSize.1) || InIntraGap(x, n.0)
    || InGapStripes(y, n.1, EigerModSize.0, EigerGapSize.0)
  }

  predicate TristanGap(y: int, x: int, n: Layout) {
    InGapStripes(x, n.0, TristanModSize.1, TristanGapSize.1) || InGapStripes(y, n.1, TristanModSize.0, TristanGapSize.0)
  }

  predicate Shaped(im: Image, size: (nat, nat)) {
    |im| == size.0 && forall y :: 0 <= y < |im| ==> |im[y]| == size.1
  }

  /** `build_an_eiger`: the module count comes from the upper-cased
      description, else from `nModules`; without either indexing `None`
      raises `TypeError`. */
  method BuildAnEiger(size: (nat, nat), desc: string, nModules: Option<Layout>) returns (r: Result<Image>)
    ensures r.Err? <==> ModuleLayout(Upper(desc), EigerModules, nModules).None?
    ensures r.Err? ==> r == Err(TypeError)
    ensures r.Ok? ==> var n := ModuleLayout(Upper(desc), EigerModules, nModules).value;
                      Shaped(r.value, size)
                      && forall y, x :: 0 <= y < size.0 && 0 <= x < size.1 ==>
                           r.value[y][x] == (if EigerGap(y, x, n) then GapValue else 0)
  {
    var layout := ModuleLayout(Upper(desc), EigerModules, nModules);
    if layout.None? {
      return Err(TypeError);
    }
    var n := layout.value;
    var cols := PaintRanges(size.1, StripeRanges(n.0, EigerModSize.1, EigerGapSize.1) + IntraRanges(n.0));
    var rowMask := PaintRanges(size.0, StripeRanges(n.1, EigerModSize.0, EigerGapSize.0));
    var im := MaskImage(size.0, cols, rowMask);
    forall x | 0 <= x < size.1
      ensures cols[x] <==> InGapStripes(x, n.0, EigerModSize.1, EigerGapSize.1) || InIntraGap(x, n.0)
    {
      CoveredAppend(x, StripeRanges(n.0, EigerModSize.1, EigerGapSize.1), IntraRanges(n.0));
      StripeRangesCover(x, n.0, EigerModSize.1, EigerGapSize.1);
      IntraRangesCover(x, n.0);
    }
    forall y | 0 <= y < size.0
      ensures rowMask[y] <==> InGapStripes(y, n.1, EigerModSize.0, EigerGapSize.0)
    {
      StripeRangesCover(y, n.1, EigerModSize.0, EigerGapSize.0);
    }
    return Ok(im);
  }

  lemma CoveredAppend(x: int, a: seq<(int, int)>, b: seq<(int, int)>)
    ensures Covered(x, a + b) <==> Covered(x, a) || Covered(x, b)
  {
    if Covered(x, a + b) {
      var j :| 0 <= j < |a + b| && (a + b)[j].0 <= x < (a + b)[j].1;
      if j >= |a| { assert (a + b)[j] == b[j - |a|]; }
    }
    if Covered(x, b) {
      var j :| 0 <= j < |b| && b[j].0 <= x < b[j].1;
      assert (a + b)[|a| + j] == b[j];
    }
    if Covered(x, a) {
      var j :| 0 <= j < |a| && a[j].0 <= x < a[j].1;
      assert (a + b)[j] == a[j];
    }
  }

  /** `build_a_tristan`: the same stripes with the Tristan sizes and no
      gap inside a module; a description naming no known size leaves the
      count unbound (`UnboundLocalError`, a `NameError`). */
  method BuildATristan(size: (nat, nat), desc: string) returns (r: Result<Image>)
    ensures r.Err? <==> ModuleLayout(Upper(desc), TristanModules, None).None?
    ensures r.Err? ==> r == Err(NameError)
    ensures r.Ok? ==> var n := ModuleLayout(Upper(desc), TristanModules, None).value;
                      Shaped(r.value, size)
                      && forall y, x :: 0 <= y < size.0 && 0 <= x < size.1 ==>
                           r.value[y][x] == (if TristanGap(y, x, n) then GapValue else 0)
  {
    var layout := ModuleLayout(Upper(desc), TristanModules, None);
    if layout.None? {
      return Err(NameError);
    }
    var n := layout.value;
    var cols := PaintRanges(size.1, StripeRanges(n.0, TristanModSize.1, TristanGapSize.1));
    var rowMask := PaintRanges(size.0, StripeRanges(n.1, TristanModSize.0, TristanGapSize.0));
    forall x | 0 <= x < size.1
      ensures cols[x] <==> InGapStripes(x, n.0, TristanModSize.1, TristanGapSize.1)
    {
      StripeRangesCover(x, n.0, TristanModSize.1, TristanGapSize.1);
    }
    forall y | 0 <= y < size.0
      ensures rowMask[y] <==> InGapStripes(y, n.1, TristanModSize.0, TristanGapSize.0)
    {
      StripeRangesCover(y, n.1, TristanModSize.0, TristanGapSize.0);
    }
    return Ok(MaskImage(size.0, cols, rowMask));
  }

  /** Inside an Eiger module, away from its two middle columns, a pixel
      is active. */
  lemma EigerModuleInterior(n: Layout, i: nat, j: nat, x: nat, y: nat)
    requires x < EigerModSize.1 && y < EigerModSize.0 && x != Mid(0) - 1 && x != Mid(0)
    ensures !EigerGap(j * (EigerModSize.0 + EigerGapSize.0) + y, i * (EigerModSize.1 + EigerGapSize.1) + x, n)
  {
    ModulesActive(i, x, n.0, EigerModSize.1, EigerGapSize.1);
    ModulesActive(j, y, n.1, EigerModSize.0, EigerGapSize.0);
    var c := i * (EigerModSize.1 + EigerGapSize.1) + x;
    forall k | 0 <= k < n.0 ensures c != Mid(k) - 1 && c != Mid(k) {
      if k < i {
        MulMonotone(k + 1, i, EigerModSize.1 + EigerGapSize.1);
      } else if k > i {
        MulMonotone(i + 1, k, EigerModSize.1 + EigerGapSize.1);
      }
    }
  }

  // -------------------------------------------------------------- datasets

  function Sum(s: seq<nat>): nat {
    if |s| == 0 then 0 else s[0] + Sum(s[1..])
  }

  lemma {:induction false} SumAppend(a: seq<nat>, b: seq<nat>)
    ensures Sum(a + b) == Sum(a) + Sum(b)
    decreases |a|
  {
    if |a| > 0 {
      SumAppend(a[1..], b);
      assert (a + b)[1..] == a[1..] + b;
    } else {
      assert a + b == b;
    }
  }

  function Thousands(k: nat): (r: seq<nat>)
    ensures |r| == k && forall i :: 0 <= i < k ==> r[i] == 1000
  {
    seq(k, _ => 1000)
  }

  lemma {:induction false} SumThousands(k: nat)
    ensures Sum(Thousands(k)) == 1000 * k
  {
    if k > 0 {
      SumThousands(k - 1);
      assert Thousands(k)[1..] == Thousands(k - 1);
    }
  }

  /** The dataset sizes as written: `n / 1000` full datasets and one of
      `n % 1000` images, even when that is 0. */
  function DatasetSizesAsWritten(n: nat): (r: seq<nat>)
    ensures |r| == n / 1000 + 1
    ensures Sum(r) == n
    ensures forall i :: 0 <= i < |r| - 1 ==> r[i] == 1000
    ensures r[|r| - 1] == n % 1000
  {
    var r := Thousands(n / 1000) + [n % 1000];
    SumAppend(Thousands(n / 1000), [n % 1000]);
    SumThousands(n / 1000);
    r
  }

  /** The split the disabled branches beside it describe: no empty
      trailing dataset. */
  function DatasetSizes(n: nat): (r: seq<nat>)
    ensures Sum(r) == n
    ensures forall i :: 0 <= i < |r| ==> r[i] <= 1000
    ensures n > 0 ==> forall i :: 0 <= i < |r| ==> r[i] > 0
    ensures forall i :: 0 <= i < |r| - 1 ==> r[i] == 1000
  {
    if n <= 1000 then [n]
    else if n % 1000 == 0 then
      SumThousands(n / 1000);
      Thousands(n / 1000)
    else DatasetSizesAsWritten(n)
  }

  /** The number of files the blank-data generator asks for: one up to
      1000 images, else one per started thousand. */
  function FileCount(n: nat): (r: nat)
    ensures (r - 1) * 1000 < n <= r * 1000 || (n == 0 && r == 1)
  {
    if n <= 1000 then 1 else (n + 999) / 1000
  }

  lemma DatasetSizesFitFiles(n: nat)
    ensures |DatasetSizes(n)| == FileCount(n)
  {
  }

  /** A count that is a positive multiple of 1000 gets one dataset more
      than the files the generator provides. */
  lemma DatasetSizesAsWrittenOverrun(n: nat)
    requires n > 0 && n % 1000 == 0
    ensures |DatasetSizesAsWritten(n)| == FileCount(n) + 1
  {
  }

  /** Any other count splits the same way in both versions. */
  lemma DatasetSizesAgree(n: nat)
    requires n % 1000 != 0 || n == 0
    ensures DatasetSizesAsWritten(n) == DatasetSizes(n)
  {
  }

  /** What the blank-image writer produces: the image repeated in every
      file, and the file with its image count. */
  datatype BlankFiles = BlankFiles(image: Image, datasets: seq<(string, nat)>)

  function Zeros(size: (nat, nat)): (im: Image)
    ensures Shaped(im, size) && forall y, x :: 0 <= y < size.0 && 0 <= x < size.1 ==> im[y][x] == 0
  {
    seq(size.0, _ => seq(size.1, _ => 0))
  }

  /** `generate_image_files`: the image by detector family, then the
      split, which must give one dataset per file. `asWritten` selects the
      split as written. */
  method GenerateImageFiles(datafiles: seq<string>, size: (nat, nat), desc: string, total: nat, asWritten: bool)
    returns (r: Result<BlankFiles>)
    ensures var sizes := if asWritten then DatasetSizesAsWritten(total) else DatasetSizes(total);
            r.Ok? ==> |sizes| == |datafiles| && |r.value.datasets| == |datafiles|
                      && forall i :: 0 <= i < |datafiles| ==> r.value.datasets[i] == (datafiles[i], sizes[i])
    ensures var sizes := if asWritten then DatasetSizesAsWritten(total) else DatasetSizes(total);
            |sizes| != |datafiles| ==> r.Err?
    ensures r.Ok? ==> Shaped(r.value.image, size)
    ensures !Contains(Lower(desc), "eiger") && !Contains(Lower(desc), "tristan") ==>
              var sizes := if asWritten then DatasetSizesAsWritten(total) else DatasetSizes(total);
              (r.Ok? <==> |sizes| == |datafiles|) && (r.Err? ==> r == Err(ValueError))
              && (r.Ok? ==> r.value.image == Zeros(size))
  {
    var image: Image;
    if Contains(Lower(desc), "eiger") {
      var built := BuildAnEiger(size, desc, None);
      if built.Err? { return Err(built.error); }
      image := built.value;
    } else if Contains(Lower(desc), "tristan") {
      var built := BuildATristan(size, desc);
      if built.Err? { return Err(built.error); }
      image := built.value;
    } else {
      image := Zeros(size);
    }
    var sizes := if asWritten then DatasetSizesAsWritten(total) else DatasetSizes(total);
    if |sizes| != |datafiles| {
      return Err(ValueError);
    }
    var datasets := seq(|datafiles|, i requires 0 <= i < |datafiles| => (datafiles[i], sizes[i]));
    return Ok(BlankFiles(image, datasets));
  }

  /** As written, asking the writer for a positive multiple of 1000 images
      in the files the generator provides fails. */
  method ThousandImagesRejected(datafiles: seq<string>, size: (nat, nat), desc: string, k: nat)
    returns (r: Result<BlankFiles>)
    requires k > 0 && |datafiles| == FileCount(1000 * k)
    ensures r.Err?
  {
    DatasetSizesAsWrittenOverrun(1000 * k);
    r := GenerateImageFiles(datafiles, size, desc, 1000 * k, true);
  }

  /** Corrected, the files the generator provides always fit the split,
      and the image counts add up to the total. */
  lemma GeneratorFilesFit(n: nat)
    ensures |DatasetSizes(n)| == FileCount(n) && Sum(DatasetSizes(n)) == n
  {
    DatasetSizesFitFiles(n);
  }
}

=== FILE: detector.dfy ===
/** The detector descriptions of `nexgen/nxs_utils/detector.py`: the five
    detector kinds with their defaults and derived properties, the module
    record and the `Detector` accessors. */
module Detector {
  import opened Wrappers
  import opened Text
  import opened Utils
  import opened Axes

  /** The parameters of each detector kind; image sizes are lists, slow first. */
  datatype DetectorParams =
    | Eiger(description: string, imageSize: seq<int>, sensorMaterial: string, overload: int, underload: int,
            pixelSize: seq<string>, detectorType: string)
    | Tristan(description: string, imageSize: seq<int>, sensorMaterial: string, thickness: string,
              pixelSize: seq<string>, detectorType: string, mode: string)
    | Ceta(description: string, imageSize: seq<int>, pixelSize: seq<string>, sensorMaterial: string,
           thickness: string, detectorType: string, overload: int, underload: int)
    | Singla(description: string, imageSize: seq<int>, sensorMaterial: string, thickness: string,
             overload: int, underload: int, pixelSize: seq<string>, detectorType: string)
    | Jungfrau(description: string, imageSize: seq<int>, sensorMaterial: string, thickness: string,
               overload: int, underload: int, pixelSize: seq<string>, detectorType: string)

  /** The dataclass constructors with every default taken. */
  function EigerDetector(description: string, imageSize: seq<int>, material: string, overload: int, underload: int): DetectorParams {
    Eiger(description, imageSize, material, overload, underload, ["0.075mm", "0.075mm"], "Pixel")
  }

  function TristanDetector(description: string, imageSize: seq<int>): DetectorParams {
    Tristan(description, imageSize, "Si", "0.5mm", ["5.5e-05m", "5.5e-05m"], "Pixel", "events")
  }

  function CetaDetector(description: string, imageSize: seq<int>): DetectorParams {
    Ceta(description, imageSize, ["0.014mm", "0.014mm"], "Si", "0.014mm", "CMOS", 1000000, -1000)
  }

  function SinglaDetector(description: string, imageSize: seq<int>): DetectorParams {
    Singla(description, imageSize, "Si", "0.450mm", 199996, -1, ["0.075mm", "0.075mm"], "HPC")
  }

  function JungfrauDetector(description: string, imageSize: seq<int>): DetectorParams {
    Jungfrau(description, imageSize, "Si", "0.320mm", 1000000, -10, ["0.075mm", "0.075mm"], "Pixel")
  }

  /** `sensor_thickness`: an Eiger's follows from its material, every
      other kind stores its own. */
  function SensorThickness(p: DetectorParams): (t: string)
    ensures p.Eiger? ==> (t == "0.450mm" <==> p.sensorMaterial == "Si")
    ensures p.Eiger? && p.sensorMaterial != "Si" ==> t == "0.750mm"
    ensures !p.Eiger? ==> t == p.thickness
  {
    if p.Eiger? then (if p.sensorMaterial == "Si" then "0.450mm" else "0.750mm") else p.thickness
  }

  /** `hasMeta`: only the Eiger and the Tristan write a meta file. */
  predicate HasMeta(p: DetectorParams) {
    p.Eiger? || p.Tristan?
  }

  /** A value of a constants table. */
  datatype Constant = CStr(s: string) | CBool(b: bool) | CInt(i: int) | CNone

  /** The table shared by the detectors without a meta file. */
  function NoFileConstants(version: string): Dict<string, Constant> {
    [("flatfield", CNone), ("flatfield_applied", CBool(false)), ("pixel_mask", CNone),
     ("pixel_mask_applied", CBool(false)), ("software_version", CStr(version))]
  }

  /** The keys of the Eiger and Tristan tables, in order. */
  const EigerConstantNames: seq<string> :=
    ["flatfield", "flatfield_applied", "pixel_mask", "pixel_mask_applied", "bit_depth_readout",
     "bit_depth_image", "detector_readout_time", "threshold_energy", "photon_energy",
     "software_version", "ntrigger"]

  const TristanConstantNames: seq<string> :=
    ["flatfield", "flatfield_applied", "pixel_mask", "pixel_mask_applied", "software_version",
     "detector_tick", "detector_frequency", "timeslice_rollover"]

  /** The Eiger table: where in the meta file each value is found. */
  const EigerConstants: Dict<string, Constant> :=
    Zip(EigerConstantNames,
        [CStr("flatfield"),
         CStr("_dectris/flatfield_correction_applied"),
         CStr("mask"),
         CStr("_dectris/pixel_mask_applied"),
         CStr("_dectris/bit_depth_image"),
         CStr("_dectris/bit_depth_image"),
         CStr("_dectris/detector_readout_time"),
         CStr("_dectris/threshold_energy"),
         CStr("_dectris/photon_energy"),
         CStr("_dectris/software_version"),
         CStr("/_dectris/ntrigger")])

  /** The Tristan table: the values themselves. */
  const TristanConstants: Dict<string, Constant> :=
    Zip(TristanConstantNames,
        [CStr("Tristan10M_flat_field_coeff_with_Mo_17.479keV.h5"),
         CBool(false),
         CStr("Tristan10M_mask_with_spec.h5"),
         CBool(false),
         CStr("1.1.3"),
         CStr("1562.5ps"),
         CStr("6.4e+08Hz"),
         CInt(18)])

  /** `constants`. */
  function Constants(p: DetectorParams): Dict<string, Constant> {
    match p
    case Eiger(_, _, _, _, _, _, _) => EigerConstants
    case Tristan(_, _, _, _, _, _, _) => TristanConstants
    case _ => NoFileConstants("0.0.0")
  }

  const CommonConstantKeys: seq<string> :=
    ["flatfield", "flatfield_applied", "pixel_mask", "pixel_mask_applied", "software_version"]

  /** Every kind's table has the five entries the writers look up, with
      the mask and flatfield first. */
  lemma ConstantsHaveCommonKeys(p: DetectorParams)
    ensures |Constants(p)| >= 5
    ensures Keys(Constants(p))[..4] == CommonConstantKeys[..4]
    ensures HasKey(Constants(p), "software_version")
    ensures !HasMeta(p) ==> Keys(Constants(p)) == CommonConstantKeys
  {
    if p.Eiger? {
      NamesLeadWithCommon(EigerConstantNames, 9);
    } else if p.Tristan? {
      NamesLeadWithCommon(TristanConstantNames, 4);
    } else {
      NoFileKeys("0.0.0");
      NamesLeadWithCommon(CommonConstantKeys, 4);
    }
  }

  lemma NoFileKeys(version: string)
    ensures Keys(NoFileConstants(version)) == CommonConstantKeys
  {
    var c := NoFileConstants(version);
    assert Keys(c)[0] == "flatfield" && Keys(c)[1] == "flatfield_applied" && Keys(c)[2] == "pixel_mask";
    assert Keys(c)[3] == "pixel_mask_applied" && Keys(c)[4] == "software_version";
  }

  /** A key list that starts like the common one and names the software
      version at `i`. */
  lemma NamesLeadWithCommon(names: seq<string>, i: nat)
    requires |names| >= 5 && i < |names| && names[i] == "software_version"
    requires names[0] == "flatfield" && names[1] == "flatfield_applied"
    requires names[2] == "pixel_mask" && names[3] == "pixel_mask_applied"
    ensures names[..4] == CommonConstantKeys[..4] && "software_version" in names
  {
  }

  /** The detectors with a meta file are exactly those whose constants
      name a place to find the pixel mask. */
  lemma MetaFileHoldsMask(p: DetectorParams)
    ensures HasMeta(p) <==> Get(Constants(p), "pixel_mask").value.CStr?
  {
    var c := Constants(p);
    assert c[0].0 == "flatfield" && c[1].0 == "flatfield_applied" && c[2].0 == "pixel_mask";
    GetThird(c, "pixel_mask");
  }

  lemma GetThird<V>(d: Dict<string, V>, k: string)
    requires |d| >= 3 && d[0].0 != k && d[1].0 != k && d[2].0 == k
    ensures Get(d, k) == Some(d[2].1)
  {
    assert Get(d, k) == Get(d[1..], k) == Get(d[1..][1..], k);
    assert d[1..][1..][0] == d[2];
  }

  /** The module vectors as given, and the offset. */
  datatype DetectorModule = DetectorModule(fastAxis: Point3D, slowAxis: Point3D, moduleOffset: string)

  /** `DetectorModule(fast, slow)`: both vectors stored as triples, the
      offset "1". */
  function MakeModule(fast: VectorArg, slow: VectorArg): (m: DetectorModule)
    ensures m.moduleOffset == "1"
    ensures fast.PointArg? ==> m.fastAxis == fast.p
    ensures fast.TupleArg? ==> m.fastAxis == Point3D(fast.x, fast.y, fast.z)
    ensures slow.PointArg? ==> m.slowAxis == slow.p
    ensures slow.TupleArg? ==> m.slowAxis == Point3D(slow.x, slow.y, slow.z)
  {
    DetectorModule(AsTriple(fast), AsTriple(slow), "1")
  }

  lemma ModulePointAndTupleAgree(f: Point3D, s: Point3D)
    ensures MakeModule(PointArg(f), PointArg(s)) == MakeModule(TupleArg(f.x, f.y, f.z), TupleArg(s.x, s.y, s.z))
  {
  }

  datatype ModuleField = Vec(v: Point3D) | OffsetName(s: string)

  /** `get_module_info`: the module as a dictionary of exactly its three
      fields. */
  function ModuleInfo(m: DetectorModule): (d: Dict<string, ModuleField>)
    ensures Keys(d) == ["fast_axis", "slow_axis", "module_offset"]
  {
    [("fast_axis", Vec(m.fastAxis)), ("slow_axis", Vec(m.slowAxis)), ("module_offset", OffsetName(m.moduleOffset))]
  }

  /** The module can be rebuilt from its dictionary. */
  function ModuleFromInfo(d: Dict<string, ModuleField>): Option<DetectorModule> {
    var f :- Get(d, "fast_axis");
    var s :- Get(d, "slow_axis");
    var o :- Get(d, "module_offset");
    if f.Vec? && s.Vec? && o.OffsetName? then Some(DetectorModule(f.v, s.v, o.s)) else None
  }

  lemma ModuleInfoRoundTrip(m: DetectorModule)
    ensures ModuleFromInfo(ModuleInfo(m)) == Some(m)
  {
    var d := ModuleInfo(m);
    assert Get(d, "fast_axis") == Some(Vec(m.fastAxis));
    assert Get(d, "slow_axis") == Some(Vec(m.slowAxis));
    assert Get(d, "module_offset") == Some(OffsetName(m.moduleOffset));
  }

  datatype Detector = Detector(
    params: DetectorParams,
    axes: seq<Axis>,
    beamCentre: (real, real),
    exposureTime: real,
    detModule: DetectorModule)

  /** `Detector(params, axes, beam_center, exposure_time, module_vectors)`. */
  function MakeDetector(params: DetectorParams, axes: seq<Axis>, beamCentre: (real, real), exposureTime: real,
                        vectors: (VectorArg, VectorArg)): (d: Detector)
    ensures d.detModule == MakeModule(vectors.0, vectors.1)
  {
    Detector(params, axes, beamCentre, exposureTime, MakeModule(vectors.0, vectors.1))
  }

  /** `get_detector_mode`: the Tristan's own mode, "images" for every kind
      that has no mode field. */
  function DetectorMode(d: Detector): (m: string)
    ensures d.params.Tristan? ==> m == d.params.mode
    ensures !d.params.Tristan? ==> m == "images"
  {
    if d.params.Tristan? then d.params.mode else "images"
  }

  /** A Tristan records events unless told otherwise; an Eiger always
      records images. */
  lemma DefaultModes(description: string, size: seq<int>, axes: seq<Axis>, bc: (real, real), t: real,
                     vs: (VectorArg, VectorArg), material: string, over: int, under: int)
    ensures DetectorMode(MakeDetector(TristanDetector(description, size), axes, bc, t, vs)) == "events"
    ensures DetectorMode(MakeDetector(EigerDetector(description, size, material, over, under), axes, bc, t, vs)) == "images"
    ensures DetectorMode(MakeDetector(TristanDetector(description, size).(mode := "images"), axes, bc, t, vs)) == "images"
  {
  }

  /** The stored thicknesses of the defaults, and an Eiger's by material. */
  lemma ThicknessExamples(description: string, size: seq<int>, over: int, under: int)
    ensures SensorThickness(EigerDetector(description, size, "Si", over, under)) == "0.450mm"
    ensures SensorThickness(EigerDetector(description, size, "CdTe", over, under)) == "0.750mm"
    ensures SensorThickness(TristanDetector(description, size)) == "0.5mm"
    ensures SensorThickness(SinglaDetector(description, size)) == "0.450mm"
    ensures SensorThickness(JungfrauDetector(description, size)) == "0.320mm"
    ensures SensorThickness(CetaDetector(description, size)) == "0.014mm"
  {
  }
}

=== FILE: ed_mrc_to_nexus.dfy ===
/** The metadata template of `nexgen/command_line/ED_mrc_to_nexus.py`:
    the defaults, the detector presets for the TVIPS and Ceta-D cameras,
    the values read from an MRC header, the command-line overrides and
    the completeness check, in the order `main` applies them. Reading the
    MRC header is a parameter (an `MrcHeader` record). */
module EdMrcToNexus {
  import opened Wrappers
  import opened Text
  import MrcTools

  type Vec3 = (real, real, real)

  /** The `Metadata` dataclass; the fields that default to `None` are
      options. */
  datatype Metadata = Metadata(
    mrcFiles: seq<string>,
    detectorName: string,
    facilityName: string,
    facilityId: string,
    facilityShortName: string,
    facilityType: string,
    detectorDistance: Option<real>,
    wavelength: Option<real>,
    angleStart: Option<real>,
    angleIncrement: Option<real>,
    exposureTime: Option<real>,
    beamCenter: Option<(real, real)>,
    rotationAxis: Vec3,
    fastAxis: Vec3,
    slowAxis: Vec3,
    pixelSize: Option<real>,
    sensorMaterial: string,
    sensorThickness: real,
    detectorType: string,
    overload: Option<real>,
    underload: Option<real>,
    dataType: Option<string>,
    originalDataType: Option<string>,
    pixelNumberX: Option<int>,
    pixelNumberY: Option<int>,
    numImages: Option<int>,
    source: string)

  /** `Metadata(mrc_files)` with every default. */
  function DefaultMetadata(files: seq<string>): Metadata {
    Metadata(files, "unknown", "unknown", "unknown", "unknown", "Electron Source",
             None, None, None, None, None, None,
             (0.0, -1.0, 0.0), (-1.0, 0.0, 0.0), (0.0, -1.0, 0.0),
             None, "Si", 0.0, "CMOS", None, None, None, None, None, None, None, "electron")
  }

  /** Every field that defaults to `None` has been set. */
  predicate Complete(m: Metadata) {
    m.detectorDistance.Some? && m.wavelength.Some? && m.angleStart.Some? && m.angleIncrement.Some?
    && m.exposureTime.Some? && m.beamCenter.Some? && m.pixelSize.Some? && m.overload.Some?
    && m.underload.Some? && m.dataType.Some? && m.originalDataType.Some? && m.pixelNumberX.Some?
    && m.pixelNumberY.Some? && m.numImages.Some?
  }

  /** `check_metadata`: any field still `None` raises `ValueError`. */
  function CheckMetadata(m: Metadata): (r: Result<()>)
    ensures r.Ok? <==> Complete(m)
    ensures r.Err? ==> r == Err(ValueError)
  {
    if Complete(m) then Ok(()) else Err(ValueError)
  }

  /** A fresh template lacks the experiment's values, so it never passes
      the check. */
  lemma DefaultsIncomplete(files: seq<string>)
    ensures CheckMetadata(DefaultMetadata(files)) == Err(ValueError)
  {
  }

  // ---------------------------------------------------------- MRC header

  /** The entries of the header dictionary the template uses; those an
      older or non-FEI extended header lacks are options. */
  datatype MrcHeader = MrcHeader(
    dataShape: seq<nat>,
    originalDataType: string,
    nx: int,
    ny: int,
    cameraLength: Option<real>,
    wavelength: Option<real>,
    alphaTilt: Option<real>,
    tiltPerImage: Option<real>,
    integrationTime: Option<real>,
    beamCentreX: Option<real>,
    beamCentreY: Option<real>)

  // ------------------------------------------------------ detector presets

  /** The TVIPS binning: a square image of 4096/b pixels for b in 1, 2, 4,
      8; any other size raises `ValueError`. */
  function TvipsBinning(nx: int, ny: int): (r: Result<nat>)
    ensures r.Ok? <==> nx == ny && (nx == 4096 || nx == 2048 || nx == 1024 || nx == 512)
    ensures r.Ok? ==> r.value * nx == 4096 && (r.value == 1 || r.value == 2 || r.value == 4 || r.value == 8)
    ensures r.Err? ==> r == Err(ValueError)
  {
    if nx == 4096 && ny == 4096 then Ok(1)
    else if nx == 2048 && ny == 2048 then Ok(2)
    else if nx == 1024 && ny == 1024 then Ok(4)
    else if nx == 512 && ny == 512 then Ok(8)
    else Err(ValueError)
  }

  /** `overwrite_from_tvips`: the TVIPS name, pixel size and rotation
      axis, and the saturation scaled by the square of the binning; no
      other field changes. */
  function OverwriteFromTvips(m: Metadata, h: MrcHeader): (r: Result<Metadata>)
    ensures r.Ok? <==> TvipsBinning(h.nx, h.ny).Ok?
    ensures r.Err? ==> r == Err(ValueError)
    ensures r.Ok? ==> var b := TvipsBinning(h.nx, h.ny).value;
                      r.value.detectorName == "TVIPS Detector" && r.value.pixelSize == Some(0.0155 * b as real)
                      && r.value.overload == Some((8000 * b * b) as real) && r.value.underload == Some(0.0)
                      && r.value.rotationAxis == (1.0, 0.0, 0.0)
    ensures r.Ok? ==> r.value.(detectorName := m.detectorName, pixelSize := m.pixelSize, overload := m.overload,
                               underload := m.underload, rotationAxis := m.rotationAxis) == m
  {
    var b :- TvipsBinning(h.nx, h.ny);
    Ok(m.(detectorName := "TVIPS Detector", pixelSize := Some(0.0155 * b as real), overload := Some((8000 * b * b) as real),
          underload := Some(0.0), rotationAxis := (1.0, 0.0, 0.0)))
  }

  /** The TVIPS saturation in terms of the image width: 8000 times the
      square of 4096 over the width. */
  lemma TvipsOverloadByWidth(m: Metadata, h: MrcHeader)
    requires OverwriteFromTvips(m, h).Ok?
    ensures OverwriteFromTvips(m, h).value.overload.value * (h.nx * h.nx) as real == (8000 * 4096 * 4096) as real
  {
    var b := TvipsBinning(h.nx, h.ny).value;
    assert b * h.nx == 4096;
    calc {
      8000 * b * b * h.nx * h.nx;
      8000 * (b * h.nx) * (b * h.nx);
      8000 * 4096 * 4096;
    }
  }

  /** The Ceta-D binning: 2 for a 2048 by 2048 image, 1 for any other. */
  function CetadBinning(nx: int, ny: int): (b: nat)
    ensures b == 2 <==> nx == 2048 && ny == 2048
    ensures b == 1 || b == 2
  {
    if nx == 2048 && ny == 2048 then 2 else 1
  }

  /** `overwrite_from_cetad`. As written the facility name is assigned to
      an attribute `facility` that the template does not have, so the
      facility name keeps its value; the corrected version sets it. The
      pixel counts are likewise assigned to misspelt attributes, which
      `overwrite_from_mrc` makes harmless by setting the real fields from
      the same header. */
  function OverwriteFromCetad(m: Metadata, h: MrcHeader, asWritten: bool): (r: Metadata)
    ensures var b := CetadBinning(h.nx, h.ny);
            r.detectorName == "Thermo Fisher Ceta-D" && r.pixelSize == Some(0.014 * b as real)
            && r.overload == Some((8000 * b * b) as real) && r.underload == Some(-1000.0)
            && r.facilityShortName == "" && r.facilityType == "Electron Source" && r.facilityId == "DIAMOND"
            && r.dataType == Some("int32")
    ensures asWritten ==> r.facilityName == m.facilityName
    ensures !asWritten ==> r.facilityName == "Diamond Light Source"
    ensures r.(detectorName := m.detectorName, pixelSize := m.pixelSize, overload := m.overload,
               underload := m.underload, facilityName := m.facilityName, facilityShortName := m.facilityShortName,
               facilityType := m.facilityType, facilityId := m.facilityId, dataType := m.dataType) == m
  {
    var b := CetadBinning(h.nx, h.ny);
    var preset := m.(detectorName := "Thermo Fisher Ceta-D", pixelSize := Some(0.014 * b as real),
                     overload := Some((8000 * b * b) as real), underload := Some(-1000.0), facilityShortName := "",
                     facilityType := "Electron Source", facilityId := "DIAMOND", dataType := Some("int32"));
    if asWritten then preset else preset.(facilityName := "Diamond Light Source")
  }

  /** As written a Ceta-D run keeps the default facility name "unknown",
      which becomes the beamline name of the NeXus source; corrected it is
      the facility the preset describes. */
  lemma CetadFacilityName(files: seq<string>, h: MrcHeader)
    ensures OverwriteFromCetad(DefaultMetadata(files), h, true).facilityName == "unknown"
    ensures OverwriteFromCetad(DefaultMetadata(files), h, false).facilityName == "Diamond Light Source"
  {
  }

  // ----------------------------------------------------- header and options

  /** `overwrite_from_mrc`: the image count from a three-dimensional stack,
      else the number of files; the optional values only when the header
      has them (the beam centre only with both coordinates); the data
      types and pixel counts always. */
  function OverwriteFromMrc(m: Metadata, h: MrcHeader): (r: Metadata)
    ensures r.numImages == Some(if |h.dataShape| == 3 then h.dataShape[0] else |m.mrcFiles|)
    ensures r.detectorDistance == (if h.cameraLength.Some? then h.cameraLength else m.detectorDistance)
    ensures r.wavelength == (if h.wavelength.Some? then h.wavelength else m.wavelength)
    ensures r.angleStart == (if h.alphaTilt.Some? then h.alphaTilt else m.angleStart)
    ensures r.angleIncrement == (if h.tiltPerImage.Some? then h.tiltPerImage else m.angleIncrement)
    ensures r.exposureTime == (if h.integrationTime.Some? then h.integrationTime else m.exposureTime)
    ensures r.beamCenter == (if h.beamCentreX.Some? && h.beamCentreY.Some?
                             then Some((h.beamCentreX.value, h.beamCentreY.value)) else m.beamCenter)
    ensures r.dataType == Some(h.originalDataType) && r.originalDataType == Some(h.originalDataType)
    ensures r.pixelNumberX == Some(h.nx) && r.pixelNumberY == Some(h.ny)
    ensures r.mrcFiles == m.mrcFiles && r.pixelSize == m.pixelSize && r.overload == m.overload
            && r.underload == m.underload && r.facilityName == m.facilityName && r.detectorName == m.detectorName
  {
    var n := if |h.dataShape| == 3 then h.dataShape[0] else |m.mrcFiles|;
    var bc := if h.beamCentreX.Some? && h.beamCentreY.Some? then Some((h.beamCentreX.value, h.beamCentreY.value))
              else m.beamCenter;
    Metadata(
      m.mrcFiles, m.detectorName, m.facilityName, m.facilityId, m.facilityShortName, m.facilityType,
      if h.cameraLength.Some? then h.cameraLength else m.detectorDistance,
      if h.wavelength.Some? then h.wavelength else m.wavelength,
      if h.alphaTilt.Some? then h.alphaTilt else m.angleStart,
      if h.tiltPerImage.Some? then h.tiltPerImage else m.angleIncrement,
      if h.integrationTime.Some? then h.integrationTime else m.exposureTime,
      bc,
      m.rotationAxis, m.fastAxis, m.slowAxis, m.pixelSize, m.sensorMaterial, m.sensorThickness,
      m.detectorType, m.overload, m.underload,
      Some(h.originalDataType), Some(h.originalDataType),
      Some(h.nx), Some(h.ny), Some(n), m.source)
  }

  /** The command-line arguments that can overwrite the template; a
      missing one is `None`. */
  datatype CmdArgs = CmdArgs(
    detectorName: Option<string>,
    facilityName: Option<string>,
    facilityId: Option<string>,
    facilityShortName: Option<string>,
    facilityType: Option<string>,
    detectorDistance: Option<real>,
    wavelength: Option<real>,
    angleStart: Option<real>,
    angleIncrement: Option<real>,
    exposureTime: Option<real>,
    beamCenter: Option<(real, real)>,
    rotationAxis: Option<Vec3>,
    slowAxis: Option<Vec3>,
    fastAxis: Option<Vec3>,
    pixelSize: Option<real>,
    sensorMaterial: Option<string>,
    sensorThickness: Option<real>,
    detectorType: Option<string>,
    dataType: Option<string>,
    source: Option<string>,
    overload: Option<real>,
    underload: Option<real>)

  const NoArgs := CmdArgs(None, None, None, None, None, None, None, None, None, None, None,
                          None, None, None, None, None, None, None, None, None, None, None)

  /** The smallest thickness written, 1e-30. */
  const MinThickness: real := 0.000000000000000000000000000001

  /** A thickness closer to zero than 1e-30 is replaced by 1e-30. */
  function FloorThickness(t: real): (r: real)
    ensures -MinThickness < t < MinThickness ==> r == MinThickness
    ensures t <= -MinThickness || MinThickness <= t ==> r == t
    ensures r != 0.0
  {
    if -MinThickness < t < MinThickness then MinThickness else t
  }

  /** A field after the overwrite: the argument when it is given, the
      field as it was otherwise. */
  predicate Overwrites<T(==)>(arg: Option<T>, before: T, after: T) {
    (arg.Some? ==> after == arg.value) && (arg.None? ==> after == before)
  }

  /** The same for a field that may be unset. */
  predicate OverwritesOpt<T(==)>(arg: Option<T>, before: Option<T>, after: Option<T>) {
    (arg.Some? ==> after == arg) && (arg.None? ==> after == before)
  }

  function Pick<T>(arg: Option<T>, current: T): (r: T)
    ensures arg.Some? ==> r == arg.value
    ensures arg.None? ==> r == current
  {
    if arg.Some? then arg.value else current
  }

  function PickOpt<T>(arg: Option<T>, current: Option<T>): (r: Option<T>)
    ensures arg.Some? ==> r == arg
    ensures arg.None? ==> r == current
  {
    if arg.Some? then arg else current
  }

  /** `overwrite_from_command_line`: each argument given replaces its
      field, then a thickness of zero is replaced. As written the
      `--facility-type` argument is never applied; the corrected version
      applies it like the others. */
  function OverwriteFromCommandLine(m: Metadata, a: CmdArgs, asWritten: bool): (r: Metadata)
    ensures Overwrites(a.detectorName, m.detectorName, r.detectorName)
    ensures Overwrites(a.facilityName, m.facilityName, r.facilityName)
    ensures asWritten || a.facilityType.None? ==> r.facilityType == m.facilityType
    ensures !asWritten && a.facilityType.Some? ==> r.facilityType == a.facilityType.value
    ensures OverwritesOpt(a.pixelSize, m.pixelSize, r.pixelSize)
    ensures Overwrites(a.sensorMaterial, m.sensorMaterial, r.sensorMaterial)
    ensures r.sensorThickness == FloorThickness(Pick(a.sensorThickness, m.sensorThickness))
    ensures OverwritesOpt(a.overload, m.overload, r.overload)
    ensures OverwritesOpt(a.dataType, m.dataType, r.dataType)
    ensures r.mrcFiles == m.mrcFiles && r.numImages == m.numImages && r.originalDataType == m.originalDataType
            && r.pixelNumberX == m.pixelNumberX && r.pixelNumberY == m.pixelNumberY
    ensures Complete(m) ==> Complete(r)
  {
    Metadata(
      m.mrcFiles,
      Pick(a.detectorName, m.detectorName),
      Pick(a.facilityName, m.facilityName),
      Pick(a.facilityId, m.facilityId),
      Pick(a.facilityShortName, m.facilityShortName),
      if asWritten then m.facilityType else Pick(a.facilityType, m.facilityType),
      PickOpt(a.detectorDistance, m.detectorDistance),
      PickOpt(a.wavelength, m.wavelength),
      PickOpt(a.angleStart, m.angleStart),
      PickOpt(a.angleIncrement, m.angleIncrement),
      PickOpt(a.exposureTime, m.exposureTime),
      PickOpt(a.beamCenter, m.beamCenter),
      Pick(a.rotationAxis, m.rotationAxis),
      Pick(a.fastAxis, m.fastAxis),
      Pick(a.slowAxis, m.slowAxis),
      PickOpt(a.pixelSize, m.pixelSize),
      Pick(a.sensorMaterial, m.sensorMaterial),
      FloorThickness(Pick(a.sensorThickness, m.sensorThickness)),
      Pick(a.detectorType, m.detectorType),
      PickOpt(a.overload, m.overload),
      PickOpt(a.underload, m.underload),
      PickOpt(a.dataType, m.dataType),
      m.originalDataType,
      m.pixelNumberX,
      m.pixelNumberY,
      m.numImages,
      Pick(a.source, m.source))
  }

  /** The facility, the axes, the detector type and the source: each
      argument given replaces its field, each one absent leaves it. */
  lemma CommandLineSetsFacilityAndAxes(m: Metadata, a: CmdArgs, asWritten: bool)
    ensures var r := OverwriteFromCommandLine(m, a, asWritten);
            && Overwrites(a.facilityId, m.facilityId, r.facilityId)
            && Overwrites(a.facilityShortName, m.facilityShortName, r.facilityShortName)
            && Overwrites(a.rotationAxis, m.rotationAxis, r.rotationAxis)
            && Overwrites(a.fastAxis, m.fastAxis, r.fastAxis)
            && Overwrites(a.slowAxis, m.slowAxis, r.slowAxis)
            && Overwrites(a.detectorType, m.detectorType, r.detectorType)
            && Overwrites(a.source, m.source, r.source)
  {
  }

  /** The beam, the rotation scan and the detector's numbers: each
      argument given replaces its field, each one absent leaves it; a
      given thickness is floored away from zero. */
  lemma CommandLineSetsScanAndBeam(m: Metadata, a: CmdArgs, asWritten: bool)
    ensures var r := OverwriteFromCommandLine(m, a, asWritten);
            && OverwritesOpt(a.detectorDistance, m.detectorDistance, r.detectorDistance)
            && OverwritesOpt(a.wavelength, m.wavelength, r.wavelength)
            && OverwritesOpt(a.angleStart, m.angleStart, r.angleStart)
            && OverwritesOpt(a.angleIncrement, m.angleIncrement, r.angleIncrement)
            && OverwritesOpt(a.exposureTime, m.exposureTime, r.exposureTime)
            && OverwritesOpt(a.beamCenter, m.beamCenter, r.beamCenter)
            && OverwritesOpt(a.underload, m.underload, r.underload)
            && (a.sensorThickness.Some? ==> r.sensorThickness == FloorThickness(a.sensorThickness.value))
  {
  }

  /** Applying the same arguments a second time changes nothing more. */
  lemma CommandLineIdempotent(m: Metadata, a: CmdArgs, asWritten: bool)
    ensures OverwriteFromCommandLine(OverwriteFromCommandLine(m, a, asWritten), a, asWritten)
            == OverwriteFromCommandLine(m, a, asWritten)
  {
    var once := OverwriteFromCommandLine(m, a, asWritten);
    assert FloorThickness(once.sensorThickness) == once.sensorThickness;
  }

  /** With no argument only a zero thickness is replaced. */
  lemma NoArgsOnlyFloorsThickness(m: Metadata, asWritten: bool)
    ensures OverwriteFromCommandLine(m, NoArgs, asWritten) == m.(sensorThickness := FloorThickness(m.sensorThickness))
  {
  }

  /** The facility type given on the command line is lost as written and
      kept once corrected. */
  lemma FacilityTypeArgument(m: Metadata, a: CmdArgs)
    requires a.facilityType.Some? && a.facilityType.value != m.facilityType
    ensures OverwriteFromCommandLine(m, a, true).facilityType != a.facilityType.value
    ensures OverwriteFromCommandLine(m, a, false).facilityType == a.facilityType.value
  {
  }

  // ------------------------------------------------------------------- main

  /** The `--detector` choices; "cetad" is the default. */
  datatype DetectorChoice = Cetad | Tvips | UnknownDetector

  /** Every input must end with ".mrc"; the first that does not raises
      `ValueError`. */
  function CheckMrcInputs(files: seq<string>): (r: Result<()>)
    ensures r.Ok? <==> forall i :: 0 <= i < |files| ==> EndsWith(files[i], ".mrc")
    ensures r.Err? ==> r == Err(ValueError)
  {
    if forall i :: 0 <= i < |files| ==> EndsWith(files[i], ".mrc") then Ok(()) else Err(ValueError)
  }

  /** The metadata `main` assembles before writing: the input check, the
      header of the first file, the detector preset, the header values,
      the command line and the completeness check, in that order.
      `asWritten` selects the two faulty steps as the converter has them. */
  function PrepareMetadata(files: seq<string>, detector: DetectorChoice, h: MrcHeader, a: CmdArgs,
                           asWritten: bool): (r: Result<Metadata>)
    ensures CheckMrcInputs(files).Err? ==> r == Err(ValueError)
    ensures CheckMrcInputs(files).Ok? && |files| == 0 ==> r == Err(IndexError)
    ensures r.Ok? ==> Complete(r.value) && r.value.mrcFiles == files
    ensures r.Ok? ==> r.value.numImages == Some(if |h.dataShape| == 3 then h.dataShape[0] else |files|)
    ensures r.Ok? ==> r.value.pixelNumberX == Some(h.nx) && r.value.pixelNumberY == Some(h.ny)
                      && r.value.originalDataType == Some(h.originalDataType)
  {
    var _ :- CheckMrcInputs(files);
    if |files| == 0 then Err(IndexError)
    else
      var template := DefaultMetadata(files);
      var preset :- match detector
                    case Cetad => Ok(OverwriteFromCetad(template, h, asWritten))
                    case Tvips => OverwriteFromTvips(template, h)
                    case UnknownDetector => Ok(template);
      var fromHeader := OverwriteFromMrc(preset, h);
      var m := OverwriteFromCommandLine(fromHeader, a, asWritten);
      var _ :- CheckMetadata(m);
      Ok(m)
  }

  /** The source description handed to the writer. */
  datatype SourceInfo = SourceInfo(beamline: string, facilityId: string, facilityType: string,
                                   probe: string, shortName: string)

  /** The source fields `main` copies from the metadata; the beamline
      name is the facility name. */
  function SourceOf(m: Metadata): (s: SourceInfo)
    ensures s.beamline == m.facilityName && s.facilityId == m.facilityId && s.facilityType == m.facilityType
    ensures s.probe == m.source && s.shortName == m.facilityShortName
  {
    SourceInfo(m.facilityName, m.facilityId, m.facilityType, m.source, m.facilityShortName)
  }

  /** A Ceta-D run with no facility name on the command line: as written
      its source is named "unknown"; corrected it is named after the
      facility. */
  lemma CetadSourceName(files: seq<string>, h: MrcHeader, a: CmdArgs)
    requires a.facilityName.None?
    ensures PrepareMetadata(files, Cetad, h, a, true).Ok? ==>
              SourceOf(PrepareMetadata(files, Cetad, h, a, true).value).beamline == "unknown"
    ensures PrepareMetadata(files, Cetad, h, a, false).Ok? ==>
              SourceOf(PrepareMetadata(files, Cetad, h, a, false).value).beamline == "Diamond Light Source"
  {
  }

  /** A Ceta-D run whose header has every optional value passes the
      check, whatever the command line adds. */
  lemma CetadFullHeaderComplete(files: seq<string>, h: MrcHeader, a: CmdArgs, asWritten: bool)
    requires |files| > 0 && forall i :: 0 <= i < |files| ==> EndsWith(files[i], ".mrc")
    requires h.cameraLength.Some? && h.wavelength.Some? && h.alphaTilt.Some? && h.tiltPerImage.Some?
    requires h.integrationTime.Some? && h.beamCentreX.Some? && h.beamCentreY.Some?
    ensures PrepareMetadata(files, Cetad, h, a, asWritten).Ok?
  {
    var preset := OverwriteFromCetad(DefaultMetadata(files), h, asWritten);
    assert Complete(OverwriteFromMrc(preset, h));
  }

  /** Without a preset nothing sets the pixel size, so it must be given on
      the command line. */
  lemma UnknownDetectorNeedsPixelSize(files: seq<string>, h: MrcHeader, a: CmdArgs, asWritten: bool)
    requires a.pixelSize.None?
    ensures PrepareMetadata(files, UnknownDetector, h, a, asWritten).Err?
  {
  }

  /** The Ceta-D preset's "int32" is replaced by the header's own data
      type unless the command line names one. */
  lemma CetadDataTypeFromHeader(files: seq<string>, h: MrcHeader, a: CmdArgs, asWritten: bool)
    requires a.dataType.None? && PrepareMetadata(files, Cetad, h, a, asWritten).Ok?
    ensures PrepareMetadata(files, Cetad, h, a, asWritten).value.dataType == Some(h.originalDataType)
  {
  }

  /** The image count written agrees with the stack the converter builds
      from the same files, given the shape of each (the first file's
      being the header's). */
  lemma NumImagesMatchStack(files: seq<string>, detector: DetectorChoice, h: MrcHeader, a: CmdArgs,
                            asWritten: bool, shapes: seq<seq<nat>>)
    requires PrepareMetadata(files, detector, h, a, asWritten).Ok?
    requires |shapes| == |files| && shapes[0] == h.dataShape && MrcTools.StackShape(shapes).Ok?
    ensures PrepareMetadata(files, detector, h, a, asWritten).value.numImages
            == Some(MrcTools.StackShape(shapes).value.0)
  {
  }
}

=== FILE: ed_tools.dfy ===
/** The Singla master-file reader of `nexgen/tools/ed_tools.py`. As for
    the Dectris meta file, a file is the list of object paths a visit
    yields together with the values its datasets hold. */
module EdTools {
  import opened Wrappers
  import opened Text
  import Metafile

  /** What reading a whole dataset gives. */
  datatype Value = IntV(i: int) | RealV(r: real) | BoolV(b: bool) | TextV(s: string) | ArrayV(rows: seq<seq<int>>)

  datatype SinglaMaster = SinglaMaster(walk: seq<string>, datasets: Dict<string, Value>, description: string)

  /** `isDectrisSingla`: the detector description mentions SINGLA in any
      case. */
  predicate IsDectrisSingla(m: SinglaMaster) {
    Contains(Upper(m.description), "SINGLA")
  }

  /** `self[path][()]`: a group has no value. */
  function ReadValue(m: SinglaMaster, path: string): (r: Result<Value>)
    ensures r.Ok? <==> HasKey(m.datasets, path)
    ensures r.Ok? ==> Get(m.datasets, path) == Some(r.value)
  {
    match Get(m.datasets, path)
    case None => Err(TypeError)
    case Some(v) => Ok(v)
  }

  /** Every scalar getter: the value of the first path containing the
      key, `None` when no path does. */
  function Getter(m: SinglaMaster, key: string): (r: Result<Option<Value>>)
    ensures (forall p :: p in m.walk ==> !Contains(p, key)) ==> r == Ok(None)
    ensures r.Ok? && r.value.Some? ==>
              var p := Metafile.FirstContaining(m.walk, key);
              p.Some? && Get(m.datasets, p.value) == Some(r.value.value)
  {
    match Metafile.FirstContaining(m.walk, key)
    case None => Ok(None)
    case Some(p) =>
      var v :- ReadValue(m, p);
      Ok(Some(v))
  }

  function NumberOfImages(m: SinglaMaster): Result<Option<Value>> { Getter(m, "nimages") }
  function NumberOfTriggers(m: SinglaMaster): Result<Option<Value>> { Getter(m, "ntriggers") }
  function TriggerMode(m: SinglaMaster): Result<Option<Value>> { Getter(m, "trigger_mode") }
  function BitDepthReadout(m: SinglaMaster): Result<Option<Value>> { Getter(m, "bit_depth_readout") }
  function BitDepthImage(m: SinglaMaster): Result<Option<Value>> { Getter(m, "bit_depth_image") }
  function DetectorNumber(m: SinglaMaster): Result<Option<Value>> { Getter(m, "detector_number") }
  function DetectorReadoutTime(m: SinglaMaster): Result<Option<Value>> { Getter(m, "detector_readout_time") }
  function ExposureTime(m: SinglaMaster): Result<Option<Value>> { Getter(m, "count_time") }
  function PhotonEnergy(m: SinglaMaster): Result<Option<Value>> { Getter(m, "photon_energy") }
  function CountrateCorrection(m: SinglaMaster): Result<Option<Value>> { Getter(m, "countrate_correction_applied") }
  function SoftwareVersion(m: SinglaMaster): Result<Option<Value>> { Getter(m, "software_version") }

  /** `full_number_of_images`: images times triggers. A missing count
      cannot be multiplied. */
  function FullNumberOfImages(m: SinglaMaster): (r: Result<int>)
    ensures r.Ok? <==> (exists n, t :: NumberOfImages(m) == Ok(Some(IntV(n))) && NumberOfTriggers(m) == Ok(Some(IntV(t))))
    ensures r.Ok? ==> r.value == NumberOfImages(m).value.value.i * NumberOfTriggers(m).value.value.i
  {
    var images :- NumberOfImages(m);
    var triggers :- NumberOfTriggers(m);
    match (images, triggers)
    case (Some(IntV(n)), Some(IntV(t))) => Ok(n * t)
    case _ => Err(TypeError)
  }

  /** The paths of `paths` whose last `/`-separated segment is `name`. */
  function EndingIn(paths: seq<string>, name: string): (r: seq<string>)
    ensures forall p :: p in r <==> p in paths && LastSegment(p, '/') == name
  {
    if |paths| == 0 then []
    else if LastSegment(paths[0], '/') == name then [paths[0]] + EndingIn(paths[1..], name)
    else EndingIn(paths[1..], name)
  }

  /** `get_mask` (name "pixel_mask") and `get_flatfield` (name
      "flatfield"): the "applied" flag, `False` when no path says, and
      the array, `None` when no path ends in the name. */
  function GetCorrection(m: SinglaMaster, name: string): (r: Result<(Value, Option<Value>)>)
    ensures Metafile.Containing(m.walk, name) == [] ==> r == Ok((BoolV(false), None))
    ensures r.Ok? && Metafile.FirstContaining(Metafile.Containing(m.walk, name), "applied").None? ==> r.value.0 == BoolV(false)
    ensures r.Ok? ==> (r.value.1.None? <==> EndingIn(Metafile.Containing(m.walk, name), name) == [])
    ensures r.Ok? && r.value.1.Some? ==>
              Get(m.datasets, EndingIn(Metafile.Containing(m.walk, name), name)[0]) == r.value.1
  {
    var found := Metafile.Containing(m.walk, name);
    if |found| == 0 then Ok((BoolV(false), None))
    else
      var paths := EndingIn(found, name);
      var applied :-
        match Metafile.FirstContaining(found, "applied")
        case None => Ok(BoolV(false))
        case Some(p) => ReadValue(m, p);
      if |paths| == 0 then Ok((applied, None))
      else
        var v :- ReadValue(m, paths[0]);
        Ok((applied, Some(v)))
  }

  function GetMask(m: SinglaMaster): Result<(Value, Option<Value>)> { GetCorrection(m, "pixel_mask") }
  function GetFlatfield(m: SinglaMaster): Result<(Value, Option<Value>)> { GetCorrection(m, "flatfield") }

  /** A path ending in the name contains it, so narrowing to the paths
      that contain the name first loses none of them: the array comes
      from the first path of the whole walk ending in the name. */
  lemma {:induction false} EndingInNarrowed(walk: seq<string>, name: string)
    ensures EndingIn(Metafile.Containing(walk, name), name) == EndingIn(walk, name)
  {
    if |walk| > 0 {
      EndingInNarrowed(walk[1..], name);
      var p := walk[0];
      if LastSegment(p, '/') == name {
        LastSegmentIsSuffix(p, '/');
        EndsWithContains(p, name);
      }
    }
  }

  /** The `extract_*` entry points give nothing for a file that is not a
      Singla master. */
  function ExtractExposureTime(m: SinglaMaster): (r: Result<Option<Value>>)
    ensures !IsDectrisSingla(m) ==> r == Ok(None)
    ensures IsDectrisSingla(m) ==> r == ExposureTime(m)
  {
    if !IsDectrisSingla(m) then Ok(None) else ExposureTime(m)
  }

  /** `extract_start_time_from_master`: the collection date, parsed by
      `parseDate`, which stands for the slicing and `strptime`. */
  function ExtractStartTime(m: SinglaMaster, parseDate: Value -> Result<string>): (r: Result<Option<string>>)
    ensures !IsDectrisSingla(m) ==> r == Ok(None)
    ensures IsDectrisSingla(m) && Getter(m, "data_collection_date") == Ok(None) ==> r == Ok(None)
  {
    if !IsDectrisSingla(m) then Ok(None)
    else
      var date :- Getter(m, "data_collection_date");
      if date.None? then Ok(None)
      else
        var parsed :- parseDate(date.value);
        Ok(Some(parsed))
  }

  /** For a Singla master, the exposure time is the value of the first
      path in the walk that mentions "count_time". */
  lemma ExposureTimeFound(m: SinglaMaster, p: string, v: Value)
    requires IsDectrisSingla(m)
    requires Metafile.FirstContaining(m.walk, "count_time") == Some(p)
    requires Get(m.datasets, p) == Some(v)
    ensures ExtractExposureTime(m) == Ok(Some(v))
  {
  }

  /** For a Singla master, the start time is the first path mentioning
      "data_collection_date" as parsed; a parse error is passed on. */
  lemma StartTimeFound(m: SinglaMaster, parseDate: Value -> Result<string>, p: string, v: Value)
    requires IsDectrisSingla(m)
    requires Metafile.FirstContaining(m.walk, "data_collection_date") == Some(p)
    requires Get(m.datasets, p) == Some(v)
    ensures parseDate(v).Ok? ==> ExtractStartTime(m, parseDate) == Ok(Some(parseDate(v).value))
    ensures parseDate(v).Err? ==> ExtractStartTime(m, parseDate) == Err(parseDate(v).error)
  {
  }

  const DetectorInfoKeys: seq<string> :=
    ["pixel_mask", "pixel_mask_applied", "flatfield", "flatfield_applied", "software_version",
     "bit_depth_readout", "detector_number", "detector_readout_time", "photon_energy"]

  /** The five scalar entries of the detector information, in order. */
  function OtherInfo(m: SinglaMaster): (r: Result<seq<Option<Value>>>)
    ensures r.Ok? ==> |r.value| == 5
  {
    var sw :- SoftwareVersion(m);
    var readout :- BitDepthReadout(m);
    var number :- DetectorNumber(m);
    var readoutTime :- DetectorReadoutTime(m);
    var energy :- PhotonEnergy(m);
    Ok([sw, readout, number, readoutTime, energy])
  }

  /** `extract_detector_info_from_master`: nine entries, the mask array
      and its "applied" flag first, then the flatfield's. */
  function ExtractDetectorInfo(m: SinglaMaster): (r: Result<Option<Dict<string, Option<Value>>>>)
    ensures !IsDectrisSingla(m) ==> r == Ok(None)
    ensures r.Ok? && r.value.Some? ==>
              Keys(r.value.value) == DetectorInfoKeys
    ensures r.Ok? && r.value.Some? ==>
              GetMask(m).Ok? && r.value.value[0].1 == GetMask(m).value.1
              && r.value.value[1].1 == Some(GetMask(m).value.0)
              && GetFlatfield(m).Ok? && r.value.value[2].1 == GetFlatfield(m).value.1
              && r.value.value[3].1 == Some(GetFlatfield(m).value.0)
  {
    if !IsDectrisSingla(m) then Ok(None)
    else
      var mask :- GetMask(m);
      var ff :- GetFlatfield(m);
      var others :- OtherInfo(m);
      Ok(Some(InfoDict(mask, ff, others)))
  }

  /** The detector information laid out under its nine keys. */
  function InfoDict(mask: (Value, Option<Value>), ff: (Value, Option<Value>), others: seq<Option<Value>>)
    : (r: Dict<string, Option<Value>>)
    requires |others| == 5
    ensures Keys(r) == DetectorInfoKeys
    ensures r[0].1 == mask.1 && r[1].1 == Some(mask.0) && r[2].1 == ff.1 && r[3].1 == Some(ff.0)
    ensures forall i :: 4 <= i < 9 ==> r[i].1 == others[i - 4]
  {
    var head := [mask.1, Some(mask.0), ff.1, Some(ff.0)];
    var values := head + others;
    assert forall i :: 4 <= i < 9 ==> values[i] == others[i - 4];
    Zip(DetectorInfoKeys, values)
  }

  /** `find_beam_centre`: nothing without a pixel mask; otherwise the
      centroid, whose floating-point averaging is the `centroid`
      parameter. */
  function FindBeamCentre(m: SinglaMaster, centroid: Value -> (real, real)): (r: Result<Option<(real, real)>>)
    ensures GetMask(m).Ok? && GetMask(m).value.1.None? ==> r == Ok(None)
    ensures r.Ok? && r.value.Some? ==> GetMask(m).Ok? && GetMask(m).value.1.Some?
  {
    var mask :- GetMask(m);
    if mask.1.None? then Ok(None) else Ok(Some(centroid(mask.1.value)))
  }

  /** A master file without any path naming a pixel mask has no mask and
      so no beam centre. */
  lemma NoMaskNoBeamCentre(m: SinglaMaster, centroid: Value -> (real, real))
    requires forall p :: p in m.walk ==> !Contains(p, "pixel_mask")
    ensures GetMask(m) == Ok((BoolV(false), None))
    ensures FindBeamCentre(m, centroid) == Ok(None)
  {
  }
}

=== FILE: gda_json.dfy ===
/** The mapping of `JSONParamsIO` in
    `nexgen/beamlines/GDAtools/GDAjson2params.py` from the geometry and
    detector files GDA writes to axes and detector parameters. A file is
    an ordered dictionary of entries; an entry is an axis description, a
    detector block, or a plain value such as the coordinate frame. Numbers
    whose Python text is used keep that text. */
module GdaJson {
  import opened Wrappers
  import opened Text
  import opened Utils
  import opened Axes
  import opened Detector

  datatype AxisEntry = AxisEntry(dependsOn: string, dsName: string, vector: Point3D, location: string, axisType: string)

  datatype TristanBlock = TristanBlock(
    description: string, sensorMaterial: string, sensorThickness: string, sensorThicknessUnits: string,
    pixelSizeSf: seq<string>, pixelSizeUnits: string, dataSizeSf: seq<int>, detectorType: string,
    fastDir: Point3D, slowDir: Point3D)

  datatype EigerBlock = EigerBlock(
    description: string, sensorMaterial: string, pixelSize: seq<string>, pixelSizeUnits: string,
    size: seq<int>, fastDir: Point3D, slowDir: Point3D)

  datatype Entry =
    | AxisValue(axis: AxisEntry)
    | TristanValue(tristan: TristanBlock)
    | EigerValue(eiger: EigerBlock)
    | PlainValue(text: string)

  type JsonFile = Dict<string, Entry>

  // -------------------------------------------------------------- depends

  /** `dep.split("_")[1]`: the part between the first and the second
      underscore, or up to the end when there is only one. */
  function SecondPart(dep: string): (r: string)
    requires '_' in dep
    ensures '_' !in r
  {
    SplitMany(dep, '_');
    SplitPartsFree(dep, '_');
    Split(dep, '_')[1]
  }

  /** The second part of `a_b` or of `a_b_rest` is `b`. */
  lemma SecondPartBetween(a: string, b: string, rest: Option<string>)
    requires '_' !in a && '_' !in b
    ensures var dep := if rest.Some? then a + "_" + b + "_" + rest.value else a + "_" + b;
            '_' in dep && SecondPart(dep) == b
  {
    if rest.Some? {
      var dep := a + "_" + b + "_" + rest.value;
      assert dep == a + ['_'] + (b + ['_'] + rest.value);
      assert dep[|a|] == '_';
      SplitFirst(a, b + ['_'] + rest.value, '_');
      SplitFirst(b, rest.value, '_');
    } else {
      var dep := a + "_" + b;
      assert dep == a + ['_'] + b;
      assert dep[|a|] == '_';
      SplitAround(a, b, '_');
    }
  }

  /** `_find_axis_depends_on`: the second part of a name holding an
      underscore, or the whole name; a part that is a bare "x", "y" or "z"
      names the sample stage axis `sam_` of that letter. */
  function FindDependsOn(dep: string): (r: string)
    ensures '_' !in dep && dep != "x" && dep != "y" && dep != "z" ==> r == dep
    ensures '_' in dep ==>
              var part := SecondPart(dep);
              (part == "x" || part == "y" || part == "z" ==> r == "sam_" + part)
              && (part != "x" && part != "y" && part != "z" ==> r == part)
    ensures r != "x" && r != "y" && r != "z"
  {
    var part := if '_' in dep then SecondPart(dep) else dep;
    if part == "x" || part == "y" || part == "z" then "sam_" + part else part
  }

  /** A dependency already resolved resolves to itself. */
  lemma FindDependsOnIdempotent(dep: string)
    ensures FindDependsOn(FindDependsOn(dep)) == FindDependsOn(dep)
  {
    var r := FindDependsOn(dep);
    if '_' in r {
      var c := r[4];
      assert r == "sam_" + [c] && (c == 'x' || c == 'y' || c == 'z');
      SplitAround("sam", [c], '_');
      assert "sam" + ['_'] + [c] == r;
    }
  }

  /** A GDA name `<prefix>_<stage>` depends on the stage it names: a
      sample-stage axis on the matching `sam_` axis. */
  lemma StageDepends(prefix: string, axis: string)
    requires '_' !in prefix && '_' !in axis
    ensures FindDependsOn(prefix + "_" + axis)
            == (if axis == "x" || axis == "y" || axis == "z" then "sam_" + axis else axis)
  {
    SplitAround(prefix, axis, '_');
    assert prefix + "_" + axis == prefix + ['_'] + axis;
    assert '_' in prefix + "_" + axis by {
      assert (prefix + "_" + axis)[|prefix|] == '_';
    }
  }

  // ----------------------------------------------------------------- axes

  function KindOfType(axisType: string): (k: TransformationType)
    ensures k == Rotation <==> axisType == "rotation"
  {
    if axisType == "rotation" then Rotation else Translation
  }

  /** The axis for an entry at rest, with the dependency given. */
  function AxisOf(e: AxisEntry, depends: string): (a: Axis)
    ensures a.name == e.dsName && a.depends == depends && a.vector == e.vector
    ensures a.kind == Rotation <==> e.axisType == "rotation"
    ensures a.startPos == 0.0 && a.increment == 0.0 && a.numSteps == 0
  {
    DefaultAxis(e.dsName, depends, KindOfType(e.axisType), TupleArg(e.vector.x, e.vector.y, e.vector.z))
  }

  /** An axis read from a GDA entry is in degrees exactly when the entry
      says "rotation", and in millimetres otherwise. */
  lemma AxisOfUnits(e: AxisEntry, depends: string)
    ensures Units(AxisOf(e, depends)) == "deg" <==> e.axisType == "rotation"
    ensures Units(AxisOf(e, depends)) == "mm" <==> e.axisType != "rotation"
  {
  }

  function DependsOf(e: AxisEntry, resolve: bool): string {
    if resolve then FindDependsOn(e.dependsOn) else e.dependsOn
  }

  /** The entries at `location` among the values, in order; a detector
      block, which has no location, raises `KeyError`; plain values are
      skipped. `resolve` says whether dependencies are resolved. */
  function AxesAt(vals: seq<Entry>, location: string, resolve: bool): (r: Result<seq<Axis>>)
    ensures r.Ok? <==> forall i :: 0 <= i < |vals| ==> !vals[i].TristanValue? && !vals[i].EigerValue?
    ensures r.Err? ==> r == Err(KeyError)
    ensures r.Ok? ==> |r.value| <= |vals|
    decreases |vals|
  {
    if |vals| == 0 then Ok([])
    else
      assert forall i :: 1 <= i < |vals| ==> vals[i] == vals[1..][i - 1];
      var rest :- AxesAt(vals[1..], location, resolve);
      match vals[0]
      case AxisValue(e) =>
        if e.location == location
        then Ok([AxisOf(e, DependsOf(e, resolve))] + rest)
        else Ok(rest)
      case PlainValue(_) => Ok(rest)
      case _ => Err(KeyError)
  }

  /** The axes read are exactly those of the entries at `location`. */
  lemma {:induction false} AxesAtMembers(vals: seq<Entry>, location: string, resolve: bool)
    requires AxesAt(vals, location, resolve).Ok?
    ensures forall e :: AxisValue(e) in vals && e.location == location ==>
              AxisOf(e, DependsOf(e, resolve)) in AxesAt(vals, location, resolve).value
    ensures forall a :: a in AxesAt(vals, location, resolve).value ==>
              exists e :: AxisValue(e) in vals && e.location == location && a == AxisOf(e, DependsOf(e, resolve))
    decreases |vals|
  {
    if |vals| > 0 {
      assert forall x :: x in vals <==> x == vals[0] || x in vals[1..];
      AxesAtMembers(vals[1..], location, resolve);
    }
  }

  /** The axis an entry contributes, if any. */
  function AxisPart(v: Entry, location: string, resolve: bool): seq<Axis> {
    if v.AxisValue? && v.axis.location == location then [AxisOf(v.axis, DependsOf(v.axis, resolve))] else []
  }

  /** One more entry in front adds its axis, if it is at `location`, in
      front. */
  lemma AxesAtCons(v: Entry, rest: seq<Entry>, location: string, resolve: bool)
    requires AxesAt(rest, location, resolve).Ok? && (v.AxisValue? || v.PlainValue?)
    ensures AxesAt([v] + rest, location, resolve) == Ok(AxisPart(v, location, resolve) + AxesAt(rest, location, resolve).value)
  {
    var vals := [v] + rest;
    assert vals[0] == v && vals[1..] == rest;
    if v.AxisValue? && v.axis.location == location {
      assert AxesAt(vals, location, resolve) == Ok([AxisOf(v.axis, DependsOf(v.axis, resolve))] + AxesAt(rest, location, resolve).value);
    } else {
      assert AxesAt(vals, location, resolve) == Ok(AxesAt(rest, location, resolve).value);
      assert AxisPart(v, location, resolve) + AxesAt(rest, location, resolve).value == AxesAt(rest, location, resolve).value;
    }
  }

  /** `get_goniometer_axes_from_file`: the "sample" entries with their
      dependencies resolved. */
  function GoniometerAxes(f: JsonFile): (r: Result<seq<Axis>>)
    ensures r == AxesAt(Values(f), "sample", true)
  {
    AxesAt(Values(f), "sample", true)
  }

  /** `get_detector_axes_from_file`: the "detector" entries with their
      dependencies as written. */
  function DetectorAxes(f: JsonFile): (r: Result<seq<Axis>>)
    ensures r == AxesAt(Values(f), "detector", false)
  {
    AxesAt(Values(f), "detector", false)
  }

  /** In a file of axis entries only, every "sample" entry is a
      goniometer axis and every "detector" entry a detector axis. */
  lemma AxisFileSplits(f: JsonFile, k: nat, e: AxisEntry)
    requires forall i :: 0 <= i < |f| ==> f[i].1.AxisValue?
    requires k < |f| && f[k].1 == AxisValue(e)
    ensures GoniometerAxes(f).Ok? && DetectorAxes(f).Ok?
    ensures e.location == "sample" ==> AxisOf(e, FindDependsOn(e.dependsOn)) in GoniometerAxes(f).value
    ensures e.location == "detector" ==> AxisOf(e, e.dependsOn) in DetectorAxes(f).value
  {
    assert Values(f)[k] == AxisValue(e);
    AxesAtMembers(Values(f), "sample", true);
    AxesAtMembers(Values(f), "detector", false);
  }

  /** A geometry file of three sample axes, a coordinate frame and a
      detector stage gives the three goniometer axes in file order, phi
      depending on `sam_x`, and one detector axis. */
  lemma GeometryFileAxes(keys: seq<string>, frame: string, omega: AxisEntry, samX: AxisEntry, phi: AxisEntry,
                         detZ: AxisEntry)
    requires |keys| == 5
    requires omega.location == "sample" && samX.location == "sample" && phi.location == "sample"
    requires detZ.location == "detector"
    requires phi.dependsOn == "sam_x"
    ensures var f := [(keys[0], AxisValue(omega)), (keys[1], PlainValue(frame)), (keys[2], AxisValue(samX)),
                      (keys[3], AxisValue(phi)), (keys[4], AxisValue(detZ))];
            var g := GoniometerAxes(f);
            var d := DetectorAxes(f);
            g.Ok? && |g.value| == 3 && g.value[0].name == omega.dsName && g.value[1].name == samX.dsName
            && g.value[2].name == phi.dsName && g.value[2].depends == "sam_x"
            && d.Ok? && d.value == [AxisOf(detZ, detZ.dependsOn)]
  {
    var f := [(keys[0], AxisValue(omega)), (keys[1], PlainValue(frame)), (keys[2], AxisValue(samX)),
              (keys[3], AxisValue(phi)), (keys[4], AxisValue(detZ))];
    var vals := [AxisValue(omega), PlainValue(frame), AxisValue(samX), AxisValue(phi), AxisValue(detZ)];
    assert Values(f) == vals;
    StageDepends("sam", "x");
    assert "sam" + "_" + "x" == "sam_x";
    AxesAtParts(vals, "sample", true);
    AxesAtParts(vals, "detector", false);
    FiveParts(AxisValue(omega), PlainValue(frame), AxisValue(samX), AxisValue(phi), AxisValue(detZ), "sample", true);
    FiveParts(AxisValue(omega), PlainValue(frame), AxisValue(samX), AxisValue(phi), AxisValue(detZ), "detector", false);
  }

  /** Five entries contribute their parts in order. */
  lemma FiveParts(o: Entry, c: Entry, x: Entry, p: Entry, z: Entry, location: string, resolve: bool)
    ensures AxisParts([o, c, x, p, z], location, resolve)
            == AxisPart(o, location, resolve) + AxisPart(c, location, resolve) + AxisPart(x, location, resolve)
               + AxisPart(p, location, resolve) + AxisPart(z, location, resolve)
  {
    assert [o, c, x, p, z] == [o] + [c] + [x] + [p] + [z];
    AxisPartsAppend([o] + [c] + [x] + [p], [z], location, resolve);
    AxisPartsAppend([o] + [c] + [x], [p], location, resolve);
    AxisPartsAppend([o] + [c], [x], location, resolve);
    AxisPartsAppend([o], [c], location, resolve);
    AxisPartsOne(o, location, resolve);
    AxisPartsOne(c, location, resolve);
    AxisPartsOne(x, location, resolve);
    AxisPartsOne(p, location, resolve);
    AxisPartsOne(z, location, resolve);
  }

  lemma AxisPartsOne(v: Entry, location: string, resolve: bool)
    ensures AxisParts([v], location, resolve) == AxisPart(v, location, resolve)
  {
    assert [v][1..] == [];
    assert AxisPart(v, location, resolve) + [] == AxisPart(v, location, resolve);
  }

  lemma {:induction false} AxisPartsAppend(a: seq<Entry>, b: seq<Entry>, location: string, resolve: bool)
    ensures AxisParts(a + b, location, resolve) == AxisParts(a, location, resolve) + AxisParts(b, location, resolve)
    decreases |a|
  {
    if |a| == 0 {
      assert a + b == b;
    } else {
      AxisPartsAppend(a[1..], b, location, resolve);
      var head := AxisPart(a[0], location, resolve);
      assert (a + b)[0] == a[0] && (a + b)[1..] == a[1..] + b;
      assert AxisParts(a + b, location, resolve) == head + AxisParts(a[1..] + b, location, resolve);
      assert AxisParts(a, location, resolve) == head + AxisParts(a[1..], location, resolve);
      assert head + (AxisParts(a[1..], location, resolve) + AxisParts(b, location, resolve))
          == (head + AxisParts(a[1..], location, resolve)) + AxisParts(b, location, resolve);
    }
  }

  /** The axes every entry contributes, in order. */
  function AxisParts(vals: seq<Entry>, location: string, resolve: bool): seq<Axis> {
    if |vals| == 0 then [] else AxisPart(vals[0], location, resolve) + AxisParts(vals[1..], location, resolve)
  }

  /** Without detector blocks, the axes read are the entries' own
      contributions, in order. */
  lemma {:induction false} AxesAtParts(vals: seq<Entry>, location: string, resolve: bool)
    requires forall i :: 0 <= i < |vals| ==> vals[i].AxisValue? || vals[i].PlainValue?
    ensures AxesAt(vals, location, resolve) == Ok(AxisParts(vals, location, resolve))
    decreases |vals|
  {
    if |vals| > 0 {
      AxesAtParts(vals[1..], location, resolve);
      AxesAtCons(vals[0], vals[1..], location, resolve);
      assert [vals[0]] + vals[1..] == vals;
    }
  }

  // -------------------------------------------------------------- detector

  /** The sensor material as written: "Silicon" becomes its symbol "Si",
      and every other name is kept. */
  function MaterialName(m: string): (r: string)
    ensures r != "Silicon"
    ensures r != m ==> m == "Silicon" && r == "Si"
  {
    if m == "Silicon" then "Si" else m
  }

  /** A material name once shortened is left alone. */
  lemma MaterialNameIdempotent(m: string)
    ensures MaterialName(MaterialName(m)) == MaterialName(m)
  {
  }

  /** Each size's text with the units appended. */
  function WithUnits(sizes: seq<string>, units: string): (r: seq<string>)
    ensures |r| == |sizes|
    ensures forall i :: 0 <= i < |r| ==> EndsWith(r[i], units)
    ensures StripUnits(r, units) == sizes
  {
    var r := seq(|sizes|, i requires 0 <= i < |sizes| => sizes[i] + units);
    assert forall i :: 0 <= i < |r| ==> r[i][..|r[i]| - |units|] == sizes[i];
    r
  }

  /** Each text with its last `|units|` characters taken off (a text
      shorter than that is kept). */
  function StripUnits(texts: seq<string>, units: string): (r: seq<string>) {
    seq(|texts|, i requires 0 <= i < |texts| =>
          if |units| <= |texts[i]| then texts[i][..|texts[i]| - |units|] else texts[i])
  }

  /** The Tristan block's sizes are stored fast first, so both are turned
      round. The image size is handed on whatever its length, as the
      dataclass does not check it. */
  function TristanFromBlock(t: TristanBlock): (r: DetectorParams)
    ensures r.Tristan? && r.description == t.description && r.detectorType == t.detectorType
    ensures Reverse(r.imageSize) == t.dataSizeSf
    ensures r.sensorMaterial == MaterialName(t.sensorMaterial)
    ensures r.thickness == t.sensorThickness + t.sensorThicknessUnits
    ensures StripUnits(r.pixelSize, t.pixelSizeUnits) == Reverse(t.pixelSizeSf)
    ensures r.mode == "events"
  {
    ReverseTwice(t.dataSizeSf);
    Tristan(t.description, Reverse(t.dataSizeSf), MaterialName(t.sensorMaterial),
            t.sensorThickness + t.sensorThicknessUnits,
            WithUnits(Reverse(t.pixelSizeSf), t.pixelSizeUnits), t.detectorType, "events")
  }

  /** Turning a list round twice gives it back. */
  lemma ReverseTwice<T>(s: seq<T>)
    ensures Reverse(Reverse(s)) == s
  {
    assert forall i :: 0 <= i < |s| ==> Reverse(Reverse(s))[i] == Reverse(s)[|s| - 1 - i];
  }

  /** The Eiger block gives an Eiger with the fixed overload and underload
      of the GDA reader; its size is handed on whatever its length. */
  function EigerFromBlock(e: EigerBlock): (r: DetectorParams)
    ensures r.Eiger? && r.description == e.description && r.imageSize == e.size
    ensures r.sensorMaterial == MaterialName(e.sensorMaterial)
    ensures r.overload == 50649 && r.underload == -1 && r.detectorType == "Pixel"
    ensures StripUnits(r.pixelSize, e.pixelSizeUnits) == e.pixelSize
  {
    Eiger(e.description, e.size, MaterialName(e.sensorMaterial), 50649, -1,
          WithUnits(e.pixelSize, e.pixelSizeUnits), "Pixel")
  }

  /** The Tristan and the Eiger branches write the material test in two
      ways; both give the same name for the same material. */
  lemma MaterialAgrees(t: TristanBlock, e: EigerBlock)
    requires t.sensorMaterial == e.sensorMaterial
    ensures TristanFromBlock(t).sensorMaterial == EigerFromBlock(e).sensorMaterial
  {
  }

  /** `get_detector_params_from_file`: a "tristan" block first, then an
      "eiger" block, otherwise `UnknownDetectorTypeError`. A key holding
      something other than a detector block cannot be read as one. */
  function DetectorParamsFromFile(f: JsonFile): (r: Result<DetectorParams>)
    ensures !HasKey(f, "tristan") && !HasKey(f, "eiger") ==> r == Err(UnknownDetectorTypeError)
    ensures HasKey(f, "tristan") && Get(f, "tristan").value.TristanValue? ==>
              r == Ok(TristanFromBlock(Get(f, "tristan").value.tristan))
    ensures !HasKey(f, "tristan") && HasKey(f, "eiger") && Get(f, "eiger").value.EigerValue? ==>
              r == Ok(EigerFromBlock(Get(f, "eiger").value.eiger))
    ensures r.Ok? ==> (r.value.Tristan? <==> HasKey(f, "tristan"))
    ensures r.Ok? ==> r.value.Tristan? || r.value.Eiger?
  {
    if HasKey(f, "tristan") then
      match Get(f, "tristan").value
      case TristanValue(t) => Ok(TristanFromBlock(t))
      case PlainValue(_) => Err(TypeError)
      case _ => Err(KeyError)
    else if HasKey(f, "eiger") then
      match Get(f, "eiger").value
      case EigerValue(e) => Ok(EigerFromBlock(e))
      case PlainValue(_) => Err(TypeError)
      case _ => Err(KeyError)
    else Err(UnknownDetectorTypeError)
  }

  /** The detector file of a single Eiger gives that Eiger with its size
      untouched and each pixel size followed by its units. */
  lemma EigerFileParams(e: EigerBlock)
    ensures var r := DetectorParamsFromFile([("eiger", EigerValue(e))]);
            r.Ok? && r.value.Eiger? && r.value.imageSize == e.size
            && r.value.pixelSize == WithUnits(e.pixelSize, e.pixelSizeUnits)
  {
    assert Keys([("eiger", EigerValue(e))]) == ["eiger"];
  }

  /** A Tristan's (fast, slow) data size becomes the (slow, fast) image
      size. */
  lemma TristanSizeReversed(t: TristanBlock)
    requires |t.dataSizeSf| == 2
    ensures TristanFromBlock(t).imageSize == [t.dataSizeSf[1], t.dataSizeSf[0]]
  {
  }

  /** `get_fast_and_slow_direction_vectors_from_file`: the "eiger" block
      when the type names an Eiger, the "tristan" block otherwise; a
      missing block raises `KeyError`. */
  function FastAndSlow(f: JsonFile, detType: string): (r: Result<(Point3D, Point3D)>)
    ensures var name := if Contains(Lower(detType), "eiger") then "eiger" else "tristan";
            (!HasKey(f, name) ==> r == Err(KeyError))
            && (HasKey(f, name) && Get(f, name).value.EigerValue? ==>
                  r == Ok((Get(f, name).value.eiger.fastDir, Get(f, name).value.eiger.slowDir)))
            && (HasKey(f, name) && Get(f, name).value.TristanValue? ==>
                  r == Ok((Get(f, name).value.tristan.fastDir, Get(f, name).value.tristan.slowDir)))
  {
    var name := if Contains(Lower(detType), "eiger") then "eiger" else "tristan";
    if !HasKey(f, name) then Err(KeyError)
    else
      match Get(f, name).value
      case EigerValue(e) => Ok((e.fastDir, e.slowDir))
      case TristanValue(t) => Ok((t.fastDir, t.slowDir))
      case PlainValue(_) => Err(TypeError)
      case AxisValue(_) => Err(KeyError)
  }

  /** The direction vectors and the detector parameters are read from the
      same block: for a Tristan file read with a type that does not name
      an Eiger, both come from the "tristan" block, and for an Eiger file
      read with a type that names one, both come from the "eiger" block. */
  lemma FastAndSlowSameBlock(f: JsonFile, detType: string)
    requires HasKey(f, "tristan") && Get(f, "tristan").value.TristanValue?
    requires !Contains(Lower(detType), "eiger")
    ensures var t := Get(f, "tristan").value.tristan;
            DetectorParamsFromFile(f) == Ok(TristanFromBlock(t))
            && FastAndSlow(f, detType) == Ok((t.fastDir, t.slowDir))
  {
  }

  lemma FastAndSlowOfEigerFile(e: EigerBlock, detType: string)
    requires Contains(Lower(detType), "eiger")
    ensures var f := [("eiger", EigerValue(e))];
            DetectorParamsFromFile(f) == Ok(EigerFromBlock(e))
            && FastAndSlow(f, detType) == Ok((e.fastDir, e.slowDir))
  {
    assert Keys([("eiger", EigerValue(e))]) == ["eiger"];
  }
}

=== FILE: gda_request.dfy ===
/** The scan and detector position that
    `nexgen/beamlines/GDAtools/ExtendedRequest.py` reads from a GDA
    extended collection request. The XML document is a record holding
    the text of each element already converted to a number; parsing the
    file is left out. */
module GdaRequest {
  import opened Wrappers
  import opened Text

  /** The `oscillation_sequence` element. */
  datatype OscillationSequence = OscillationSequence(
    start: real, range: real, numberOfImages: real, exposureTime: real, numberOfPasses: real)

  datatype ExtendedRequest = ExtendedRequest(
    directory: string, prefix: string, runNumber: string,
    osc: OscillationSequence,
    axisChoice: string, otherAxis: real, kappa: real, chi: real, twoTheta: real,
    sampleDetectorDistance: real, transmission: real, resolution: real)

  type Position = (real, real, real)

  /** `getAxisChoice`: the element's text in lower case. */
  function AxisChoice(e: ExtendedRequest): (r: string)
    ensures |r| == |e.axisChoice|
    ensures forall i :: 0 <= i < |r| ==> !('A' <= r[i] <= 'Z')
    ensures forall i :: 0 <= i < |r| ==> r[i] == e.axisChoice[i] || r[i] as int == e.axisChoice[i] as int + 32
  {
    Lower(e.axisChoice)
  }

  /** The start and end of the rotation. A zero range is handled on its
      own, but gives what the general rule `start + n * range` gives. */
  function ScanRange(osc: OscillationSequence): (r: (real, real))
    ensures r == (osc.start, osc.start + osc.numberOfImages * osc.range)
  {
    if osc.range == 0.0 then (osc.start, osc.start)
    else (osc.start, osc.start + osc.numberOfImages * osc.range)
  }

  /** The goniometer axes of the request, in the order of the result. */
  const GonioNames: seq<string> := ["omega", "phi", "kappa", "sam_x", "sam_y", "sam_z"]

  /** The rotation axis not chosen. */
  function OtherAxis(axis: string): string {
    if axis == "omega" then "phi" else "omega"
  }

  datatype Scan = Scan(axis: string, pos: Dict<string, Position>, num: int)

  /** `read_scan_from_xml`: omega rotates when chosen, phi otherwise; the
      rotating axis runs over the scan range by the oscillation range, the
      other sits still at `otherAxis`, kappa sits still, and the sample
      stages are at zero. */
  function ReadScan(e: ExtendedRequest): (r: Scan)
    ensures r.axis == "omega" <==> AxisChoice(e) == "omega"
    ensures r.axis == "omega" || r.axis == "phi"
    ensures Keys(r.pos) == GonioNames && DistinctKeys(r.pos)
    ensures r.pos[if r.axis == "omega" then 0 else 1] == (r.axis, (ScanRange(e.osc).0, ScanRange(e.osc).1, e.osc.range))
    ensures r.pos[if r.axis == "omega" then 1 else 0] == (OtherAxis(r.axis), (e.otherAxis, e.otherAxis, 0.0))
    ensures r.pos[2].1 == (e.kappa, e.kappa, 0.0)
    ensures forall i :: 3 <= i < 6 ==> r.pos[i].1 == (0.0, 0.0, 0.0)
    ensures r.num == Trunc(e.osc.numberOfImages)
  {
    var range := ScanRange(e.osc);
    var moving := (range.0, range.1, e.osc.range);
    var still := (e.otherAxis, e.otherAxis, 0.0);
    var omegaChosen := AxisChoice(e) == "omega";
    var pos := [("omega", if omegaChosen then moving else still),
                ("phi", if omegaChosen then still else moving),
                ("kappa", (e.kappa, e.kappa, 0.0)),
                ("sam_x", (0.0, 0.0, 0.0)),
                ("sam_y", (0.0, 0.0, 0.0)),
                ("sam_z", (0.0, 0.0, 0.0))];
    GonioKeys(pos);
    Scan(if omegaChosen then "omega" else "phi", pos, Trunc(e.osc.numberOfImages))
  }

  /** The axis choice is read without regard to case: two requests whose
      choices differ only in case give the same scan. */
  lemma ReadScanIgnoresCase(e: ExtendedRequest, choice: string)
    requires Lower(choice) == Lower(e.axisChoice)
    ensures ReadScan(e.(axisChoice := choice)) == ReadScan(e)
  {
  }

  /** Six entries under the goniometer names, in order, have exactly those
      names as keys, each once. */
  lemma GonioKeys<V>(pos: Dict<string, V>)
    requires |pos| == 6 && pos[0].0 == "omega" && pos[1].0 == "phi" && pos[2].0 == "kappa"
    requires pos[3].0 == "sam_x" && pos[4].0 == "sam_y" && pos[5].0 == "sam_z"
    ensures Keys(pos) == GonioNames && DistinctKeys(pos)
  {
  }

  /** Looking the axes up by name: the scan axis finds its range, the
      other rotation axis its fixed position. */
  lemma ReadScanLookup(e: ExtendedRequest)
    ensures var r := ReadScan(e);
            Get(r.pos, r.axis) == Some((ScanRange(e.osc).0, ScanRange(e.osc).1, e.osc.range))
            && Get(r.pos, OtherAxis(r.axis)) == Some((e.otherAxis, e.otherAxis, 0.0))
            && Get(r.pos, "kappa") == Some((e.kappa, e.kappa, 0.0))
  {
    var r := ReadScan(e);
    GetDistinct(r.pos, 0);
    GetDistinct(r.pos, 1);
    GetDistinct(r.pos, 2);
  }

  /** The rotation covers the oscillation range once per image. */
  lemma ScanCoversImages(e: ExtendedRequest)
    ensures var p := ReadScan(e).pos[if ReadScan(e).axis == "omega" then 0 else 1].1;
            p.1 - p.0 == e.osc.numberOfImages * e.osc.range && p.2 == e.osc.range
  {
  }

  /** Ten images of 2 degrees from -180 on omega: the range ends at -160
      and ten images are counted. */
  lemma ReadScanOmegaExample(e: ExtendedRequest)
    requires AxisChoice(e) == "omega"
    requires e.osc.start == -180.0 && e.osc.range == 2.0 && e.osc.numberOfImages == 10.0
    ensures ReadScan(e).axis == "omega" && ReadScan(e).num == 10
    ensures ReadScan(e).pos[0] == ("omega", (-180.0, -160.0, 2.0))
    ensures ReadScan(e).pos[1] == ("phi", (e.otherAxis, e.otherAxis, 0.0))
  {
  }

  /** `read_det_position_from_xml`: two-theta and the distance for an
      Eiger, a fixed zero angle and the distance for a Tristan or any
      other detector; "tristan" is checked first. */
  function DetPosition(e: ExtendedRequest, desc: string): (r: seq<real>)
    ensures |r| == 2 && r[1] == e.sampleDetectorDistance
    ensures Contains(Lower(desc), "tristan") ==> r[0] == 0.0
    ensures !Contains(Lower(desc), "tristan") && Contains(Lower(desc), "eiger") ==> r[0] == e.twoTheta
    ensures !Contains(Lower(desc), "eiger") ==> r[0] == 0.0
  {
    if Contains(Lower(desc), "tristan") then [0.0, e.sampleDetectorDistance]
    else if Contains(Lower(desc), "eiger") then [e.twoTheta, e.sampleDetectorDistance]
    else [0.0, e.sampleDetectorDistance]
  }

  /** The angle read is two-theta exactly for an Eiger that is not also
      called a Tristan; otherwise it is zero. */
  lemma DetPositionAngle(e: ExtendedRequest, desc: string)
    requires e.twoTheta != 0.0
    ensures DetPosition(e, desc)[0] == e.twoTheta
            <==> Contains(Lower(desc), "eiger") && !Contains(Lower(desc), "tristan")
  {
  }
}

=== FILE: goniometer.dfy ===
/** The `Goniometer` of `nexgen/nxs_utils/goniometer.py`: a list of axes
    and an optional explicit scan, and the way the oscillation and grid
    scans are derived from them. The source updates its axes in place;
    here every operation returns the axes it leaves behind. */
module Goniometer {
  import opened Wrappers
  import opened Text
  import opened Axes
  import opened ScanSpec
  import opened ScanUtils

  /** A scan: axis name to its positions, in insertion order. */
  type Scan = Dict<string, seq<real>>

  datatype Gonio = Gonio(axes: seq<Axis>, scan: Option<Scan>)

  /** Python truthiness of `self.scan`: present and not empty. */
  predicate HasScan(scan: Option<Scan>) {
    scan.Some? && |scan.value| > 0
  }

  // ---------------------------------------------------------------- lookup

  /** `_find_axis_in_goniometer`: the index of the first axis with that
      name, if any. */
  function FindAxis(axes: seq<Axis>, name: string): (r: Option<nat>)
    ensures r.Some? ==> r.value < |axes| && axes[r.value].name == name
    ensures r.Some? ==> forall j :: 0 <= j < r.value ==> axes[j].name != name
    ensures r.None? <==> forall j :: 0 <= j < |axes| ==> axes[j].name != name
  {
    if |axes| == 0 then None
    else if axes[0].name == name then Some(0)
    else
      match FindAxis(axes[1..], name)
      case None =>
        assert forall j :: 1 <= j < |axes| ==> axes[j] == axes[1..][j - 1];
        None
      case Some(i) => Some(i + 1)
  }

  /** `self.axes_list[idx]` after the lookup: indexing a list with `None`
      raises `TypeError`. */
  function AxisIndex(axes: seq<Axis>, name: string): (r: Result<nat>)
    ensures r.Ok? <==> FindAxis(axes, name).Some?
    ensures r.Ok? ==> r.value < |axes| && axes[r.value].name == name
    ensures r.Err? ==> r.error == TypeError
  {
    match FindAxis(axes, name)
    case None => Err(TypeError)
    case Some(i) => Ok(i)
  }

  predicate SameNames(a: seq<Axis>, b: seq<Axis>) {
    |a| == |b| && forall i :: 0 <= i < |a| ==> a[i].name == b[i].name
  }

  /** The lookup sees only the names. */
  lemma FindAxisByName(a: seq<Axis>, b: seq<Axis>, name: string)
    requires SameNames(a, b)
    ensures FindAxis(a, name) == FindAxis(b, name)
  {
  }

  // ------------------------------------------------------ distinct values

  /** `_get_unique_scan_point_values`: every value once, in the order of
      first appearance (unlike `np.unique`, which sorts). */
  function Unique(xs: seq<real>): (r: seq<real>)
    ensures |r| <= |xs|
    ensures forall x :: x in r <==> x in xs
    ensures forall i, j :: 0 <= i < j < |r| ==> r[i] != r[j]
    ensures |xs| > 0 ==> |r| > 0 && r[0] == xs[0]
  {
    if |xs| == 0 then []
    else
      var init := xs[..|xs| - 1];
      assert xs == init + [xs[|xs| - 1]];
      var u := Unique(init);
      if xs[|xs| - 1] in u then u else u + [xs[|xs| - 1]]
  }

  /** The position of the first occurrence of `x` in `xs`. */
  function FirstIndex(xs: seq<real>, x: real): (r: nat)
    requires x in xs
    ensures r < |xs| && xs[r] == x
    ensures forall j :: 0 <= j < r ==> xs[j] != x
  {
    if xs[0] == x then 0 else 1 + FirstIndex(xs[1..], x)
  }

  lemma FirstIndexInPrefix(xs: seq<real>, m: nat, x: real)
    requires m <= |xs| && x in xs[..m]
    ensures x in xs && FirstIndex(xs, x) == FirstIndex(xs[..m], x)
  {
  }

  /** The distinct values come in the order in which the scan first visits
      them; so `u[1] - u[0]` is the step from the start to the first
      different position. */
  lemma {:induction false} UniqueInFirstVisitOrder(xs: seq<real>)
    ensures forall i, j :: 0 <= i < j < |Unique(xs)| ==>
              FirstIndex(xs, Unique(xs)[i]) < FirstIndex(xs, Unique(xs)[j])
  {
    if |xs| > 0 {
      var n := |xs|;
      var init := xs[..n - 1];
      var u := Unique(init);
      UniqueInFirstVisitOrder(init);
      forall x | x in u
        ensures FirstIndex(xs, x) == FirstIndex(init, x) && FirstIndex(xs, x) < n - 1
      {
        FirstIndexInPrefix(xs, n - 1, x);
      }
      if xs[n - 1] !in u {
        assert Unique(xs) == u + [xs[n - 1]];
        assert xs[n - 1] !in init;
        assert FirstIndex(xs, xs[n - 1]) == n - 1;
        forall i, j | 0 <= i < j < |Unique(xs)|
          ensures FirstIndex(xs, Unique(xs)[i]) < FirstIndex(xs, Unique(xs)[j])
        {
          assert Unique(xs)[i] == u[i];
          if j < |u| {
            assert Unique(xs)[j] == u[j];
          }
        }
      } else {
        assert Unique(xs) == u;
      }
    }
  }

  // ------------------------------------------------ updating from a scan

  /** The fields that describe an axis rather than its scan. */
  predicate SameIdentity(a: Axis, b: Axis) {
    a.name == b.name && a.depends == b.depends && a.kind == b.kind
    && a.vector == b.vector && a.offset == b.offset
  }

  /** An axis agrees with a scan of its positions: it starts at the first
      position, has one step per distinct position, steps by the distance
      from the first to the second distinct position (to 3 decimals), and
      does not move when only one position is visited. */
  predicate FollowsScan(a: Axis, values: seq<real>) {
    FollowsScanWith(a, values, 0.0, false)
  }

  /** The same, for either rule: the as-written one differs only for a
      scan that visits a single position, where the axis keeps the
      increment `before` it had. */
  predicate FollowsScanWith(a: Axis, values: seq<real>, before: real, asWritten: bool) {
    var u := Unique(values);
    |values| > 0 && a.startPos == values[0] && a.numSteps == |u|
    && (|u| > 1 ==> a.increment == Round3(u[1] - u[0]))
    && (|u| == 1 ==> a.increment == if asWritten then before else 0.0)
  }

  /** One axis of `_check_and_update_goniometer_from_scan` AS WRITTEN: for
      a scan that visits a single position the intended reset of the
      increment is a comparison, so the old increment survives. */
  function UpdateAxisFromScanAsWritten(a: Axis, values: seq<real>): (r: Result<Axis>)
    ensures |values| == 0 <==> r == Err(IndexError)
    ensures r.Ok? ==> SameIdentity(r.value, a) && FollowsScanWith(r.value, values, a.increment, true)
  {
    if |values| == 0 then Err(IndexError)
    else
      var u := Unique(values);
      var inc := if |u| > 1 then Round3(u[1] - u[0]) else a.increment;
      Ok(a.(startPos := values[0], increment := inc, numSteps := |u|))
  }

  /** A moving axis given a scan that stays at one position still moves
      after the as-written update: it is reported as a scan axis with one
      step. */
  lemma StillScanKeepsMovingAsWritten(a: Axis, values: seq<real>)
    requires IsScan(a) && |values| > 0
    requires forall i :: 0 <= i < |values| ==> values[i] == values[0]
    ensures UpdateAxisFromScanAsWritten(a, values).Ok?
    ensures var b := UpdateAxisFromScanAsWritten(a, values).value;
            IsScan(b) && b.numSteps == 1
  {
    UniqueOfConstant(values);
  }

  /** A scan that stays at one position has that one distinct value. */
  lemma {:induction false} UniqueOfConstant(xs: seq<real>)
    requires |xs| > 0
    requires forall i :: 0 <= i < |xs| ==> xs[i] == xs[0]
    ensures Unique(xs) == [xs[0]]
  {
    if |xs| > 1 {
      var init := xs[..|xs| - 1];
      UniqueOfConstant(init);
      assert xs[|xs| - 1] in Unique(init);
    }
  }

  /** One axis of `_check_and_update_goniometer_from_scan` as intended:
      a scan that visits a single position leaves the axis still. */
  function UpdateAxisFromScan(a: Axis, values: seq<real>): (r: Result<Axis>)
    ensures |values| == 0 <==> r == Err(IndexError)
    ensures r.Ok? ==> SameIdentity(r.value, a) && FollowsScan(r.value, values)
  {
    if |values| == 0 then Err(IndexError)
    else
      var u := Unique(values);
      var inc := if |u| > 1 then Round3(u[1] - u[0]) else 0.0;
      Ok(a.(startPos := values[0], increment := inc, numSteps := |u|))
  }

  /** After the intended update an axis whose scan stays at one position
      is not a scan axis, and its scan ends where it starts. */
  lemma StillScanStopsAxis(a: Axis, values: seq<real>)
    requires |values| > 0
    requires forall i :: 0 <= i < |values| ==> values[i] == values[0]
    ensures UpdateAxisFromScan(a, values).Ok?
    ensures var b := UpdateAxisFromScan(a, values).value;
            !IsScan(b) && b.numSteps == 1 && EndPos(b) == b.startPos
  {
    UniqueOfConstant(values);
  }

  /** Updating twice from the same scan changes nothing more. */
  lemma UpdateAxisFromScanIdempotent(a: Axis, values: seq<real>)
    requires |values| > 0
    ensures UpdateAxisFromScan(UpdateAxisFromScan(a, values).value, values) == UpdateAxisFromScan(a, values)
  {
  }

  /** The update of one axis by either rule. */
  function UpdateAxisWith(a: Axis, values: seq<real>, asWritten: bool): (r: Result<Axis>)
    ensures |values| == 0 <==> r == Err(IndexError)
    ensures r.Ok? ==> SameIdentity(r.value, a) && FollowsScanWith(r.value, values, a.increment, asWritten)
  {
    if asWritten then UpdateAxisFromScanAsWritten(a, values) else UpdateAxisFromScan(a, values)
  }

  /** The scan key can be applied: its axis exists and its positions are
      present and not empty. */
  predicate Updatable(axes: seq<Axis>, scan: Scan, k: string) {
    FindAxis(axes, k).Some? && Get(scan, k).Some? && |Get(scan, k).value| > 0
  }

  /** The axis that `k` names in `axes` follows the scan of `k` in `out`,
      by the rule `asWritten` selects. */
  predicate Scanned(axes: seq<Axis>, scan: Scan, k: string, out: seq<Axis>, asWritten: bool) {
    FindAxis(axes, k).Some? && Get(scan, k).Some?
    && AxisScanned(axes, FindAxis(axes, k).value, Get(scan, k).value, out, asWritten)
  }

  /** The axis at `i` of `out` follows `values`, starting from the axis at
      `i` of `axes`. */
  predicate AxisScanned(axes: seq<Axis>, i: nat, values: seq<real>, out: seq<Axis>, asWritten: bool) {
    i < |axes| && i < |out| && FollowsScanWith(out[i], values, axes[i].increment, asWritten)
  }

  /** No key in `keys` names the axis at `i`. */
  predicate Untouched(axes: seq<Axis>, keys: seq<string>, i: nat) {
    forall k :: k in keys ==> FindAxis(axes, k) != Some(i)
  }

  /** `_check_and_update_goniometer_from_scan(keys)`: brings every axis
      named by a key in line with its scan, key by key, by the as-written
      rule or the intended one. A key naming no axis fails with
      `TypeError`, a key missing from the scan with `KeyError`, an empty
      scan with `IndexError`. */
  function CheckAndUpdate(axes: seq<Axis>, scan: Scan, keys: seq<string>, asWritten: bool): (r: Result<seq<Axis>>)
    ensures r.Ok? <==> forall k :: k in keys ==> Updatable(axes, scan, k)
    ensures r.Ok? ==> |r.value| == |axes|
    ensures r.Ok? ==> forall i :: 0 <= i < |axes| ==> SameIdentity(r.value[i], axes[i])
    ensures r.Err? ==> r.error == TypeError || r.error == KeyError || r.error == IndexError
    decreases |keys|
  {
    if |keys| == 0 then Ok(axes)
    else
      assert keys[0] in keys;
      var i :- AxisIndex(axes, keys[0]);
      match Get(scan, keys[0])
      case None => Err(KeyError)
      case Some(values) =>
        var a :- UpdateAxisWith(axes[i], values, asWritten);
        var next := axes[i := a];
        assert SameNames(next, axes);
        assert forall k :: FindAxis(next, k) == FindAxis(axes, k) by {
          forall k ensures FindAxis(next, k) == FindAxis(axes, k) {
            FindAxisByName(next, axes, k);
          }
        }
        assert forall k :: k in keys <==> k == keys[0] || k in keys[1..] by {
          assert keys == [keys[0]] + keys[1..];
        }
        CheckAndUpdate(next, scan, keys[1..], asWritten)
  }

  /** The update sets exactly the scanned axes: every key's axis follows
      its scan (the last word on a key repeated is the same as the first,
      as both rules are idempotent), and every other axis is left as it
      was. */
  lemma {:induction false} CheckAndUpdateFollowsScan(axes: seq<Axis>, scan: Scan, keys: seq<string>, asWritten: bool)
    requires CheckAndUpdate(axes, scan, keys, asWritten).Ok?
    ensures var out := CheckAndUpdate(axes, scan, keys, asWritten).value;
            (forall k :: k in keys ==> Scanned(axes, scan, k, out, asWritten))
            && forall i :: 0 <= i < |axes| && Untouched(axes, keys, i) ==> out[i] == axes[i]
    decreases |keys|
  {
    if |keys| > 0 {
      var i, next := CheckAndUpdateStep(axes, scan, keys, asWritten);
      var out := CheckAndUpdate(axes, scan, keys, asWritten).value;
      CheckAndUpdateFollowsScan(next, scan, keys[1..], asWritten);
      StepScanned(axes, scan, keys, i, next, out, asWritten);
      StepUntouched(axes, keys, i, next, out);
    }
  }

  /** One key of the update: its axis `i` is brought in line with its
      scan, giving `next`, and the remaining keys are applied to `next`. */
  lemma CheckAndUpdateStep(axes: seq<Axis>, scan: Scan, keys: seq<string>, asWritten: bool)
    returns (i: nat, next: seq<Axis>)
    requires |keys| > 0 && CheckAndUpdate(axes, scan, keys, asWritten).Ok?
    ensures Scanned(axes, scan, keys[0], next, asWritten)
    ensures FindAxis(axes, keys[0]) == Some(i) && |next| == |axes|
    ensures forall j :: 0 <= j < |axes| && j != i ==> next[j] == axes[j]
    ensures forall k :: FindAxis(next, k) == FindAxis(axes, k)
    ensures CheckAndUpdate(next, scan, keys[1..], asWritten).Ok?
    ensures CheckAndUpdate(axes, scan, keys, asWritten).value == CheckAndUpdate(next, scan, keys[1..], asWritten).value
  {
    i := FindAxis(axes, keys[0]).value;
    var values := Get(scan, keys[0]).value;
    var a := UpdateAxisWith(axes[i], values, asWritten).value;
    next := axes[i := a];
    assert SameNames(next, axes);
    forall k ensures FindAxis(next, k) == FindAxis(axes, k) {
      FindAxisByName(next, axes, k);
    }
  }

  /** The first key's axis follows its scan after the update, unless a
      later key takes it over; the later keys' axes follow theirs. */
  lemma StepScanned(axes: seq<Axis>, scan: Scan, keys: seq<string>, i: nat, next: seq<Axis>, out: seq<Axis>,
                    asWritten: bool)
    requires |keys| > 0 && Scanned(axes, scan, keys[0], next, asWritten) && FindAxis(axes, keys[0]) == Some(i)
    requires |next| == |axes| == |out|
    requires forall j :: 0 <= j < |axes| && j != i ==> next[j] == axes[j]
    requires forall k :: FindAxis(next, k) == FindAxis(axes, k)
    requires forall k :: k in keys[1..] ==> Scanned(next, scan, k, out, asWritten)
    requires forall j :: 0 <= j < |next| && Untouched(next, keys[1..], j) ==> out[j] == next[j]
    ensures forall k :: k in keys ==> Scanned(axes, scan, k, out, asWritten)
  {
    forall k | k in keys ensures Scanned(axes, scan, k, out, asWritten) {
      if k in keys[1..] {
        LaterKeyScanned(axes, scan, keys[0], k, i, next, out, asWritten);
      } else {
        InHeadOrTail(keys, k);
        FirstKeyUntouched(axes, keys, i, next);
        FirstKeyScanned(axes, scan, k, i, next, out, asWritten);
      }
    }
  }

  lemma InHeadOrTail(keys: seq<string>, k: string)
    requires k in keys
    ensures k == keys[0] || k in keys[1..]
  {
    assert keys == [keys[0]] + keys[1..];
  }

  /** The first key's axis, left alone by the later keys, still follows
      its scan. */
  lemma FirstKeyScanned(axes: seq<Axis>, scan: Scan, first: string, i: nat, next: seq<Axis>, out: seq<Axis>,
                        asWritten: bool)
    requires Scanned(axes, scan, first, next, asWritten) && FindAxis(axes, first) == Some(i)
    requires i < |out| && out[i] == next[i]
    ensures Scanned(axes, scan, first, out, asWritten)
  {
  }

  /** A later key's axis follows its scan from `axes` as it does from
      `next`: it is either another axis, untouched in `next`, or the first
      key's axis again. */
  lemma LaterKeyScanned(axes: seq<Axis>, scan: Scan, first: string, k: string, i: nat, next: seq<Axis>,
                        out: seq<Axis>, asWritten: bool)
    requires Scanned(axes, scan, first, next, asWritten) && FindAxis(axes, first) == Some(i)
    requires |next| == |axes| == |out|
    requires forall j :: 0 <= j < |axes| && j != i ==> next[j] == axes[j]
    requires FindAxis(next, k) == FindAxis(axes, k)
    requires Scanned(next, scan, k, out, asWritten)
    ensures Scanned(axes, scan, k, out, asWritten)
  {
    var j := FindAxis(axes, k).value;
    if j == i {
      assert k == first;
      FollowsScanAgain(axes[i], next[i], out[i], Get(scan, k).value, asWritten);
    }
  }

  /** Following the same scan twice is following it once: under the
      as-written rule the increment kept is the one from before the
      first time. */
  lemma FollowsScanAgain(a: Axis, b: Axis, c: Axis, values: seq<real>, asWritten: bool)
    requires FollowsScanWith(b, values, a.increment, asWritten)
    requires FollowsScanWith(c, values, b.increment, asWritten)
    ensures FollowsScanWith(c, values, a.increment, asWritten)
  {
  }

  /** Only the first key names the axis at `i`, unless a later key
      repeats it. */
  lemma FirstKeyUntouched(axes: seq<Axis>, keys: seq<string>, i: nat, next: seq<Axis>)
    requires |keys| > 0 && FindAxis(axes, keys[0]) == Some(i) && keys[0] !in keys[1..]
    requires forall k :: FindAxis(next, k) == FindAxis(axes, k)
    ensures Untouched(next, keys[1..], i)
  {
    forall k | k in keys[1..] ensures FindAxis(next, k) != Some(i) {
      assert FindAxis(next, k) == FindAxis(axes, k);
    }
  }

  /** An axis no key names is left as it was. */
  lemma StepUntouched(axes: seq<Axis>, keys: seq<string>, i: nat, next: seq<Axis>, out: seq<Axis>)
    requires |keys| > 0 && FindAxis(axes, keys[0]) == Some(i)
    requires |next| == |axes| == |out| && forall j :: 0 <= j < |axes| && j != i ==> next[j] == axes[j]
    requires forall k :: FindAxis(next, k) == FindAxis(axes, k)
    requires forall j :: 0 <= j < |next| && Untouched(next, keys[1..], j) ==> out[j] == next[j]
    ensures forall j :: 0 <= j < |axes| && Untouched(axes, keys, j) ==> out[j] == axes[j]
  {
    forall j | 0 <= j < |axes| && Untouched(axes, keys, j) ensures out[j] == axes[j] {
      assert keys[0] in keys;
      assert j != i;
      UntouchedLater(axes, keys, next, j);
      assert out[j] == next[j];
    }
  }

  lemma UntouchedLater(axes: seq<Axis>, keys: seq<string>, next: seq<Axis>, j: nat)
    requires |keys| > 0 && Untouched(axes, keys, j)
    requires forall k :: FindAxis(next, k) == FindAxis(axes, k)
    ensures Untouched(next, keys[1..], j)
  {
    forall k | k in keys[1..] ensures FindAxis(next, k) != Some(j) {
      assert k in keys;
    }
  }

  /** `Goniometer(axes_list, scan)`: with a non-empty scan every scanned
      axis is brought in line with it on construction, by the rule
      `asWritten` selects. */
  function MakeGonio(axes: seq<Axis>, scan: Option<Scan>, asWritten: bool): (r: Result<Gonio>)
    ensures !HasScan(scan) ==> r == Ok(Gonio(axes, scan))
    ensures r.Ok? ==> r.value.scan == scan && |r.value.axes| == |axes|
    ensures HasScan(scan) ==> (r.Ok? <==> forall k :: k in Keys(scan.value) ==> Updatable(axes, scan.value, k))
    ensures r.Ok? && HasScan(scan) ==>
              forall k :: k in Keys(scan.value) ==> Scanned(axes, scan.value, k, r.value.axes, asWritten)
  {
    if HasScan(scan) then
      var keys := Keys(scan.value);
      var out :- CheckAndUpdate(axes, scan.value, keys, asWritten);
      CheckAndUpdateFollowsScan(axes, scan.value, keys, asWritten);
      Ok(Gonio(out, scan))
    else Ok(Gonio(axes, scan))
  }

  /** The constructor as written leaves a moving axis moving when its scan
      stays at one position (omega at increment 0.1 with the scan
      `[0.0, 0.0]` keeps 0.1); the intended update stops it. */
  lemma StillScanConstructorAsWritten(a: Axis, values: seq<real>)
    requires IsScan(a) && |values| > 0
    requires forall i :: 0 <= i < |values| ==> values[i] == values[0]
    ensures var w := MakeGonio([a], Some([(a.name, values)]), true);
            w.Ok? && |w.value.axes| == 1 && IsScan(w.value.axes[0]) && w.value.axes[0].increment == a.increment
    ensures var c := MakeGonio([a], Some([(a.name, values)]), false);
            c.Ok? && |c.value.axes| == 1 && !IsScan(c.value.axes[0])
  {
    UniqueOfConstant(values);
    var scan := [(a.name, values)];
    assert Keys(scan) == [a.name];
    assert FindAxis([a], a.name) == Some(0);
    assert Get(scan, a.name) == Some(values);
    assert a.name in Keys(scan);
  }

  // ------------------------------------------------------- scan definition

  /** What `define_scan_from_goniometer_axes` returns, with the axes as the
      call leaves them. */
  datatype ScanDefinition = ScanDefinition(oscScan: Scan, translScan: Option<Scan>, axes: seq<Axis>)

  /** The optional update at the end of the stored-scan branch. */
  function UpdateIf(axes: seq<Axis>, scan: Scan, update: bool, asWritten: bool): (r: Result<seq<Axis>>)
    ensures !update ==> r == Ok(axes)
    ensures update ==> (r.Ok? <==> forall k :: k in Keys(scan) ==> Updatable(axes, scan, k))
    ensures r.Ok? ==> |r.value| == |axes|
    ensures r.Ok? && update ==> forall k :: k in Keys(scan) ==> Scanned(axes, scan, k, r.value, asWritten)
  {
    if update then
      var out :- CheckAndUpdate(axes, scan, Keys(scan), asWritten);
      CheckAndUpdateFollowsScan(axes, scan, Keys(scan), asWritten);
      Ok(out)
    else Ok(axes)
  }

  /** The lengths a scan definition keeps in step: one oscillation axis,
      a non-empty grid, and one oscillation position per grid point. */
  predicate InStep(d: ScanDefinition) {
    |d.oscScan| > 0
    && (d.translScan.Some? ==>
          && |d.oscScan| == 1
          && |d.translScan.value| > 0
          && (|d.translScan.value[0].1| > 0 ==> |d.oscScan[0].1| == |d.translScan.value[0].1|))
  }

  /** The stored-scan branch: a rotation scan is the oscillation scan
      itself; otherwise the stored scan is the grid and the oscillation
      axis gets one position per grid point. */
  function FromStoredScan(axes: seq<Axis>, scan: Scan, update: bool, asWritten: bool): (r: Result<ScanDefinition>)
    requires |scan| > 0
    ensures r.Ok? ==> InStep(r.value) && |r.value.axes| == |axes|
    ensures r.Ok? ==> (r.value.translScan.None? <==> r.value.oscScan == scan)
    ensures r.Ok? && update ==> forall k :: k in Keys(scan) ==> Scanned(axes, scan, k, r.value.axes, asWritten)
  {
    var i :- AxisIndex(axes, scan[0].0);
    if axes[i].kind == Rotation then
      var after :- UpdateIf(axes, scan, update, asWritten);
      Ok(ScanDefinition(scan, None, after))
    else
      var osc :- IdentifyOscAxis(axes, "omega");
      var j :- AxisIndex(axes, osc);
      var oscScan :- CalculateScanPoints(axes[j], None, true, true, Some(|scan[0].1|));
      var after :- UpdateIf(axes, scan, update, asWritten);
      Ok(ScanDefinition(oscScan, Some(scan), after))
  }

  /** The translation axes: the given order, or the moving translation
      axes of the goniometer. */
  function TranslationAxes(axes: seq<Axis>, options: Option<GridScanOptions>): (r: Result<seq<string>>)
    ensures options.Some? ==> r == Ok([options.value.axesOrder.0, options.value.axesOrder.1])
    ensures options.None? ==> r == IdentifyGridScanAxes(axes)
  {
    if options.Some? then Ok([options.value.axesOrder.0, options.value.axesOrder.1])
    else IdentifyGridScanAxes(axes)
  }

  /** The increment of the axis at `i`, turned by the scan direction. */
  function Turn(axes: seq<Axis>, i: nat, direction: ScanDirection): (r: seq<Axis>)
    requires i < |axes|
    ensures |r| == |axes| && SameNames(r, axes)
    ensures r[i].increment == axes[i].increment * direction.Sign()
    ensures forall j :: 0 <= j < |axes| && j != i ==> r[j] == axes[j]
    ensures direction == Positive ==> r == axes
  {
    axes[i := axes[i].(increment := axes[i].increment * direction.Sign())]
  }

  /** The grid part: one translation axis gives a line, turned by the
      direction; two or more give the grid of the first two, snaked unless
      options say otherwise. */
  function GridPart(axes: seq<Axis>, transl: seq<string>, options: Option<GridScanOptions>,
                    direction: ScanDirection): (r: Result<(seq<Axis>, Scan)>)
    requires |transl| > 0
    ensures r.Ok? ==> SameNames(r.value.0, axes)
  {
    var t0 :- AxisIndex(axes, transl[0]);
    if |transl| == 1 then
      var turned := Turn(axes, t0, direction);
      var s :- CalculateScanPoints(turned[t0], None, true, false, None);
      Ok((turned, s))
    else
      var t1 :- AxisIndex(axes, transl[1]);
      var snaked := options.None? || options.value.snaked;
      var s :- CalculateScanPoints(axes[t0], Some(axes[t1]), snaked, false, None);
      Ok((axes, s))
  }

  /** The branch without a stored scan. `asWritten` selects the axis
      whose positions fill the oscillation scan of a grid: the first axis
      of the goniometer, as written, or the oscillation axis. */
  function FromAxes(axes: seq<Axis>, options: Option<GridScanOptions>, direction: ScanDirection,
                    asWritten: bool): (r: Result<ScanDefinition>)
    ensures r.Ok? ==> InStep(r.value) && SameNames(r.value.axes, axes)
  {
    var osc :- IdentifyOscAxis(axes, "omega");
    var transl :- TranslationAxes(axes, options);
    if |transl| == 0 then
      var j :- AxisIndex(axes, osc);
      var turned := Turn(axes, j, direction);
      var oscScan :- CalculateScanPoints(turned[j], None, true, true, None);
      Ok(ScanDefinition(oscScan, None, turned))
    else
      var grid :- GridPart(axes, transl, options, direction);
      var after := grid.0;
      if |grid.1| == 0 then Err(IndexError)
      else
        var k :- if asWritten then Ok(0) else AxisIndex(axes, osc);
        var oscScan :- CalculateScanPoints(after[k], None, true, true, Some(|grid.1[0].1|));
        Ok(ScanDefinition(oscScan, Some(grid.1), after))
  }

  /** `define_scan_from_goniometer_axes`, as written or as intended. */
  function DefineScanWith(g: Gonio, options: Option<GridScanOptions>, direction: ScanDirection,
                          update: bool, asWritten: bool): (r: Result<ScanDefinition>)
    ensures r.Ok? ==> InStep(r.value)
    ensures r.Ok? && !HasScan(g.scan) ==> SameNames(r.value.axes, g.axes)
    ensures r.Ok? && HasScan(g.scan) && update ==>
              forall k :: k in Keys(g.scan.value) ==> Scanned(g.axes, g.scan.value, k, r.value.axes, asWritten)
  {
    if HasScan(g.scan) then FromStoredScan(g.axes, g.scan.value, update, asWritten)
    else FromAxes(g.axes, options, direction, asWritten)
  }

  /** `define_scan_from_goniometer_axes` AS WRITTEN: the oscillation scan
      of a grid is computed on `axes_list[0]`, and the stored-scan update
      keeps the increment of an axis whose scan stays at one position.
      Without the update a stored scan is read as intended. */
  function DefineScanFromGoniometerAxesAsWritten(g: Gonio, options: Option<GridScanOptions>,
                                                 direction: ScanDirection, update: bool): (r: Result<ScanDefinition>)
    ensures r.Ok? ==> InStep(r.value)
    ensures HasScan(g.scan) && !update ==> r == DefineScanFromGoniometerAxes(g, options, direction, false)
    ensures r.Ok? && HasScan(g.scan) && update ==>
              forall k :: k in Keys(g.scan.value) ==> Scanned(g.axes, g.scan.value, k, r.value.axes, true)
  {
    DefineScanWith(g, options, direction, update, true)
  }

  /** `define_scan_from_goniometer_axes` as intended: the oscillation scan
      of a grid is computed on the oscillation axis. Whatever the branch,
      the oscillation scan has one position per grid point. */
  function DefineScanFromGoniometerAxes(g: Gonio, options: Option<GridScanOptions>,
                                        direction: ScanDirection, update: bool): (r: Result<ScanDefinition>)
    ensures r.Ok? ==> InStep(r.value)
    ensures r.Ok? && !HasScan(g.scan) ==> SameNames(r.value.axes, g.axes)
    ensures r.Ok? && HasScan(g.scan) ==> (r.value.translScan.None? <==> r.value.oscScan == g.scan.value)
    ensures r.Ok? && HasScan(g.scan) && update ==>
              forall k :: k in Keys(g.scan.value) ==> Scanned(g.axes, g.scan.value, k, r.value.axes, false)
  {
    DefineScanWith(g, options, direction, update, false)
  }

  // ------------------------------------------------ properties of the scans

  /** Axis names are distinct, as in any real goniometer. */
  predicate DistinctNames(axes: seq<Axis>) {
    forall i, j :: 0 <= i < j < |axes| ==> axes[i].name != axes[j].name
  }

  /** With distinct names, looking an axis up by its own name finds it. */
  lemma FindOwnAxis(axes: seq<Axis>, i: nat)
    requires DistinctNames(axes) && i < |axes|
    ensures FindAxis(axes, axes[i].name) == Some(i)
  {
  }

  /** With a single rotation axis, that axis is the oscillation axis and is
      found by its name. */
  lemma SoleRotationFound(axes: seq<Axis>) returns (k: nat)
    requires DistinctNames(axes) && |Rotations(axes)| == 1
    ensures k < |axes| && axes[k] == Rotations(axes)[0] && axes[k].kind == Rotation
    ensures IdentifyOscAxis(axes, "omega") == Ok(axes[k].name)
    ensures FindAxis(axes, axes[k].name) == Some(k)
  {
    assert Rotations(axes)[0] in Rotations(axes);
    k :| 0 <= k < |axes| && axes[k] == Rotations(axes)[0];
    FindOwnAxis(axes, k);
  }

  /** A stored rotation scan is returned as the oscillation scan, with no
      grid. */
  lemma StoredRotationScanKept(g: Gonio, options: Option<GridScanOptions>, direction: ScanDirection, update: bool)
    requires HasScan(g.scan)
    requires FindAxis(g.axes, g.scan.value[0].0).Some?
    requires g.axes[FindAxis(g.axes, g.scan.value[0].0).value].kind == Rotation
    requires update ==> forall k :: k in Keys(g.scan.value) ==> Updatable(g.axes, g.scan.value, k)
    ensures var r := DefineScanFromGoniometerAxes(g, options, direction, update);
            r.Ok? && r.value.oscScan == g.scan.value && r.value.translScan.None?
  {
  }

  /** A stored grid scan is returned as the grid, and the oscillation axis
      gets as many positions as the grid has points; when that axis does
      not move, they all sit at its start. */
  lemma StoredGridScanOscillation(g: Gonio, options: Option<GridScanOptions>, direction: ScanDirection, update: bool)
    requires HasScan(g.scan) && DistinctNames(g.axes) && |Rotations(g.axes)| == 1
    requires FindAxis(g.axes, g.scan.value[0].0).Some?
    requires g.axes[FindAxis(g.axes, g.scan.value[0].0).value].kind == Translation
    requires |g.scan.value[0].1| > 0
    requires update ==> forall k :: k in Keys(g.scan.value) ==> Updatable(g.axes, g.scan.value, k)
    ensures var r := DefineScanFromGoniometerAxes(g, options, direction, update);
            var osc := Rotations(g.axes)[0];
            && r.Ok? && r.value.translScan == Some(g.scan.value)
            && r.value.oscScan == [(osc.name, AxisLine(osc, |g.scan.value[0].1|))]
            && (osc.increment == 0.0 ==> forall i :: 0 <= i < |r.value.oscScan[0].1| ==> r.value.oscScan[0].1[i] == osc.startPos)
  {
    var k := SoleRotationFound(g.axes);
  }

  /** The two axes a grid is built from exist, translate, have steps, and
      differ. */
  predicate GridAxesReady(axes: seq<Axis>, options: Option<GridScanOptions>) {
    var t := TranslationAxes(axes, options);
    && t.Ok? && |t.value| >= 2 && t.value[0] != t.value[1]
    && FindAxis(axes, t.value[0]).Some? && FindAxis(axes, t.value[1]).Some?
    && axes[FindAxis(axes, t.value[0]).value].kind == Translation
    && axes[FindAxis(axes, t.value[1]).value].kind == Translation
    && axes[FindAxis(axes, t.value[0]).value].numSteps >= 1
    && axes[FindAxis(axes, t.value[1]).value].numSteps >= 1
  }

  /** The number of points of the grid of a goniometer. */
  function GridSize(axes: seq<Axis>, options: Option<GridScanOptions>): (r: int)
    requires GridAxesReady(axes, options)
    ensures r >= 1
  {
    var t := TranslationAxes(axes, options).value;
    var n1 := axes[FindAxis(axes, t[0]).value].numSteps;
    var n2 := axes[FindAxis(axes, t[1]).value].numSteps;
    assert n1 * n2 >= n2;
    n1 * n2
  }

  /** Without a stored scan, a grid over two translation axes gives both
      axes `n1 * n2` positions and the oscillation axis one position per
      grid point (100 of each for a 10 by 10 grid). */
  lemma GridScanOscillation(g: Gonio, options: Option<GridScanOptions>, direction: ScanDirection, update: bool)
    requires !HasScan(g.scan) && DistinctNames(g.axes) && |Rotations(g.axes)| == 1
    requires GridAxesReady(g.axes, options)
    ensures var r := DefineScanFromGoniometerAxes(g, options, direction, update);
            var osc := Rotations(g.axes)[0];
            var n := GridSize(g.axes, options);
            var t := TranslationAxes(g.axes, options).value;
            && r.Ok? && r.value.translScan.Some?
            && Keys(r.value.translScan.value) == [t[0], t[1]]
            && |r.value.translScan.value[0].1| == n && |r.value.translScan.value[1].1| == n
            && r.value.oscScan == [(osc.name, AxisLine(osc, n))]
            && |r.value.oscScan[0].1| == n
  {
    var axes := g.axes;
    var k := SoleRotationFound(axes);
    var grid := ReadyGridPart(axes, options, direction);
    RotationScanPoints(axes[k], Some(GridSize(axes, options)));
  }

  /** The grid of two ready translation axes: the axes are left as they
      are and both scans have one position per grid point. */
  lemma ReadyGridPart(axes: seq<Axis>, options: Option<GridScanOptions>, direction: ScanDirection)
    returns (grid: Scan)
    requires GridAxesReady(axes, options)
    ensures var t := TranslationAxes(axes, options).value;
            && GridPart(axes, t, options, direction) == Ok((axes, grid))
            && |grid| == 2 && grid[0].0 == t[0] && grid[1].0 == t[1]
            && |grid[0].1| == GridSize(axes, options) && |grid[1].1| == GridSize(axes, options)
  {
    var t := TranslationAxes(axes, options).value;
    var i0 := FindAxis(axes, t[0]).value;
    var i1 := FindAxis(axes, t[1]).value;
    var snaked := options.None? || options.value.snaked;
    GridScanPoints(axes[i0], axes[i1], snaked);
    grid := CalculateScanPoints(axes[i0], Some(axes[i1]), snaked, false, None).value;
  }

  /** As written, a goniometer whose first axis is a translation cannot
      build a grid scan: the oscillation scan is asked of that first axis,
      which is no rotation, while the intended definition succeeds. */
  lemma GridScanFirstAxisTranslationAsWritten(g: Gonio, options: Option<GridScanOptions>, direction: ScanDirection, update: bool)
    requires !HasScan(g.scan) && DistinctNames(g.axes) && |Rotations(g.axes)| == 1
    requires GridAxesReady(g.axes, options)
    requires g.axes[0].kind == Translation
    ensures DefineScanFromGoniometerAxesAsWritten(g, options, direction, update) == Err(ScanAxisError)
    ensures DefineScanFromGoniometerAxes(g, options, direction, update).Ok?
  {
    GridScanOscillation(g, options, direction, update);
    var axes := g.axes;
    var t := TranslationAxes(axes, options).value;
    var i0 := FindAxis(axes, t[0]).value;
    var i1 := FindAxis(axes, t[1]).value;
    var snaked := options.None? || options.value.snaked;
    GridScanPoints(axes[i0], axes[i1], snaked);
    assert GridPart(axes, t, options, direction)
        == Ok((axes, CalculateScanPoints(axes[i0], Some(axes[i1]), snaked, false, None).value));
  }

  /** The scan of a lone rotation axis `osc`: no grid, and `num_steps`
      positions from its start to the far end on the side the direction
      picks. */
  predicate RotationOnlyDefinition(r: Result<ScanDefinition>, osc: Axis, direction: ScanDirection) {
    var n := osc.numSteps;
    && r.Ok? && r.value.translScan.None?
    && |r.value.oscScan| == 1 && r.value.oscScan[0].0 == osc.name
    && n >= 1 && |r.value.oscScan[0].1| == n
    && r.value.oscScan[0].1[0] == osc.startPos
    && (n >= 2 ==> r.value.oscScan[0].1[n - 1] == osc.startPos + direction.Sign() * osc.increment * (n - 1) as real)
  }

  /** A rotation with nothing else moving: the oscillation axis is turned
      by the scan direction, and its positions run from the start by that
      turned increment. */
  lemma RotationOnlyScan(g: Gonio, direction: ScanDirection, update: bool)
    requires !HasScan(g.scan) && DistinctNames(g.axes) && |Rotations(g.axes)| == 1
    requires GridNames(g.axes) == []
    requires Rotations(g.axes)[0].numSteps >= 1
    ensures RotationOnlyDefinition(DefineScanFromGoniometerAxes(g, None, direction, update), Rotations(g.axes)[0], direction)
  {
    assert DefineScanFromGoniometerAxes(g, None, direction, update) == FromAxes(g.axes, None, direction, false);
    RotationOnlyFromAxes(g.axes, direction, false);
  }

  /** The rotation-only branch, which both rules share. */
  lemma RotationOnlyFromAxes(axes: seq<Axis>, direction: ScanDirection, asWritten: bool)
    requires DistinctNames(axes) && |Rotations(axes)| == 1
    requires GridNames(axes) == []
    requires Rotations(axes)[0].numSteps >= 1
    ensures RotationOnlyDefinition(FromAxes(axes, None, direction, asWritten), Rotations(axes)[0], direction)
  {
    var k := SoleRotationFound(axes);
    var osc := axes[k];
    RotationOnlyUnfolds(axes, direction, asWritten, k);
    RotationLine(FromAxes(axes, None, direction, asWritten), Rotations(axes)[0], direction);
  }

  /** Without translation axes the scan is the turned rotation axis's own line. */
  lemma RotationOnlyUnfolds(axes: seq<Axis>, direction: ScanDirection, asWritten: bool, k: nat)
    requires k < |axes| && axes[k].kind == Rotation && axes[k].numSteps >= 1
    requires IdentifyOscAxis(axes, "omega") == Ok(axes[k].name)
    requires FindAxis(axes, axes[k].name) == Some(k)
    requires GridNames(axes) == []
    ensures var t := axes[k].(increment := axes[k].increment * direction.Sign());
            FromAxes(axes, None, direction, asWritten)
            == Ok(ScanDefinition([(t.name, AxisLine(t, t.numSteps))], None, Turn(axes, k, direction)))
  {
    assert TranslationAxes(axes, None) == Ok([]);
    assert AxisIndex(axes, axes[k].name) == Ok(k);
  }

  /** The line of a turned rotation axis: `num_steps` points from its start
      to the far end on the side the direction picks. */
  lemma RotationLine(r: Result<ScanDefinition>, osc: Axis, direction: ScanDirection)
    requires osc.kind == Rotation && osc.numSteps >= 1
    requires var t := osc.(increment := osc.increment * direction.Sign());
             r.Ok? && r.value == ScanDefinition([(t.name, AxisLine(t, t.numSteps))], None, r.value.axes)
    ensures RotationOnlyDefinition(r, osc, direction)
  {
    var t := osc.(increment := osc.increment * direction.Sign());
    RotationScanPoints(t, None);
  }

  // ------------------------------------------------------------ event mode

  /** `define_scan_axes_for_event_mode`: the (start, stop) range of the
      oscillation axis. A stored rotation scan is returned as it is; a
      stored grid comes with a still `omega`. Without a stored scan the
      stop is the given end position, unless it is missing or zero, in
      which case it is the axis's own end. */
  function DefineScanAxesForEventMode(g: Gonio, endPosition: Option<real>): (r: Result<(Scan, Option<Scan>)>)
    ensures r.Ok? && r.value.1.Some? ==> HasScan(g.scan) && r.value == ([("omega", [0.0, 0.0])], g.scan)
    ensures r.Ok? && HasScan(g.scan) && r.value.1.None? ==> r.value.0 == g.scan.value
    ensures r.Ok? && !HasScan(g.scan) ==>
              && |r.value.0| == 1 && |r.value.0[0].1| == 2 && r.value.1.None?
              && FindAxis(g.axes, r.value.0[0].0).Some?
              && r.value.0[0].1[0] == g.axes[FindAxis(g.axes, r.value.0[0].0).value].startPos
              && (endPosition.Some? && endPosition.value != 0.0 ==> r.value.0[0].1[1] == endPosition.value)
    ensures r.Err? ==> r.error == TypeError || r.error == ScanAxisNotFoundError
  {
    if HasScan(g.scan) then
      var scan := g.scan.value;
      var i :- AxisIndex(g.axes, scan[0].0);
      if g.axes[i].kind == Rotation then Ok((scan, None))
      else Ok(([("omega", [0.0, 0.0])], Some(scan)))
    else
      var osc :- IdentifyOscAxis(g.axes, "omega");
      var j :- AxisIndex(g.axes, osc);
      var a := g.axes[j];
      var stop := if endPosition.Some? && endPosition.value != 0.0 then endPosition.value else EndPos(a);
      Ok(([(osc, [a.startPos, stop])], None))
  }

  /** Without an end position, the event-mode range of a plain rotation is
      the first and the last position of its image-mode scan. */
  lemma EventRangeSpansRotationScan(g: Gonio, update: bool)
    requires !HasScan(g.scan) && DistinctNames(g.axes) && |Rotations(g.axes)| == 1
    requires GridNames(g.axes) == []
    requires Rotations(g.axes)[0].numSteps >= 2
    ensures var e := DefineScanAxesForEventMode(g, None);
            var d := DefineScanFromGoniometerAxes(g, None, Positive, update);
            && e.Ok? && d.Ok?
            && var pts := d.value.oscScan[0].1;
               e.value.0 == [(d.value.oscScan[0].0, [pts[0], pts[|pts| - 1]])]
  {
    var k := SoleRotationFound(g.axes);
    RotationOnlyScan(g, Positive, update);
    RotationScanPoints(g.axes[k], None);
  }

  // ------------------------------------------------------ number of points

  /** `get_number_of_scan_points`: the length of the first list of the
      stored scan, or else of the oscillation scan the axes define, as
      written or as intended. An empty stored scan has no first key and
      raises `IndexError`. */
  function NumberOfScanPoints(g: Gonio, asWritten: bool): (r: Result<nat>)
    ensures g.scan.Some? ==> (r.Ok? <==> |g.scan.value| > 0)
    ensures g.scan.Some? && r.Ok? ==> r.value == |g.scan.value[0].1|
    ensures g.scan.None? ==> (r.Ok? <==> DefineScanWith(g, None, Positive, true, asWritten).Ok?)
    ensures g.scan.None? && r.Ok? ==>
              r.value == |DefineScanWith(g, None, Positive, true, asWritten).value.oscScan[0].1|
  {
    var scan :- if g.scan.Some? then Ok(g.scan.value)
                else var d :- DefineScanWith(g, None, Positive, true, asWritten); Ok(d.oscScan);
    if |scan| == 0 then Err(IndexError) else Ok(|scan[0].1|)
  }

  /** With the intended oscillation axis, a goniometer with a two-axis
      grid and no stored scan counts one point per grid point. */
  lemma GridNumberOfScanPoints(g: Gonio)
    requires g.scan.None? && DistinctNames(g.axes) && |Rotations(g.axes)| == 1
    requires GridAxesReady(g.axes, None)
    ensures NumberOfScanPoints(g, false) == Ok(GridSize(g.axes, None))
  {
    GridScanOscillation(g, None, Positive, true);
  }

  /** As written, the same goniometer fails to count its points when its
      first listed axis is a translation: the count asks for the grid's
      oscillation scan of that axis. */
  lemma GridNumberOfScanPointsAsWritten(g: Gonio)
    requires g.scan.None? && DistinctNames(g.axes) && |Rotations(g.axes)| == 1
    requires GridAxesReady(g.axes, None)
    requires g.axes[0].kind == Translation
    ensures NumberOfScanPoints(g, true) == Err(ScanAxisError)
  {
    GridScanFirstAxisTranslationAsWritten(g, None, Positive, true);
  }
}

=== FILE: meta_reader.dfy ===
/** `nexgen/tools/meta_reader.py`: the data type of a virtual dataset and
    the axis positions taken from a Dectris meta file. */
module MetaReader {
  import opened Wrappers
  import opened Text
  import opened Utils
  import opened Axes
  import opened Metafile
  import SsxEiger

  /** The bit depth as stored: an integer or a float compares equal to 32
      or 8 by value. */
  predicate DepthIs(v: Option<Scalar>, bits: int) {
    v.Some? && ((v.value.IntS? && v.value.i == bits) || (v.value.RealS? && v.value.r == bits as real))
  }

  /** `define_vds_data_type`: 32 bits give `uint32`, 8 give `uint8`,
      anything else, a missing value included, `uint16`. */
  function DefineVdsDataType(m: MetaFile): (r: Result<DType>)
    ensures r.Ok? <==> BitDepthImage(m).Ok?
    ensures r.Ok? ==> (r.value == UInt32 <==> DepthIs(BitDepthImage(m).value, 32))
    ensures r.Ok? ==> (r.value == UInt8 <==> DepthIs(BitDepthImage(m).value, 8))
    ensures r.Ok? && BitDepthImage(m).value.None? ==> r.value == UInt16
  {
    var nbits :- BitDepthImage(m);
    if DepthIs(nbits, 32) then Ok(UInt32)
    else if DepthIs(nbits, 8) then Ok(UInt8)
    else Ok(UInt16)
  }

  /** The meta file's rule agrees with the serial-crystallography writer's
      own rule for every stored integer bit depth. */
  lemma DataTypeAgreesWithWriter(m: MetaFile, bits: int)
    requires BitDepthImage(m) == Ok(Some(IntS(bits)))
    ensures DefineVdsDataType(m) == Ok(SsxEiger.VdsDtypeFromBitDepth(bits))
  {
  }

  /** A numeric configuration value as a position. Arrays and text are
      outside the model. */
  function PositionOf(v: ConfigValue): (r: Result<real>)
    ensures v.One? && v.v.IntS? ==> r == Ok(v.v.i as real)
    ensures v.One? && v.v.RealS? ==> r == Ok(v.v.r)
    ensures r.Ok? <==> v.One? && (v.v.IntS? || v.v.RealS?)
  {
    match v
    case One(IntS(i)) => Ok(i as real)
    case One(RealS(x)) => Ok(x)
    case _ => Err(TypeError)
  }

  /** `units_of_length(d).to("mm")` for the detector distance, which the
      meta file stores in metres: it must be there and positive. Text with
      its own unit is handed to `parseMm`. */
  function DistanceInMm(d: Option<Scalar>, parseMm: string -> Result<real>): (r: Result<real>)
    ensures d.None? ==> r == Err(TypeError)
    ensures d.Some? && d.value.IntS? ==> (r.Ok? <==> d.value.i > 0)
    ensures d.Some? && d.value.RealS? ==> (r.Ok? <==> d.value.r > 0.0)
    ensures r.Ok? && d.Some? && d.value.IntS? ==> r.value == d.value.i as real * 1000.0
    ensures r.Ok? && d.Some? && d.value.RealS? ==> r.value == d.value.r * 1000.0
  {
    match d
    case None => Err(TypeError)
    case Some(IntS(i)) => if i <= 0 then Err(ValueError) else Ok(i as real * 1000.0)
    case Some(RealS(x)) => if x <= 0.0 then Err(ValueError) else Ok(x * 1000.0)
    case Some(StrS(s)) => parseMm(s)
    case Some(BytesS(b)) => parseMm(b)
  }

  /** The truthiness of the optional oscillation axis name. */
  predicate IsOsc(osc: Option<string>, name: string) {
    osc.Some? && |osc.value| > 0 && name == osc.value
  }

  /** One pass of the loop body over a single axis: the configured start
      and, only with it, the increment; the image count for the
      oscillation axis; the detector distance for `det_z`. */
  function UpdateAxis(a: Axis, config: Config, osc: Option<string>, num: int,
                      distance: Option<Scalar>, parseMm: string -> Result<real>): (r: Result<Axis>)
    ensures r.Ok? ==> r.value.name == a.name && r.value.depends == a.depends && r.value.kind == a.kind
                      && r.value.vector == a.vector && r.value.offset == a.offset
    ensures r.Ok? && !HasKey(config, a.name + "_start") ==> r.value.increment == a.increment
    ensures r.Ok? && !HasKey(config, a.name + "_start") && a.name != "det_z" ==> r.value.startPos == a.startPos
    ensures r.Ok? && HasKey(config, a.name + "_start") && a.name != "det_z" ==>
              Ok(r.value.startPos) == PositionOf(Get(config, a.name + "_start").value)
    ensures r.Ok? && HasKey(config, a.name + "_start") && HasKey(config, a.name + "_increment") ==>
              Ok(r.value.increment) == PositionOf(Get(config, a.name + "_increment").value)
    ensures r.Ok? && HasKey(config, a.name + "_start") && !HasKey(config, a.name + "_increment") ==>
              r.value.increment == a.increment
    ensures r.Ok? ==> r.value.numSteps == (if IsOsc(osc, a.name) then num else a.numSteps)
    ensures r.Ok? && a.name == "det_z" ==> Ok(r.value.startPos) == DistanceInMm(distance, parseMm)
  {
    var started :-
      match Get(config, a.name + "_start")
      case None => Ok(a)
      case Some(s) =>
        var start :- PositionOf(s);
        match Get(config, a.name + "_increment")
        case None => Ok(a.(startPos := start))
        case Some(i) =>
          var inc :- PositionOf(i);
          Ok(a.(startPos := start, increment := inc));
    var stepped := if IsOsc(osc, a.name) then started.(numSteps := num) else started;
    if a.name == "det_z" then
      var mm :- DistanceInMm(distance, parseMm);
      Ok(stepped.(startPos := mm))
    else Ok(stepped)
  }

  function UpdateEach(axes: seq<Axis>, config: Config, osc: Option<string>, num: int,
                      distance: Option<Scalar>, parseMm: string -> Result<real>): (r: Result<seq<Axis>>)
    ensures r.Ok? ==> |r.value| == |axes|
    ensures r.Ok? ==> forall i :: 0 <= i < |axes| ==> UpdateAxis(axes[i], config, osc, num, distance, parseMm) == Ok(r.value[i])
    ensures r.Err? ==> exists i :: 0 <= i < |axes| && UpdateAxis(axes[i], config, osc, num, distance, parseMm).Err?
  {
    if |axes| == 0 then Ok([])
    else
      var a :- UpdateAxis(axes[0], config, osc, num, distance, parseMm);
      var rest :- UpdateEach(axes[1..], config, osc, num, distance, parseMm);
      assert forall i :: 1 <= i < |axes| ==> axes[i] == axes[1..][i - 1];
      Ok([a] + rest)
  }

  /** The configuration the positions come from: the `config` dataset
      only when asked for and present, the `_dectris` group otherwise. */
  function ChosenConfig(m: MetaFile, useConfig: bool): (r: Result<Config>)
    ensures useConfig && HasConfig(m) ==> r == ReadConfigDset(m)
    ensures !(useConfig && HasConfig(m)) ==> r == Ok(ReadDectrisConfig(m))
  {
    if useConfig && HasConfig(m) then ReadConfigDset(m) else Ok(ReadDectrisConfig(m))
  }

  /** `update_axes_from_meta`, returning the updated list. The detector
      distance is read only for an axis called `det_z`. */
  function UpdateAxesFromMeta(m: MetaFile, axes: seq<Axis>, osc: Option<string>, useConfig: bool,
                              parseMm: string -> Result<real>): (r: Result<seq<Axis>>)
    ensures !HasDectrisGroup(m) ==> r == Ok(axes)
    ensures r.Ok? ==> |r.value| == |axes|
  {
    if !HasDectrisGroup(m) then Ok(axes)
    else
      var config :- ChosenConfig(m, useConfig);
      var num :- FullNumberOfImages(m);
      var distance :- if exists i :: 0 <= i < |axes| && axes[i].name == "det_z" then DetectorDistance(m) else Ok(None);
      UpdateEach(axes, config, osc, num, distance, parseMm)
  }

  /** With the group present, every axis goes through the loop body with
      the chosen configuration and the full image count; an axis without
      configured values, which is neither the oscillation axis nor
      `det_z`, comes back unchanged. */
  lemma UpdateAxesPerAxis(m: MetaFile, axes: seq<Axis>, osc: Option<string>, useConfig: bool,
                          parseMm: string -> Result<real>, i: int)
    requires HasDectrisGroup(m)
    requires UpdateAxesFromMeta(m, axes, osc, useConfig, parseMm).Ok?
    requires 0 <= i < |axes|
    ensures ChosenConfig(m, useConfig).Ok? && FullNumberOfImages(m).Ok?
    ensures var config := ChosenConfig(m, useConfig).value;
            var r := UpdateAxesFromMeta(m, axes, osc, useConfig, parseMm).value;
            && r[i].numSteps == (if IsOsc(osc, axes[i].name) then FullNumberOfImages(m).value else axes[i].numSteps)
            && (!HasKey(config, axes[i].name + "_start") && axes[i].name != "det_z" && !IsOsc(osc, axes[i].name)
                ==> r[i] == axes[i])
  {
    var config := ChosenConfig(m, useConfig).value;
    var num := FullNumberOfImages(m).value;
    var a := axes[i];
    var r := UpdateAxesFromMeta(m, axes, osc, useConfig, parseMm).value;
    var distance := if exists j :: 0 <= j < |axes| && axes[j].name == "det_z" then DetectorDistance(m).value else None;
    assert UpdateEach(axes, config, osc, num, distance, parseMm) == Ok(r);
    assert UpdateAxis(a, config, osc, num, distance, parseMm) == Ok(r[i]);
  }

  /** A numeric configured value, when present. */
  predicate NumericOrAbsent(config: Config, key: string) {
    Get(config, key).Some? ==> PositionOf(Get(config, key).value).Ok?
  }

  /** Away from `det_z`, the loop body fails only on a non-numeric
      configured start or increment. */
  lemma UpdateAxisOk(a: Axis, config: Config, osc: Option<string>, num: int,
                     distance: Option<Scalar>, parseMm: string -> Result<real>)
    requires a.name != "det_z"
    requires NumericOrAbsent(config, a.name + "_start") && NumericOrAbsent(config, a.name + "_increment")
    ensures UpdateAxis(a, config, osc, num, distance, parseMm).Ok?
  {
  }

  /** The recorded example: omega's start comes from a configuration
      holding 10 images, one trigger, omega at 90 and phi at 0 in steps
      of 0.1, and omega keeps its step count when phi oscillates. */
  lemma OscillationExample(config: Config, omega: Axis, parseMm: string -> Result<real>)
    requires config == [("nimages", One(IntS(10))), ("ntrigger", One(IntS(1))),
                        ("omega_increment", One(RealS(0.0))), ("omega_start", One(RealS(90.0))),
                        ("phi_increment", One(RealS(0.1))), ("phi_start", One(RealS(0.0)))]
    requires omega.name == "omega"
    ensures UpdateAxis(omega, config, Some("phi"), 10, None, parseMm).Ok?
    ensures UpdateAxis(omega, config, Some("phi"), 10, None, parseMm).value.startPos == 90.0
    ensures UpdateAxis(omega, config, Some("phi"), 10, None, parseMm).value.increment == 0.0
    ensures UpdateAxis(omega, config, Some("phi"), 10, None, parseMm).value.numSteps == omega.numSteps
  {
    ExampleLookups(config, omega.name + "_start", omega.name + "_increment");
    UpdateAxisOk(omega, config, Some("phi"), 10, None, parseMm);
  }

  lemma ExampleLookups(config: Config, start: string, inc: string)
    requires config == [("nimages", One(IntS(10))), ("ntrigger", One(IntS(1))),
                        ("omega_increment", One(RealS(0.0))), ("omega_start", One(RealS(90.0))),
                        ("phi_increment", One(RealS(0.1))), ("phi_start", One(RealS(0.0)))]
    requires start == "omega_start" && inc == "omega_increment"
    ensures Get(config, start) == Some(One(RealS(90.0)))
    ensures Get(config, inc) == Some(One(RealS(0.0)))
  {
    assert DistinctKeys(config);
    GetDistinct(config, 2);
    GetDistinct(config, 3);
  }
}

=== FILE: metafile.dfy ===
/** The searches over a detector meta file of `nexgen/tools/metafile.py`.
    A file is abstracted as the list of object paths a visit yields, its
    top-level keys, the values of its datasets, the items of its
    `_dectris` group and the parsed `config` dataset. */
module Metafile {
  import opened Wrappers
  import opened Text
  import opened Utils

  /** One element of a dataset. Byte strings keep their text. */
  datatype Scalar = IntS(i: int) | RealS(r: real) | StrS(s: string) | BytesS(b: string)

  /** A configuration value: a length-1 dataset is unwrapped, any other
      stays an array. */
  datatype ConfigValue = One(v: Scalar) | Many(vs: seq<Scalar>)

  type Config = Dict<string, ConfigValue>

  datatype MetaFile = MetaFile(
    walk: seq<string>,
    topKeys: seq<string>,
    datasets: Dict<string, seq<Scalar>>,
    dectrisIsGroup: bool,
    dectrisItems: Dict<string, seq<Scalar>>,
    configDset: Option<Config>)

  // ------------------------------------------------------------ searching

  /** `[obj for obj in walk if key in obj]`. */
  function Containing(walk: seq<string>, key: string): (r: seq<string>)
    ensures |r| <= |walk|
    ensures forall p :: p in r <==> p in walk && Contains(p, key)
    ensures |r| == 0 <==> forall p :: p in walk ==> !Contains(p, key)
  {
    if |walk| == 0 then []
    else if Contains(walk[0], key) then assert walk[0] in walk; [walk[0]] + Containing(walk[1..], key)
    else Containing(walk[1..], key)
  }

  /** The first path containing `key`, if any. */
  function FirstContaining(walk: seq<string>, key: string): (r: Option<string>)
    ensures r.None? <==> forall p :: p in walk ==> !Contains(p, key)
    ensures r.Some? ==> r.value in walk && Contains(r.value, key)
  {
    if |walk| == 0 then None
    else if Contains(walk[0], key) then
      assert walk[0] in walk;
      Some(walk[0])
    else
      assert forall p :: p in walk <==> p == walk[0] || p in walk[1..];
      FirstContaining(walk[1..], key)
  }

  /** The first match is the head of the list of all matches, and no
      earlier path matches. */
  lemma {:induction false} FirstContainingIsFirst(walk: seq<string>, key: string)
    ensures FirstContaining(walk, key) == (if |Containing(walk, key)| == 0 then None else Some(Containing(walk, key)[0]))
    ensures FirstContaining(walk, key).Some? ==>
              exists i :: 0 <= i < |walk| && walk[i] == FirstContaining(walk, key).value
                          && forall j :: 0 <= j < i ==> !Contains(walk[j], key)
  {
    if |walk| > 0 && !Contains(walk[0], key) {
      FirstContainingIsFirst(walk[1..], key);
      if FirstContaining(walk, key).Some? {
        var i :| 0 <= i < |walk[1..]| && walk[1..][i] == FirstContaining(walk, key).value
                 && forall j :: 0 <= j < i ==> !Contains(walk[1..][j], key);
        assert walk[i + 1] == FirstContaining(walk, key).value;
        forall j | 0 <= j < i + 1 ensures !Contains(walk[j], key) {
          if j > 0 { assert walk[j] == walk[1..][j - 1]; }
        }
      }
    } else if |walk| > 0 {
      assert walk[0] == FirstContaining(walk, key).value;
    }
  }

  /** `find_*`: the first path containing the key, or `None`. Every
      `find_*` method of the Dectris and Tristan meta files is this search
      with its own key. */
  function Find(m: MetaFile, key: string): (r: Option<string>)
    ensures r.None? <==> forall p :: p in m.walk ==> !Contains(p, key)
    ensures r.Some? ==> r.value in m.walk && Contains(r.value, key)
  {
    FirstContaining(m.walk, key)
  }

  /** `hasMask` and `hasFlatfield`: the exact path is in the walk. */
  predicate HasMask(m: MetaFile) {
    "mask" in m.walk
  }

  predicate HasFlatfield(m: MetaFile) {
    "flatfield" in m.walk
  }

  /** The first path equal to `name` ignoring case. */
  function FirstLowerEqual(walk: seq<string>, name: string): (r: Option<string>)
    ensures r.Some? ==> r.value in walk && Lower(r.value) == name
    ensures r.None? ==> forall p :: p in walk ==> Lower(p) != name
  {
    if |walk| == 0 then None
    else if Lower(walk[0]) == name then Some(walk[0])
    else FirstLowerEqual(walk[1..], name)
  }

  /** `find_mask` and `find_flatfield`: nothing without the exact path;
      otherwise the first path equal to the name ignoring case, and the
      first path containing the "applied" key, if any. */
  function FindWithApplied(m: MetaFile, name: string, appliedKey: string): (r: Result<(Option<string>, Option<string>)>)
    ensures name !in m.walk ==> r == Ok((None, None))
    ensures r.Ok? && name in m.walk ==> r.value.1 == FirstContaining(m.walk, appliedKey)
  {
    if name !in m.walk then Ok((None, None))
    else
      match FirstLowerEqual(m.walk, name)
      case None => Err(IndexError)
      case Some(p) => Ok((Some(p), FirstContaining(m.walk, appliedKey)))
  }

  function FindMask(m: MetaFile): Result<(Option<string>, Option<string>)> {
    FindWithApplied(m, "mask", "mask_applied")
  }

  function FindFlatfield(m: MetaFile): Result<(Option<string>, Option<string>)> {
    FindWithApplied(m, "flatfield", "flatfield_correction_applied")
  }

  /** The lower-case name is its own lower case, so whenever the exact
      path is there a path is found: the search for a mask or flatfield
      never fails, and finds a path exactly when the file has one. */
  lemma FindWithAppliedFinds(m: MetaFile, name: string, appliedKey: string)
    requires Lower(name) == name
    ensures FindWithApplied(m, name, appliedKey).Ok?
    ensures FindWithApplied(m, name, appliedKey).value.0.Some? <==> name in m.walk
    ensures name in m.walk ==> Lower(FindWithApplied(m, name, appliedKey).value.0.value) == name
  {
    if name in m.walk {
      assert FirstLowerEqual(m.walk, name).Some? by {
        assert Lower(name) == name;
      }
    }
  }

  lemma FindMaskAndFlatfield(m: MetaFile)
    ensures FindMask(m).Ok? && (FindMask(m).value.0.Some? <==> HasMask(m))
    ensures FindFlatfield(m).Ok? && (FindFlatfield(m).value.0.Some? <==> HasFlatfield(m))
  {
    FindWithAppliedFinds(m, "mask", "mask_applied");
    FindWithAppliedFinds(m, "flatfield", "flatfield_correction_applied");
  }

  // -------------------------------------------------------------- reading

  /** `self[path][0]`: a group cannot be indexed, an empty dataset has no
      first element. */
  function Read(m: MetaFile, path: string): (r: Result<Scalar>)
    ensures r.Ok? <==> HasKey(m.datasets, path) && |Get(m.datasets, path).value| > 0
    ensures r.Ok? ==> r.value == Get(m.datasets, path).value[0]
  {
    match Get(m.datasets, path)
    case None => Err(TypeError)
    case Some(vs) => if |vs| == 0 then Err(IndexError) else Ok(vs[0])
  }

  /** The first element of every listed path, in order. */
  function ReadEach(m: MetaFile, paths: seq<string>): (r: Result<seq<Scalar>>)
    ensures r.Ok? ==> |r.value| == |paths|
    ensures r.Ok? ==> forall i :: 0 <= i < |paths| ==> Read(m, paths[i]) == Ok(r.value[i])
    ensures r.Err? ==> exists i :: 0 <= i < |paths| && Read(m, paths[i]).Err?
  {
    if |paths| == 0 then Ok([])
    else
      var v :- Read(m, paths[0]);
      var rest :- ReadEach(m, paths[1..]);
      assert forall i :: 1 <= i < |paths| ==> paths[i] == paths[1..][i - 1];
      Ok([v] + rest)
  }

  /** `get_pixel_size`, `get_beam_center`: the first element of every path
      containing the key, or `None` when there is none. */
  function ReadAll(m: MetaFile, key: string): (r: Result<Option<seq<Scalar>>>)
    ensures |Containing(m.walk, key)| == 0 ==> r == Ok(None)
    ensures r.Ok? && r.value.Some? ==> |r.value.value| == |Containing(m.walk, key)| > 0
  {
    var paths := Containing(m.walk, key);
    var values :- ReadEach(m, paths);
    if |values| == 0 then Ok(None) else Ok(Some(values))
  }

  /** `get_detector_size`: the sizes found, last first, since the file
      lists them fast axis first. */
  function DetectorSize(m: MetaFile): (r: Result<Option<seq<Scalar>>>)
    ensures var all := ReadAll(m, "pixels_in_detector");
            && (r.Ok? <==> all.Ok?)
            && (r.Ok? ==> (r.value.Some? <==> all.value.Some?))
            && (r.Ok? && r.value.Some? ==> r.value.value == Reverse(all.value.value))
  {
    var all :- ReadAll(m, "pixels_in_detector");
    if all.None? then Ok(None) else Ok(Some(Reverse(all.value)))
  }

  function PixelSize(m: MetaFile): Result<Option<seq<Scalar>>> {
    ReadAll(m, "pixel_size")
  }

  function BeamCenter(m: MetaFile): Result<Option<seq<Scalar>>> {
    ReadAll(m, "beam_center")
  }

  /** `get_wavelength` and the other single-value getters: the first
      element of the first path containing the key, or `None`. */
  function ReadFirst(m: MetaFile, key: string): (r: Result<Option<Scalar>>)
    ensures Find(m, key).None? ==> r == Ok(None)
    ensures Find(m, key).Some? ==> (r.Ok? <==> Read(m, Find(m, key).value).Ok?)
    ensures r.Ok? && r.value.Some? ==> Read(m, Find(m, key).value) == Ok(r.value.value)
  {
    match Find(m, key)
    case None => Ok(None)
    case Some(p) =>
      var v :- Read(m, p);
      Ok(Some(v))
  }

  function Wavelength(m: MetaFile): Result<Option<Scalar>> { ReadFirst(m, "wavelength") }
  function DetectorDistance(m: MetaFile): Result<Option<Scalar>> { ReadFirst(m, "detector_distance") }
  function SaturationValue(m: MetaFile): Result<Option<Scalar>> { ReadFirst(m, "countrate_correction_count_cutoff") }
  function BitDepthImage(m: MetaFile): Result<Option<Scalar>> { ReadFirst(m, "bit_depth_image") }

  /** `get_sensor_information`: both values must be there. */
  function SensorInformation(m: MetaFile): (r: Result<(Scalar, Scalar)>)
    ensures Find(m, "sensor_material").None? || Find(m, "sensor_thickness").None? ==> r == Err(IndexError)
    ensures r.Ok? ==> ReadFirst(m, "sensor_material") == Ok(Some(r.value.0))
                      && ReadFirst(m, "sensor_thickness") == Ok(Some(r.value.1))
  {
    match (Find(m, "sensor_material"), Find(m, "sensor_thickness"))
    case (Some(a), Some(b)) =>
      var material :- Read(m, a);
      var thickness :- Read(m, b);
      Ok((material, thickness))
    case _ => Err(IndexError)
  }

  // -------------------------------------------------------- configuration

  predicate HasDectrisGroup(m: MetaFile) {
    "_dectris" in m.topKeys && m.dectrisIsGroup
  }

  predicate HasConfig(m: MetaFile) {
    "config" in m.topKeys
  }

  /** Unwraps a one-element dataset, decoding a byte string. */
  function Unwrap(vs: seq<Scalar>): (c: ConfigValue)
    ensures |vs| != 1 ==> c == Many(vs)
    ensures |vs| == 1 && !vs[0].BytesS? ==> c == One(vs[0])
    ensures |vs| == 1 && vs[0].BytesS? ==> c == One(StrS(vs[0].b))
  {
    if |vs| == 1 then One(if vs[0].BytesS? then StrS(vs[0].b) else vs[0]) else Many(vs)
  }

  function UnwrapAll(items: Dict<string, seq<Scalar>>): (r: Config)
    ensures Keys(r) == Keys(items)
    ensures forall i :: 0 <= i < |items| ==> r[i].1 == Unwrap(items[i].1)
  {
    seq(|items|, i requires 0 <= i < |items| => (items[i].0, Unwrap(items[i].1)))
  }

  /** `read_dectris_config`: every item of the group assigned in turn. */
  function ReadDectrisConfig(m: MetaFile): Config {
    DictOf(UnwrapAll(m.dectrisItems))
  }

  /** A group's items have distinct names, so every item is kept, in
      order, with its value unwrapped. */
  lemma DectrisConfigKeepsItems(m: MetaFile)
    requires DistinctKeys(m.dectrisItems)
    ensures Keys(ReadDectrisConfig(m)) == Keys(m.dectrisItems)
    ensures forall i :: 0 <= i < |m.dectrisItems| ==>
              Get(ReadDectrisConfig(m), m.dectrisItems[i].0) == Some(Unwrap(m.dectrisItems[i].1))
  {
    var u := UnwrapAll(m.dectrisItems);
    assert forall i, j :: 0 <= i < j < |u| ==> u[i].0 == m.dectrisItems[i].0 && u[j].0 == m.dectrisItems[j].0;
    DictOfDistinct(u);
    forall i | 0 <= i < |m.dectrisItems|
      ensures Get(ReadDectrisConfig(m), m.dectrisItems[i].0) == Some(Unwrap(m.dectrisItems[i].1))
    {
      GetDistinct(u, i);
    }
  }

  /** `read_config_dset`: the evaluated `config` dataset. */
  function ReadConfigDset(m: MetaFile): (r: Result<Config>)
    ensures !HasConfig(m) ==> r == Err(KeyError)
    ensures r.Ok? ==> HasConfig(m) && m.configDset == Some(r.value)
  {
    if !HasConfig(m) then Err(KeyError)
    else if m.configDset.None? then Err(ValueError)
    else Ok(m.configDset.value)
  }

  /** `get_number_of_images` and `get_number_of_triggers`: from the
      `_dectris` group when there is one, otherwise from the first path
      containing the key, which must exist. */
  function CountSetting(m: MetaFile, key: string): (r: Result<ConfigValue>)
    ensures HasDectrisGroup(m) ==> r == Lookup(ReadDectrisConfig(m), key)
    ensures !HasDectrisGroup(m) && Find(m, key).None? ==> r == Err(IndexError)
  {
    if HasDectrisGroup(m) then Lookup(ReadDectrisConfig(m), key)
    else
      match Find(m, key)
      case None => Err(IndexError)
      case Some(p) =>
        var v :- Read(m, p);
        Ok(One(v))
  }

  /** `get_data_collection_date`, `get_fw_version`, `get_serial_number`:
      the `_dectris` group first, then the `config` dataset, then the
      first path containing the key, which may be missing. */
  function Setting(m: MetaFile, key: string): (r: Result<Option<ConfigValue>>)
    ensures HasDectrisGroup(m) ==> (r.Ok? <==> Lookup(ReadDectrisConfig(m), key).Ok?)
    ensures !HasDectrisGroup(m) && !HasConfig(m) && Find(m, key).None? ==> r == Ok(None)
  {
    if HasDectrisGroup(m) then
      var v :- Lookup(ReadDectrisConfig(m), key);
      Ok(Some(v))
    else if HasConfig(m) then
      var c :- ReadConfigDset(m);
      var v :- Lookup(c, key);
      Ok(Some(v))
    else
      var v :- ReadFirst(m, key);
      Ok(if v.Some? then Some(One(v.value)) else None)
  }

  /** An unwrapped integer count. Arrays and non-integers are outside
      the model. */
  function CountOf(v: ConfigValue): (r: Result<int>)
    ensures r.Ok? <==> v.One? && v.v.IntS?
  {
    if v.One? && v.v.IntS? then Ok(v.v.i) else Err(TypeError)
  }

  /** `get_full_number_of_images`: triggers times images per trigger. */
  function FullNumberOfImages(m: MetaFile): (r: Result<int>)
    ensures r.Ok? ==> exists t, n :: CountSetting(m, "ntrigger") == Ok(One(IntS(t)))
                                      && CountSetting(m, "nimages") == Ok(One(IntS(n))) && r.value == t * n
  {
    var triggers :- CountSetting(m, "ntrigger");
    var t :- CountOf(triggers);
    var images :- CountSetting(m, "nimages");
    var n :- CountOf(images);
    Ok(t * n)
  }

  // -------------------------------------------------------------- Tristan

  /** `ts_qty_module` followed by exactly two digits. */
  predicate IsModuleKey(k: string) {
    |k| == 15 && k[..13] == "ts_qty_module" && IsDigit(k[13]) && IsDigit(k[14])
  }

  /** `find_number_of_modules`. */
  function NumberOfModules(keys: seq<string>): (n: nat)
    ensures n <= |keys|
    ensures n == 0 <==> forall k :: k in keys ==> !IsModuleKey(k)
  {
    if |keys| == 0 then 0
    else (if IsModuleKey(keys[0]) then 1 else 0) + NumberOfModules(keys[1..])
  }

  /** `isTristan`: at least one module key. */
  predicate IsTristan(m: MetaFile) {
    NumberOfModules(m.topKeys) > 0
  }

  lemma {:induction false} NumberOfModulesAppend(a: seq<string>, b: seq<string>)
    ensures NumberOfModules(a + b) == NumberOfModules(a) + NumberOfModules(b)
  {
    if |a| > 0 {
      assert (a + b)[1..] == a[1..] + b;
      NumberOfModulesAppend(a[1..], b);
    } else {
      assert a + b == b;
    }
  }

  lemma ModuleKeyExamples(k0: string, k1: string, k2: string)
    requires k0 == "ts_qty_module00" && k1 == "ts_qty_module01" && k2 == "ts_qty_module1"
    ensures NumberOfModules([k0, k1]) == 2
    ensures NumberOfModules([k2]) == 0
  {
    assert k0[..13] == "ts_qty_module" && k1[..13] == "ts_qty_module";
    assert IsModuleKey(k0) && IsModuleKey(k1);
    assert [k0, k1][1..] == [k1];
  }
}

=== FILE: mrc_tools.dfy ===
/** The file-name and shape rules of `to_hdf5_data_file` in
    `nexgen/tools/mrc_tools.py`: the name of the HDF5 file made from MRC
    images, which inputs are stacked, the data type, and the shape of
    the stack. Reading the MRC files is a parameter: the shape and data
    type of each file are given as functions. */
module MrcTools {
  import opened Wrappers
  import opened Text
  import opened Paths
  import opened Utils

  // ------------------------------------------------------------ output name

  /** `_` at `i`, at least one digit, then ".mrc" at `j`: a match of the
      pattern `_(\d+)\.mrc`. */
  predicate NumberedAt(s: string, i: int, j: int) {
    0 <= i && i + 1 < j && j + 4 <= |s| && s[i] == '_'
    && (forall k :: i < k < j ==> IsDigit(s[k]))
    && s[j..j + 4] == ".mrc"
  }

  /** `re.search(r"_(\d+)\.mrc", name)` succeeds: the match may sit
      anywhere in the name, not only at its end. */
  predicate HasNumberedMrc(s: string) {
    exists i, j | 0 <= i < j <= |s| :: NumberedAt(s, i, j)
  }

  lemma NumberedHasUnderscore(s: string)
    requires HasNumberedMrc(s)
    ensures RFind(s, '_') >= 0
  {
    var i, j :| 0 <= i < j <= |s| && NumberedAt(s, i, j);
    assert s[i] == '_';
  }

  /** The HDF5 name for the first input: a numbered name loses everything
      from its last underscore on, any other name has every ".mrc"
      replaced by ".h5". */
  function MrcOutputName(basename: string): (r: string)
    ensures HasNumberedMrc(basename) ==>
              exists k :: 0 <= k < |basename| && basename[k] == '_' && '_' !in basename[k + 1..]
                          && r == basename[..k] + ".h5"
    ensures !HasNumberedMrc(basename) ==> r == ReplaceAll(basename, ".mrc", ".h5")
  {
    if HasNumberedMrc(basename) then
      NumberedHasUnderscore(basename);
      var k := RFind(basename, '_');
      assert '_' !in basename[k + 1..] by {
        var tail := basename[k + 1..];
        assert forall m :: 0 <= m < |tail| ==> tail[m] == basename[k + 1 + m];
      }
      basename[..k] + ".h5"
    else ReplaceAll(basename, ".mrc", ".h5")
  }

  /** A stem, an underscore, an image number and ".mrc" give the stem
      with ".h5": "images_00001.mrc" becomes "images.h5". */
  lemma NumberedOutput(base: string, digits: string)
    requires |digits| > 0 && forall k :: 0 <= k < |digits| ==> IsDigit(digits[k])
    ensures MrcOutputName(base + "_" + digits + ".mrc") == base + ".h5"
  {
    var s := base + "_" + digits + ".mrc";
    var i := |base|;
    var j := |base| + 1 + |digits|;
    assert forall k :: i < k < j ==> s[k] == digits[k - i - 1];
    assert s[j..j + 4] == ".mrc";
    assert NumberedAt(s, i, j);
    assert forall k :: i < k < |s| ==> s[k] != '_' by {
      forall k | i < k < |s| ensures s[k] != '_' {
        if k < j { assert s[k] == digits[k - i - 1]; } else { assert s[k] == ".mrc"[k - j]; }
      }
    }
    RFindIsLast(s, '_', i);
    assert s[..i] == base;
  }

  /** A single stack named without dots or underscores just changes its
      extension. */
  lemma PlainOutput(base: string)
    requires '.' !in base && '_' !in base
    ensures MrcOutputName(base + ".mrc") == base + ".h5"
  {
    var s := base + ".mrc";
    assert '_' !in s by {
      forall k | 0 <= k < |s| ensures s[k] != '_' {
        if k < |base| { assert s[k] == base[k]; } else { assert s[k] == ".mrc"[k - |base|]; }
      }
    }
    assert !HasNumberedMrc(s);
    ReplaceAllTail(base, ".mrc", ".h5");
  }

  // ------------------------------------------------------------ the inputs

  /** The inputs kept for stacking: those whose absolute path ends with
      ".mrc", in their order. */
  function MrcFiles(files: seq<string>, absPath: string -> string): (r: seq<string>)
    ensures |r| <= |files|
    ensures forall f :: f in r <==> f in files && EndsWith(absPath(f), ".mrc")
  {
    if |files| == 0 then []
    else
      var rest := MrcFiles(files[1..], absPath);
      assert forall f :: f in files <==> f == files[0] || f in files[1..];
      if EndsWith(absPath(files[0]), ".mrc") then [files[0]] + rest else rest
  }

  /** When every input is an MRC file, all of them are stacked in order. */
  lemma {:induction false} AllMrcKept(files: seq<string>, absPath: string -> string)
    requires forall f :: f in files ==> EndsWith(absPath(f), ".mrc")
    ensures MrcFiles(files, absPath) == files
  {
    if |files| > 0 {
      AllMrcKept(files[1..], absPath);
      assert [files[0]] + files[1..] == files;
    }
  }

  /** Filtering twice keeps what filtering once kept. */
  lemma MrcFilesIdempotent(files: seq<string>, absPath: string -> string)
    ensures MrcFiles(MrcFiles(files, absPath), absPath) == MrcFiles(files, absPath)
  {
    AllMrcKept(MrcFiles(files, absPath), absPath);
  }

  /** The data type written: the one asked for, or, when none or an
      empty one is given, the first file's own. */
  function ChooseDtype(requested: Option<string>, firstDtype: string): (r: string)
    ensures requested.Some? && requested.value != "" ==> r == requested.value
    ensures requested.None? || requested.value == "" ==> r == firstDtype
  {
    match requested
    case Some(t) => if t == "" then firstDtype else t
    case None => firstDtype
  }

  // ------------------------------------------------------------ stack shape

  /** The shape of the stack from the shapes of the files stacked: one
      three-dimensional file is its own stack, `n` two-dimensional images
      make `n` frames; a later file with more than two dimensions, or any
      other combination, raises `ValueError`. Without any file the first
      one cannot be opened. */
  function StackShape(shapes: seq<seq<nat>>): (r: Result<(nat, nat, nat)>)
    ensures |shapes| == 0 ==> r == Err(IndexError)
    ensures |shapes| == 1 && |shapes[0]| == 3 ==> r == Ok((shapes[0][0], shapes[0][1], shapes[0][2]))
    ensures |shapes| >= 1 && |shapes[0]| == 2 ==>
              (r.Ok? <==> forall i :: 0 <= i < |shapes| ==> |shapes[i]| <= 2)
    ensures |shapes| >= 1 && |shapes[0]| == 2 && r.Ok? ==> r.value == (|shapes|, shapes[0][0], shapes[0][1])
    ensures |shapes| >= 1 && |shapes[0]| != 2 && !(|shapes| == 1 && |shapes[0]| == 3) ==> r == Err(ValueError)
    ensures r.Err? ==> r == Err(IndexError) || r == Err(ValueError)
  {
    if |shapes| == 0 then Err(IndexError)
    else if |shapes[0]| == 3 && |shapes| == 1 then Ok((shapes[0][0], shapes[0][1], shapes[0][2]))
    else if |shapes[0]| == 2 then
      if exists i :: 0 <= i < |shapes| && |shapes[i]| > 2 then Err(ValueError)
      else Ok((|shapes|, shapes[0][0], shapes[0][1]))
    else Err(ValueError)
  }

  /** What the conversion produces: the file name, the shape of the
      `/entry/data/data` stack and its data type. */
  datatype Converted = Converted(outFile: string, shape: (nat, nat, nat), dtype: string)

  /** `to_hdf5_data_file`: the name comes from the first input as given,
      the data from the MRC inputs only. */
  function ToHdf5DataFile(files: seq<string>, absPath: string -> string, shapeOf: string -> seq<nat>,
                          dtypeOf: string -> string, dtype: Option<string>): (r: Result<Converted>)
    ensures |files| == 0 ==> r == Err(IndexError)
    ensures r.Ok? ==> r.value.outFile == MrcOutputName(ParsePosix(files[0]).name)
    ensures r.Ok? ==> var mrc := MrcFiles(files, absPath);
                      |mrc| > 0 && r.value.dtype == ChooseDtype(dtype, dtypeOf(mrc[0]))
                      && Ok(r.value.shape) == StackShape(seq(|mrc|, i requires 0 <= i < |mrc| => shapeOf(mrc[i])))
  {
    if |files| == 0 then Err(IndexError)
    else
      var out := MrcOutputName(ParsePosix(files[0]).name);
      var mrc := MrcFiles(files, absPath);
      var shape :- StackShape(seq(|mrc|, i requires 0 <= i < |mrc| => shapeOf(mrc[i])));
      Ok(Converted(out, shape, ChooseDtype(dtype, dtypeOf(mrc[0]))))
  }
}

=== FILE: nxmx_writer.dfy ===
/** The file-name and shape rules of `NXmxFileWriter` in
    `nexgen/nxs_write/nxmx_writer.py`: where the meta file and the data
    files are, how long the collection lasts, and what the virtual dataset
    is asked to hold. The HDF5 writing itself is not modelled. */
module NxmxWriter {
  import opened Wrappers
  import opened Text
  import opened Paths
  import opened Utils
  import Vds
  import opened Goniometer

  /** The parts of the writer's state the rules read: the resolved NeXus
      file, the goniometer, and the detector's `hasMeta`, description,
      image size and exposure time. */
  datatype Writer = Writer(
    filename: FilePath,
    gonio: Gonio,
    hasMeta: bool,
    description: string,
    imageSize: seq<int>,
    expTime: real,
    totNumImgs: int)

  // ------------------------------------------------------------ meta file

  /** `_get_meta_file`: no meta file for a detector without one; otherwise
      `<name>_meta.h5` next to the NeXus file, named after the image file
      name when one is given (an empty name counts as none) and after the
      NeXus stem otherwise. */
  function MetaFile(w: Writer, imageFilename: string): (r: Option<FilePath>)
    ensures !w.hasMeta <==> r.None?
    ensures r.Some? ==> r.value.parent == w.filename.parent && EndsWith(r.value.name, "_meta.h5")
    ensures r.Some? && imageFilename != "" ==> StartsWith(r.value.name, imageFilename)
    ensures r.Some? && imageFilename == "" ==> StartsWith(r.value.name, Stem(w.filename.name))
  {
    if !w.hasMeta then None
    else
      var base := if imageFilename != "" then imageFilename else Stem(w.filename.name);
      Some(Sibling(w.filename, base + "_meta.h5"))
  }

  /** The meta file leads back to its NeXus file: `get_nexus_filename` of
      the meta file is the writer's own `.nxs` file. */
  lemma MetaFileNamesNexusFile(w: Writer)
    requires w.hasMeta && Suffix(w.filename.name) == ".nxs"
    ensures NexusFilename(MetaFile(w, "").value, false) == w.filename
  {
    var p := w.filename;
    assert MetaFile(w, "").value == Sibling(p, Stem(p.name) + "_" + "meta" + ".h5");
    TaggedSiblingNamesNexus(p, "meta");
  }

  /** `get_nexus_filename` of `<stem>_<tag>.h5` next to `<stem>.nxs` is
      that NeXus file. */
  lemma TaggedSiblingNamesNexus(p: FilePath, tag: string)
    requires Suffix(p.name) == ".nxs" && IsRunTag(tag)
    ensures NexusFilename(Sibling(p, Stem(p.name) + "_" + tag + ".h5"), false) == p
  {
    var stem := Stem(p.name);
    var name := stem + "_" + tag + ".h5";
    assert name == (stem + "_" + tag) + "." + "h5";
    StemOfJoin(stem + "_" + tag, "h5");
    RootOfTaggedStem(stem, tag);
    StemSuffixSplit(p.name);
  }

  // --------------------------------------------------------- collection time

  /** `_get_collection_time`: exposure time per image times the image count. */
  function CollectionTime(w: Writer): real {
    w.expTime * w.totNumImgs as real
  }

  // ------------------------------------------------------------ data files

  /** `math.ceil(a / b)` for a positive divisor. */
  function CeilDiv(a: int, b: int): (r: int)
    requires b > 0
    ensures (r - 1) * b < a <= r * b
  {
    -((-a) / b)
  }

  /** Frames in data file `k` (from 0) of a run: full files of 1000 and a
      last partial one. */
  function FramesInFile(tot: int, k: nat): int {
    Vds.Min(MaxFramesPerDataset, tot - MaxFramesPerDataset * k)
  }

  function SumFramesInFiles(tot: int, n: nat): int {
    if n == 0 then 0 else SumFramesInFiles(tot, n - 1) + FramesInFile(tot, n - 1)
  }

  /** The number of data files holds the run exactly: the files of at most
      1000 frames each add up to the image count, and so do the per-file
      collection times. */
  lemma {:induction false} DataFilesHoldRun(w: Writer)
    requires w.totNumImgs >= 0
    ensures var n := CeilDiv(w.totNumImgs, MaxFramesPerDataset);
            n >= 0
            && SumFramesInFiles(w.totNumImgs, n) == w.totNumImgs
            && CollectionTime(w) == w.expTime * SumFramesInFiles(w.totNumImgs, n) as real
  {
    var tot := w.totNumImgs;
    var n := CeilDiv(tot, MaxFramesPerDataset);
    FullFilesSum(tot, n);
  }

  lemma {:induction false} FullFilesSum(tot: int, n: nat)
    requires 0 <= tot && MaxFramesPerDataset * (n - 1) < tot <= MaxFramesPerDataset * n
    ensures SumFramesInFiles(tot, n) == tot
  {
    if n > 0 {
      if MaxFramesPerDataset * (n - 1) == 0 {
        assert n == 1;
      } else {
        FullFilesPrefix(tot, n - 1);
      }
    }
  }

  lemma {:induction false} FullFilesPrefix(tot: int, m: nat)
    requires MaxFramesPerDataset * m <= tot
    ensures SumFramesInFiles(tot, m) == MaxFramesPerDataset * m
  {
    if m > 0 {
      FullFilesPrefix(tot, m - 1);
    }
  }

  /** A template `%` can fill with one number: its only `%` opens a
      `%06d` directive. */
  predicate Fillable(template: string) {
    var p := RFind(template, '%');
    p >= 0 && '%' !in template[..p] && StartsWith(template[p..], IndexPlaceholder)
  }

  /** `template % i` for the templates the writer builds, which hold one
      `%06d` directive: the number, zero-padded to six digits, takes the
      directive's place. Without any `%` Python raises `TypeError`. Other
      directive layouts are outside the model and reported as
      `ValueError`. */
  function FillIndex(template: string, i: nat): (r: Result<string>)
    ensures r.Ok? <==> Fillable(template)
    ensures '%' !in template ==> r == Err(TypeError)
    ensures r.Ok? ==> '%' !in r.value
  {
    var p := RFind(template, '%');
    if p < 0 then Err(TypeError)
    else if '%' in template[..p] || !StartsWith(template[p..], IndexPlaceholder) then Err(ValueError)
    else
      assert '%' !in template[p + 4..];
      assert '%' !in ZeroPad(i, MaxSuffixDigits) by {
        ZeroPadIsRunTag(i, MaxSuffixDigits);
      }
      Ok(template[..p] + ZeroPad(i, MaxSuffixDigits) + template[p + 4..])
  }

  /** Filling a template splits it at its directive. */
  lemma FillIndexSplit(pre: string, post: string, i: nat)
    requires '%' !in pre && '%' !in post
    ensures FillIndex(pre + IndexPlaceholder + post, i) == Ok(pre + ZeroPad(i, MaxSuffixDigits) + post)
  {
    var t := pre + IndexPlaceholder + post;
    assert t[|pre|] == '%';
    assert forall k :: |pre| < k < |t| ==> t[k] != '%' by {
      assert forall k :: |pre| < k < |pre| + 4 ==> t[k] == IndexPlaceholder[k - |pre|];
      assert forall k :: |pre| + 4 <= k < |t| ==> t[k] == post[k - |pre| - 4];
    }
    RFindIsLast(t, '%', |pre|);
    assert t[..|pre|] == pre;
    assert t[|pre|..] == IndexPlaceholder + post;
    assert t[|pre| + 4..] == post;
  }

  /** The template `_get_data_files_list` numbers: derived from the NeXus
      file by the rule `asWritten` selects, or `<image_filename>_%06d.h5`
      next to it. */
  function DataFileTemplate(asWritten: bool, w: Writer, imageFilename: string): (r: Result<string>)
    ensures imageFilename == "" && asWritten ==> r == FilenameTemplateAsWritten(w.filename)
    ensures imageFilename == "" && !asWritten ==> r == FilenameTemplate(w.filename)
    ensures imageFilename != "" ==> r.Ok? && Contains(r.value, IndexPlaceholder)
  {
    if imageFilename == "" then
      if asWritten then FilenameTemplateAsWritten(w.filename) else FilenameTemplate(w.filename)
    else
      var name := imageFilename + "_" + IndexPlaceholder + ".h5";
      assert Contains(name, IndexPlaceholder) by {
        assert StartsWith(IndexPlaceholder + ".h5", IndexPlaceholder);
        ContainsAppendLeft(imageFilename + "_", IndexPlaceholder + ".h5", IndexPlaceholder);
        assert name == (imageFilename + "_") + (IndexPlaceholder + ".h5");
      }
      PlaceholderSurvivesPath(w.filename, name);
      Ok(Posix(Sibling(w.filename, name)))
  }

  /** `_get_data_files_list`: `ceil(tot / 1000)` files, numbered from 1,
      each the template with its number filled in. A template that cannot
      be filled fails only when there is a file to name. */
  function DataFilesList(asWritten: bool, w: Writer, imageFilename: string): (r: Result<seq<FilePath>>)
    ensures r.Ok? ==> |r.value| == Vds.Max(0, CeilDiv(w.totNumImgs, MaxFramesPerDataset))
    ensures r.Ok? && w.totNumImgs > 0 ==>
              (|r.value| - 1) * MaxFramesPerDataset < w.totNumImgs <= |r.value| * MaxFramesPerDataset
    ensures r.Ok? ==> DataFileTemplate(asWritten, w, imageFilename).Ok?
    ensures r.Ok? ==> forall k :: 0 <= k < |r.value| ==>
              && FillIndex(DataFileTemplate(asWritten, w, imageFilename).value, k + 1).Ok?
              && r.value[k] == ParsePosix(FillIndex(DataFileTemplate(asWritten, w, imageFilename).value, k + 1).value)
    ensures DataFileTemplate(asWritten, w, imageFilename).Err? ==> r.Err?
    ensures w.totNumImgs > 0 && DataFileTemplate(asWritten, w, imageFilename).Ok? ==>
              (r.Ok? <==> Fillable(DataFileTemplate(asWritten, w, imageFilename).value))
  {
    var template :- DataFileTemplate(asWritten, w, imageFilename);
    var n := Vds.Max(0, CeilDiv(w.totNumImgs, MaxFramesPerDataset));
    if n == 0 then Ok([])
    else if !Fillable(template) then Err(FillIndex(template, 1).error)
    else Ok(NumberedFiles(template, n))
  }

  /** As written, a `.h5` file with "master" in its directory but not in
      its stem keeps its own path as the template; without a `%` in that
      path, naming the first data file raises `TypeError`. */
  lemma DataFilesAsWrittenKeepPath(w: Writer)
    requires Suffix(w.filename.name) == ".h5"
    requires Contains(Posix(w.filename), "master") && !Contains(Stem(w.filename.name), "master")
    requires '%' !in Posix(w.filename) && w.totNumImgs > 0
    ensures DataFilesList(true, w, "") == Err(TypeError)
  {
    TemplateAsWrittenKeepsPath(w.filename);
  }

  /** The first data file of a template `<parent>/<stem>_%06d.h5` derived
      by the corrected rule is `<stem>_000001.h5` in `<parent>`. */
  lemma FirstDataFile(w: Writer, parent: string, stem: string)
    requires FilenameTemplate(w.filename) == Ok(Posix(FilePath(parent, stem + "_" + IndexPlaceholder + ".h5")))
    requires '%' !in parent && '%' !in stem && '/' !in stem && w.totNumImgs > 0
    ensures var r := DataFilesList(false, w, "");
            r.Ok? && |r.value| >= 1 && r.value[0] == FilePath(parent, stem + "_" + ZeroPad(1, MaxSuffixDigits) + ".h5")
  {
    FilledDataFile(parent, stem, 1);
  }

  /** A meta file in a directory called "master": as written, the template
      is the file's own path, which has no `%` to fill, so naming the first
      data file raises `TypeError`; the corrected rule numbers the data
      files `run_000001.h5`, ... beside it. */
  lemma DataFilesOfMasterDirectoryMetaFile(w: Writer)
    requires w.filename == FilePath("/dls/master", "run_meta.h5") && w.totNumImgs > 0
    ensures DataFilesList(true, w, "") == Err(TypeError)
    ensures var r := DataFilesList(false, w, "");
            r.Ok? && |r.value| >= 1 && r.value[0] == FilePath("/dls/master", "run_000001.h5")
  {
    MasterDirectoryMetaFile(w.filename);
    RunMetaPathHasNoPercent(w.filename);
    DataFilesAsWrittenKeepPath(w);
    MetaStemTemplate(w.filename);
    SiblingTemplate(w.filename, "run");
    FirstDataFile(w, "/dls/master", "run");
    FirstRunFileName();
  }

  lemma FirstRunFileName()
    ensures "run" + "_" + ZeroPad(1, MaxSuffixDigits) + ".h5" == "run_000001.h5"
  {
    ZeroPadOne();
  }

  lemma RunMetaPathHasNoPercent(p: FilePath)
    requires p == FilePath("/dls/master", "run_meta.h5")
    ensures '%' !in Posix(p)
  {
    var parent, name := "/dls/master", "run_meta.h5";
    assert parent != ".";
    assert forall k :: 0 <= k < |parent| ==> parent[k] != '%';
    assert forall k :: 0 <= k < |name| ==> name[k] != '%';
    assert Posix(p) == parent + "/" + name;
  }

  /** The template filled with 1 to `n`, in order. */
  function NumberedFiles(template: string, n: nat): (r: seq<FilePath>)
    requires Fillable(template)
    ensures |r| == n
    ensures forall k :: 0 <= k < n ==> FillIndex(template, k + 1).Ok? && r[k] == ParsePosix(FillIndex(template, k + 1).value)
  {
    seq(n, k requires 0 <= k < n => ParsePosix(FillIndex(template, k + 1).value))
  }

  /** The template derived from `<stem>.nxs`. */
  lemma NexusFileTemplate(p: FilePath)
    requires Suffix(p.name) == ".nxs"
    ensures FilenameTemplate(p) == Ok(Posix(FilePath(p.parent, Stem(p.name) + "_" + IndexPlaceholder + ".h5")))
  {
    var name := Stem(p.name) + "_" + IndexPlaceholder + ".h5";
    assert FilenameTemplate(p) == Ok(Posix(Sibling(p, name)));
  }

  /** The corrected template of `/dls/master/run_meta.h5` numbers `run_`. */
  lemma MetaStemTemplate(p: FilePath)
    requires p == FilePath("/dls/master", "run_meta.h5")
    ensures FilenameTemplate(p) == Ok(Posix(Sibling(p, "run" + "_" + IndexPlaceholder + ".h5")))
  {
    RunMetaName(p);
    NoMasterInRunMeta();
    RunMetaHasMeta();
    RunMetaReplaced();
    var stem := Stem(p.name);
    assert stem == "run_meta" && Suffix(p.name) == ".h5";
    assert FilenameTemplate(p) == Ok(Posix(Sibling(p, ReplaceAll(stem, "meta", IndexPlaceholder) + ".h5")));
    assert "run" + "_" == "run_";
  }

  /** The template of a data file named `<stem>_%06d.h5` beside `p`. */
  lemma SiblingTemplate(p: FilePath, stem: string)
    ensures Posix(Sibling(p, stem + "_" + IndexPlaceholder + ".h5"))
         == Posix(FilePath(p.parent, stem + "_" + IndexPlaceholder + ".h5"))
  {
  }

  lemma RunMetaHasMeta()
    ensures Contains("run_meta", "meta")
  {
    var s := "run_meta";
    assert StartsWith(s[4..], "meta");
    assert s[1..][1..][1..][1..] == s[4..];
  }

  lemma RunMetaReplaced()
    ensures ReplaceAll("run_meta", "meta", IndexPlaceholder) == "run_" + IndexPlaceholder
  {
    var s := "run_meta";
    assert ReplaceAll(s[4..], "meta", IndexPlaceholder) == IndexPlaceholder;
    assert !StartsWith(s[3..], "meta");
    assert ReplaceAll(s[3..], "meta", IndexPlaceholder) == "_" + IndexPlaceholder;
    assert !StartsWith(s[2..], "meta");
    assert ReplaceAll(s[2..], "meta", IndexPlaceholder) == "n_" + IndexPlaceholder;
    assert !StartsWith(s[1..], "meta");
    assert ReplaceAll(s[1..], "meta", IndexPlaceholder) == "un_" + IndexPlaceholder;
    assert !StartsWith(s, "meta");
  }

  lemma ZeroPadOne()
    ensures ZeroPad(1, MaxSuffixDigits) == "000001"
  {
    assert NatToString(1) == "1";
    assert Repeat('0', 5) == "00000";
  }

  /** Data file `k` (from 0) of `<stem>.nxs`. */
  lemma DataFileOfNexus(asWritten: bool, w: Writer, k: nat)
    requires Suffix(w.filename.name) == ".nxs"
    requires '%' !in w.filename.parent && '%' !in w.filename.name && '/' !in w.filename.name
    requires DataFilesList(asWritten, w, "").Ok? && k < |DataFilesList(asWritten, w, "").value|
    ensures DataFilesList(asWritten, w, "").value[k]
         == FilePath(w.filename.parent, Stem(w.filename.name) + "_" + ZeroPad(k + 1, MaxSuffixDigits) + ".h5")
  {
    var p := w.filename;
    var stem := Stem(p.name);
    StemSuffixSplit(p.name);
    assert '%' !in stem && '/' !in stem by {
      assert forall c :: c in stem ==> c in p.name;
    }
    NexusFileTemplate(p);
    FilledDataFile(p.parent, stem, k + 1);
  }

  /** Filling the data-file template of `<parent>/<stem>` with `i` names
      `<stem>_<i, six digits>.h5` in `<parent>`. */
  lemma FilledDataFile(parent: string, stem: string, i: nat)
    requires '%' !in parent && '%' !in stem && '/' !in stem
    ensures var t := Posix(FilePath(parent, stem + "_" + IndexPlaceholder + ".h5"));
            FillIndex(t, i).Ok?
            && ParsePosix(FillIndex(t, i).value) == FilePath(parent, stem + "_" + ZeroPad(i, MaxSuffixDigits) + ".h5")
  {
    var name := stem + "_" + ZeroPad(i, MaxSuffixDigits) + ".h5";
    FilledTemplate(parent, stem, i);
    NoSlashInDataFileName(stem, i);
    var f := Posix(FilePath(parent, name));
    assert FillIndex(Posix(FilePath(parent, stem + "_" + IndexPlaceholder + ".h5")), i) == Ok(f);
    ParsePosixInverts(FilePath(parent, name));
    assert ParsePosix(f) == FilePath(parent, name);
  }

  lemma NoSlashInDataFileName(stem: string, i: nat)
    requires '/' !in stem
    ensures '/' !in stem + "_" + ZeroPad(i, MaxSuffixDigits) + ".h5"
  {
    var pad := ZeroPad(i, MaxSuffixDigits);
    ZeroPadIsRunTag(i, MaxSuffixDigits);
    assert '/' !in pad;
    assert '/' !in ".h5";
  }

  /** Filling the template is writing the padded number into the name. */
  lemma FilledTemplate(parent: string, stem: string, i: nat)
    requires '%' !in parent && '%' !in stem
    ensures FillIndex(Posix(FilePath(parent, stem + "_" + IndexPlaceholder + ".h5")), i)
         == Ok(Posix(FilePath(parent, stem + "_" + ZeroPad(i, MaxSuffixDigits) + ".h5")))
  {
    var dir := DirPrefix(parent);
    var pre := dir + (stem + "_");
    var pad := ZeroPad(i, MaxSuffixDigits);
    assert Posix(FilePath(parent, stem + "_" + IndexPlaceholder + ".h5")) == pre + IndexPlaceholder + ".h5" by {
      PosixOfName(parent, stem + "_" + IndexPlaceholder + ".h5");
      assert dir + (stem + "_" + IndexPlaceholder + ".h5") == pre + IndexPlaceholder + ".h5";
    }
    assert Posix(FilePath(parent, stem + "_" + pad + ".h5")) == pre + pad + ".h5" by {
      PosixOfName(parent, stem + "_" + pad + ".h5");
      assert dir + (stem + "_" + pad + ".h5") == pre + pad + ".h5";
    }
    assert '%' !in pre by {
      assert forall c :: c in pre ==> c in dir || c in stem + "_";
    }
    FillIndexSplit(pre, ".h5", i);
  }

  /** The directory part `as_posix()` puts before a name. */
  function DirPrefix(parent: string): string {
    if parent == "." then "" else parent + "/"
  }

  lemma PosixOfName(parent: string, name: string)
    ensures Posix(FilePath(parent, name)) == DirPrefix(parent) + name
  {
    if parent == "." {
      assert "" + name == name;
    }
  }

  /** The data files of a NeXus file `run.nxs` are `run_000001.h5`, ... in
      the same directory, and each of them leads back to `run.nxs`. */
  lemma DataFilesRoundTrip(asWritten: bool, w: Writer, k: nat)
    requires Suffix(w.filename.name) == ".nxs"
    requires '%' !in w.filename.parent && '%' !in w.filename.name && '/' !in w.filename.name
    requires DataFilesList(asWritten, w, "").Ok? && k < |DataFilesList(asWritten, w, "").value|
    ensures var f := DataFilesList(asWritten, w, "").value[k];
            && f == FilePath(w.filename.parent, Stem(w.filename.name) + "_" + ZeroPad(k + 1, MaxSuffixDigits) + ".h5")
            && NexusFilename(f, false) == w.filename
  {
    DataFileOfNexus(asWritten, w, k);
    ZeroPadIsRunTag(k + 1, MaxSuffixDigits);
    TaggedSiblingNamesNexus(w.filename, ZeroPad(k + 1, MaxSuffixDigits));
  }

  // ------------------------------------------------------------- write_vds

  /** Which layout writer `write_vds` calls, with the full data shape it
      passes: the tiled Jungfrau one, or `image_vds_writer` with the start
      index and the VDS shape. */
  datatype VdsWriterCall =
    | JungfrauVds(full: Vds.Shape)
    | ImageVds(full: Vds.Shape, startIndex: int, vdsShape: Vds.Shape)

  /** What `write_vds` does: the shape it settles on, the writer it calls,
      whether it cleans unused links, and the `nimages` it rewrites. */
  datatype VdsPlan = VdsPlan(vdsShape: Vds.Shape, call: VdsWriterCall, cleanUp: bool, nimages: Option<int>)

  /** The shape `write_vds` settles on: the given one; or
      `(tot - offset, *image_size)`, whose frame count is replaced by the
      goniometer's number of scan points when the two differ. */
  function DefaultVdsShape(w: Writer, vdsOffset: int, vdsShape: Option<Vds.Shape>): (r: Result<Vds.Shape>)
    ensures vdsShape.Some? ==> r == Ok(vdsShape.value)
    ensures vdsShape.None? ==> (r.Ok? <==> NumberOfScanPoints(w.gonio, true).Ok?)
    ensures vdsShape.None? && r.Ok? ==>
              r.value == Vds.Shape(NumberOfScanPoints(w.gonio, true).value, w.imageSize)
  {
    if vdsShape.Some? then Ok(vdsShape.value)
    else
      var shape := Vds.Shape(w.totNumImgs - vdsOffset, w.imageSize);
      var points :- NumberOfScanPoints(w.gonio, true);
      if points != shape.frames then Ok(Vds.Shape(points, shape.image)) else Ok(shape)
  }

  /** `write_vds`: a description mentioning "jungfrau" in any case selects
      the tiled writer over the whole run; anything else links the shape
      from the offset. `nimages` is rewritten exactly when the VDS holds
      fewer frames than the run. */
  function WriteVds(w: Writer, vdsOffset: int, vdsShape: Option<Vds.Shape>, cleanUp: bool): (r: Result<VdsPlan>)
    ensures DefaultVdsShape(w, vdsOffset, vdsShape).Err? <==> r.Err?
    ensures r.Ok? ==> r.value.vdsShape == DefaultVdsShape(w, vdsOffset, vdsShape).value && r.value.cleanUp == cleanUp
    ensures r.Ok? ==> (r.value.call.JungfrauVds? <==> Contains(Lower(w.description), "jungfrau"))
    ensures r.Ok? ==> r.value.call.full == Vds.Shape(w.totNumImgs, w.imageSize)
    ensures r.Ok? && r.value.call.ImageVds? ==>
              r.value.call.startIndex == vdsOffset && r.value.call.vdsShape == r.value.vdsShape
    ensures r.Ok? ==> (r.value.nimages.Some? <==> r.value.vdsShape.frames < w.totNumImgs)
    ensures r.Ok? && r.value.nimages.Some? ==> r.value.nimages.value == r.value.vdsShape.frames
  {
    var shape :- DefaultVdsShape(w, vdsOffset, vdsShape);
    var full := Vds.Shape(w.totNumImgs, w.imageSize);
    var call := if Contains(Lower(w.description), "jungfrau") then JungfrauVds(full)
                else ImageVds(full, vdsOffset, shape);
    var nimages := if shape.frames < w.totNumImgs then Some(shape.frames) else None;
    Ok(VdsPlan(shape, call, cleanUp, nimages))
  }

  /** When the goniometer counts as many scan points as there are frames
      from the offset, the defaulted `image_vds_writer` call links exactly
      those frames. */
  lemma WriteVdsCoversRun(w: Writer, vdsOffset: int, names: seq<string>)
    requires !Contains(Lower(w.description), "jungfrau")
    requires NumberOfScanPoints(w.gonio, true) == Ok(w.totNumImgs - vdsOffset)
    requires 0 <= vdsOffset < w.totNumImgs
    requires |names| > 0
    requires w.totNumImgs <= Vds.MaxFrames * |names| || (|names| == 1 && w.totNumImgs > Vds.MaxFrames)
    ensures WriteVds(w, vdsOffset, None, false).Ok?
    ensures var c := WriteVds(w, vdsOffset, None, false).value.call;
            && c.ImageVds?
            && Vds.ImageVdsLayout(names, c.full, c.startIndex, Some(c.vdsShape)).Ok?
            && Vds.ImageVdsLayout(names, c.full, c.startIndex, Some(c.vdsShape)).value.shape.frames
               == w.totNumImgs - vdsOffset
  {
    WriteVdsDefaultCall(w, vdsOffset);
    var full := Vds.Shape(w.totNumImgs, w.imageSize);
    CallCoversFrames(names, WriteVds(w, vdsOffset, None, false).value.call, full, vdsOffset);
  }

  /** An `image_vds_writer` call asking for every frame from the offset
      gets a layout holding exactly those frames. */
  lemma CallCoversFrames(names: seq<string>, c: VdsWriterCall, full: Vds.Shape, vdsOffset: int)
    requires c == ImageVds(full, vdsOffset, Vds.Shape(full.frames - vdsOffset, full.image))
    requires 0 <= vdsOffset < full.frames
    requires |names| > 0
    requires full.frames <= Vds.MaxFrames * |names| || (|names| == 1 && full.frames > Vds.MaxFrames)
    ensures Vds.ImageVdsLayout(names, c.full, c.startIndex, Some(c.vdsShape)).Ok?
    ensures Vds.ImageVdsLayout(names, c.full, c.startIndex, Some(c.vdsShape)).value.shape.frames
            == full.frames - vdsOffset
  {
    Vds.ImageVdsCoversExplicitShape(names, full, vdsOffset);
  }

  /** With the scan agreeing with the run, the defaulted call links
      `tot - offset` frames from the offset, and `nimages` is rewritten
      just when the offset is positive. */
  lemma WriteVdsDefaultCall(w: Writer, vdsOffset: int)
    requires !Contains(Lower(w.description), "jungfrau")
    requires NumberOfScanPoints(w.gonio, true) == Ok(w.totNumImgs - vdsOffset)
    ensures WriteVds(w, vdsOffset, None, false).Ok?
    ensures WriteVds(w, vdsOffset, None, false).value.call
         == ImageVds(Vds.Shape(w.totNumImgs, w.imageSize), vdsOffset, Vds.Shape(w.totNumImgs - vdsOffset, w.imageSize))
    ensures WriteVds(w, vdsOffset, None, false).value.nimages.Some? <==> vdsOffset > 0
  {
    assert DefaultVdsShape(w, vdsOffset, None) == Ok(Vds.Shape(w.totNumImgs - vdsOffset, w.imageSize));
  }

  /** With no shape given, the VDS frame count is always the goniometer's
      number of scan points: `tot_num_imgs - vds_offset` is kept only when
      it already agrees with it. */
  lemma DefaultShapeFollowsScan(w: Writer, vdsOffset: int)
    requires NumberOfScanPoints(w.gonio, true).Ok?
    ensures DefaultVdsShape(w, vdsOffset, None).Ok?
    ensures DefaultVdsShape(w, vdsOffset, None).value.frames == NumberOfScanPoints(w.gonio, true).value
    ensures DefaultVdsShape(w, vdsOffset, None).value.frames == w.totNumImgs - vdsOffset <==>
            NumberOfScanPoints(w.gonio, true).value == w.totNumImgs - vdsOffset
  {
  }
}

=== FILE: nxs_write.dfy ===
/** The list-based scan helpers of `nexgen/nxs_write/__init__.py`, which
    predate the `Axis` record: every axis is described by parallel lists
    of names, start and end positions and type strings. The lemmas at the
    end relate them to the `Axis`-based helpers of `ScanUtils`. */
module NxsWrite {
  import opened Wrappers
  import opened Text
  import opened Axes
  import opened ScanSpec
  import ScanUtils

  /** One column of the parallel lists: an axis's name, start and end
      position and its type, "rotation" or "translation". */
  datatype AxisEntry = AxisEntry(name: string, start: real, end: real, kind: string)

  /** The entries of one type, in order. */
  function OfType(axes: seq<AxisEntry>, kind: string): (r: seq<AxisEntry>)
    ensures |r| <= |axes|
    ensures forall a :: a in r <==> a in axes && a.kind == kind
  {
    if |axes| == 0 then []
    else if axes[0].kind == kind then [axes[0]] + OfType(axes[1..], kind)
    else OfType(axes[1..], kind)
  }

  /** The entries whose start and end differ, in order. */
  function Changing(axes: seq<AxisEntry>): (r: seq<AxisEntry>)
    ensures |r| <= |axes|
    ensures forall a :: a in r <==> a in axes && a.start != a.end
  {
    if |axes| == 0 then []
    else if axes[0].start != axes[0].end then [axes[0]] + Changing(axes[1..])
    else Changing(axes[1..])
  }

  function Names(axes: seq<AxisEntry>): (r: seq<string>)
    ensures |r| == |axes|
    ensures forall i :: 0 <= i < |axes| ==> r[i] == axes[i].name
  {
    if |axes| == 0 then [] else [axes[0].name] + Names(axes[1..])
  }

  // ------------------------------------------------------- find_osc_axis

  /** `find_osc_axis`: only rotation entries are considered. A sole
      rotation axis is returned whether or not it moves; otherwise the one
      whose start and end differ, the default when none does, and a
      `ValueError` when several do. No axes at all is a `ValueError`. */
  function FindOscAxis(axes: seq<AxisEntry>, default: string): (r: Result<string>)
    ensures |axes| == 0 ==> r == Err(ValueError)
    ensures r.Err? ==> r.error == ValueError
    ensures r.Ok? && r.value != default ==>
              exists a :: a in axes && a.kind == "rotation" && a.name == r.value
    ensures |axes| > 0 && |OfType(axes, "rotation")| == 0 ==> r == Ok(default)
    ensures r.Ok? && |OfType(axes, "rotation")| != 1 && r.value != default ==>
              exists a :: a in axes && a.kind == "rotation" && a.start != a.end && a.name == r.value
    ensures |OfType(axes, "rotation")| == 1 ==> r == Ok(OfType(axes, "rotation")[0].name)
  {
    if |axes| == 0 then Err(ValueError)
    else
      var rot := OfType(axes, "rotation");
      if |rot| == 1 then
        assert rot[0] in rot;
        Ok(rot[0].name)
      else
        var moving := Changing(rot);
        if |moving| == 0 then Ok(default)
        else if |moving| == 1 then
          assert moving[0] in moving;
          Ok(moving[0].name)
        else Err(ValueError)
  }

  /** The three outcomes among several rotation axes, by how many move. */
  lemma FindOscAxisByMovingCount(axes: seq<AxisEntry>, default: string)
    requires |axes| > 0 && |OfType(axes, "rotation")| != 1
    ensures var moving := Changing(OfType(axes, "rotation"));
            && (|moving| == 0 ==> FindOscAxis(axes, default) == Ok(default))
            && (|moving| == 1 ==> FindOscAxis(axes, default) == Ok(moving[0].name))
            && (|moving| > 1 <==> FindOscAxis(axes, default).Err?)
  {
  }

  // ------------------------------------------------- find_grid_scan_axes

  /** `find_grid_scan_axes`: the names of the translation entries whose
      start and end differ, in input order, possibly none. */
  function FindGridScanAxes(axes: seq<AxisEntry>): (r: Result<seq<string>>)
    ensures |axes| == 0 <==> r == Err(ValueError)
    ensures r.Ok? ==> |r.value| <= |axes|
    ensures r.Ok? ==> forall n :: n in r.value <==>
              exists a :: a in axes && a.kind == "translation" && a.start != a.end && a.name == n
  {
    if |axes| == 0 then Err(ValueError)
    else
      var moving := Changing(OfType(axes, "translation"));
      var names := Names(moving);
      assert forall n :: n in names <==> exists a :: a in moving && a.name == n by {
        forall n ensures n in names <==> exists a :: a in moving && a.name == n {
          if n in names {
            var i :| 0 <= i < |names| && names[i] == n;
            assert moving[i] in moving;
          }
          if exists a :: a in moving && a.name == n {
            var a :| a in moving && a.name == n;
            var i :| 0 <= i < |moving| && moving[i] == a;
            assert names[i] == n;
          }
        }
      }
      Ok(names)
  }

  /** Two runs of entries are filtered and named run by run, so the names
      found keep the entries' order. */
  lemma FindGridScanAxesAppend(a: seq<AxisEntry>, b: seq<AxisEntry>)
    requires |a| > 0 && |b| > 0
    ensures FindGridScanAxes(a + b).Ok?
    ensures FindGridScanAxes(a + b).value == FindGridScanAxes(a).value + FindGridScanAxes(b).value
  {
    OfTypeAppend(a, b, "translation");
    var ta := OfType(a, "translation");
    var tb := OfType(b, "translation");
    ChangingAppend(ta, tb);
    NamesAppend(Changing(ta), Changing(tb));
  }

  lemma {:induction false} OfTypeAppend(a: seq<AxisEntry>, b: seq<AxisEntry>, kind: string)
    ensures OfType(a + b, kind) == OfType(a, kind) + OfType(b, kind)
  {
    if |a| > 0 {
      assert (a + b)[1..] == a[1..] + b;
      OfTypeAppend(a[1..], b, kind);
    } else {
      assert a + b == b;
    }
  }

  lemma {:induction false} ChangingAppend(a: seq<AxisEntry>, b: seq<AxisEntry>)
    ensures Changing(a + b) == Changing(a) + Changing(b)
  {
    if |a| == 0 {
      assert a + b == b;
    } else {
      var ab := a + b;
      assert ab[0] == a[0] && ab[1..] == a[1..] + b;
      ChangingAppend(a[1..], b);
      var rest := Changing(a[1..] + b);
      assert Changing(ab) == (if a[0].start != a[0].end then [a[0]] + rest else rest);
    }
  }

  lemma NamesAppend(a: seq<AxisEntry>, b: seq<AxisEntry>)
    ensures Names(a + b) == Names(a) + Names(b)
  {
  }

  // ----------------------------------- agreement with the Axis-based rules

  /** The list columns an `Axis` contributes: its start, its end position
      and its type string. */
  function Entry(a: Axis): (r: AxisEntry)
    ensures r.name == a.name && r.start == a.startPos && r.end == EndPos(a)
    ensures r.kind == "rotation" <==> a.kind == Rotation
    ensures r.kind == "translation" <==> a.kind == Translation
  {
    AxisEntry(a.name, a.startPos, EndPos(a), if a.kind == Rotation then "rotation" else "translation")
  }

  function Entries(axes: seq<Axis>): (r: seq<AxisEntry>)
    ensures |r| == |axes|
    ensures forall i :: 0 <= i < |axes| ==> r[i] == Entry(axes[i])
  {
    if |axes| == 0 then [] else [Entry(axes[0])] + Entries(axes[1..])
  }

  /** Every axis has at least two steps, so its end differs from its start
      exactly when it moves. */
  predicate Stepped(axes: seq<Axis>) {
    forall i :: 0 <= i < |axes| ==> axes[i].numSteps >= 2
  }

  lemma {:induction false} EntriesOfRotations(axes: seq<Axis>)
    ensures OfType(Entries(axes), "rotation") == Entries(ScanUtils.Rotations(axes))
  {
    if |axes| > 0 {
      EntriesOfRotations(axes[1..]);
      assert Entries(axes)[1..] == Entries(axes[1..]);
    }
  }

  lemma {:induction false} EntriesChanging(axes: seq<Axis>)
    requires Stepped(axes)
    ensures Changing(Entries(axes)) == Entries(ScanUtils.Moving(axes))
  {
    if |axes| > 0 {
      EntriesChanging(axes[1..]);
      assert Entries(axes)[1..] == Entries(axes[1..]);
      IsScanIffEndDiffers(axes[0]);
    }
  }

  lemma RotationsStepped(axes: seq<Axis>)
    requires Stepped(axes)
    ensures Stepped(ScanUtils.Rotations(axes))
  {
    var rot := ScanUtils.Rotations(axes);
    forall i | 0 <= i < |rot| ensures rot[i].numSteps >= 2 {
      assert rot[i] in rot;
    }
  }

  /** The old rule and `identify_osc_axis` pick the same oscillation axis
      from the same goniometer, and fail on the same inputs (with
      different exception classes), when every axis has at least two
      steps. */
  lemma FindOscAxisAgrees(axes: seq<Axis>, default: string)
    requires Stepped(axes)
    ensures FindOscAxis(Entries(axes), default).Ok? <==> ScanUtils.IdentifyOscAxis(axes, default).Ok?
    ensures FindOscAxis(Entries(axes), default).Ok? ==>
              FindOscAxis(Entries(axes), default).value == ScanUtils.IdentifyOscAxis(axes, default).value
  {
    var rot := ScanUtils.Rotations(axes);
    var moving := ScanUtils.Moving(rot);
    EntriesOfRotations(axes);
    RotationsStepped(axes);
    EntriesChanging(rot);
    var erot := OfType(Entries(axes), "rotation");
    var emoving := Changing(erot);
    assert erot == Entries(rot) && emoving == Entries(moving);
    assert |erot| == |rot| && |emoving| == |moving|;
    assert |rot| > 0 ==> erot[0].name == rot[0].name;
    assert |moving| > 0 ==> emoving[0].name == moving[0].name;
    assert |axes| == 0 <==> |Entries(axes)| == 0;
  }

  lemma {:induction false} GridNamesAsEntries(axes: seq<Axis>)
    requires Stepped(axes)
    ensures ScanUtils.GridNames(axes) == Names(Changing(OfType(Entries(axes), "translation")))
  {
    if |axes| > 0 {
      GridNamesAsEntries(axes[1..]);
      assert Entries(axes)[1..] == Entries(axes[1..]);
      IsScanIffEndDiffers(axes[0]);
    }
  }

  /** The old rule and `identify_grid_scan_axes` return the same names
      for the same goniometer when every axis has at least two steps. */
  lemma FindGridScanAxesAgrees(axes: seq<Axis>)
    requires Stepped(axes)
    ensures FindGridScanAxes(Entries(axes)).Ok? <==> ScanUtils.IdentifyGridScanAxes(axes).Ok?
    ensures FindGridScanAxes(Entries(axes)).Ok? ==>
              FindGridScanAxes(Entries(axes)).value == ScanUtils.IdentifyGridScanAxes(axes).value
  {
    GridNamesAsEntries(axes);
  }

  // ------------------------------------------------ calculate_scan_range

  /** An argument that must be a Python list; any other sequence type is
      a `TypeError`. */
  datatype ListArg<T> = List(items: seq<T>) | NotList(items: seq<T>)

  /** `n_images`: an int, or a tuple with one count per axis. */
  datatype ImageCount = Count(n: int) | PerAxis(ns: seq<int>)

  predicate ImagesGiven(n: Option<ImageCount>) {
    match n
    case None => false
    case Some(Count(k)) => k != 0
    case Some(PerAxis(ns)) => |ns| > 0
  }

  predicate IncrementsGiven(incs: Option<seq<real>>) {
    incs.Some? && |incs.value| > 0
  }

  /** How the spacing of the points is fixed once the arguments have been
      validated: by the per-axis increments or by the image count. */
  datatype Spacing = ByIncrement(incs: seq<real>) | ByCount(count: ImageCount)

  predicate ValidSpacing(sp: Spacing) {
    match sp
    case ByIncrement(incs) => |incs| > 0
    case ByCount(c) => ImagesGiven(Some(c))
  }

  /** The two arguments are mutually exclusive, and one must be given. */
  function ChooseSpacing(incs: Option<seq<real>>, n: Option<ImageCount>): (r: Result<Spacing>)
    ensures r.Err? <==> IncrementsGiven(incs) == ImagesGiven(n)
    ensures r.Err? ==> r.error == ValueError
    ensures r.Ok? ==> ValidSpacing(r.value)
    ensures r.Ok? ==> (r.value.ByIncrement? <==> IncrementsGiven(incs))
  {
    if ImagesGiven(n) && IncrementsGiven(incs) then Err(ValueError)
    else if !ImagesGiven(n) && !IncrementsGiven(incs) then Err(ValueError)
    else if IncrementsGiven(incs) then Ok(ByIncrement(incs.value))
    else Ok(ByCount(n.value))
  }

  function Abs(x: real): real { if x < 0.0 then -x else x }

  /** `round(abs(start - end) / inc)`. */
  function StepCount(start: real, end: real, inc: real): (r: Result<int>)
    ensures r.Err? <==> inc == 0.0
    ensures r.Err? ==> r.error == ZeroDivisionError
    ensures r.Ok? ==> Abs(start - end) / inc - 1.0 / 2.0 <= r.value as real <= Abs(start - end) / inc + 1.0 / 2.0
  {
    if inc == 0.0 then Err(ZeroDivisionError) else Ok(RoundHalfEven(Abs(start - end) / inc))
  }

  /** A single rotation axis: the end is pulled back one step towards the
      start, so the points are the starts of the images' oscillations. A
      tuple count reaches a division or `Line` that rejects it. */
  function RotationRange(name: string, start: real, end: real, sp: Spacing): (r: Result<Dict<string, seq<real>>>)
    requires ValidSpacing(sp)
    ensures r.Ok? ==> |r.value| == 1 && r.value[0].0 == name
    ensures sp.ByCount? && sp.count.PerAxis? ==> r == Err(TypeError)
    ensures sp.ByIncrement? ==> (r.Err? <==> sp.incs[0] == 0.0)
    ensures sp.ByIncrement? && sp.incs[0] > 0.0 ==>
              r.Ok? && |r.value[0].1| == RoundHalfEven(Abs(start - end) / sp.incs[0])
  {
    match sp
    case ByIncrement(incs) =>
      var n :- StepCount(start, end, incs[0]);
      var stop := if start == end then end else if start > end then end + incs[0] else end - incs[0];
      Ok([(name, Line(start, stop, n))])
    case ByCount(Count(n)) =>
      var stop := if start == end then end else end - (end - start) / n as real;
      Ok([(name, Line(start, stop, n))])
    case ByCount(PerAxis(_)) => Err(TypeError)
  }

  /** A single translation axis: `round(|end - start| / inc) + 1` points,
      or the given count; a one-element tuple is unwrapped and a longer
      tuple reaches a `Line` that rejects it. */
  function LinearRange(name: string, start: real, end: real, sp: Spacing): (r: Result<Dict<string, seq<real>>>)
    requires ValidSpacing(sp)
    ensures r.Ok? ==> |r.value| == 1 && r.value[0].0 == name
    ensures sp.ByCount? && sp.count.PerAxis? ==> (r.Ok? <==> |sp.count.ns| == 1)
    ensures sp.ByCount? && sp.count.Count? ==> r == Ok([(name, Line(start, end, sp.count.n))])
    ensures sp.ByIncrement? && sp.incs[0] > 0.0 ==>
              r.Ok? && |r.value[0].1| == RoundHalfEven(Abs(start - end) / sp.incs[0]) + 1
  {
    match sp
    case ByIncrement(incs) =>
      var n :- StepCount(start, end, incs[0]);
      Ok([(name, Line(start, end, n + 1))])
    case ByCount(Count(n)) => Ok([(name, Line(start, end, n))])
    case ByCount(PerAxis(ns)) =>
      if |ns| == 1 then Ok([(name, Line(start, end, ns[0]))]) else Err(TypeError)
  }

  /** Two axes: per-axis counts from the increments or the tuple, then the
      product of the two lines, the first axis outer. A single total is
      not enough to place the points. */
  function GridRange(names: seq<string>, starts: seq<real>, ends: seq<real>, sp: Spacing, snaked: bool): (r: Result<Dict<string, seq<real>>>)
    requires ValidSpacing(sp)
    requires |names| >= 2 && |starts| >= 1 && |ends| >= 1
    ensures sp.ByCount? && sp.count.Count? ==> r == Err(TypeError)
    ensures sp.ByCount? && sp.count.PerAxis? && |sp.count.ns| == 1 ==> r == Err(ValueError)
    ensures r.Ok? ==> |r.value| >= 1 && r.value[0].0 == names[0]
    ensures r.Ok? && names[0] != names[1] ==> |r.value| == 2 && r.value[1].0 == names[1] && |r.value[0].1| == |r.value[1].1|
  {
    var counts :- match sp
      case ByIncrement(incs) =>
        var n0 :- StepCount(starts[0], ends[0], incs[0]);
        if |starts| < 2 || |ends| < 2 || |incs| < 2 then Err(IndexError)
        else
          var n1 :- StepCount(starts[1], ends[1], incs[1]);
          Ok((n0 + 1, n1 + 1))
      case ByCount(Count(_)) => Err(TypeError)
      case ByCount(PerAxis(ns)) =>
        if |ns| == 1 then Err(ValueError) else Ok((ns[0], ns[1]));
    if |starts| < 2 || |ends| < 2 then Err(IndexError)
    else
      var g := Product(Line(starts[0], ends[0], counts.0), Line(starts[1], ends[1], counts.1), snaked);
      Ok(Put([(names[0], g.outer)], names[1], g.inner))
  }

  /** `calculate_scan_range`: the positions of every scanned axis, keyed
      by name, after the argument checks. */
  function CalculateScanRange(names: ListArg<string>, starts: ListArg<real>, ends: ListArg<real>,
                              incs: Option<seq<real>>, nImages: Option<ImageCount>,
                              snaked: bool, rotation: bool): (r: Result<Dict<string, seq<real>>>)
    ensures !names.List? || !starts.List? || !ends.List? ==> r == Err(TypeError)
    ensures names.List? && starts.List? && ends.List? && |names.items| == 0 ==> r == Err(ValueError)
    ensures (names.List? && starts.List? && ends.List? && |names.items| > 0
             && IncrementsGiven(incs) == ImagesGiven(nImages)) ==> r == Err(ValueError)
    ensures r.Ok? ==> |r.value| >= 1 && r.value[0].0 == names.items[0]
  {
    if !names.List? || !starts.List? || !ends.List? then Err(TypeError)
    else if |names.items| == 0 then Err(ValueError)
    else
      var sp :- ChooseSpacing(incs, nImages);
      if |starts.items| == 0 || |ends.items| == 0 then Err(IndexError)
      else if |names.items| == 1 && rotation then RotationRange(names.items[0], starts.items[0], ends.items[0], sp)
      else if |names.items| == 1 then LinearRange(names.items[0], starts.items[0], ends.items[0], sp)
      else GridRange(names.items, starts.items, ends.items, sp, snaked)
  }

  // ---------------------------------------------------------- properties

  /** The width of one of `n` equal images over `[start, end]`: the last
      image starts one width before `end`. */
  lemma ImageWidth(start: real, end: real, n: int)
    requires n >= 2
    ensures var w := (end - start) / n as real;
            var d := (n - 1) as real;
            && end - w == start + w * d
            && ((end - w) - start) / d == w
  {
    var w := (end - start) / n as real;
    var d := (n - 1) as real;
    assert w * n as real == end - start;
    assert w * d == w * n as real - w;
    assert (w * d) / d == w;
  }

  /** A rotation scan over `[start, end]` in `n` images, given the count
      or an increment that divides the range exactly: `n` points from
      `start`, one image width apart, the last image ending at `end`. */
  lemma RotationRangeCoversImages(name: string, start: real, end: real, sp: Spacing, n: int)
    requires ValidSpacing(sp) && n >= 2
    requires sp == ByCount(Count(n))
          || (sp.ByIncrement? && sp.incs[0] > 0.0 && Abs(end - start) == n as real * sp.incs[0])
    ensures var r := RotationRange(name, start, end, sp);
            var width := (end - start) / n as real;
            && r.Ok? && |r.value[0].1| == n
            && r.value[0].1[0] == start
            && (forall i :: 0 <= i < n - 1 ==> r.value[0].1[i + 1] - r.value[0].1[i] == width)
            && r.value[0].1[n - 1] + width == end
  {
    var width := (end - start) / n as real;
    ImageWidth(start, end, n);
    if sp.ByIncrement? {
      RotationStopByIncrement(name, start, end, sp.incs, n);
    } else {
      RotationStopByCount(name, start, end, n);
    }
    LineSteps(start, end - width, n, width);
  }

  lemma RotationStopByCount(name: string, start: real, end: real, n: int)
    requires n >= 2
    ensures RotationRange(name, start, end, ByCount(Count(n)))
         == Ok([(name, Line(start, end - (end - start) / n as real, n))])
  {
  }

  lemma RotationStopByIncrement(name: string, start: real, end: real, incs: seq<real>, n: int)
    requires |incs| > 0 && incs[0] > 0.0 && n >= 2 && Abs(end - start) == n as real * incs[0]
    ensures RotationRange(name, start, end, ByIncrement(incs))
         == Ok([(name, Line(start, end - (end - start) / n as real, n))])
  {
    IncrementIsWidth(start, end, incs[0], n);
  }

  lemma LineSteps(start: real, stop: real, n: int, width: real)
    requires n >= 2 && (stop - start) / (n - 1) as real == width
    ensures var pts := Line(start, stop, n);
            && |pts| == n && pts[0] == start && pts[n - 1] == stop
            && forall i :: 0 <= i < n - 1 ==> pts[i + 1] - pts[i] == width
  {
  }

  /** An increment that divides the range into `n` parts is one image
      width, signed towards `end`, and rounds to `n` images. */
  lemma IncrementIsWidth(start: real, end: real, inc: real, n: int)
    requires inc > 0.0 && n >= 2 && Abs(end - start) == n as real * inc
    ensures StepCount(start, end, inc) == Ok(n)
    ensures start > end ==> (end - start) / n as real == -inc
    ensures start < end ==> (end - start) / n as real == inc
  {
    assert Abs(start - end) / inc == n as real;
    assert RoundHalfEven(n as real) == n;
  }

  /** Omega from 0 to 2 in steps of 0.5 gives the four image starts 0,
      0.5, 1 and 1.5. */
  lemma RotationRangeExample()
    ensures RotationRange("omega", 0.0, 2.0, ByIncrement([0.5])) == Ok([("omega", [0.0, 0.5, 1.0, 1.5])])
  {
    RotationRangeCoversImages("omega", 0.0, 2.0, ByIncrement([0.5]), 4);
    var pts := RotationRange("omega", 0.0, 2.0, ByIncrement([0.5])).value[0].1;
    assert pts[1] == 0.5 && pts[2] == 1.0 && pts[3] == 1.5;
    assert pts == [0.0, 0.5, 1.0, 1.5];
  }

  /** A translation whose increment divides its range exactly has one
      point per increment from `start` to `end` inclusive. */
  lemma LinearRangeReachesEnd(name: string, start: real, end: real, inc: real, k: nat)
    requires inc > 0.0 && k >= 1 && Abs(end - start) == k as real * inc
    ensures var r := LinearRange(name, start, end, ByIncrement([inc]));
            && r.Ok? && |r.value[0].1| == k + 1
            && r.value[0].1[0] == start && r.value[0].1[k] == end
            && (forall i :: 0 <= i < k ==> Abs(r.value[0].1[i + 1] - r.value[0].1[i]) == inc)
  {
    assert Abs(start - end) / inc == k as real;
    assert RoundHalfEven(k as real) == k;
    assert Abs((end - start) / k as real) == inc;
  }

  /** A grid of `n0` by `n1` points from a per-axis tuple has `n0 * n1`
      points for each axis. */
  lemma GridRangeSize(names: seq<string>, starts: seq<real>, ends: seq<real>, n0: nat, n1: nat, snaked: bool)
    requires |names| == 2 && names[0] != names[1] && |starts| == 2 && |ends| == 2 && n0 >= 1 && n1 >= 1
    ensures var r := CalculateScanRange(List(names), List(starts), List(ends), None, Some(PerAxis([n0, n1])), snaked, false);
            r.Ok? && Keys(r.value) == names && |r.value[0].1| == |r.value[1].1| == n0 * n1
  {
  }

  /** An axis that runs from `start` to `end` in `n` steps. */
  function AxisThrough(name: string, start: real, end: real, n: int): (r: Axis)
    requires n >= 2
    ensures r.startPos == start && EndPos(r) == end && r.numSteps == n
  {
    var a := Axis(name, "", Translation, Utils.Point3D(0.0, 0.0, 0.0), start, (end - start) / (n - 1) as real, n,
                  Utils.Point3D(0.0, 0.0, 0.0));
    assert EndPos(a) == start + (end - start) / (n - 1) as real * (n - 1) as real;
    a
  }

  /** The old grid builder and `calculate_scan_points` produce the same
      positions for the same two translation axes. */
  lemma GridRangeMatchesScanPoints(names: seq<string>, starts: seq<real>, ends: seq<real>, n0: int, n1: int, snaked: bool)
    requires |names| == 2 && |starts| == 2 && |ends| == 2 && n0 >= 2 && n1 >= 2
    ensures CalculateScanRange(List(names), List(starts), List(ends), None, Some(PerAxis([n0, n1])), snaked, false)
         == ScanUtils.CalculateScanPoints(AxisThrough(names[0], starts[0], ends[0], n0),
                                          Some(AxisThrough(names[1], starts[1], ends[1], n1)), snaked, false, None)
  {
  }
}

=== FILE: paths.dfy ===
/** A resolved `pathlib.Path`: the directory it lives in and its final
    component. Only the parts of pathlib the modelled code uses are here:
    `name`, `suffix`, `stem`, `parent / name` and `as_posix()`. */
module Paths {
  import opened Text

  datatype FilePath = FilePath(parent: string, name: string)

  /** Index of the last occurrence of `c` in `s`, or -1 (`str.rfind`). */
  function RFind(s: string, c: char): (r: int)
    ensures -1 <= r < |s|
    ensures r >= 0 ==> s[r] == c
    ensures forall i :: r < i < |s| ==> s[i] != c
  {
    if |s| == 0 then -1
    else if s[|s| - 1] == c then |s| - 1
    else RFind(s[..|s| - 1], c)
  }

  /** A position holding `c` with no later `c` is what `RFind` returns. */
  lemma RFindIsLast(s: string, c: char, k: nat)
    requires k < |s| && s[k] == c
    requires forall i :: k < i < |s| ==> s[i] != c
    ensures RFind(s, c) == k
  {
  }

  /** pathlib's rule: the suffix starts at the last dot, unless that dot
      opens the name or closes it. */
  predicate HasSuffix(name: string) {
    var i := RFind(name, '.');
    0 < i < |name| - 1
  }

  function Suffix(name: string): (r: string)
    ensures HasSuffix(name) ==> |r| >= 2 && r[0] == '.'
    ensures !HasSuffix(name) ==> r == ""
  {
    var i := RFind(name, '.');
    if 0 < i < |name| - 1 then name[i..] else ""
  }

  function Stem(name: string): (r: string) {
    var i := RFind(name, '.');
    if 0 < i < |name| - 1 then name[..i] else name
  }

  /** The stem and the suffix split the name without loss. */
  lemma StemSuffixSplit(name: string)
    ensures Stem(name) + Suffix(name) == name
  {
  }

  /** `path.parent / other`: a sibling file in the same directory. */
  function Sibling(p: FilePath, other: string): FilePath {
    FilePath(p.parent, other)
  }

  /** `as_posix()`: pathlib drops the directory "." of a bare name, so
      `Path("x").as_posix()` is "x" and `Path("x").parent / "y"` is "y". */
  function Posix(p: FilePath): (r: string)
    ensures EndsWith(r, p.name)
    ensures r == p.name <==> p.parent == "."
  {
    if p.parent == "." then p.name else p.parent + "/" + p.name
  }

  /** `Path(s)` for a string holding a directory: the name is what follows
      the last slash. */
  function ParsePosix(s: string): (r: FilePath)
    ensures '/' !in r.name
  {
    var i := RFind(s, '/');
    if i < 0 then FilePath(".", s) else FilePath(s[..i], s[i + 1..])
  }

  /** Parsing inverts `as_posix()` for a name without a slash. */
  lemma ParsePosixInverts(p: FilePath)
    requires '/' !in p.name
    ensures ParsePosix(Posix(p)) == p
  {
    var s := Posix(p);
    if p.parent == "." {
      assert forall i :: 0 <= i < |s| ==> s[i] != '/' by {
        assert forall i :: 0 <= i < |s| ==> s[i] in p.name;
      }
    } else {
      assert forall i :: |p.parent| < i < |s| ==> s[i] == p.name[i - |p.parent| - 1];
      RFindIsLast(s, '/', |p.parent|);
      assert s[..|p.parent|] == p.parent;
      assert s[|p.parent| + 1..] == p.name;
    }
  }

  /** A name made of a stem, a dot and a dot-free extension has that stem
      and that suffix. */
  lemma StemOfJoin(base: string, ext: string)
    requires |base| > 0 && |ext| > 0 && '.' !in ext
    ensures Stem(base + "." + ext) == base
    ensures Suffix(base + "." + ext) == "." + ext
  {
    var name := base + "." + ext;
    assert forall i :: |base| < i < |name| ==> name[i] == ext[i - |base| - 1];
    RFindIsLast(name, '.', |base|);
    assert name[..|base|] == base;
    assert name[|base|..] == "." + ext;
  }
}

=== FILE: scan_utils.dfy ===
/** Scan-axis identification and scan-point calculation of
    `nexgen/nxs_utils/scan_utils.py`, over `Axis` records. */
module ScanUtils {
  import opened Wrappers
  import opened Text
  import opened Axes
  import opened ScanSpec

  /** `GridScanOptions`: the axes in (fast, slow) order and whether the
      grid is snaked. */
  datatype GridScanOptions = GridScanOptions(axesOrder: (string, string), snaked: bool)

  /** `ScanDirection`: an integer enum whose value multiplies an increment. */
  datatype ScanDirection = Positive | Negative {
    function Sign(): (r: real)
      ensures r == 1.0 || r == -1.0
      ensures r == 1.0 <==> this == Positive
    {
      if this == Positive then 1.0 else -1.0
    }
  }

  function Rotations(axes: seq<Axis>): (r: seq<Axis>)
    ensures |r| <= |axes|
    ensures forall a :: a in r <==> a in axes && a.kind == Rotation
  {
    if |axes| == 0 then []
    else if axes[0].kind == Rotation then [axes[0]] + Rotations(axes[1..])
    else Rotations(axes[1..])
  }

  function Moving(axes: seq<Axis>): (r: seq<Axis>)
    ensures |r| <= |axes|
    ensures forall a :: a in r <==> a in axes && IsScan(a)
  {
    if |axes| == 0 then []
    else if IsScan(axes[0]) then [axes[0]] + Moving(axes[1..])
    else Moving(axes[1..])
  }

  /** `identify_osc_axis`: a sole rotation axis is the oscillation axis
      whether or not it moves; among several, the one that moves, or the
      default when none does. */
  function IdentifyOscAxis(axes: seq<Axis>, default: string): (r: Result<string>)
    ensures |axes| == 0 ==> r == Err(ScanAxisNotFoundError)
    ensures |axes| > 0 && |Rotations(axes)| == 1 ==> r == Ok(Rotations(axes)[0].name)
    ensures |axes| > 0 && |Rotations(axes)| != 1 ==>
              (r == Ok(default) <==> |Moving(Rotations(axes))| == 0 || (|Moving(Rotations(axes))| == 1 && Moving(Rotations(axes))[0].name == default))
    ensures |axes| > 0 && |Rotations(axes)| != 1 ==>
              (r == Err(ScanAxisNotFoundError) <==> |Moving(Rotations(axes))| > 1)
    ensures r.Ok? && r.value != default ==>
              exists a :: a in axes && a.kind == Rotation && a.name == r.value
    ensures |Moving(Rotations(axes))| == 1 ==> r == Ok(Moving(Rotations(axes))[0].name)
  {
    if |axes| == 0 then Err(ScanAxisNotFoundError)
    else
      var rot := Rotations(axes);
      if |rot| == 1 then
        assert rot[0] in rot;
        Ok(rot[0].name)
      else
        var moving := Moving(rot);
        if |moving| == 0 then Ok(default)
        else if |moving| > 1 then Err(ScanAxisNotFoundError)
        else
          assert moving[0] in moving;
          Ok(moving[0].name)
  }

  function GridNames(axes: seq<Axis>): (r: seq<string>)
    ensures |r| <= |axes|
    ensures forall n :: n in r <==> exists a :: a in axes && a.kind == Translation && IsScan(a) && a.name == n
  {
    if |axes| == 0 then []
    else
      var rest := GridNames(axes[1..]);
      assert forall a :: a in axes[1..] ==> a in axes;
      assert forall a :: a in axes ==> a == axes[0] || a in axes[1..];
      if axes[0].kind == Translation && IsScan(axes[0]) then [axes[0].name] + rest else rest
  }

  /** The grid names of two runs of axes are those of the first run
      followed by those of the second: the names keep the axes' order. */
  lemma {:induction false} GridNamesAppend(a: seq<Axis>, b: seq<Axis>)
    ensures GridNames(a + b) == GridNames(a) + GridNames(b)
  {
    if |a| > 0 {
      assert (a + b)[1..] == a[1..] + b;
      GridNamesAppend(a[1..], b);
    } else {
      assert a + b == b;
    }
  }

  /** `identify_grid_scan_axes`: the names of the moving translation axes,
      in input order; possibly none. */
  function IdentifyGridScanAxes(axes: seq<Axis>): (r: Result<seq<string>>)
    ensures |axes| == 0 <==> r == Err(ScanAxisNotFoundError)
    ensures r.Ok? ==> |r.value| <= |axes|
    ensures r.Ok? ==> forall n :: n in r.value <==>
              exists a :: a in axes && a.kind == Translation && IsScan(a) && a.name == n
  {
    if |axes| == 0 then Err(ScanAxisNotFoundError) else Ok(GridNames(axes))
  }

  /** The names found in two non-empty runs of axes are those of the first
      run followed by those of the second, so they keep the axes' order. */
  lemma IdentifyGridScanAxesAppend(a: seq<Axis>, b: seq<Axis>)
    requires |a| > 0 && |b| > 0
    ensures IdentifyGridScanAxes(a + b).Ok?
    ensures IdentifyGridScanAxes(a + b).value == IdentifyGridScanAxes(a).value + IdentifyGridScanAxes(b).value
  {
    GridNamesAppend(a, b);
  }

  /** `(axis.start_pos, axis.end_pos, n)`: the line of an axis. */
  function AxisLine(a: Axis, n: int): seq<real> {
    Line(a.startPos, EndPos(a), n)
  }

  /** The end position is where a scan of `numSteps` points from the
      start, spaced by the increment, lands: scanspec's line from the
      start to `end_pos` steps by exactly the axis's increment. */
  lemma AxisLineStepsByIncrement(a: Axis)
    requires a.numSteps >= 2
    ensures var line := AxisLine(a, a.numSteps);
            && line[0] == a.startPos && line[a.numSteps - 1] == EndPos(a)
            && forall i :: 0 <= i < a.numSteps - 1 ==> line[i + 1] - line[i] == a.increment
  {
    var gaps := (a.numSteps - 1) as real;
    assert EndPos(a) - a.startPos == a.increment * gaps;
    assert (EndPos(a) - a.startPos) / gaps == a.increment;
  }

  /** The point count of a rotation scan: a given non-zero `tot_num_imgs`
      overrides the axis's own step count. */
  function RotationCount(a: Axis, totNumImgs: Option<int>): int {
    if totNumImgs.Some? && totNumImgs.value != 0 then totNumImgs.value else a.numSteps
  }

  /** `calculate_scan_points`: a dict from axis name to its positions. */
  function CalculateScanPoints(axis1: Axis, axis2: Option<Axis>, snaked: bool, rotation: bool, totNumImgs: Option<int>): (r: Result<Dict<string, seq<real>>>)
    ensures rotation && axis1.kind != Rotation ==> r == Err(ScanAxisError)
    ensures rotation && axis1.kind == Rotation && axis1.numSteps == 0 && totNumImgs.None? ==> r == Err(ValueError)
    ensures rotation && r.Ok? ==> r.value == [(axis1.name, AxisLine(axis1, RotationCount(axis1, totNumImgs)))]
    ensures !rotation && (axis1.kind != Translation || (axis2.Some? && axis2.value.kind != Translation)) ==>
              r == Err(ScanAxisError)
    ensures !rotation && axis1.kind == Translation && axis2.None? ==>
              r == Ok([(axis1.name, AxisLine(axis1, axis1.numSteps))])
    ensures r.Err? ==> r.error == ScanAxisError || r.error == ValueError
  {
    if rotation then
      if axis1.kind != Rotation then Err(ScanAxisError)
      else if axis1.numSteps == 0 && totNumImgs.None? then Err(ValueError)
      else Ok([(axis1.name, AxisLine(axis1, RotationCount(axis1, totNumImgs)))])
    else if axis1.kind != Translation then Err(ScanAxisError)
    else if axis2.Some? && axis2.value.kind != Translation then Err(ScanAxisError)
    else if axis2.None? then Ok([(axis1.name, AxisLine(axis1, axis1.numSteps))])
    else
      var g := Product(AxisLine(axis1, axis1.numSteps), AxisLine(axis2.value, axis2.value.numSteps), snaked);
      Ok(Put([(axis1.name, g.outer)], axis2.value.name, g.inner))
  }

  /** A rotation scan is `n` points from `start_pos`, one increment apart
      when the count is the axis's own, and `start_pos` repeated when the
      axis does not move. */
  lemma RotationScanPoints(a: Axis, totNumImgs: Option<int>)
    requires CalculateScanPoints(a, None, true, true, totNumImgs).Ok?
    ensures var pts := CalculateScanPoints(a, None, true, true, totNumImgs).value[0].1;
            var n := RotationCount(a, totNumImgs);
            |pts| == (if n > 0 then n else 0)
            && (n >= 1 ==> pts[0] == a.startPos)
            && (n >= 2 ==> pts[n - 1] == EndPos(a))
            && (n == a.numSteps && n >= 2 ==> forall i :: 0 <= i < n - 1 ==> pts[i + 1] - pts[i] == a.increment)
            && (a.increment == 0.0 ==> forall i :: 0 <= i < |pts| ==> pts[i] == a.startPos)
  {
    var n := RotationCount(a, totNumImgs);
    if n == a.numSteps && n >= 2 {
      var d := (n - 1) as real;
      assert (EndPos(a) - a.startPos) / d == a.increment by {
        assert EndPos(a) - a.startPos == a.increment * d;
      }
    }
  }

  /** A grid has `n1 * n2` points with `axis1` outer. Without snaking it
      ends at both axes' `end_pos`; snaked over an even number of rows the
      inner axis is back at its `start_pos`. */
  lemma GridScanPoints(axis1: Axis, axis2: Axis, snaked: bool)
    requires axis1.kind == Translation && axis2.kind == Translation
    requires axis1.name != axis2.name
    requires axis1.numSteps >= 1 && axis2.numSteps >= 1
    ensures var r := CalculateScanPoints(axis1, Some(axis2), snaked, false, None);
            r.Ok? && |r.value| == 2 && r.value[0].0 == axis1.name && r.value[1].0 == axis2.name
            && |r.value[0].1| == |r.value[1].1| == axis1.numSteps * axis2.numSteps
            && r.value[0].1[|r.value[0].1| - 1] == EndPos(axis1)
            && (!snaked ==> r.value[1].1[|r.value[1].1| - 1] == EndPos(axis2))
            && (snaked && axis1.numSteps % 2 == 0 ==> r.value[1].1[|r.value[1].1| - 1] == axis2.startPos)
  {
    var l1 := AxisLine(axis1, axis1.numSteps);
    var l2 := AxisLine(axis2, axis2.numSteps);
    var g := Product(l1, l2, snaked);
    GridScanDict(axis1, axis2, snaked);
    AxisLineEnds(axis1);
    AxisLineEnds(axis2);
    ProductLastPoint(l1, l2, snaked, 0);
    assert axis1.numSteps % 2 == 0 ==> (axis1.numSteps - 1) % 2 == 1;
    assert |g.outer| == |g.inner| == axis1.numSteps * axis2.numSteps;
    assert g.outer[|g.outer| - 1] == EndPos(axis1);
  }

  /** Two translations give the outer axis then the inner one. */
  lemma GridScanDict(axis1: Axis, axis2: Axis, snaked: bool)
    requires axis1.kind == Translation && axis2.kind == Translation
    requires axis1.name != axis2.name
    ensures var g := Product(AxisLine(axis1, axis1.numSteps), AxisLine(axis2, axis2.numSteps), snaked);
            CalculateScanPoints(axis1, Some(axis2), snaked, false, None) == Ok([(axis1.name, g.outer), (axis2.name, g.inner)])
  {
    var g := Product(AxisLine(axis1, axis1.numSteps), AxisLine(axis2, axis2.numSteps), snaked);
    var d := [(axis1.name, g.outer)];
    assert Keys(d) == [axis1.name];
    assert !HasKey(d, axis2.name);
    assert Put(d, axis2.name, g.inner) == d + [(axis2.name, g.inner)];
    assert CalculateScanPoints(axis1, Some(axis2), snaked, false, None) == Ok(Put(d, axis2.name, g.inner));
    assert d + [(axis2.name, g.inner)] == [(axis1.name, g.outer), (axis2.name, g.inner)];
  }

  /** The line of an axis runs from its `start_pos` to its `end_pos`. */
  lemma AxisLineEnds(a: Axis)
    requires a.numSteps >= 1
    ensures var l := AxisLine(a, a.numSteps);
            |l| == a.numSteps && l[0] == a.startPos && l[|l| - 1] == EndPos(a)
  {
    if a.numSteps == 1 {
      assert EndPos(a) == a.startPos;
    }
  }
}

=== FILE: scanspec.dfy ===
/** The point-generation behaviour of the scanspec library that the scan
    code relies on: a `Line` of `n` evenly spaced points from start to stop
    inclusive, and the product of two lines, outer axis first, optionally
    snaking the inner axis on every odd row. Only these observable points
    are modelled, not the library's internals. */
module ScanSpec {
  import opened Text

  /** `Line(axis, start, stop, n)` midpoints. One point sits at `start`;
      no points for a non-positive count. */
  function Line(start: real, stop: real, n: int): (r: seq<real>)
    ensures |r| == if n > 0 then n else 0
    ensures n >= 1 ==> r[0] == start
    ensures n >= 2 ==> r[n - 1] == stop
    ensures n >= 2 ==> forall i :: 0 <= i < n - 1 ==> r[i + 1] - r[i] == (stop - start) / (n - 1) as real
    ensures start == stop ==> forall i :: 0 <= i < |r| ==> r[i] == start
  {
    if n <= 0 then []
    else if n == 1 then [start]
    else
      var step := (stop - start) / (n - 1) as real;
      var r := seq(n, i requires 0 <= i < n => start + i as real * step);
      assert r[n - 1] == start + (n - 1) as real * step;
      assert (n - 1) as real * step == stop - start;
      assert forall i :: 0 <= i < n - 1 ==> r[i + 1] - r[i] == step by {
        forall i | 0 <= i < n - 1 ensures r[i + 1] - r[i] == step {
          assert r[i + 1] == start + (i + 1) as real * step;
          assert (i + 1) as real * step == i as real * step + step;
        }
      }
      r
  }

  /** The points of a two-axis scan, one list per axis, point by point. */
  datatype Grid = Grid(outer: seq<real>, inner: seq<real>)

  /** One row of the product: the outer value held while the inner line
      runs forwards, or backwards on an odd row of a snaked scan. */
  function Row(o: real, inner: seq<real>, reversed: bool): (r: Grid)
    ensures |r.outer| == |inner| && |r.inner| == |inner|
  {
    Grid(seq(|inner|, _ => o), if reversed then Reverse(inner) else inner)
  }

  /** `outer * inner` (or `outer * ~inner` when `snaked`), rows from
      `row` on. */
  function ProductFrom(outer: seq<real>, inner: seq<real>, snaked: bool, row: nat): (r: Grid)
    ensures |r.outer| == |r.inner| == |outer| * |inner|
    decreases |outer|
  {
    if |outer| == 0 then Grid([], [])
    else
      var first := Row(outer[0], inner, snaked && row % 2 == 1);
      var rest := ProductFrom(outer[1..], inner, snaked, row + 1);
      assert |outer| * |inner| == |inner| + (|outer| - 1) * |inner|;
      Grid(first.outer + rest.outer, first.inner + rest.inner)
  }

  function Product(outer: seq<real>, inner: seq<real>, snaked: bool): (r: Grid)
    ensures |r.outer| == |r.inner| == |outer| * |inner|
  {
    ProductFrom(outer, inner, snaked, 0)
  }

  /** The outer axis is the slow one: the first row holds its first value
      while the inner axis runs through its points in order. */
  lemma ProductFirstRow(outer: seq<real>, inner: seq<real>, snaked: bool)
    requires |outer| > 0
    ensures var g := Product(outer, inner, snaked);
            g.outer[..|inner|] == seq(|inner|, _ => outer[0]) && g.inner[..|inner|] == inner
  {
    var first := Row(outer[0], inner, false);
    var rest := ProductFrom(outer[1..], inner, snaked, 1);
    assert Product(outer, inner, snaked) == Grid(first.outer + rest.outer, first.inner + rest.inner);
  }

  /** The last point of the product: the outer axis at its last value, the
      inner at its last value unless the final row runs backwards. */
  lemma {:induction false} ProductLastPoint(outer: seq<real>, inner: seq<real>, snaked: bool, row: nat)
    requires |outer| > 0 && |inner| > 0
    ensures var g := ProductFrom(outer, inner, snaked, row);
            var lastRow := row + |outer| - 1;
            g.outer[|g.outer| - 1] == outer[|outer| - 1]
            && g.inner[|g.inner| - 1] == (if snaked && lastRow % 2 == 1 then inner[0] else inner[|inner| - 1])
    decreases |outer|
  {
    var first := Row(outer[0], inner, snaked && row % 2 == 1);
    var rest := ProductFrom(outer[1..], inner, snaked, row + 1);
    if |outer| > 1 {
      ProductLastPoint(outer[1..], inner, snaked, row + 1);
      assert |rest.outer| > 0 by {
        assert |rest.outer| == (|outer| - 1) * |inner|;
      }
    } else {
      assert rest == Grid([], []);
    }
  }
}

=== FILE: source.dfy ===
/** The facility and beamline description of
    `nexgen/nxs_utils/source.py`: the instrument name and the source
    dictionary. */
module Source {
  import opened Wrappers
  import opened Text

  /** `Facility(name, short_name, type, id)`. */
  datatype Facility = Facility(name: string, shortName: string, kind: Option<string>, id: Option<string>)

  /** The facility a `Source` gets when none is given. */
  const Diamond: Facility := Facility("Diamond Light Source", "DLS", Some("Synchrotron X-ray Source"), None)

  datatype Source = Source(beamline: string, facility: Facility, probe: Option<string>)

  /** `Source(beamline)`. */
  function DefaultSource(beamline: string): (s: Source)
    ensures s.facility.name == "Diamond Light Source" && s.facility.shortName == "DLS"
    ensures s.facility.kind == Some("Synchrotron X-ray Source") && s.facility.id.None? && s.probe.None?
  {
    Source(beamline, Diamond, None)
  }

  /** The facility id used in the instrument name. */
  function FacilityId(s: Source): (id: string)
    ensures s.facility.id.None? ==> id == "DIAMOND"
    ensures s.facility.id.Some? ==> id == s.facility.id.value
  {
    s.facility.id.GetOr("DIAMOND")
  }

  predicate IsSynchrotron(s: Source) {
    s.facility.kind.Some? && Contains(Upper(s.facility.kind.value), "SYNCHROTRON")
  }

  /** `set_instrument_name`: the facility id, then the beamline; a
      synchrotron's name marks the beamline as such, which makes it nine
      characters longer. */
  function InstrumentName(s: Source): (r: string)
    ensures StartsWith(r, FacilityId(s)) && EndsWith(r, s.beamline)
    ensures |r| == |FacilityId(s)| + |s.beamline| + (if IsSynchrotron(s) then 10 else 1)
  {
    if IsSynchrotron(s) then FacilityId(s) + " BEAMLINE " + s.beamline
    else FacilityId(s) + " " + s.beamline
  }

  /** The name tells a synchrotron apart: two sources with the same
      facility id and beamline get the same instrument name exactly when
      both or neither are synchrotrons. */
  lemma InstrumentNameParts(s: Source, t: Source)
    requires FacilityId(s) == FacilityId(t) && s.beamline == t.beamline
    ensures InstrumentName(s) == InstrumentName(t) <==> IsSynchrotron(s) == IsSynchrotron(t)
  {
  }

  lemma SynchrotronPrefix(kind: string)
    requires kind == "Synchrotron X-ray Source"
    ensures Contains(Upper(kind), "SYNCHROTRON")
  {
    var u := Upper(kind);
    assert kind[..11] == "Synchrotron";
    forall i | 0 <= i < 11 ensures u[i] == "SYNCHROTRON"[i] {
      assert u[i] == UpperChar(kind[i]);
    }
    assert u[..11] == "SYNCHROTRON";
  }

  /** No position of `s` starts an occurrence when the first letter of
      `sub` does not appear at any position where one could start. */
  lemma {:induction false} NotContainsByFirst(s: string, sub: string)
    requires |sub| > 0
    requires forall i :: 0 <= i < |s| && i + |sub| <= |s| ==> s[i] != sub[0]
    ensures !Contains(s, sub)
    decreases |s|
  {
    if |s| > 0 {
      forall i | 0 <= i < |s[1..]| && i + |sub| <= |s[1..]| ensures s[1..][i] != sub[0] {
        assert s[1..][i] == s[i + 1];
      }
      NotContainsByFirst(s[1..], sub);
      if |sub| <= |s| {
        assert s[..|sub|][0] == s[0];
      }
    }
  }

  lemma ElectronSourceIsNotSynchrotron(kind: string)
    requires kind == "Electron Source"
    ensures !Contains(Upper(kind), "SYNCHROTRON")
  {
    var u := Upper(kind);
    forall i | 0 <= i < 5 ensures u[i] != 'S' {
      assert u[i] == UpperChar(kind[i]);
    }
    NotContainsByFirst(u, "SYNCHROTRON");
  }

  /** A beamline at Diamond, described as the default facility is. */
  lemma DiamondInstrumentName(kind: string, beamline: string)
    requires kind == "Synchrotron X-ray Source"
    ensures InstrumentName(Source(beamline, Facility("Diamond Light Source", "DLS", Some(kind), None), None))
         == "DIAMOND BEAMLINE " + beamline
  {
    SynchrotronPrefix(kind);
  }

  /** An electron microscope with its own facility id. */
  lemma MicroscopeInstrumentName(kind: string)
    requires kind == "Electron Source"
    ensures InstrumentName(Source("m12", Facility("Diamond Light Source", "DLS", Some(kind), Some("DIAMOND MICROSCOPE")), Some("electrons")))
         == "DIAMOND MICROSCOPE m12"
  {
    ElectronSourceIsNotSynchrotron(kind);
  }

  /** A value of the source dictionary: a string or `None`. */
  datatype Entry = Str(s: string) | NoneEntry

  function EntryOf(o: Option<string>): Entry {
    if o.Some? then Str(o.value) else NoneEntry
  }

  predicate Truthy(o: Option<string>) {
    o.Some? && o.value != ""
  }

  /** `_generate_source_dict`: the four fixed entries, then the probe and
      the facility id, each only when it is a non-empty string. */
  function SourceDict(s: Source): (r: Dict<string, Entry>)
    ensures |r| >= 4
    ensures Keys(r)[..4] == ["name", "type", "short_name", "beamline_name"]
    ensures Values(r)[..4] == [Str(s.facility.name), EntryOf(s.facility.kind), Str(s.facility.shortName), Str(s.beamline)]
  {
    [("name", Str(s.facility.name)), ("type", EntryOf(s.facility.kind)),
     ("short_name", Str(s.facility.shortName)), ("beamline_name", Str(s.beamline))]
    + (if Truthy(s.probe) then [("probe", Str(s.probe.value))] else [])
    + (if Truthy(s.facility.id) then [("facility_id", Str(s.facility.id.value))] else [])
  }

  /** The optional entries are there exactly when they are non-empty
      strings, with their values. */
  lemma SourceDictOptionalKeys(s: Source)
    ensures var r := SourceDict(s);
            && (HasKey(r, "probe") <==> Truthy(s.probe))
            && (HasKey(r, "facility_id") <==> Truthy(s.facility.id))
            && (Truthy(s.probe) ==> Get(r, "probe") == Some(Str(s.probe.value)))
            && (Truthy(s.facility.id) ==> Get(r, "facility_id") == Some(Str(s.facility.id.value)))
  {
    var r := SourceDict(s);
    var base := r[..4];
    var p := if Truthy(s.probe) then [("probe", Str(s.probe.value))] else [];
    var f := if Truthy(s.facility.id) then [("facility_id", Str(s.facility.id.value))] else [];
    assert r == (base + p) + f;
    OptionalEntries(base, s.probe, s.facility.id, p, f);
  }

  lemma OptionalEntries(base: Dict<string, Entry>, probe: Option<string>, id: Option<string>,
                        p: Dict<string, Entry>, f: Dict<string, Entry>)
    requires Keys(base) == ["name", "type", "short_name", "beamline_name"]
    requires p == (if Truthy(probe) then [("probe", Str(probe.value))] else [])
    requires f == (if Truthy(id) then [("facility_id", Str(id.value))] else [])
    ensures var r := (base + p) + f;
            && (HasKey(r, "probe") <==> Truthy(probe))
            && (HasKey(r, "facility_id") <==> Truthy(id))
            && (Truthy(probe) ==> Get(r, "probe") == Some(Str(probe.value)))
            && (Truthy(id) ==> Get(r, "facility_id") == Some(Str(id.value)))
  {
    OptionalEntryKeys(base, probe, id, p, f);
    OptionalEntryValues(base, probe, id, p, f);
  }

  lemma OptionalEntryKeys(base: Dict<string, Entry>, probe: Option<string>, id: Option<string>,
                          p: Dict<string, Entry>, f: Dict<string, Entry>)
    requires Keys(base) == ["name", "type", "short_name", "beamline_name"]
    requires p == (if Truthy(probe) then [("probe", Str(probe.value))] else [])
    requires f == (if Truthy(id) then [("facility_id", Str(id.value))] else [])
    ensures var r := (base + p) + f;
            && (HasKey(r, "probe") <==> Truthy(probe))
            && (HasKey(r, "facility_id") <==> Truthy(id))
  {
    var r := (base + p) + f;
    var ks := Keys(base) + Keys(p) + Keys(f);
    assert Keys(r) == ks;
    assert "probe" !in Keys(base) && "facility_id" !in Keys(base);
    assert Keys(p) == (if Truthy(probe) then ["probe"] else []);
    assert Keys(f) == (if Truthy(id) then ["facility_id"] else []);
  }

  lemma OptionalEntryValues(base: Dict<string, Entry>, probe: Option<string>, id: Option<string>,
                            p: Dict<string, Entry>, f: Dict<string, Entry>)
    requires Keys(base) == ["name", "type", "short_name", "beamline_name"]
    requires p == (if Truthy(probe) then [("probe", Str(probe.value))] else [])
    requires f == (if Truthy(id) then [("facility_id", Str(id.value))] else [])
    ensures var r := (base + p) + f;
            && (Truthy(probe) ==> Get(r, "probe") == Some(Str(probe.value)))
            && (Truthy(id) ==> Get(r, "facility_id") == Some(Str(id.value)))
  {
    assert !HasKey(base, "probe") && !HasKey(base, "facility_id");
    if Truthy(probe) {
      ProbeValue(base, probe.value, f, EntryOf(id));
    }
    if Truthy(id) {
      FacilityIdValue(base, p, id.value);
    }
  }

  /** The probe entry appended after the fixed ones keeps its value
      whatever follows it. */
  lemma ProbeValue(base: Dict<string, Entry>, probe: string, f: Dict<string, Entry>, idEntry: Entry)
    requires !HasKey(base, "probe")
    requires f == [] || f == [("facility_id", idEntry)]
    ensures Get((base + [("probe", Str(probe))]) + f, "probe") == Some(Str(probe))
  {
    var withProbe := base + [("probe", Str(probe))];
    GetAppended(base, "probe", Str(probe));
    if f == [] {
      assert withProbe + f == withProbe;
    } else {
      GetKeepsEarlier(withProbe, "facility_id", idEntry, "probe");
    }
  }

  /** The facility id appended last keeps its value. */
  lemma FacilityIdValue(base: Dict<string, Entry>, p: Dict<string, Entry>, id: string)
    requires !HasKey(base, "facility_id")
    requires p == [] || Keys(p) == ["probe"]
    ensures Get((base + p) + [("facility_id", Str(id))], "facility_id") == Some(Str(id))
  {
    var withProbe := base + p;
    assert Keys(withProbe) == Keys(base) + Keys(p);
    assert !HasKey(withProbe, "facility_id");
    GetAppended(withProbe, "facility_id", Str(id));
  }

  /** `to_dict`: the generated source dictionary, whose fixed keys come
      first and whose optional keys are there exactly when set. */
  function ToDict(s: Source): (r: Dict<string, Entry>)
    ensures |r| >= 4 && Keys(r)[..4] == ["name", "type", "short_name", "beamline_name"]
    ensures HasKey(r, "probe") <==> Truthy(s.probe)
    ensures HasKey(r, "facility_id") <==> Truthy(s.facility.id)
  {
    SourceDictOptionalKeys(s);
    SourceDict(s)
  }

  /** The default source's dictionary: the four fixed keys, and neither a
      probe nor a facility id. */
  lemma DefaultSourceDict(beamline: string)
    ensures var d := ToDict(DefaultSource(beamline));
            && Keys(d) == ["name", "type", "short_name", "beamline_name"]
            && Get(d, "beamline_name") == Some(Str(beamline))
  {
    var d := ToDict(DefaultSource(beamline));
    assert |d| == 4;
  }
}

=== FILE: ssx_chip.dfy ===
/** The fixed-target chip of `nexgen/beamlines/SSX_chip.py`: blocks of
    windows laid out on a grid and numbered column by column in a snake
    (even columns upwards, odd columns downwards), the decoding of block
    numbers from a chip map, and the start position of every block. */
module SsxChip {
  import opened Wrappers
  import opened Text
  import opened ScanUtils

  /** `Chip`: windows per block and their spacing, blocks per chip and
      their size, and the chip's start coordinates (x, y, z). */
  datatype Chip = Chip(
    name: string,
    numSteps: (int, int),
    stepSize: (real, real),
    numBlocks: (int, int),
    blockSize: (real, real),
    startPos: (real, real, real))

  function TotBlocks(c: Chip): int { c.numBlocks.0 * c.numBlocks.1 }

  function TotWindowsPerBlock(c: Chip): int { c.numSteps.0 * c.numSteps.1 }

  function WindowSize(c: Chip): (real, real) {
    (c.numSteps.0 as real * c.stepSize.0, c.numSteps.1 as real * c.stepSize.1)
  }

  function ChipSize(c: Chip): (real, real) {
    (c.numBlocks.0 as real * c.blockSize.0, c.numBlocks.1 as real * c.blockSize.1)
  }

  /** The length of `range(n)`. */
  function RangeLength(n: int): nat { if n > 0 then n else 0 }

  // ------------------------------------------------------- snake layout

  /** Column `x` of the block grid in visiting order: `y` ascending for an
      even column, descending for an odd one. */
  function Column(x: int, ny: int): (r: seq<(int, int)>)
    ensures |r| == RangeLength(ny)
  {
    seq(RangeLength(ny), j requires 0 <= j < RangeLength(ny) => if x % 2 == 0 then (x, j) else (x, ny - 1 - j))
  }

  /** Columns `x` to `nx - 1`, one after the other. */
  function ColumnsFrom(x: int, nx: int, ny: int): seq<(int, int)>
    decreases nx - x
  {
    if x >= nx then [] else Column(x, ny) + ColumnsFrom(x + 1, nx, ny)
  }

  /** The nested loops of `fullchip_conversion_table`: every block
      coordinate in visiting order. */
  function SnakeCoords(nx: int, ny: int): seq<(int, int)> {
    ColumnsFrom(0, nx, ny)
  }

  /** The coordinates of the `k`-th visited block (from 0), in closed
      form: column `k / ny`, and position `k % ny` along it, counted from
      the bottom on even columns and from the top on odd ones. */
  function SnakeCoord(k: int, ny: int): (int, int)
    requires ny > 0
  {
    var x := k / ny;
    var j := k % ny;
    (x, if x % 2 == 0 then j else ny - 1 - j)
  }

  lemma MulAtLeast(d: int, ny: int)
    requires d >= 1 && ny > 0
    ensures d * ny >= ny
  {
    assert d * ny == (d - 1) * ny + ny;
    assert (d - 1) * ny >= 0;
  }

  /** Euclidean division by a positive `ny` recovers quotient and
      remainder. */
  lemma DivModOf(q: int, j: int, ny: int)
    requires ny > 0 && 0 <= j < ny
    ensures (q * ny + j) / ny == q && (q * ny + j) % ny == j
  {
    var a := q * ny + j;
    var Q := a / ny;
    var R := a % ny;
    assert a == Q * ny + R;
    assert q * ny - Q * ny == R - j;
    assert (q - Q) * ny == R - j;
    if q > Q {
      MulAtLeast(q - Q, ny);
      assert false;
    } else if q < Q {
      MulAtLeast(Q - q, ny);
      assert false;
    }
  }

  lemma {:induction false} ColumnsFromClosedForm(x: nat, nx: int, ny: int)
    requires ny > 0
    ensures |ColumnsFrom(x, nx, ny)| == RangeLength(nx - x) * ny
    ensures forall k :: 0 <= k < |ColumnsFrom(x, nx, ny)| ==> ColumnsFrom(x, nx, ny)[k] == SnakeCoord(x * ny + k, ny)
    decreases nx - x
  {
    if x < nx {
      ColumnsFromClosedForm(x + 1, nx, ny);
      var col := Column(x, ny);
      var rest := ColumnsFrom(x + 1, nx, ny);
      assert RangeLength(nx - x) * ny == ny + RangeLength(nx - (x + 1)) * ny;
      forall k | 0 <= k < |col + rest| ensures (col + rest)[k] == SnakeCoord(x * ny + k, ny) {
        if k < ny {
          DivModOf(x, k, ny);
        } else {
          assert (x + 1) * ny + (k - ny) == x * ny + k;
        }
      }
    }
  }

  /** The visiting order has one entry per block, and the `k`-th entry is
      `SnakeCoord(k)`. */
  lemma SnakeCoordsClosedForm(nx: int, ny: int)
    requires ny > 0
    ensures |SnakeCoords(nx, ny)| == RangeLength(nx) * ny
    ensures forall k :: 0 <= k < |SnakeCoords(nx, ny)| ==> SnakeCoords(nx, ny)[k] == SnakeCoord(k, ny)
  {
    ColumnsFromClosedForm(0, nx, ny);
  }

  lemma SnakeCoordInGrid(k: int, nx: int, ny: int)
    requires ny > 0 && 0 <= k < nx * ny
    ensures 0 <= SnakeCoord(k, ny).0 < nx && 0 <= SnakeCoord(k, ny).1 < ny
  {
    var q := k / ny;
    var j := k % ny;
    assert k == q * ny + j;
    if q >= nx {
      MulMonotone(nx, q, ny);
      assert false;
    }
    if q < 0 {
      MulMonotone(q, -1, ny);
      assert false;
    }
  }

  lemma SnakeCoordInjective(k1: int, k2: int, ny: int)
    requires ny > 0 && SnakeCoord(k1, ny) == SnakeCoord(k2, ny)
    ensures k1 == k2
  {
    var q := k1 / ny;
    assert q == k2 / ny;
    assert k1 % ny == k2 % ny;
    assert k1 == q * ny + k1 % ny;
    assert k2 == q * ny + k2 % ny;
  }

  /** The number of the block at `(x, y)` in visiting order, from 0. */
  function SnakeIndex(x: int, y: int, ny: int): int {
    x * ny + (if x % 2 == 0 then y else ny - 1 - y)
  }

  lemma SnakeIndexInverts(x: int, y: int, nx: int, ny: int)
    requires 0 <= x < nx && 0 <= y < ny
    ensures SnakeCoord(SnakeIndex(x, y, ny), ny) == (x, y)
    ensures 0 <= SnakeIndex(x, y, ny) < nx * ny
  {
    var j := if x % 2 == 0 then y else ny - 1 - y;
    DivModOf(x, j, ny);
    MulMonotone(x + 1, nx, ny);
    assert x * ny + j < (x + 1) * ny;
    MulMonotone(0, x, ny);
  }

  /** `SnakeCoord` is a bijection from `0 .. nx*ny - 1` onto the grid: it
      lands in the grid, never repeats, and reaches every block. */
  lemma SnakeCoordBijective(nx: nat, ny: int)
    requires ny > 0
    ensures forall k :: 0 <= k < nx * ny ==> 0 <= SnakeCoord(k, ny).0 < nx && 0 <= SnakeCoord(k, ny).1 < ny
    ensures forall k1, k2 :: 0 <= k1 < k2 < nx * ny ==> SnakeCoord(k1, ny) != SnakeCoord(k2, ny)
    ensures forall x, y :: 0 <= x < nx && 0 <= y < ny ==>
              SnakeCoord(SnakeIndex(x, y, ny), ny) == (x, y) && 0 <= SnakeIndex(x, y, ny) < nx * ny
  {
    forall k | 0 <= k < nx * ny ensures 0 <= SnakeCoord(k, ny).0 < nx && 0 <= SnakeCoord(k, ny).1 < ny {
      SnakeCoordInGrid(k, nx, ny);
    }
    forall k1, k2 | 0 <= k1 < k2 < nx * ny ensures SnakeCoord(k1, ny) != SnakeCoord(k2, ny) {
      if SnakeCoord(k1, ny) == SnakeCoord(k2, ny) {
        SnakeCoordInjective(k1, k2, ny);
      }
    }
    forall x, y | 0 <= x < nx && 0 <= y < ny
      ensures SnakeCoord(SnakeIndex(x, y, ny), ny) == (x, y) && 0 <= SnakeIndex(x, y, ny) < nx * ny
    {
      SnakeIndexInverts(x, y, nx, ny);
    }
  }

  // ---------------------------------------------------- conversion table

  /** `"%02d" % b`. */
  function BlockKey(b: int): string {
    if b >= 0 then ZeroPad(b, 2) else "-" + NatToString(-b)
  }

  /** Block keys of non-negative block numbers read back as the numbers. */
  lemma BlockKeyRoundTrip(b: nat)
    ensures DecimalValue(BlockKey(b)) == b
  {
    ZeroPadRoundTrip(b, 2);
  }

  /** The `(block key, coordinates)` pairs, `zip` stopping at the shorter
      of the block numbers and the visited coordinates. */
  function TablePairs(c: Chip): seq<(string, (int, int))> {
    var coords := SnakeCoords(c.numBlocks.0, c.numBlocks.1);
    var n := if RangeLength(TotBlocks(c)) < |coords| then RangeLength(TotBlocks(c)) else |coords|;
    seq(n, k requires 0 <= k < n => (BlockKey(k + 1), coords[k]))
  }

  /** `fullchip_conversion_table`: block keys "01", "02", ... assigned to
      the blocks in visiting order. */
  function ConversionTable(c: Chip): Dict<string, (int, int)> {
    DictOf(TablePairs(c))
  }

  /** A chip with a non-empty grid of blocks */
  predicate ProperGrid(c: Chip) {
    c.numBlocks.0 >= 0 && c.numBlocks.1 >= 1
  }

  lemma BlockKeysDistinct(i: nat, j: nat)
    requires i != j
    ensures BlockKey(i) != BlockKey(j)
  {
    BlockKeyRoundTrip(i);
    BlockKeyRoundTrip(j);
  }

  lemma TablePairsClosedForm(c: Chip)
    requires ProperGrid(c)
    ensures |TablePairs(c)| == TotBlocks(c)
    ensures forall k :: 0 <= k < TotBlocks(c) ==> TablePairs(c)[k] == (BlockKey(k + 1), SnakeCoord(k, c.numBlocks.1))
  {
    SnakeCoordsClosedForm(c.numBlocks.0, c.numBlocks.1);
    assert RangeLength(c.numBlocks.0) * c.numBlocks.1 == TotBlocks(c);
    MulMonotone(0, c.numBlocks.0, c.numBlocks.1);
  }

  /** The table has one entry per block: the `k`-th key is `k + 1` padded
      to two digits and its value is the `k`-th block of the snake. */
  lemma ConversionTableSnake(c: Chip)
    requires ProperGrid(c)
    ensures |ConversionTable(c)| == TotBlocks(c)
    ensures forall k :: 0 <= k < TotBlocks(c) ==>
              ConversionTable(c)[k] == (BlockKey(k + 1), SnakeCoord(k, c.numBlocks.1))
  {
    var pairs := TablePairs(c);
    TablePairsClosedForm(c);
    forall i, j | 0 <= i < j < |pairs| ensures pairs[i].0 != pairs[j].0 {
      BlockKeysDistinct(i + 1, j + 1);
    }
    DictOfDistinct(pairs);
  }

  /** The table is a bijection between the keys "01".."NN" and the block
      grid: every value is a block of the chip, no block appears twice,
      and every block appears. */
  lemma ConversionTableBijective(c: Chip)
    requires ProperGrid(c)
    ensures GridBijection(ConversionTable(c), c.numBlocks.0, c.numBlocks.1)
  {
    ConversionTableIsSnake(c);
    SnakeTableBijective(ConversionTable(c), c.numBlocks.0, c.numBlocks.1);
  }

  lemma ConversionTableIsSnake(c: Chip)
    requires ProperGrid(c)
    ensures SnakeTable(ConversionTable(c), c.numBlocks.0, c.numBlocks.1)
  {
    ConversionTableSnake(c);
  }

  /** `t` maps distinct keys one-to-one onto the blocks of an `nx` by
      `ny` grid: every value is a block of the grid, no block appears
      twice, no key appears twice, and every block appears. */
  predicate GridBijection(t: Dict<string, (int, int)>, nx: int, ny: int) {
    (forall k :: 0 <= k < |t| ==> 0 <= t[k].1.0 < nx && 0 <= t[k].1.1 < ny)
    && (forall i, j :: 0 <= i < j < |t| ==> t[i].1 != t[j].1)
    && (forall i, j :: 0 <= i < j < |t| ==> t[i].0 != t[j].0)
    && (forall x, y :: 0 <= x < nx && 0 <= y < ny ==> HasBlock(t, x, y))
  }

  /** Some entry of `t` is the block `(x, y)`. */
  predicate HasBlock(t: Dict<string, (int, int)>, x: int, y: int) {
    exists k :: 0 <= k < |t| && t[k].1 == (x, y)
  }

  /** A table laid out along the snake, numbered from 1. */
  predicate SnakeTable(t: Dict<string, (int, int)>, nx: int, ny: int) {
    nx >= 0 && ny > 0 && |t| == nx * ny
    && forall k :: 0 <= k < |t| ==> t[k] == (BlockKey(k + 1), SnakeCoord(k, ny))
  }

  /** Any snake table is such a bijection. */
  lemma SnakeTableBijective(t: Dict<string, (int, int)>, nx: int, ny: int)
    requires SnakeTable(t, nx, ny)
    ensures GridBijection(t, nx, ny)
  {
    SnakeTableInGrid(t, nx, ny);
    SnakeTableInjective(t, nx, ny);
    SnakeTableKeysDistinct(t, nx, ny);
    SnakeTableOnto(t, nx, ny);
  }

  lemma SnakeTableInGrid(t: Dict<string, (int, int)>, nx: int, ny: int)
    requires SnakeTable(t, nx, ny)
    ensures forall k :: 0 <= k < |t| ==> 0 <= t[k].1.0 < nx && 0 <= t[k].1.1 < ny
  {
    forall k | 0 <= k < |t| ensures 0 <= t[k].1.0 < nx && 0 <= t[k].1.1 < ny {
      SnakeCoordInGrid(k, nx, ny);
    }
  }

  lemma SnakeTableInjective(t: Dict<string, (int, int)>, nx: int, ny: int)
    requires SnakeTable(t, nx, ny)
    ensures forall i, j :: 0 <= i < j < |t| ==> t[i].1 != t[j].1
  {
    forall i, j | 0 <= i < j < |t| ensures t[i].1 != t[j].1 {
      if t[i].1 == t[j].1 {
        SnakeCoordInjective(i, j, ny);
      }
    }
  }

  lemma SnakeTableKeysDistinct(t: Dict<string, (int, int)>, nx: int, ny: int)
    requires SnakeTable(t, nx, ny)
    ensures forall i, j :: 0 <= i < j < |t| ==> t[i].0 != t[j].0
  {
    forall k | 0 <= k < |t| ensures t[k].0 == BlockKey(k + 1) {
    }
    NumberedKeysDistinct(t);
  }

  /** Entries keyed by their block numbers, counted from 1, have different keys. */
  lemma NumberedKeysDistinct<V>(t: Dict<string, V>)
    requires forall k :: 0 <= k < |t| ==> t[k].0 == BlockKey(k + 1)
    ensures forall i, j :: 0 <= i < j < |t| ==> t[i].0 != t[j].0
  {
    forall k | 0 <= k < |t| ensures DecimalValue(t[k].0) == k + 1 {
      BlockKeyRoundTrip(k + 1);
    }
  }

  lemma SnakeTableOnto(t: Dict<string, (int, int)>, nx: int, ny: int)
    requires SnakeTable(t, nx, ny)
    ensures forall x, y :: 0 <= x < nx && 0 <= y < ny ==> HasBlock(t, x, y)
  {
    forall x, y | 0 <= x < nx && 0 <= y < ny ensures HasBlock(t, x, y) {
      SnakeTableAt(t, nx, ny, x, y);
    }
  }

  lemma SnakeTableAt(t: Dict<string, (int, int)>, nx: int, ny: int, x: int, y: int)
    requires SnakeTable(t, nx, ny) && 0 <= x < nx && 0 <= y < ny
    ensures 0 <= SnakeIndex(x, y, ny) < |t| && t[SnakeIndex(x, y, ny)].1 == (x, y)
  {
    SnakeIndexInverts(x, y, nx, ny);
  }

  /** The 2 x 2 chip of the examples: blocks "01" to "04" at (0,0),
      (0,1), (1,1) and (1,0). */
  lemma ConversionTableTwoByTwo(c: Chip)
    requires c.numBlocks == (2, 2)
    ensures Keys(ConversionTable(c)) == ["01", "02", "03", "04"]
    ensures Values(ConversionTable(c)) == [(0, 0), (0, 1), (1, 1), (1, 0)]
  {
    ConversionTableSnake(c);
    var t := ConversionTable(c);
    TwoByTwoEntries();
    assert t[0] == ("01", (0, 0)) && t[1] == ("02", (0, 1)) && t[2] == ("03", (1, 1)) && t[3] == ("04", (1, 0));
    assert Keys(t) == [t[0].0, t[1].0, t[2].0, t[3].0];
    assert Values(t) == [t[0].1, t[1].1, t[2].1, t[3].1];
  }

  lemma TwoByTwoEntries()
    ensures BlockKey(1) == "01" && BlockKey(2) == "02" && BlockKey(3) == "03" && BlockKey(4) == "04"
    ensures SnakeCoord(0, 2) == (0, 0) && SnakeCoord(1, 2) == (0, 1)
    ensures SnakeCoord(2, 2) == (1, 1) && SnakeCoord(3, 2) == (1, 0)
  {
  }

  // ------------------------------------------------------- read_chip_map

  /** Python's `a // b` (rounding down). */
  function FloorDiv(a: int, b: int): int
    requires b != 0
  {
    if b > 0 then a / b else (-a) / (-b)
  }

  /** Python's `a % b` (the sign of `b`). */
  function FloorMod(a: int, b: int): int
    requires b != 0
  {
    a - b * FloorDiv(a, b)
  }

  /** The coordinates `read_chip_map` gives block number `b`, taking
      `perColumn` blocks to a column. */
  function DecodeBlock(b: int, perColumn: int): (int, int)
    requires perColumn != 0
  {
    var x := if FloorMod(b, perColumn) != 0 then FloorDiv(b, perColumn) else FloorDiv(b, perColumn) - 1;
    if x % 2 == 0 then (x, b - (x * perColumn + 1)) else (x, (x + 1) * perColumn - b)
  }

  /** Decoding inverts the numbering: block `b` (from 1) is the `(b - 1)`-th
      visited block. */
  lemma DecodeBlockInvertsSnake(b: int, perColumn: int)
    requires b >= 1 && perColumn >= 1
    ensures DecodeBlock(b, perColumn) == SnakeCoord(b - 1, perColumn)
  {
    var p := perColumn;
    var q := (b - 1) / p;
    var j := (b - 1) % p;
    assert b - 1 == q * p + j;
    var x := if FloorMod(b, p) != 0 then FloorDiv(b, p) else FloorDiv(b, p) - 1;
    if j == p - 1 {
      assert b == (q + 1) * p + 0;
      DivModOf(q + 1, 0, p);
      assert x == q;
    } else {
      assert b == q * p + (j + 1);
      DivModOf(q, j + 1, p);
      assert x == q;
    }
    assert (x + 1) * p - b == p - 1 - j;
  }

  /** The result of `read_chip_map`: the whole chip, or the scanned blocks
      keyed by their two-digit number. */
  datatype BlockMap = FullChip | Blocks(entries: Dict<string, (int, int)>)

  /** The `(key, coordinates)` entry of each block number, in map order. */
  function BlockPairs(m: seq<int>, perColumn: int): (p: Dict<string, (int, int)>)
    requires perColumn != 0
    ensures |p| == |m|
  {
    seq(|m|, i requires 0 <= i < |m| => (BlockKey(m[i]), DecodeBlock(m[i], perColumn)))
  }

  function ReadChipMapWith(chipmap: Option<seq<int>>, xBlocks: int, yBlocks: int, perColumn: int): (r: Result<BlockMap>)
    ensures r == Ok(FullChip) <==> chipmap.None? || |chipmap.value| == xBlocks * yBlocks
    ensures r.Err? <==> chipmap.Some? && |chipmap.value| != xBlocks * yBlocks && |chipmap.value| > 0 && perColumn == 0
    ensures r.Err? ==> r.error == ZeroDivisionError
  {
    if chipmap.None? || |chipmap.value| == xBlocks * yBlocks then Ok(FullChip)
    else if |chipmap.value| == 0 then Ok(Blocks([]))
    else if perColumn == 0 then Err(ZeroDivisionError)
    else Ok(Blocks(DictOf(BlockPairs(chipmap.value, perColumn))))
  }

  /** `read_chip_map` as written: block numbers are decoded with
      `x_blocks` blocks to a column. */
  function ReadChipMapAsWritten(chipmap: Option<seq<int>>, xBlocks: int, yBlocks: int): (r: Result<BlockMap>)
    ensures r == Ok(FullChip) <==> chipmap.None? || |chipmap.value| == xBlocks * yBlocks
  {
    ReadChipMapWith(chipmap, xBlocks, yBlocks, xBlocks)
  }

  /** `read_chip_map` with the column length the numbering uses: the
      `y_blocks` blocks of one column. */
  function ReadChipMap(chipmap: Option<seq<int>>, xBlocks: int, yBlocks: int): (r: Result<BlockMap>)
    ensures r == Ok(FullChip) <==> chipmap.None? || |chipmap.value| == xBlocks * yBlocks
    ensures r.Err? <==> chipmap.Some? && |chipmap.value| != xBlocks * yBlocks && |chipmap.value| > 0 && yBlocks == 0
  {
    ReadChipMapWith(chipmap, xBlocks, yBlocks, yBlocks)
  }

  /** `read_chip_map` by the rule in use: as written, or with the column
      length. A failure needs a partial map and a zero column length. */
  function ReadChipMapBy(asWritten: bool, chipmap: Option<seq<int>>, xBlocks: int, yBlocks: int): (r: Result<BlockMap>)
    ensures r == Ok(FullChip) <==> chipmap.None? || |chipmap.value| == xBlocks * yBlocks
    ensures r.Err? <==> chipmap.Some? && |chipmap.value| != xBlocks * yBlocks && |chipmap.value| > 0
                        && (if asWritten then xBlocks else yBlocks) == 0
    ensures asWritten ==> r == ReadChipMapAsWritten(chipmap, xBlocks, yBlocks)
    ensures !asWritten ==> r == ReadChipMap(chipmap, xBlocks, yBlocks)
  {
    ReadChipMapWith(chipmap, xBlocks, yBlocks, if asWritten then xBlocks else yBlocks)
  }

  /** On a chip with as many blocks to a column as it has columns, both
      rules read every chip map alike. */
  lemma ReadChipMapSquare(chipmap: Option<seq<int>>, n: int)
    ensures ReadChipMapBy(true, chipmap, n, n) == ReadChipMap(chipmap, n, n)
  {
  }

  predicate DistinctBlocks(m: seq<int>) {
    forall i, j :: 0 <= i < j < |m| ==> m[i] != m[j]
  }

  lemma BlockPairsDistinct(m: seq<int>, perColumn: int)
    requires perColumn != 0 && DistinctBlocks(m)
    requires forall i :: 0 <= i < |m| ==> m[i] >= 0
    ensures DistinctKeys(BlockPairs(m, perColumn))
  {
    var p := BlockPairs(m, perColumn);
    forall i, j | 0 <= i < j < |p| ensures p[i].0 != p[j].0 {
      BlockKeysDistinct(m[i], m[j]);
    }
  }

  lemma ReadChipMapBlocks(m: seq<int>, xBlocks: int, yBlocks: int, perColumn: int)
    requires perColumn != 0 && |m| != xBlocks * yBlocks
    ensures ReadChipMapWith(Some(m), xBlocks, yBlocks, perColumn) == Ok(Blocks(DictOf(BlockPairs(m, perColumn))))
  {
    if |m| == 0 {
      assert BlockPairs(m, perColumn) == [];
    }
  }

  /** A partial chip map of distinct block numbers gives one entry per
      block, in map order, keyed `"%02d" % b` and placed where the
      conversion table places that key: the two agree on every chip. */
  lemma ReadChipMapMatchesTable(c: Chip, m: seq<int>)
    requires ProperGrid(c) && |m| != TotBlocks(c) && DistinctBlocks(m)
    requires forall i :: 0 <= i < |m| ==> 1 <= m[i] <= TotBlocks(c)
    ensures var r := ReadChipMap(Some(m), c.numBlocks.0, c.numBlocks.1);
            && r.Ok? && r.value.Blocks? && |r.value.entries| == |m|
            && |ConversionTable(c)| == TotBlocks(c)
            && forall i :: 0 <= i < |m| ==>
                 r.value.entries[i] == ConversionTable(c)[m[i] - 1]
  {
    var ny := c.numBlocks.1;
    var p := BlockPairs(m, ny);
    ReadChipMapIsPairs(c, m);
    ConversionTableLength(c);
    forall i | 0 <= i < |m| ensures p[i] == ConversionTable(c)[m[i] - 1] {
      BlockPairMatchesTable(c, m[i]);
    }
  }

  lemma ConversionTableLength(c: Chip)
    requires ProperGrid(c)
    ensures |ConversionTable(c)| == TotBlocks(c)
  {
    ConversionTableSnake(c);
  }

  /** A map of distinct blocks reads as the pairs of its blocks, in order. */
  lemma ReadChipMapIsPairs(c: Chip, m: seq<int>)
    requires ProperGrid(c) && |m| != TotBlocks(c) && DistinctBlocks(m)
    requires forall i :: 0 <= i < |m| ==> m[i] >= 0
    ensures ReadChipMap(Some(m), c.numBlocks.0, c.numBlocks.1) == Ok(Blocks(BlockPairs(m, c.numBlocks.1)))
  {
    var ny := c.numBlocks.1;
    ReadChipMapBlocks(m, c.numBlocks.0, ny, ny);
    BlockPairsDistinct(m, ny);
    DictOfDistinct(BlockPairs(m, ny));
  }

  lemma BlockPairMatchesTable(c: Chip, b: int)
    requires ProperGrid(c) && 1 <= b <= TotBlocks(c)
    ensures |ConversionTable(c)| == TotBlocks(c)
    ensures (BlockKey(b), DecodeBlock(b, c.numBlocks.1)) == ConversionTable(c)[b - 1]
  {
    ConversionTableSnake(c);
    DecodeBlockInvertsSnake(b, c.numBlocks.1);
  }

  lemma BlockKeyExamples()
    ensures BlockKey(1) == "01" && BlockKey(3) == "03" && BlockKey(4) == "04"
  {
    assert NatToString(1) == "1";
    assert NatToString(3) == "3";
    assert NatToString(4) == "4";
  }

  lemma DecodeExamples()
    ensures DecodeBlock(1, 2) == (0, 0) && DecodeBlock(4, 2) == (1, 0)
    ensures DecodeBlock(3, 2) == (1, 1) && DecodeBlock(3, 3) == (0, 2)
  {
    assert FloorDiv(1, 2) == 0 && FloorDiv(4, 2) == 2 && FloorDiv(3, 2) == 1 && FloorDiv(3, 3) == 1;
  }

  /** The example chip map: blocks 1 and 4 of a 2 x 2 chip are "01" at
      (0,0) and "04" at (1,0). */
  lemma ReadChipMapExample()
    ensures ReadChipMap(Some([1, 4]), 2, 2) == Ok(Blocks([("01", (0, 0)), ("04", (1, 0))]))
  {
    ReadChipMapBlocks([1, 4], 2, 2, 2);
    BlockKeyExamples();
    DecodeExamples();
    var p := BlockPairs([1, 4], 2);
    assert p == [("01", (0, 0)), ("04", (1, 0))];
    DictOfDistinct(p);
  }

  /** On a chip whose columns hold a different number of blocks than it
      has columns, the code as written misplaces blocks: on a chip two
      columns wide and three blocks high, block 3 is the top of the first
      column, but is decoded as the middle of the second. */
  lemma ReadChipMapAsWrittenMisplacesBlock(c: Chip)
    requires c.numBlocks == (2, 3)
    ensures |ConversionTable(c)| == 6 && ConversionTable(c)[2] == ("03", (0, 2))
    ensures ReadChipMapAsWritten(Some([3]), 2, 3) == Ok(Blocks([("03", (1, 1))]))
    ensures ReadChipMap(Some([3]), 2, 3) == Ok(Blocks([("03", (0, 2))]))
  {
    ConversionTableSnake(c);
    BlockKeyExamples();
    DecodeExamples();
    assert SnakeCoord(2, 3) == (0, 2);
    ReadChipMapBlocks([3], 2, 3, 2);
    ReadChipMapBlocks([3], 2, 3, 3);
    DictOfDistinct(BlockPairs([3], 2));
    DictOfDistinct(BlockPairs([3], 3));
  }

  // ----------------------------------------------- blocks conversion

  /** One pass of the inner loop: every entry of `blocks` at `vt` assigns
      its value to key `kt`. */
  function MatchInto<V>(acc: Dict<string, V>, kt: string, vt: (int, int), blocks: Dict<(int, int), V>): Dict<string, V>
    decreases |blocks|
  {
    if |blocks| == 0 then acc
    else MatchInto(if blocks[0].0 == vt then Put(acc, kt, blocks[0].1) else acc, kt, vt, blocks[1..])
  }

  function ConvertInto<V>(acc: Dict<string, V>, table: Dict<string, (int, int)>, blocks: Dict<(int, int), V>): Dict<string, V>
    decreases |table|
  {
    if |table| == 0 then acc
    else ConvertInto(MatchInto(acc, table[0].0, table[0].1, blocks), table[1..], blocks)
  }

  /** `fullchip_blocks_conversion`: the blocks re-keyed by table number. */
  function BlocksConversion<V>(blocks: Dict<(int, int), V>, c: Chip): Dict<string, V> {
    ConvertInto([], ConversionTable(c), blocks)
  }

  /** The reference renaming: for each table entry in order whose
      coordinates are a block, the block's value under the table key. */
  function Renamed<V>(table: Dict<string, (int, int)>, blocks: Dict<(int, int), V>): Dict<string, V> {
    if |table| == 0 then []
    else
      var here := Get(blocks, table[0].1);
      (if here.Some? then [(table[0].0, here.value)] else []) + Renamed(table[1..], blocks)
  }

  lemma {:induction false} MatchIntoAbsent<V>(acc: Dict<string, V>, kt: string, vt: (int, int), blocks: Dict<(int, int), V>)
    requires !HasKey(blocks, vt)
    ensures MatchInto(acc, kt, vt, blocks) == acc
    decreases |blocks|
  {
    if |blocks| > 0 {
      assert Keys(blocks) == [blocks[0].0] + Keys(blocks[1..]);
      MatchIntoAbsent(acc, kt, vt, blocks[1..]);
    }
  }

  lemma {:induction false} MatchIntoDistinct<V>(acc: Dict<string, V>, kt: string, vt: (int, int), blocks: Dict<(int, int), V>)
    requires DistinctKeys(blocks)
    ensures MatchInto(acc, kt, vt, blocks)
         == if Get(blocks, vt).Some? then Put(acc, kt, Get(blocks, vt).value) else acc
    decreases |blocks|
  {
    if |blocks| > 0 {
      assert Keys(blocks) == [blocks[0].0] + Keys(blocks[1..]);
      if blocks[0].0 == vt {
        assert !HasKey(blocks[1..], vt);
        MatchIntoAbsent(Put(acc, kt, blocks[0].1), kt, vt, blocks[1..]);
      } else {
        assert DistinctKeys(blocks[1..]) by {
          forall a, b | 0 <= a < b < |blocks[1..]| ensures blocks[1..][a].0 != blocks[1..][b].0 {
            assert blocks[a + 1].0 != blocks[b + 1].0;
          }
        }
        MatchIntoDistinct(acc, kt, vt, blocks[1..]);
      }
    }
  }

  lemma {:induction false} ConvertIntoRenames<V>(acc: Dict<string, V>, table: Dict<string, (int, int)>, blocks: Dict<(int, int), V>)
    requires DistinctKeys(blocks) && DistinctKeys(table)
    requires forall i :: 0 <= i < |table| ==> !HasKey(acc, table[i].0)
    ensures ConvertInto(acc, table, blocks) == acc + Renamed(table, blocks)
    decreases |table|
  {
    if |table| > 0 {
      var here := Get(blocks, table[0].1);
      var front := if here.Some? then [(table[0].0, here.value)] else [];
      var next := MatchInto(acc, table[0].0, table[0].1, blocks);
      var rest := table[1..];
      ConvertIntoStep(acc, table, blocks);
      ConvertIntoRenames(next, rest, blocks);
      ConvertIntoUnfold(acc, table, blocks);
      AppendAssocDict(acc, front, Renamed(rest, blocks));
    } else {
      assert acc + [] == acc;
    }
  }

  lemma AppendAssocDict<V>(a: Dict<string, V>, b: Dict<string, V>, c: Dict<string, V>)
    ensures (a + b) + c == a + (b + c)
  {
  }

  lemma ConvertIntoUnfold<V>(acc: Dict<string, V>, table: Dict<string, (int, int)>, blocks: Dict<(int, int), V>)
    requires |table| > 0
    ensures var here := Get(blocks, table[0].1);
            && ConvertInto(acc, table, blocks) == ConvertInto(MatchInto(acc, table[0].0, table[0].1, blocks), table[1..], blocks)
            && Renamed(table, blocks) == (if here.Some? then [(table[0].0, here.value)] else []) + Renamed(table[1..], blocks)
  {
  }

  /** One step of the conversion appends the first block the table names
      and keeps the preconditions for the rest of the table. */
  lemma ConvertIntoStep<V>(acc: Dict<string, V>, table: Dict<string, (int, int)>, blocks: Dict<(int, int), V>)
    requires |table| > 0
    requires DistinctKeys(blocks) && DistinctKeys(table)
    requires forall i :: 0 <= i < |table| ==> !HasKey(acc, table[i].0)
    ensures var here := Get(blocks, table[0].1);
            var next := MatchInto(acc, table[0].0, table[0].1, blocks);
            && next == acc + (if here.Some? then [(table[0].0, here.value)] else [])
            && DistinctKeys(table[1..])
            && forall i :: 0 <= i < |table[1..]| ==> !HasKey(next, table[1..][i].0)
  {
    MatchIntoDistinct(acc, table[0].0, table[0].1, blocks);
    var next := MatchInto(acc, table[0].0, table[0].1, blocks);
    var here := Get(blocks, table[0].1);
    assert !HasKey(acc, table[0].0);
    assert next == acc + (if here.Some? then [(table[0].0, here.value)] else []);
    var rest := table[1..];
    assert DistinctKeys(rest) by {
      forall a, b | 0 <= a < b < |rest| ensures rest[a].0 != rest[b].0 {
        assert table[a + 1].0 != table[b + 1].0;
      }
    }
    forall i | 0 <= i < |rest| ensures !HasKey(next, rest[i].0) {
      assert rest[i] == table[i + 1];
      assert table[0].0 != table[i + 1].0;
      assert Keys(next) == Keys(acc) + (if here.Some? then [table[0].0] else []);
    }
  }

  /** On a chip, converting a dict of blocks renames exactly the blocks
      the table lists, keeps their values, and orders them as the table
      does. */
  lemma BlocksConversionRenames<V>(blocks: Dict<(int, int), V>, c: Chip)
    requires ProperGrid(c) && DistinctKeys(blocks)
    ensures BlocksConversion(blocks, c) == Renamed(ConversionTable(c), blocks)
  {
    ConversionTableBijective(c);
    ConvertIntoRenames([], ConversionTable(c), blocks);
  }

  // -------------------------------------------------- compute_goniometer

  /** The start of one block's scan: the slow (y) and fast (x) axis
      positions rounded to 3 decimals, and the direction of the slow axis. */
  datatype BlockStart = BlockStart(slow: real, fast: real, direction: ScanDirection)

  /** An even column is scanned upwards from its bottom window; an odd
      column downwards from its top window. */
  function StartOf(c: Chip, v: (int, int)): (r: BlockStart)
    ensures r.fast == Round3(c.startPos.0 + v.0 as real * c.blockSize.0)
    ensures r.direction == Positive <==> v.0 % 2 == 0
  {
    var xStart := c.startPos.0 + v.0 as real * c.blockSize.0;
    var yFirst := c.startPos.1 + v.1 as real * c.blockSize.1;
    if v.0 % 2 == 0 then BlockStart(Round3(yFirst), Round3(xStart), Positive)
    else BlockStart(Round3(yFirst + (c.numSteps.1 - 1) as real * c.stepSize.1), Round3(xStart), Negative)
  }

  /** `compute_goniometer(chip, full=True)`: every block, keyed by its
      coordinates, in visiting order. */
  function ComputeGoniometerFull(c: Chip): Dict<(int, int), BlockStart> {
    var coords := SnakeCoords(c.numBlocks.0, c.numBlocks.1);
    DictOf(seq(|coords|, k requires 0 <= k < |coords| => (coords[k], StartOf(c, coords[k]))))
  }

  /** `compute_goniometer(chip, blocks)`: the given blocks under their
      own keys. */
  function ComputeGoniometerBlocks(c: Chip, blocks: Dict<string, (int, int)>): Dict<string, BlockStart> {
    DictOf(StartPairs(c, blocks))
  }

  function StartPairs(c: Chip, blocks: Dict<string, (int, int)>): (p: Dict<string, BlockStart>)
    ensures |p| == |blocks|
  {
    seq(|blocks|, i requires 0 <= i < |blocks| => (blocks[i].0, StartOf(c, blocks[i].1)))
  }

  /** A full chip gives one start per block, in snake order, scanned
      upwards on even columns and downwards on odd ones. */
  lemma ComputeGoniometerFullSnake(c: Chip)
    requires ProperGrid(c)
    ensures var s := ComputeGoniometerFull(c);
            && |s| == TotBlocks(c)
            && Keys(s) == Values(ConversionTable(c))
            && forall k :: 0 <= k < |s| ==>
                 s[k].1 == StartOf(c, SnakeCoord(k, c.numBlocks.1))
                 && (s[k].1.direction == Positive <==> (k / c.numBlocks.1) % 2 == 0)
  {
    var coords := SnakeCoords(c.numBlocks.0, c.numBlocks.1);
    SnakeCoordsClosedForm(c.numBlocks.0, c.numBlocks.1);
    SnakeCoordBijective(c.numBlocks.0, c.numBlocks.1);
    var pairs := seq(|coords|, k requires 0 <= k < |coords| => (coords[k], StartOf(c, coords[k])));
    DictOfDistinct(pairs);
    ConversionTableSnake(c);
  }

  /** Blocks from a chip map keep their keys and order, and each starts
      where `StartOf` places its coordinates. */
  lemma ComputeGoniometerBlocksStarts(c: Chip, blocks: Dict<string, (int, int)>)
    requires DistinctKeys(blocks)
    ensures var s := ComputeGoniometerBlocks(c, blocks);
            && Keys(s) == Keys(blocks)
            && forall i :: 0 <= i < |s| ==> s[i].1 == StartOf(c, blocks[i].1)
  {
    var p := StartPairs(c, blocks);
    assert DistinctKeys(p) by {
      forall i, j | 0 <= i < j < |p| ensures p[i].0 != p[j].0 {
        assert p[i].0 == blocks[i].0 && p[j].0 == blocks[j].0;
      }
    }
    DictOfDistinct(p);
  }

  /** The two paths agree: the start the chip-map path gives block
      `m[i]` is the start the full-chip path gives the same block, the
      `m[i]`-th it visits. */
  lemma ChipMapStartsMatchFullChip(c: Chip, m: seq<int>)
    requires ProperGrid(c) && |m| != TotBlocks(c) && DistinctBlocks(m)
    requires forall i :: 0 <= i < |m| ==> 1 <= m[i] <= TotBlocks(c)
    ensures var r := ReadChipMap(Some(m), c.numBlocks.0, c.numBlocks.1);
            && r.Ok? && r.value.Blocks?
            && var s := ComputeGoniometerBlocks(c, r.value.entries);
               var full := ComputeGoniometerFull(c);
               && |s| == |m| && |full| == TotBlocks(c)
               && forall i :: 0 <= i < |m| ==> s[i] == (BlockKey(m[i]), full[m[i] - 1].1)
  {
    var r := ReadChipMap(Some(m), c.numBlocks.0, c.numBlocks.1);
    ReadChipMapMatchesTable(c, m);
    var e := r.value.entries;
    TableEntriesStarts(c, m, e);
  }

  lemma TableEntriesStarts(c: Chip, m: seq<int>, e: Dict<string, (int, int)>)
    requires ProperGrid(c) && DistinctBlocks(m) && |e| == |m|
    requires forall i :: 0 <= i < |m| ==> 1 <= m[i] <= TotBlocks(c)
    requires |ConversionTable(c)| == TotBlocks(c)
    requires forall i :: 0 <= i < |m| ==> e[i] == ConversionTable(c)[m[i] - 1]
    ensures var s := ComputeGoniometerBlocks(c, e);
            var full := ComputeGoniometerFull(c);
            && |s| == |m| && |full| == TotBlocks(c)
            && forall i :: 0 <= i < |m| ==> s[i] == (BlockKey(m[i]), full[m[i] - 1].1)
  {
    ConversionTableSnake(c);
    assert DistinctKeys(e) by {
      forall i, j | 0 <= i < j < |e| ensures e[i].0 != e[j].0 {
        assert e[i].0 == BlockKey(m[i]) && e[j].0 == BlockKey(m[j]);
        BlockKeysDistinct(m[i], m[j]);
      }
    }
    ComputeGoniometerBlocksStarts(c, e);
    ComputeGoniometerFullSnake(c);
    var s := ComputeGoniometerBlocks(c, e);
    forall i | 0 <= i < |m| ensures s[i] == (BlockKey(m[i]), ComputeGoniometerFull(c)[m[i] - 1].1) {
      assert e[i] == (BlockKey(m[i]), SnakeCoord(m[i] - 1, c.numBlocks.1));
      assert s[i].0 == Keys(s)[i] == Keys(e)[i];
    }
  }

  /** Converting the starts of a full chip renames every block to its
      table key and keeps the starts, in order. */
  lemma FullChipStartsRenamed(c: Chip)
    requires ProperGrid(c)
    ensures var s := ComputeGoniometerFull(c);
            var r := BlocksConversion(s, c);
            Keys(r) == Keys(ConversionTable(c)) && Values(r) == Values(s)
  {
    var s := ComputeGoniometerFull(c);
    var t := ConversionTable(c);
    ComputeGoniometerFullSnake(c);
    ConversionTableSnake(c);
    assert DistinctKeys(s) by {
      SnakeCoordBijective(c.numBlocks.0, c.numBlocks.1);
    }
    BlocksConversionRenames(s, c);
    forall k | 0 <= k < |t| ensures Get(s, t[k].1) == Some(s[k].1) {
      GetDistinct(s, k);
    }
    RenamedInOrder(t, s);
  }

  /** Renaming entries whose coordinates line up with the table, position
      by position, keeps every value in place. */
  lemma {:induction false} RenamedInOrder<V>(t: Dict<string, (int, int)>, s: Dict<(int, int), V>)
    requires |t| == |s|
    requires forall k :: 0 <= k < |t| ==> Get(s, t[k].1) == Some(s[k].1)
    ensures Keys(Renamed(t, s)) == Keys(t) && Values(Renamed(t, s)) == Values(s)
  {
    var vals := Values(s);
    forall k | 0 <= k < |t| ensures Get(s, t[k].1) == Some(vals[k]) {
      assert vals[k] == s[k].1;
    }
    RenamedAll(t, s, vals);
    var r := Renamed(t, s);
    forall k | 0 <= k < |t| ensures r[k] == (Keys(t)[k], vals[k]) {
      assert Keys(t)[k] == t[k].0;
    }
    assert r == Zip(Keys(t), vals);
    ZipValues(Keys(t), vals);
  }

  lemma {:induction false} RenamedAll<V>(t: Dict<string, (int, int)>, s: Dict<(int, int), V>, vals: seq<V>)
    requires |t| == |vals|
    requires forall k :: 0 <= k < |t| ==> Get(s, t[k].1) == Some(vals[k])
    ensures |Renamed(t, s)| == |t|
    ensures forall k :: 0 <= k < |t| ==> Renamed(t, s)[k] == (t[k].0, vals[k])
    decreases |t|
  {
    if |t| > 0 {
      assert Get(s, t[0].1) == Some(vals[0]);
      forall k | 0 <= k < |t| - 1 ensures Get(s, t[1..][k].1) == Some(vals[1..][k]) {
        assert t[1..][k] == t[k + 1];
      }
      RenamedAll(t[1..], s, vals[1..]);
    }
  }

  /** The example: on the 2 x 2 chip of windows 0.125 apart, block "04"
      at (1,0) starts 19 windows up, at 2.375, beside the first column at
      3.175, and runs downwards. */
  lemma BlockFourStart(c: Chip)
    requires c.numBlocks == (2, 2) && c.numSteps == (20, 20) && c.stepSize == (0.125, 0.125)
    requires c.blockSize == (3.175, 3.175) && c.startPos == (0.0, 0.0, 0.0)
    ensures StartOf(c, (1, 0)) == BlockStart(2.375, 3.175, Negative)
  {
    assert RoundHalfEven(2375.0) == 2375;
    assert RoundHalfEven(3175.0) == 3175;
  }
}

=== FILE: ssx_eiger.dfy ===
/** The input validation and defaulting of the serial-crystallography
    Eiger writer, `nexgen/beamlines/SSX_Eiger_nxs.py`: which beamline and
    experiment type are accepted, how the pump-probe settings, oscillation
    axis, VDS data type and image count are chosen, and which experiment
    runs. */
module SsxEiger {
  import opened Wrappers
  import opened Text
  import opened Utils
  import opened Axes
  import opened SsxExpt
  import Goniometer

  const EnabledBeamlines: seq<string> := ["i24", "i19-2"]
  const ExperimentTypes: seq<string> := ["extruder", "fixed-target"]

  /** The two scan axes of a fixed-target run, slow first. */
  const FixedTargetAxes: seq<string> := ["sam_y", "sam_x"]

  /** `_define_vds_dtype_from_bit_depth`. */
  function VdsDtypeFromBitDepth(bitDepth: int): (d: DType)
    ensures d == UInt32 <==> bitDepth == 32
    ensures d == UInt8 <==> bitDepth == 8
    ensures d == UInt16 <==> bitDepth != 32 && bitDepth != 8
  {
    if bitDepth == 32 then UInt32 else if bitDepth == 8 then UInt8 else UInt16
  }

  /** Every data type is chosen by its own bit depth. */
  lemma DtypeFromOwnBits(d: DType)
    ensures VdsDtypeFromBitDepth(d.Bits()) == d
  {
  }

  /** The keyword arguments the writer reads; `None` stands for a key
      that was not passed. */
  datatype SsxParams = SsxParams(
    detDist: Option<real>,
    chipInfo: Option<ChipInfo>,
    chipmap: Option<seq<int>>,
    pumpExp: Option<real>,
    pumpDelay: Option<real>,
    oscAxis: Option<string>,
    bitDepth: Option<int>)

  /** `PumpProbe()`: no pump, repeat mode 0. */
  const NoPump: PumpProbe := PumpProbe(false, None, None, Some(0))

  /** The pump-probe settings, with the delay read from `delay`; a
      fixed-target run also reads the repeat mode from the chip
      dictionary. */
  function PumpProbeWith(status: bool, exptType: string, chipInfo: Option<ChipInfo>, exposure: Option<real>, delay: Option<real>): (r: Result<PumpProbe>)
    ensures !status ==> r == Ok(NoPump)
    ensures status && exptType != "fixed-target" ==> r == Ok(PumpProbe(true, exposure, delay, Some(0)))
    ensures status && exptType == "fixed-target" && chipInfo.None? ==> r == Err(TypeError)
    ensures r.Ok? && status ==> r.value.status && r.value.exposure == exposure && r.value.delay == delay
    ensures status && exptType == "fixed-target" && chipInfo.Some? ==>
              var f := Field(chipInfo.value, "PUMP_REPEAT");
              && (r.Ok? <==> f.Ok? && IntOf(f.value).Ok?)
              && (r.Ok? ==> r.value.repeat == Some(IntOf(f.value).value))
  {
    if !status then Ok(NoPump)
    else if exptType == "fixed-target" then
      if chipInfo.None? then Err(TypeError)
      else
        var f :- Field(chipInfo.value, "PUMP_REPEAT");
        var n :- IntOf(f);
        Ok(PumpProbe(true, exposure, delay, Some(n)))
    else Ok(PumpProbe(true, exposure, delay, Some(0)))
  }

  /** The pump settings as the writer reads them: the delay is looked up
      under the exposure's key. */
  function PumpProbeAsWritten(status: bool, exptType: string, p: SsxParams): Result<PumpProbe> {
    PumpProbeWith(status, exptType, p.chipInfo, p.pumpExp, p.pumpExp)
  }

  /** The pump settings with the delay read from its own key. */
  function PumpProbeOf(status: bool, exptType: string, p: SsxParams): Result<PumpProbe> {
    PumpProbeWith(status, exptType, p.chipInfo, p.pumpExp, p.pumpDelay)
  }

  /** As written, the recorded pump delay is always the pump exposure;
      read from its own key, it is the delay passed. */
  lemma PumpDelayFromExposure(exptType: string, p: SsxParams)
    requires exptType != "fixed-target"
    ensures PumpProbeAsWritten(true, exptType, p).value.delay == p.pumpExp
    ensures PumpProbeOf(true, exptType, p).value.delay == p.pumpDelay
    ensures p.pumpExp != p.pumpDelay ==>
              PumpProbeAsWritten(true, exptType, p).value.delay != p.pumpDelay
  {
  }

  /** The experiment that ran: the goniometer axes after it, its scan,
      the pump information and the image count the VDS is built for. */
  datatype Experiment = Experiment(axes: seq<Axis>, scan: Scan, pumpInfo: PumpInfo, totNumImgs: int)

  /** The `match` on the experiment type. A fixed-target run resets the
      image count to the scan length; a type matching neither case leaves
      the scan unbound. */
  function RunExperiment(asWritten: bool, kind: string, gonio: seq<Axis>, numImgs: int, pp: PumpProbe, oscAxis: string,
                         chipInfo: Option<ChipInfo>, chipmap: Option<seq<int>>): (r: Result<Experiment>)
    ensures kind != "extruder" && kind != "fixed-target" ==> r == Err(NameError)
    ensures r.Ok? && kind == "extruder" ==> r.value.totNumImgs == numImgs
    ensures r.Ok? && kind == "fixed-target" ==>
              HasKey(r.value.scan, "sam_x") && r.value.totNumImgs == |Get(r.value.scan, "sam_x").value|
  {
    if kind == "extruder" then
      var run :- RunExtruder(gonio, numImgs, pp, oscAxis);
      Ok(Experiment(run.axes, run.scan, run.pumpInfo, numImgs))
    else if kind == "fixed-target" then
      var run :- RunFixedTarget(asWritten, gonio, chipInfo.GetOr([]), pp, chipmap, FixedTargetAxes);
      match Get(run.scan, "sam_x")
      case None => Err(KeyError)
      case Some(xs) => Ok(Experiment(run.axes, run.scan, run.pumpInfo, if numImgs != |xs| then |xs| else numImgs))
    else Err(NameError)
  }

  /** What the writer hands to the file writer. */
  datatype SsxPlan = SsxPlan(
    oscAxis: string,
    pump: PumpProbe,
    vdsDtype: DType,
    detAxes: seq<Axis>,
    experiment: Experiment)

  /** `ssx_eiger_writer` up to the file writing, given the beamline's
      goniometer and detector axes. With `asWritten`, the pump delay is
      read from the exposure's key and the experiment type is matched
      exactly as passed, after being checked in lower case; otherwise
      both are read as intended. */
  function WriterWith(asWritten: bool, beamline: string, exptType: string, numImgs: int, pumpStatus: bool,
                      p: SsxParams, gonio: seq<Axis>, detAxes: seq<Axis>): (r: Result<SsxPlan>)
    ensures Lower(beamline) !in EnabledBeamlines ==> r == Err(InvalidBeamlineError)
    ensures Lower(beamline) in EnabledBeamlines && Lower(exptType) !in ExperimentTypes ==>
              r == Err(UnknownExperimentTypeError)
    ensures r.Ok? ==> r.value.oscAxis == (if Lower(beamline) == "i19-2" then p.oscAxis.GetOr("phi") else "omega")
    ensures r.Ok? ==> r.value.vdsDtype == VdsDtypeFromBitDepth(p.bitDepth.GetOr(32))
    ensures r.Ok? ==> Goniometer.FindAxis(detAxes, "det_z").Some?
  {
    if Lower(beamline) !in EnabledBeamlines then Err(InvalidBeamlineError)
    else
      var chipmap := if p.chipmap == Some([]) then None else p.chipmap;
      if Lower(exptType) !in ExperimentTypes then Err(UnknownExperimentTypeError)
      else
        var kind := if asWritten then exptType else Lower(exptType);
        var oscAxis := if Lower(beamline) == "i19-2" then p.oscAxis.GetOr("phi") else "omega";
        var pp :- PumpProbeWith(pumpStatus, kind, p.chipInfo, p.pumpExp, if asWritten then p.pumpExp else p.pumpDelay);
        var dtype := VdsDtypeFromBitDepth(p.bitDepth.GetOr(32));
        match Goniometer.FindAxis(detAxes, "det_z")
        case None => Err(IndexError)
        case Some(z) =>
          var det := detAxes[z := detAxes[z].(startPos := p.detDist.GetOr(0.0))];
          var run :- RunExperiment(asWritten, kind, gonio, numImgs, pp, oscAxis, p.chipInfo, chipmap);
          Ok(SsxPlan(oscAxis, pp, dtype, det, run))
  }

  function SsxEigerWriterAsWritten(beamline: string, exptType: string, numImgs: int, pumpStatus: bool,
                                   p: SsxParams, gonio: seq<Axis>, detAxes: seq<Axis>): Result<SsxPlan> {
    WriterWith(true, beamline, exptType, numImgs, pumpStatus, p, gonio, detAxes)
  }

  function SsxEigerWriter(beamline: string, exptType: string, numImgs: int, pumpStatus: bool,
                          p: SsxParams, gonio: seq<Axis>, detAxes: seq<Axis>): Result<SsxPlan> {
    WriterWith(false, beamline, exptType, numImgs, pumpStatus, p, gonio, detAxes)
  }

  /** An empty chip map is the full chip. */
  lemma EmptyChipmapIsFullChip(asWritten: bool, beamline: string, exptType: string, numImgs: int, pumpStatus: bool,
                               p: SsxParams, gonio: seq<Axis>, detAxes: seq<Axis>)
    ensures WriterWith(asWritten, beamline, exptType, numImgs, pumpStatus, p.(chipmap := Some([])), gonio, detAxes)
         == WriterWith(asWritten, beamline, exptType, numImgs, pumpStatus, p.(chipmap := None), gonio, detAxes)
  {
    var p1, p2 := p.(chipmap := Some([])), p.(chipmap := None);
    assert p1.chipInfo == p2.chipInfo && p1.pumpExp == p2.pumpExp && p1.pumpDelay == p2.pumpDelay;
    assert p1.oscAxis == p2.oscAxis && p1.bitDepth == p2.bitDepth && p1.detDist == p2.detDist;
  }

  /** The writer's image count: the count passed for an extruder, the
      scan length for a fixed target. */
  lemma WriterImageCount(beamline: string, exptType: string, numImgs: int, pumpStatus: bool,
                         p: SsxParams, gonio: seq<Axis>, detAxes: seq<Axis>)
    requires SsxEigerWriter(beamline, exptType, numImgs, pumpStatus, p, gonio, detAxes).Ok?
    ensures var e := SsxEigerWriter(beamline, exptType, numImgs, pumpStatus, p, gonio, detAxes).value.experiment;
            && (Lower(exptType) == "extruder" ==> e.totNumImgs == numImgs)
            && (Lower(exptType) == "fixed-target" ==>
                  HasKey(e.scan, "sam_x") && e.totNumImgs == |Get(e.scan, "sam_x").value|)
  {
  }

  /** Whatever the case of the experiment type, the writer does the same
      thing. */
  lemma ExperimentTypeCaseInsensitive(beamline: string, exptType: string, numImgs: int, pumpStatus: bool,
                                      p: SsxParams, gonio: seq<Axis>, detAxes: seq<Axis>)
    ensures SsxEigerWriter(beamline, exptType, numImgs, pumpStatus, p, gonio, detAxes)
         == SsxEigerWriter(beamline, Lower(exptType), numImgs, pumpStatus, p, gonio, detAxes)
  {
    LowerIdempotent(exptType);
    SameLowerSameWriter(beamline, exptType, Lower(exptType), numImgs, pumpStatus, p, gonio, detAxes);
  }

  lemma SameLowerSameWriter(beamline: string, e1: string, e2: string, numImgs: int, pumpStatus: bool,
                            p: SsxParams, gonio: seq<Axis>, detAxes: seq<Axis>)
    requires Lower(e1) == Lower(e2)
    ensures SsxEigerWriter(beamline, e1, numImgs, pumpStatus, p, gonio, detAxes)
         == SsxEigerWriter(beamline, e2, numImgs, pumpStatus, p, gonio, detAxes)
  {
  }

  /** As written, a type accepted only because it is checked in lower case
      ("Extruder", "Fixed-Target") never reaches a result: no case of the
      `match` takes it, and the scan is unbound. */
  lemma MixedCaseTypeFailsAsWritten(beamline: string, exptType: string, numImgs: int, pumpStatus: bool,
                                    p: SsxParams, gonio: seq<Axis>, detAxes: seq<Axis>)
    requires Lower(beamline) in EnabledBeamlines && Lower(exptType) in ExperimentTypes
    requires exptType !in ExperimentTypes
    requires Goniometer.FindAxis(detAxes, "det_z").Some?
    ensures SsxEigerWriterAsWritten(beamline, exptType, numImgs, pumpStatus, p, gonio, detAxes) == Err(NameError)
  {
  }

  /** The concrete case: "Extruder" on I24. */
  lemma CapitalisedExtruderFailsAsWritten(p: SsxParams, gonio: seq<Axis>, detAxes: seq<Axis>)
    requires Goniometer.FindAxis(detAxes, "det_z").Some?
    ensures SsxEigerWriterAsWritten("I24", "Extruder", 100, false, p, gonio, detAxes) == Err(NameError)
  {
    LowerI24();
    LowerExtruder();
    MixedCaseTypeFailsAsWritten("I24", "Extruder", 100, false, p, gonio, detAxes);
  }

  lemma LowerI24()
    ensures Lower("I24") == "i24"
  {
  }

  lemma LowerExtruder()
    ensures Lower("Extruder") == "extruder"
  {
  }
}

=== FILE: ssx_expt.dfy ===
/** The serial-crystallography experiments of `nexgen/beamlines/SSX_expt.py`:
    an extruder run (a still crystal stream, one position repeated), a
    fixed-target run (a chip scanned block by block, window by window) and
    the pump-probe bookkeeping of a 3D grid scan. The source updates the
    goniometer axes in place; here the updated axes are returned. */
module SsxExpt {
  import opened Wrappers
  import opened Text
  import opened Utils
  import opened Axes
  import opened ScanSpec
  import opened ScanUtils
  import opened SsxChip
  import Goniometer

  /** A scan: axis name to its positions, in insertion order. */
  type Scan = Dict<string, seq<real>>

  // ------------------------------------------------------ chip dictionary

  /** A value stored in the chip dictionary: the beamline writes ints,
      floats and strings. */
  datatype Value = IntV(i: int) | RealV(r: real) | StrV(s: string)

  /** `chip_info`: each key maps to a list whose second entry is the value. */
  type ChipInfo = Dict<string, seq<Value>>

  /** `chip_info[key][1]`. */
  function Field(info: ChipInfo, key: string): (r: Result<Value>)
    ensures !HasKey(info, key) ==> r == Err(KeyError)
    ensures HasKey(info, key) ==> (r.Ok? <==> |Get(info, key).value| >= 2)
    ensures r.Err? ==> r.error == KeyError || r.error == IndexError
    ensures r.Ok? ==> HasKey(info, key) && r.value == Get(info, key).value[1]
  {
    match Get(info, key)
    case None => Err(KeyError)
    case Some(vs) => if |vs| < 2 then Err(IndexError) else Ok(vs[1])
  }

  predicate AllDigits(s: string) {
    |s| > 0 && forall i :: 0 <= i < |s| ==> IsDigit(s[i])
  }

  /** Python's `int(v)`: an int unchanged, a float truncated toward zero, a
      string of decimal digits read as a number. */
  function IntOf(v: Value): (r: Result<int>)
    ensures v.IntV? ==> r == Ok(v.i)
    ensures v.RealV? ==> r == Ok(Trunc(v.r))
    ensures v.StrV? ==> (r.Ok? <==> AllDigits(v.s))
    ensures r.Err? ==> r.error == ValueError
  {
    match v
    case IntV(i) => Ok(i)
    case RealV(x) => Ok(Trunc(x))
    case StrV(s) => if AllDigits(s) then Ok(DecimalValue(s)) else Err(ValueError)
  }

  /** The written form of a count reads back as that count: `int("2") == 2`. */
  lemma IntOfDecimalString(n: nat)
    ensures IntOf(StrV(NatToString(n))) == Ok(n)
  {
    NatToStringDigits(n);
    NatToStringRoundTrip(n);
  }

  /** An integer field of the chip, validated as pydantic does in lax mode:
      an int, a float with no fractional part, or a string of digits. */
  function AsInt(v: Value): (r: Result<int>)
    ensures r.Ok? ==> (v.IntV? && r.value == v.i) || (v.RealV? && r.value as real == v.r) || (v.StrV? && AllDigits(v.s))
    ensures v.IntV? ==> r == Ok(v.i)
    ensures v.RealV? ==> (r.Ok? <==> v.r == v.r.Floor as real)
    ensures v.StrV? ==> (r.Ok? <==> AllDigits(v.s))
    ensures r.Err? ==> r.error == ValueError
  {
    match v
    case IntV(i) => Ok(i)
    case RealV(x) => if x == x.Floor as real then Ok(x.Floor) else Err(ValueError)
    case StrV(s) => if AllDigits(s) then Ok(DecimalValue(s)) else Err(ValueError)
  }

  /** A float field of the chip: an int or float, or a string of digits. */
  function AsReal(v: Value): (r: Result<real>)
    ensures v.IntV? ==> r == Ok(v.i as real)
    ensures v.RealV? ==> r == Ok(v.r)
    ensures v.StrV? ==> (r.Ok? <==> AllDigits(v.s))
    ensures r.Err? ==> r.error == ValueError
  {
    match v
    case IntV(i) => Ok(i as real)
    case RealV(x) => Ok(x)
    case StrV(s) => if AllDigits(s) then Ok(DecimalValue(s) as real) else Err(ValueError)
  }

  /** The keys the chip is built from, in the order they are read. */
  const ChipKeys: seq<string> := [
    "X_NUM_STEPS", "Y_NUM_STEPS", "X_STEP_SIZE", "Y_STEP_SIZE",
    "X_NUM_BLOCKS", "Y_NUM_BLOCKS", "X_BLOCK_SIZE", "Y_BLOCK_SIZE",
    "X_START", "Y_START", "Z_START"]

  /** The `Chip("fastchip", ...)` of `run_fixed_target`: every entry is
      looked up first (a missing key or a short list raises), then the
      values are validated. */
  function ChipOf(info: ChipInfo): (r: Result<Chip>)
    ensures r.Ok? ==> forall k :: k in ChipKeys ==> Field(info, k).Ok?
    ensures r.Ok? ==> r.value.name == "fastchip"
  {
    var xSteps :- Field(info, "X_NUM_STEPS");
    var ySteps :- Field(info, "Y_NUM_STEPS");
    var xStep :- Field(info, "X_STEP_SIZE");
    var yStep :- Field(info, "Y_STEP_SIZE");
    var xBlocks :- Field(info, "X_NUM_BLOCKS");
    var yBlocks :- Field(info, "Y_NUM_BLOCKS");
    var xBlock :- Field(info, "X_BLOCK_SIZE");
    var yBlock :- Field(info, "Y_BLOCK_SIZE");
    var x0 :- Field(info, "X_START");
    var y0 :- Field(info, "Y_START");
    var z0 :- Field(info, "Z_START");
    var nx :- AsInt(xSteps);
    var ny :- AsInt(ySteps);
    var sx :- AsReal(xStep);
    var sy :- AsReal(yStep);
    var blocksX :- AsInt(xBlocks);
    var blocksY :- AsInt(yBlocks);
    var wx :- AsReal(xBlock);
    var wy :- AsReal(yBlock);
    var px :- AsReal(x0);
    var py :- AsReal(y0);
    var pz :- AsReal(z0);
    Ok(Chip("fastchip", (nx, ny), (sx, sy), (blocksX, blocksY), (wx, wy), (px, py, pz)))
  }

  /** The dictionary the beamline writes for a chip: `[0, value]` under
      each key. */
  function InfoOf(c: Chip): ChipInfo {
    [("X_NUM_STEPS", [IntV(0), IntV(c.numSteps.0)]),
     ("Y_NUM_STEPS", [IntV(0), IntV(c.numSteps.1)]),
     ("X_STEP_SIZE", [IntV(0), RealV(c.stepSize.0)]),
     ("Y_STEP_SIZE", [IntV(0), RealV(c.stepSize.1)]),
     ("X_NUM_BLOCKS", [IntV(0), IntV(c.numBlocks.0)]),
     ("Y_NUM_BLOCKS", [IntV(0), IntV(c.numBlocks.1)]),
     ("X_BLOCK_SIZE", [IntV(0), RealV(c.blockSize.0)]),
     ("Y_BLOCK_SIZE", [IntV(0), RealV(c.blockSize.1)]),
     ("X_START", [IntV(0), RealV(c.startPos.0)]),
     ("Y_START", [IntV(0), RealV(c.startPos.1)]),
     ("Z_START", [IntV(0), RealV(c.startPos.2)])]
  }

  lemma ChipKeysDistinct()
    ensures forall i, j :: 0 <= i < j < |ChipKeys| ==> ChipKeys[i] != ChipKeys[j]
  {
  }

  lemma InfoOfDistinct(c: Chip)
    ensures DistinctKeys(InfoOf(c))
    ensures forall k :: 0 <= k < |ChipKeys| ==> InfoOf(c)[k].0 == ChipKeys[k]
  {
    ChipKeysDistinct();
  }

  lemma InfoOfFields(c: Chip)
    ensures var info := InfoOf(c);
            && |info| == |ChipKeys|
            && forall k :: 0 <= k < |info| ==> Field(info, ChipKeys[k]) == Ok(info[k].1[1])
  {
    var info := InfoOf(c);
    InfoOfDistinct(c);
    forall k | 0 <= k < |info| ensures Field(info, ChipKeys[k]) == Ok(info[k].1[1]) {
      GetDistinct(info, k);
    }
  }

  /** Reading back the dictionary written for a chip gives the chip. */
  lemma ChipOfInfoOf(c: Chip)
    ensures ChipOf(InfoOf(c)) == Ok(c.(name := "fastchip"))
  {
    InfoOfFieldValues(c);
    ChipOfFields(InfoOf(c), c);
  }

  lemma InfoOfFieldValues(c: Chip)
    ensures var info := InfoOf(c);
            && Field(info, "X_NUM_STEPS") == Ok(IntV(c.numSteps.0)) && Field(info, "Y_NUM_STEPS") == Ok(IntV(c.numSteps.1))
            && Field(info, "X_STEP_SIZE") == Ok(RealV(c.stepSize.0)) && Field(info, "Y_STEP_SIZE") == Ok(RealV(c.stepSize.1))
            && Field(info, "X_NUM_BLOCKS") == Ok(IntV(c.numBlocks.0)) && Field(info, "Y_NUM_BLOCKS") == Ok(IntV(c.numBlocks.1))
            && Field(info, "X_BLOCK_SIZE") == Ok(RealV(c.blockSize.0)) && Field(info, "Y_BLOCK_SIZE") == Ok(RealV(c.blockSize.1))
            && Field(info, "X_START") == Ok(RealV(c.startPos.0)) && Field(info, "Y_START") == Ok(RealV(c.startPos.1))
            && Field(info, "Z_START") == Ok(RealV(c.startPos.2))
  {
    FieldOfInfo(c, 0); FieldOfInfo(c, 1); FieldOfInfo(c, 2); FieldOfInfo(c, 3);
    FieldOfInfo(c, 4); FieldOfInfo(c, 5); FieldOfInfo(c, 6); FieldOfInfo(c, 7);
    FieldOfInfo(c, 8); FieldOfInfo(c, 9); FieldOfInfo(c, 10);
  }

  /** The field under the `k`-th chip key is the `k`-th value written. */
  lemma FieldOfInfo(c: Chip, k: nat)
    requires k < |ChipKeys|
    ensures Field(InfoOf(c), ChipKeys[k]) == Ok(InfoOf(c)[k].1[1])
  {
    InfoOfFields(c);
  }

  /** A dictionary whose fields hold a chip's values gives that chip. */
  lemma ChipOfFields(info: ChipInfo, c: Chip)
    requires Field(info, "X_NUM_STEPS") == Ok(IntV(c.numSteps.0)) && Field(info, "Y_NUM_STEPS") == Ok(IntV(c.numSteps.1))
    requires Field(info, "X_STEP_SIZE") == Ok(RealV(c.stepSize.0)) && Field(info, "Y_STEP_SIZE") == Ok(RealV(c.stepSize.1))
    requires Field(info, "X_NUM_BLOCKS") == Ok(IntV(c.numBlocks.0)) && Field(info, "Y_NUM_BLOCKS") == Ok(IntV(c.numBlocks.1))
    requires Field(info, "X_BLOCK_SIZE") == Ok(RealV(c.blockSize.0)) && Field(info, "Y_BLOCK_SIZE") == Ok(RealV(c.blockSize.1))
    requires Field(info, "X_START") == Ok(RealV(c.startPos.0)) && Field(info, "Y_START") == Ok(RealV(c.startPos.1))
    requires Field(info, "Z_START") == Ok(RealV(c.startPos.2))
    ensures ChipOf(info) == Ok(c.(name := "fastchip"))
  {
  }

  /** A chip dictionary missing any of the chip's keys is refused. */
  lemma ChipOfNeedsEveryKey(info: ChipInfo, k: string)
    requires k in ChipKeys && !HasKey(info, k)
    ensures ChipOf(info).Err?
  {
  }

  // ------------------------------------------------------------ pump probe

  /** `PumpProbe` after `__post_init__`. */
  datatype PumpProbe = PumpProbe(status: bool, exposure: Option<real>, delay: Option<real>, repeat: Option<int>)

  /** A value of the pump-probe information dict. */
  datatype PumpValue = Flag(b: bool) | Number(x: real) | Count(n: int) | Null

  type PumpInfo = Dict<string, PumpValue>

  function RealOrNull(x: Option<real>): PumpValue {
    if x.Some? then Number(x.value) else Null
  }

  /** `model_dump()`: the four fields in declaration order. */
  function ModelDump(pp: PumpProbe): (r: PumpInfo)
    ensures Keys(r) == ["pump_status", "pump_exposure", "pump_delay", "pump_repeat"]
  {
    [("pump_status", Flag(pp.status)),
     ("pump_exposure", RealOrNull(pp.exposure)),
     ("pump_delay", RealOrNull(pp.delay)),
     ("pump_repeat", if pp.repeat.Some? then Count(pp.repeat.value) else Null)]
  }

  // ---------------------------------------------------------- rotations

  /** The loop that sets every rotation increment to 0. */
  function StopRotations(axes: seq<Axis>): (r: seq<Axis>)
    ensures |r| == |axes|
    ensures forall i :: 0 <= i < |axes| ==> r[i].name == axes[i].name && r[i].kind == axes[i].kind
    ensures forall i :: 0 <= i < |axes| ==> r[i].startPos == axes[i].startPos && r[i].numSteps == axes[i].numSteps
    ensures forall i :: 0 <= i < |axes| && axes[i].kind == Rotation ==> !IsScan(r[i])
    ensures forall i :: 0 <= i < |axes| && axes[i].kind != Rotation ==> r[i] == axes[i]
  {
    seq(|axes|, i requires 0 <= i < |axes| => if axes[i].kind == Rotation then axes[i].(increment := 0.0) else axes[i])
  }

  /** Stopping the rotations twice is stopping them once. */
  lemma StopRotationsIdempotent(axes: seq<Axis>)
    ensures StopRotations(StopRotations(axes)) == StopRotations(axes)
  {
  }

  // -------------------------------------------------------------- extruder

  datatype ExtruderRun = ExtruderRun(axes: seq<Axis>, scan: Scan, pumpInfo: PumpInfo)

  /** `run_extruder`: every rotation stopped, the oscillation axis given
      `num_imgs` steps, its positions computed as a rotation scan of
      `num_imgs` images, and the pump information without `pump_repeat`. */
  function RunExtruder(axes: seq<Axis>, numImgs: int, pp: PumpProbe, oscAxis: string): (r: Result<ExtruderRun>)
    ensures Goniometer.FindAxis(axes, oscAxis).None? ==> r == Err(IndexError)
    ensures r.Ok? ==> |r.value.axes| == |axes|
  {
    var stopped := StopRotations(axes);
    match Goniometer.FindAxis(stopped, oscAxis)
    case None => Err(IndexError)
    case Some(i) =>
      var updated := stopped[i := stopped[i].(numSteps := numImgs)];
      var scan :- CalculateScanPoints(updated[i], None, true, true, Some(numImgs));
      Ok(ExtruderRun(updated, scan, Remove(ModelDump(pp), "pump_repeat")))
  }

  /** A rotation axis that does not move, given `numImgs` steps, scans
      as its start repeated `numImgs` times. */
  lemma StillRotationScan(a: Axis, numImgs: nat)
    requires a.kind == Rotation && a.increment == 0.0
    ensures CalculateScanPoints(a.(numSteps := numImgs), None, true, true, Some(numImgs))
         == Ok([(a.name, Repeat(a.startPos, numImgs))])
  {
    var b := a.(numSteps := numImgs);
    assert EndPos(b) == b.startPos;
    assert RotationCount(b, Some(numImgs)) == numImgs;
    assert AxisLine(b, numImgs) == Repeat(a.startPos, numImgs);
  }

  lemma PumpInfoWithoutRepeat(pp: PumpProbe)
    ensures Remove(ModelDump(pp), "pump_repeat") == ModelDump(pp)[..3]
  {
    var info := ModelDump(pp);
    assert info == info[..3] + [info[3]];
    assert Remove(info, "pump_repeat") == [info[0]] + Remove(info[1..], "pump_repeat");
    assert Remove(info[1..], "pump_repeat") == [info[1]] + Remove(info[2..], "pump_repeat");
    assert Remove(info[2..], "pump_repeat") == [info[2]] + Remove(info[3..], "pump_repeat");
    assert Remove(info[3..], "pump_repeat") == Remove(info[4..], "pump_repeat");
  }

  /** The extruder holds the oscillation axis still: its scan is its start
      repeated once per image, it is the only axis whose step count
      changes, and no rotation moves. A translation named as the
      oscillation axis is refused. */
  lemma ExtruderHoldsStill(axes: seq<Axis>, numImgs: nat, pp: PumpProbe, oscAxis: string, i: nat)
    requires i < |axes| && axes[i].name == oscAxis
    requires forall j :: 0 <= j < i ==> axes[j].name != oscAxis
    ensures axes[i].kind != Rotation ==> RunExtruder(axes, numImgs, pp, oscAxis) == Err(ScanAxisError)
    ensures axes[i].kind == Rotation ==>
              var r := RunExtruder(axes, numImgs, pp, oscAxis);
              && r.Ok?
              && r.value.scan == [(oscAxis, Repeat(axes[i].startPos, numImgs))]
              && r.value.axes[i] == axes[i].(increment := 0.0, numSteps := numImgs)
              && (forall j :: 0 <= j < |axes| && j != i ==>
                    r.value.axes[j] == if axes[j].kind == Rotation then axes[j].(increment := 0.0) else axes[j])
              && r.value.pumpInfo == ModelDump(pp)[..3]
  {
    var stopped := StopRotations(axes);
    Goniometer.FindAxisByName(axes, stopped, oscAxis);
    assert Goniometer.FindAxis(axes, oscAxis) == Some(i);
    if axes[i].kind == Rotation {
      StillRotationScan(stopped[i], numImgs);
      PumpInfoWithoutRepeat(pp);
    }
  }

  // ---------------------------------------------------------- fixed target

  /** The length of `[n for n, ax in enumerate(goniometer_axes) if ax.name
      in scan_axes]`. */
  function MatchCount(axes: seq<Axis>, names: seq<string>): (r: nat)
    ensures r <= |axes|
  {
    if |axes| == 0 then 0 else (if axes[0].name in names then 1 else 0) + MatchCount(axes[1..], names)
  }

  lemma {:induction false} MatchCountAtLeastOne(axes: seq<Axis>, names: seq<string>, i: nat)
    requires i < |axes| && axes[i].name in names
    ensures MatchCount(axes, names) >= 1
  {
    if i > 0 {
      MatchCountAtLeastOne(axes[1..], names, i - 1);
    }
  }

  /** Two different goniometer axes named among the scan axes count twice. */
  lemma {:induction false} MatchCountOfTwo(axes: seq<Axis>, names: seq<string>, i: nat, j: nat)
    requires i < |axes| && j < |axes| && i != j
    requires axes[i].name in names && axes[j].name in names
    ensures MatchCount(axes, names) >= 2
  {
    if i == 0 {
      MatchCountAtLeastOne(axes[1..], names, j - 1);
    } else if j == 0 {
      MatchCountAtLeastOne(axes[1..], names, i - 1);
    } else {
      MatchCountOfTwo(axes[1..], names, i - 1, j - 1);
    }
  }

  /** The temporary slow axis of one block: from the block's start along
      the scan direction, one window per step. */
  function SlowAxis(c: Chip, name: string, b: BlockStart): Axis {
    Axis(name, "", Translation, Point3D(0.0, 0.0, 0.0), b.slow, c.stepSize.1 * b.direction.Sign(), c.numSteps.1, Point3D(0.0, 0.0, 0.0))
  }

  /** The temporary fast axis of one block: from the block's start, one
      window per step. */
  function FastAxis(c: Chip, name: string, b: BlockStart): Axis {
    Axis(name, "", Translation, Point3D(0.0, 0.0, 0.0), b.fast, c.stepSize.0, c.numSteps.0, Point3D(0.0, 0.0, 0.0))
  }

  /** `calculate_scan_points(axis1, axis2)` for one block: a snaked grid. */
  function BlockScan(c: Chip, names: (string, string), b: BlockStart): Result<Scan> {
    CalculateScanPoints(SlowAxis(c, names.0, b), Some(FastAxis(c, names.1, b)), true, false, None)
  }

  /** The points of one block, slow axis outer, before rounding. */
  function BlockGrid(c: Chip, b: BlockStart): (g: Grid)
    ensures |g.outer| == |g.inner|
  {
    var slow := SlowAxis(c, "", b);
    var fast := FastAxis(c, "", b);
    Product(AxisLine(slow, slow.numSteps), AxisLine(fast, fast.numSteps), true)
  }

  /** `np.round(values, 3)`. */
  function RoundAll(s: seq<real>): (r: seq<real>)
    ensures |r| == |s|
    ensures forall i :: 0 <= i < |s| ==> r[i] == Round3(s[i])
  {
    seq(|s|, i requires 0 <= i < |s| => Round3(s[i]))
  }

  /** `SCAN[name] = np.append(SCAN[name], np.round(block[name], 3))`. */
  function Extend(scan: Scan, name: string, block: Scan): Scan {
    Put(scan, name, Get(scan, name).GetOr([]) + RoundAll(Get(block, name).GetOr([])))
  }

  /** The loop over the block starts, in order. */
  function ScanBlocks(c: Chip, names: (string, string), starts: Dict<string, BlockStart>, acc: Scan): Result<Scan>
    decreases |starts|
  {
    if |starts| == 0 then Ok(acc)
    else
      var block :- BlockScan(c, names, starts[0].1);
      ScanBlocks(c, names, starts[1..], Extend(Extend(acc, names.0, block), names.1, block))
  }

  /** The reference: every block's rounded grid, one after another. */
  function Grids(c: Chip, starts: Dict<string, BlockStart>): (r: (seq<real>, seq<real>))
    ensures |r.0| == |r.1|
    decreases |starts|
  {
    if |starts| == 0 then ([], [])
    else
      var g := BlockGrid(c, starts[0].1);
      var rest := Grids(c, starts[1..]);
      (RoundAll(g.outer) + rest.0, RoundAll(g.inner) + rest.1)
  }

  lemma BlockScanIsGrid(c: Chip, names: (string, string), b: BlockStart)
    requires names.0 != names.1
    ensures BlockScan(c, names, b) == Ok([(names.0, BlockGrid(c, b).outer), (names.1, BlockGrid(c, b).inner)])
  {
    assert EndPos(SlowAxis(c, names.0, b)) == EndPos(SlowAxis(c, "", b));
    assert EndPos(FastAxis(c, names.1, b)) == EndPos(FastAxis(c, "", b));
    var g := BlockGrid(c, b);
    assert Put([(names.0, g.outer)], names.1, g.inner) == [(names.0, g.outer), (names.1, g.inner)];
  }

  /** One pass of the loop body appends the block's rounded points to
      both axes. */
  lemma ExtendBoth(names: (string, string), x: seq<real>, y: seq<real>, o: seq<real>, i: seq<real>)
    requires names.0 != names.1
    ensures var block := [(names.0, o), (names.1, i)];
            (Extend(Extend([(names.0, x), (names.1, y)], names.0, block), names.1, block)
               == [(names.0, x + RoundAll(o)), (names.1, y + RoundAll(i))])
  {
    var block := [(names.0, o), (names.1, i)];
    var x' := x + RoundAll(o);
    assert Extend([(names.0, x), (names.1, y)], names.0, block) == [(names.0, x'), (names.1, y)];
    assert Get([(names.0, x'), (names.1, y)], names.1) == Some(y);
    assert Get(block, names.1) == Some(i);
    assert Put([(names.0, x'), (names.1, y)], names.1, y + RoundAll(i)) == [(names.0, x'), (names.1, y + RoundAll(i))];
  }

  lemma AppendAssoc(a: seq<real>, b: seq<real>, c: seq<real>)
    ensures (a + b) + c == a + (b + c)
  {
  }

  /** The scan is the blocks' rounded grids appended in block order. */
  lemma {:induction false} ScanBlocksConcatenates(c: Chip, names: (string, string), starts: Dict<string, BlockStart>, x: seq<real>, y: seq<real>)
    requires names.0 != names.1
    ensures ScanBlocks(c, names, starts, [(names.0, x), (names.1, y)])
         == Ok([(names.0, x + Grids(c, starts).0), (names.1, y + Grids(c, starts).1)])
    decreases |starts|
  {
    if |starts| == 0 {
      assert x + [] == x && y + [] == y;
    } else {
      var acc := [(names.0, x), (names.1, y)];
      var g := BlockGrid(c, starts[0].1);
      var block := [(names.0, g.outer), (names.1, g.inner)];
      BlockScanIsGrid(c, names, starts[0].1);
      ExtendBoth(names, x, y, g.outer, g.inner);
      var x' := x + RoundAll(g.outer);
      var y' := y + RoundAll(g.inner);
      assert ScanBlocks(c, names, starts, acc) == ScanBlocks(c, names, starts[1..], [(names.0, x'), (names.1, y')]);
      ScanBlocksConcatenates(c, names, starts[1..], x', y');
      var rest := Grids(c, starts[1..]);
      assert Grids(c, starts) == (RoundAll(g.outer) + rest.0, RoundAll(g.inner) + rest.1);
      AppendAssoc(x, RoundAll(g.outer), rest.0);
      AppendAssoc(y, RoundAll(g.inner), rest.1);
    }
  }

  lemma BlockGridSize(c: Chip, b: BlockStart)
    requires c.numSteps.0 >= 0 && c.numSteps.1 >= 0
    ensures |BlockGrid(c, b).outer| == TotWindowsPerBlock(c)
  {
    assert |BlockGrid(c, b).outer| == c.numSteps.1 * c.numSteps.0;
  }

  /** Every block holds one point per window. */
  lemma {:induction false} GridsLength(c: Chip, starts: Dict<string, BlockStart>)
    requires c.numSteps.0 >= 0 && c.numSteps.1 >= 0
    ensures |Grids(c, starts).0| == |starts| * TotWindowsPerBlock(c)
    decreases |starts|
  {
    if |starts| > 0 {
      GridsLength(c, starts[1..]);
      BlockGridSize(c, starts[0].1);
      var t := TotWindowsPerBlock(c);
      assert |starts| * t == t + (|starts| - 1) * t;
    }
  }

  /** `[val for val in v for _ in range(n)]`. */
  function RepeatEach(s: seq<real>, n: nat): seq<real> {
    if |s| == 0 then [] else Repeat(s[0], n) + RepeatEach(s[1..], n)
  }

  lemma DivShift(i: int, n: int)
    requires n > 0 && i >= n
    ensures (i - n) / n == i / n - 1
  {
    var q := (i - n) / n;
    var j := (i - n) % n;
    assert i == (q + 1) * n + j;
    DivModOf(q + 1, j, n);
  }

  /** Repeating each point `n` times: point `i` of the result is point
      `i / n` of the input. */
  lemma {:induction false} RepeatEachClosedForm(s: seq<real>, n: nat)
    ensures |RepeatEach(s, n)| == |s| * n
    ensures n > 0 ==> forall i :: 0 <= i < |RepeatEach(s, n)| ==> i / n < |s| && RepeatEach(s, n)[i] == s[i / n]
  {
    if |s| > 0 {
      RepeatEachClosedForm(s[1..], n);
      assert |s| * n == n + (|s| - 1) * n;
      if n > 0 {
        forall i | 0 <= i < |RepeatEach(s, n)| ensures i / n < |s| && RepeatEach(s, n)[i] == s[i / n] {
          RepeatEachAt(s, n, i);
        }
      }
    }
  }

  /** One point of the repetition, given the closed form for the tail. */
  lemma RepeatEachAt(s: seq<real>, n: nat, i: nat)
    requires |s| > 0 && n > 0 && i < |RepeatEach(s, n)|
    requires forall j :: 0 <= j < |RepeatEach(s[1..], n)| ==> j / n < |s[1..]| && RepeatEach(s[1..], n)[j] == s[1..][j / n]
    ensures i / n < |s| && RepeatEach(s, n)[i] == s[i / n]
  {
    var r := RepeatEach(s, n);
    var rest := RepeatEach(s[1..], n);
    assert r == Repeat(s[0], n) + rest;
    if i < n {
      DivModOf(0, i, n);
      assert 0 * n + i == i;
      assert r[i] == Repeat(s[0], n)[i] == s[0];
    } else {
      var j := i - n;
      assert j < |rest|;
      var q := j / n;
      assert q < |s[1..]| && rest[j] == s[1..][q];
      DivShift(i, n);
      assert r[i] == rest[j];
      assert s[1..][q] == s[q + 1];
    }
  }

  /** The dict comprehension repeating every axis's points. */
  function RepeatAll(scan: Scan, n: nat): (r: Scan)
    ensures Keys(r) == Keys(scan)
  {
    seq(|scan|, i requires 0 <= i < |scan| => (scan[i].0, RepeatEach(scan[i].1, n)))
  }

  /** The block starts: every block converted to its table number on a
      full chip, or the given blocks. */
  function StartsOf(c: Chip, blocks: BlockMap): Dict<string, BlockStart> {
    match blocks
    case FullChip => BlocksConversion(ComputeGoniometerFull(c), c)
    case Blocks(entries) => ComputeGoniometerBlocks(c, entries)
  }

  datatype FixedTargetRun = FixedTargetRun(axes: seq<Axis>, scan: Scan, pumpInfo: PumpInfo)

  /** `run_fixed_target`, reading the chip map by the rule `asWritten`
      selects. */
  function RunFixedTarget(asWritten: bool, axes: seq<Axis>, info: ChipInfo, pp: PumpProbe, chipmap: Option<seq<int>>, scanAxes: seq<string>): (r: Result<FixedTargetRun>)
    ensures MatchCount(axes, scanAxes) < |scanAxes| ==> r == Err(ValueError)
    ensures MatchCount(axes, scanAxes) >= |scanAxes| && |info| == 0 ==> r == Err(ValueError)
    ensures r.Ok? ==> |scanAxes| >= 2 && ChipOf(info).Ok? && r.value.axes == StopRotations(axes)
    ensures r.Ok? ==> Field(info, "N_EXPOSURES").Ok? && IntOf(Field(info, "N_EXPOSURES").value).Ok?
                      && r.value.pumpInfo == ModelDump(pp) + [("n_exposures", Count(IntOf(Field(info, "N_EXPOSURES").value).value))]
  {
    if MatchCount(axes, scanAxes) < |scanAxes| then Err(ValueError)
    else if |info| == 0 then Err(ValueError)
    else
      var chip :- ChipOf(info);
      var blocks :- ReadChipMapBy(asWritten, chipmap, chip.numBlocks.0, chip.numBlocks.1);
      if blocks.Blocks? && |blocks.entries| == 0 then Err(IndexError)
      else if |scanAxes| < 2 then Err(IndexError)
      else
        var names := (scanAxes[0], scanAxes[1]);
        var scan :- ScanBlocks(chip, names, StartsOf(chip, blocks), Put([(names.0, [])], names.1, []));
        var nField :- Field(info, "N_EXPOSURES");
        var n :- IntOf(nField);
        var repeatField :- Field(info, "PUMP_REPEAT");
        var repeated := if n > 1 then RepeatAll(scan, n) else scan;
        Ok(FixedTargetRun(StopRotations(axes), repeated, Put(ModelDump(pp), "n_exposures", Count(n))))
  }

  /** The successful path of a fixed-target run, step by step. */
  lemma FixedTargetOk(asWritten: bool, axes: seq<Axis>, info: ChipInfo, pp: PumpProbe, chipmap: Option<seq<int>>,
                      slow: string, fast: string, c: Chip, blocks: BlockMap, scan: Scan, n: int)
    requires MatchCount(axes, [slow, fast]) >= 2 && |info| > 0
    requires ChipOf(info) == Ok(c)
    requires ReadChipMapBy(asWritten, chipmap, c.numBlocks.0, c.numBlocks.1) == Ok(blocks) && blocks != Blocks([])
    requires ScanBlocks(c, (slow, fast), StartsOf(c, blocks), Put<string, seq<real>>([(slow, [])], fast, [])) == Ok(scan)
    requires Field(info, "N_EXPOSURES").Ok? && IntOf(Field(info, "N_EXPOSURES").value) == Ok(n)
    requires Field(info, "PUMP_REPEAT").Ok?
    ensures RunFixedTarget(asWritten, axes, info, pp, chipmap, [slow, fast])
         == Ok(FixedTargetRun(StopRotations(axes), if n > 1 then RepeatAll(scan, n) else scan,
                              Put(ModelDump(pp), "n_exposures", Count(n))))
  {
  }

  lemma RepeatEachOnce(s: seq<real>)
    ensures RepeatEach(s, 1) == s
  {
    RepeatEachClosedForm(s, 1);
  }

  /** A full chip scans every block of the chip. */
  lemma FullChipBlockCount(c: Chip)
    requires ProperGrid(c)
    ensures |StartsOf(c, FullChip)| == TotBlocks(c)
  {
    FullChipStartsRenamed(c);
    ConversionTableSnake(c);
    var r := StartsOf(c, FullChip);
    assert |Keys(r)| == |Keys(ConversionTable(c))|;
  }

  /** A partial chip map of distinct blocks scans exactly those blocks. */
  lemma ChipMapBlockCount(c: Chip, m: seq<int>)
    requires ProperGrid(c) && |m| != TotBlocks(c) && DistinctBlocks(m)
    requires forall i :: 0 <= i < |m| ==> 1 <= m[i] <= TotBlocks(c)
    ensures var r := ReadChipMap(Some(m), c.numBlocks.0, c.numBlocks.1);
            r.Ok? && r.value.Blocks? && |StartsOf(c, r.value)| == |m|
  {
    ChipMapStartsMatchFullChip(c, m);
  }

  /** With two different scan axes on the goniometer, a readable chip
      dictionary and a chip map with at least one block, every rotation is
      stopped, both axes get the rounded grid of every scanned block in
      turn, each point repeated `N` times when `N > 1`, and the pump
      information gains `n_exposures = N`. */
  lemma FixedTargetScan(asWritten: bool, axes: seq<Axis>, info: ChipInfo, pp: PumpProbe, chipmap: Option<seq<int>>,
                        slow: string, fast: string, i: nat, j: nat, c: Chip, blocks: BlockMap, n: int)
    requires slow != fast && i < |axes| && j < |axes| && axes[i].name == slow && axes[j].name == fast
    requires ChipOf(info) == Ok(c)
    requires ReadChipMapBy(asWritten, chipmap, c.numBlocks.0, c.numBlocks.1) == Ok(blocks) && blocks != Blocks([])
    requires Field(info, "N_EXPOSURES").Ok? && IntOf(Field(info, "N_EXPOSURES").value) == Ok(n)
    requires Field(info, "PUMP_REPEAT").Ok?
    ensures var r := RunFixedTarget(asWritten, axes, info, pp, chipmap, [slow, fast]);
            var g := Grids(c, StartsOf(c, blocks));
            var k := if n > 1 then n else 1;
            && r.Ok?
            && r.value.axes == StopRotations(axes)
            && r.value.scan == [(slow, RepeatEach(g.0, k)), (fast, RepeatEach(g.1, k))]
            && r.value.pumpInfo == ModelDump(pp) + [("n_exposures", Count(n))]
  {
    MatchCountOfTwo(axes, [slow, fast], i, j);
    assert |info| > 0;
    var starts := StartsOf(c, blocks);
    var g := Grids(c, starts);
    ScanBlocksConcatenates(c, (slow, fast), starts, [], []);
    assert [] + g.0 == g.0 && [] + g.1 == g.1;
    PutSecond(slow, fast);
    var scan := [(slow, g.0), (fast, g.1)];
    assert ScanBlocks(c, (slow, fast), starts, [(slow, []), (fast, [])]) == Ok(scan);
    DumpLacks(pp);
    FixedTargetOk(asWritten, axes, info, pp, chipmap, slow, fast, c, blocks, scan, n);
    if n > 1 {
      RepeatPair(slow, fast, g.0, g.1, n);
    } else {
      RepeatEachOnce(g.0);
      RepeatEachOnce(g.1);
    }
  }

  lemma PutSecond(slow: string, fast: string)
    requires slow != fast
    ensures Put<string, seq<real>>([(slow, [])], fast, []) == [(slow, []), (fast, [])]
  {
    var d: Dict<string, seq<real>> := [(slow, [])];
    assert Keys(d) == [slow];
    assert !HasKey(d, fast);
  }

  lemma DumpLacks(pp: PumpProbe)
    ensures !HasKey(ModelDump(pp), "n_exposures") && !HasKey(ModelDump(pp), "repeat")
  {
  }

  lemma RepeatPair(slow: string, fast: string, a: seq<real>, b: seq<real>, n: nat)
    ensures RepeatAll([(slow, a), (fast, b)], n) == [(slow, RepeatEach(a, n)), (fast, RepeatEach(b, n))]
  {
  }

  /** Both axes of a fixed-target scan have one point per window of every
      scanned block, times the exposure count when it is above 1. */
  lemma FixedTargetScanLength(asWritten: bool, axes: seq<Axis>, info: ChipInfo, pp: PumpProbe, chipmap: Option<seq<int>>,
                              slow: string, fast: string, i: nat, j: nat, c: Chip, blocks: BlockMap, n: int)
    requires slow != fast && i < |axes| && j < |axes| && axes[i].name == slow && axes[j].name == fast
    requires ChipOf(info) == Ok(c) && c.numSteps.0 >= 0 && c.numSteps.1 >= 0
    requires ReadChipMapBy(asWritten, chipmap, c.numBlocks.0, c.numBlocks.1) == Ok(blocks) && blocks != Blocks([])
    requires Field(info, "N_EXPOSURES").Ok? && IntOf(Field(info, "N_EXPOSURES").value) == Ok(n)
    requires Field(info, "PUMP_REPEAT").Ok?
    ensures var r := RunFixedTarget(asWritten, axes, info, pp, chipmap, [slow, fast]);
            var size := |StartsOf(c, blocks)| * TotWindowsPerBlock(c) * (if n > 1 then n else 1);
            && r.Ok? && |r.value.scan| == 2
            && |r.value.scan[0].1| == size && |r.value.scan[1].1| == size
  {
    FixedTargetScan(asWritten, axes, info, pp, chipmap, slow, fast, i, j, c, blocks, n);
    var g := Grids(c, StartsOf(c, blocks));
    var k := if n > 1 then n else 1;
    GridsLength(c, StartsOf(c, blocks));
    RepeatEachClosedForm(g.0, k);
    RepeatEachClosedForm(g.1, k);
  }

  /** The chip of the experiment's own examples: 2 x 2 blocks of 20 x 20
      windows. One block gives 400 points per axis, the full chip 1600,
      doubled with two exposures per window. */
  lemma FixedTargetExampleCounts(asWritten: bool, axes: seq<Axis>, info: ChipInfo, pp: PumpProbe,
                                 slow: string, fast: string, i: nat, j: nat, c: Chip, n: int)
    requires slow != fast && i < |axes| && j < |axes| && axes[i].name == slow && axes[j].name == fast
    requires ChipOf(info) == Ok(c) && c.numSteps == (20, 20) && c.numBlocks == (2, 2)
    requires Field(info, "N_EXPOSURES").Ok? && IntOf(Field(info, "N_EXPOSURES").value) == Ok(n)
    requires n == 1 || n == 2
    requires Field(info, "PUMP_REPEAT").Ok?
    ensures var r := RunFixedTarget(asWritten, axes, info, pp, Some([1]), [slow, fast]);
            r.Ok? && |r.value.scan| == 2 && |r.value.scan[0].1| == |r.value.scan[1].1| == 400 * n
    ensures var r := RunFixedTarget(asWritten, axes, info, pp, Some([1, 2, 3, 4]), [slow, fast]);
            r.Ok? && |r.value.scan| == 2 && |r.value.scan[0].1| == |r.value.scan[1].1| == 1600 * n
  {
    ChipMapBlockCount(c, [1]);
    ReadChipMapSquare(Some([1]), 2);
    var one := ReadChipMap(Some([1]), 2, 2).value;
    FixedTargetScanLength(asWritten, axes, info, pp, Some([1]), slow, fast, i, j, c, one, n);
    FullChipBlockCount(c);
    FixedTargetScanLength(asWritten, axes, info, pp, Some([1, 2, 3, 4]), slow, fast, i, j, c, FullChip, n);
  }

  /** On a chip two columns wide and three blocks high, the chip map `[3]`
      scans, as written, the block decoded at (1,1), in the middle of the
      second column; with the column length it scans the block at (0,2),
      where the conversion table puts block 3. */
  lemma FixedTargetAsWrittenMisplacesBlock(axes: seq<Axis>, info: ChipInfo, pp: PumpProbe,
                                           slow: string, fast: string, i: nat, j: nat, c: Chip, n: int)
    requires slow != fast && i < |axes| && j < |axes| && axes[i].name == slow && axes[j].name == fast
    requires ChipOf(info) == Ok(c) && c.numBlocks == (2, 3)
    requires Field(info, "N_EXPOSURES").Ok? && IntOf(Field(info, "N_EXPOSURES").value) == Ok(n)
    requires Field(info, "PUMP_REPEAT").Ok?
    ensures |ConversionTable(c)| == 6 && ConversionTable(c)[2] == ("03", (0, 2))
    ensures var r := RunFixedTarget(true, axes, info, pp, Some([3]), [slow, fast]);
            var g := Grids(c, StartsOf(c, Blocks([("03", (1, 1))])));
            var k := if n > 1 then n else 1;
            r.Ok? && r.value.scan == [(slow, RepeatEach(g.0, k)), (fast, RepeatEach(g.1, k))]
    ensures var r := RunFixedTarget(false, axes, info, pp, Some([3]), [slow, fast]);
            var g := Grids(c, StartsOf(c, Blocks([("03", (0, 2))])));
            var k := if n > 1 then n else 1;
            r.Ok? && r.value.scan == [(slow, RepeatEach(g.0, k)), (fast, RepeatEach(g.1, k))]
  {
    ReadChipMapAsWrittenMisplacesBlock(c);
    FixedTargetScan(true, axes, info, pp, Some([3]), slow, fast, i, j, c, Blocks([("03", (1, 1))]), n);
    FixedTargetScan(false, axes, info, pp, Some([3]), slow, fast, i, j, c, Blocks([("03", (0, 2))]), n);
  }

  // --------------------------------------------------------- 3D grid scan

  datatype GridRun = GridRun(osc: Option<Scan>, transl: Option<Scan>, pumpInfo: PumpInfo)

  /** `run_3D_grid_scan`: no scan yet, and the pump information with the
      pump repeat mode and exposure count read from the chip dictionary. */
  function Run3DGridScan(axes: seq<Axis>, info: ChipInfo, pp: PumpProbe, chipmap: Option<seq<int>>, oscAxis: string): (r: Result<GridRun>)
    ensures r.Ok? ==> r.value.osc.None? && r.value.transl.None?
    ensures Field(info, "N_EXPOSURES").Err? ==> r.Err?
    ensures Field(info, "PUMP_REPEAT").Err? ==> r.Err?
  {
    var nField :- Field(info, "N_EXPOSURES");
    var n :- IntOf(nField);
    var repeatField :- Field(info, "PUMP_REPEAT");
    var repeat :- IntOf(repeatField);
    Ok(GridRun(None, None, Put(Put(ModelDump(pp), "repeat", Count(repeat)), "n_exposures", Count(n))))
  }

  /** The 3D grid scan adds the repeat mode and then the exposure count
      after the pump fields. */
  lemma GridRunPumpInfo(axes: seq<Axis>, info: ChipInfo, pp: PumpProbe, chipmap: Option<seq<int>>, oscAxis: string)
    requires Run3DGridScan(axes, info, pp, chipmap, oscAxis).Ok?
    ensures var p := Run3DGridScan(axes, info, pp, chipmap, oscAxis).value.pumpInfo;
            && |p| == 6 && p[..4] == ModelDump(pp)
            && p[4] == ("repeat", Count(IntOf(Field(info, "PUMP_REPEAT").value).value))
            && p[5] == ("n_exposures", Count(IntOf(Field(info, "N_EXPOSURES").value).value))
  {
    var d := ModelDump(pp);
    DumpLacks(pp);
    var rep := ("repeat", Count(IntOf(Field(info, "PUMP_REPEAT").value).value));
    var exp := ("n_exposures", Count(IntOf(Field(info, "N_EXPOSURES").value).value));
    assert Put(d, rep.0, rep.1) == d + [rep];
    assert Keys(d + [rep]) == Keys(d) + ["repeat"];
    assert !HasKey(d + [rep], "n_exposures");
    assert Put(d + [rep], exp.0, exp.1) == d + [rep] + [exp];
  }

  /** The 3D grid scan and the fixed-target run on the same chip
      dictionary record the same exposure count. */
  lemma SameExposureCount(asWritten: bool, axes: seq<Axis>, info: ChipInfo, pp: PumpProbe, chipmap: Option<seq<int>>, oscAxis: string,
                          scanAxes: seq<string>)
    requires Run3DGridScan(axes, info, pp, chipmap, oscAxis).Ok?
    requires RunFixedTarget(asWritten, axes, info, pp, chipmap, scanAxes).Ok?
    ensures Get(RunFixedTarget(asWritten, axes, info, pp, chipmap, scanAxes).value.pumpInfo, "n_exposures")
         == Get(Run3DGridScan(axes, info, pp, chipmap, oscAxis).value.pumpInfo, "n_exposures")
         == Some(Count(IntOf(Field(info, "N_EXPOSURES").value).value))
  {
    GridRunPumpInfo(axes, info, pp, chipmap, oscAxis);
    DumpLacks(pp);
    var d := ModelDump(pp);
    var p := Run3DGridScan(axes, info, pp, chipmap, oscAxis).value.pumpInfo;
    var n := IntOf(Field(info, "N_EXPOSURES").value).value;
    assert p == (d + [p[4]]) + [("n_exposures", Count(n))];
    assert Keys(d + [p[4]]) == Keys(d) + ["repeat"];
    GetAppended(d + [p[4]], "n_exposures", Count(n));
    GetAppended(d, "n_exposures", Count(n));
  }
}

=== FILE: text.dfy ===
/** String, number-formatting and dictionary helpers standing in for the
    Python built-ins the modelled code uses (`in`, `str.lower`,
    `str.replace`, `str.split`, `"%0Nd" %`, `round` and insertion-ordered
    `dict`). Only ASCII case mapping is modelled. */
module Text {
  import opened Wrappers

  // ---------------------------------------------------------------- strings

  predicate StartsWith(s: string, p: string) {
    |p| <= |s| && s[..|p|] == p
  }

  predicate EndsWith(s: string, p: string) {
    |p| <= |s| && s[|s| - |p|..] == p
  }

  /** Python's `sub in s`. */
  predicate Contains(s: string, sub: string)
    decreases |s|
  {
    StartsWith(s, sub) || (|s| > 0 && Contains(s[1..], sub))
  }

  lemma {:induction false} ContainsLength(s: string, sub: string)
    requires Contains(s, sub)
    ensures |sub| <= |s|
    decreases |s|
  {
    if !StartsWith(s, sub) {
      ContainsLength(s[1..], sub);
    }
  }

  /** Every character of a contained string occurs in the container. */
  lemma {:induction false} ContainsChars(s: string, sub: string, k: nat)
    requires Contains(s, sub) && k < |sub|
    ensures sub[k] in s
    decreases |s|
  {
    if StartsWith(s, sub) {
      assert s[k] == sub[k];
    } else {
      ContainsChars(s[1..], sub, k);
    }
  }

  /** An occurrence in `b` is still an occurrence in `a + b`. */
  lemma {:induction false} ContainsAppendLeft(a: string, b: string, sub: string)
    requires Contains(b, sub)
    ensures Contains(a + b, sub)
    decreases |a|
  {
    if |a| > 0 {
      ContainsAppendLeft(a[1..], b, sub);
      assert (a + b)[1..] == a[1..] + b;
    } else {
      assert a + b == b;
    }
  }

  /** An occurrence in `a` is still an occurrence in `a + b`. */
  lemma {:induction false} ContainsAppendRight(a: string, b: string, sub: string)
    requires Contains(a, sub)
    ensures Contains(a + b, sub)
    decreases |a|
  {
    ContainsLength(a, sub);
    if StartsWith(a, sub) {
      assert (a + b)[..|sub|] == a[..|sub|];
    } else {
      ContainsAppendRight(a[1..], b, sub);
      assert (a + b)[1..] == a[1..] + b;
    }
  }

  function LowerChar(c: char): char {
    if 'A' <= c <= 'Z' then (c as int + 32) as char else c
  }

  function UpperChar(c: char): char {
    if 'a' <= c <= 'z' then (c as int - 32) as char else c
  }

  /** `str.lower()` on the ASCII range. */
  function Lower(s: string): (r: string)
    ensures |r| == |s|
    ensures forall i :: 0 <= i < |s| ==> r[i] == LowerChar(s[i])
  {
    if |s| == 0 then "" else [LowerChar(s[0])] + Lower(s[1..])
  }

  lemma LowerIdempotent(s: string)
    ensures Lower(Lower(s)) == Lower(s)
  {
    assert forall i :: 0 <= i < |s| ==> LowerChar(LowerChar(s[i])) == LowerChar(s[i]);
  }

  /** `str.upper()` on the ASCII range. */
  function Upper(s: string): (r: string)
    ensures |r| == |s|
    ensures forall i :: 0 <= i < |s| ==> r[i] == UpperChar(s[i])
  {
    if |s| == 0 then "" else [UpperChar(s[0])] + Upper(s[1..])
  }

  /** `s.replace(pat, rep)`: every non-overlapping occurrence of `pat`,
      scanning left to right, is replaced. */
  function ReplaceAll(s: string, pat: string, rep: string): string
    requires |pat| > 0
    decreases |s|
  {
    if |s| < |pat| then s
    else if StartsWith(s, pat) then rep + ReplaceAll(s[|pat|..], pat, rep)
    else [s[0]] + ReplaceAll(s[1..], pat, rep)
  }

  /** Replacing a pattern that occurs leaves the replacement in the result. */
  lemma {:induction false} ReplaceAllInserts(s: string, pat: string, rep: string)
    requires |pat| > 0 && Contains(s, pat)
    ensures Contains(ReplaceAll(s, pat, rep), rep)
    decreases |s|
  {
    ContainsLength(s, pat);
    if StartsWith(s, pat) {
      assert StartsWith(rep + ReplaceAll(s[|pat|..], pat, rep), rep);
    } else {
      ReplaceAllInserts(s[1..], pat, rep);
      ContainsAppendLeft([s[0]], ReplaceAll(s[1..], pat, rep), rep);
    }
  }

  /** Replacing a pattern that does not occur changes nothing. */
  lemma {:induction false} ReplaceAllAbsent(s: string, pat: string, rep: string)
    requires |pat| > 0 && !Contains(s, pat)
    ensures ReplaceAll(s, pat, rep) == s
    decreases |s|
  {
    if |s| >= |pat| {
      ReplaceAllAbsent(s[1..], pat, rep);
    }
  }

  /** A pattern appended to text without its first character is the only
      occurrence replaced. */
  lemma {:induction false} ReplaceAllTail(a: string, pat: string, rep: string)
    requires |pat| > 0 && pat[0] !in a
    ensures ReplaceAll(a + pat, pat, rep) == a + rep
    decreases |a|
  {
    if |a| == 0 {
      assert a + pat == pat;
      assert ReplaceAll(pat[|pat|..], pat, rep) == [];
    } else {
      assert (a + pat)[0] == a[0] != pat[0];
      assert (a + pat)[1..] == a[1..] + pat;
      ReplaceAllTail(a[1..], pat, rep);
      assert [a[0]] + (a[1..] + rep) == a + rep;
    }
  }

  /** `s.split(sep)` for a one-character separator. */
  function Split(s: string, sep: char): (r: seq<string>)
    ensures |r| >= 1
    decreases |s|
  {
    if |s| == 0 then [""]
    else
      var rest := Split(s[1..], sep);
      if s[0] == sep then [""] + rest
      else [[s[0]] + rest[0]] + rest[1..]
  }

  /** No part of a split holds the separator. */
  lemma {:induction false} SplitPartsFree(s: string, sep: char)
    ensures forall i :: 0 <= i < |Split(s, sep)| ==> sep !in Split(s, sep)[i]
    decreases |s|
  {
    if |s| > 0 {
      SplitPartsFree(s[1..], sep);
      var rest := Split(s[1..], sep);
      if s[0] != sep {
        assert sep !in [s[0]] + rest[0];
        var r := Split(s, sep);
        assert forall i :: 1 <= i < |r| ==> r[i] == rest[i];
      }
    }
  }

  /** A string holding the separator splits into at least two parts. */
  lemma {:induction false} SplitMany(s: string, sep: char)
    requires sep in s
    ensures |Split(s, sep)| >= 2
    decreases |s|
  {
    if s[0] != sep {
      SplitMany(s[1..], sep);
    }
  }

  /** A string without the separator is its own single part. */
  lemma {:induction false} SplitFree(s: string, sep: char)
    requires sep !in s
    ensures Split(s, sep) == [s]
    decreases |s|
  {
    if |s| > 0 {
      SplitFree(s[1..], sep);
      assert [s[0]] + s[1..] == s;
    }
  }

  /** One separator between two free parts splits into those parts. */
  lemma {:induction false} SplitAround(a: string, b: string, sep: char)
    requires sep !in a && sep !in b
    ensures Split(a + [sep] + b, sep) == [a, b]
    decreases |a|
  {
    var s := a + [sep] + b;
    if |a| == 0 {
      assert s[1..] == b;
      SplitFree(b, sep);
    } else {
      assert s[1..] == a[1..] + [sep] + b;
      SplitAround(a[1..], b, sep);
      assert [a[0]] + a[1..] == a;
    }
  }

  /** A free first part followed by the separator is split off whole. */
  lemma {:induction false} SplitFirst(a: string, rest: string, sep: char)
    requires sep !in a
    ensures Split(a + [sep] + rest, sep) == [a] + Split(rest, sep)
    decreases |a|
  {
    var s := a + [sep] + rest;
    if |a| == 0 {
      assert s[1..] == rest;
    } else {
      assert s[1..] == a[1..] + [sep] + rest;
      SplitFirst(a[1..], rest, sep);
      assert [a[0]] + a[1..] == a;
    }
  }

  /** The part after the last `sep`, i.e. `s.split(sep)[-1]`. */
  function LastSegment(s: string, sep: char): string {
    var parts := Split(s, sep);
    parts[|parts| - 1]
  }

  /** Without a separator the split is the whole string. */
  lemma {:induction false} SplitSingle(s: string, sep: char)
    requires |Split(s, sep)| == 1
    ensures Split(s, sep)[0] == s
    decreases |s|
  {
    if |s| > 0 {
      SplitSingle(s[1..], sep);
      assert [s[0]] + s[1..] == s;
    }
  }

  /** The last segment is a suffix of the string. */
  lemma {:induction false} LastSegmentIsSuffix(s: string, sep: char)
    ensures EndsWith(s, LastSegment(s, sep))
    decreases |s|
  {
    if |s| > 0 {
      var rest := Split(s[1..], sep);
      LastSegmentIsSuffix(s[1..], sep);
      if s[0] != sep && |rest| == 1 {
        SplitSingle(s[1..], sep);
        assert [s[0]] + s[1..] == s;
      } else {
        assert LastSegment(s, sep) == rest[|rest| - 1];
        assert s[1..][|s[1..]| - |LastSegment(s, sep)|..] == s[|s| - |LastSegment(s, sep)|..];
      }
    }
  }

  /** A suffix is an occurrence. */
  lemma {:induction false} EndsWithContains(s: string, p: string)
    requires EndsWith(s, p)
    ensures Contains(s, p)
    decreases |s|
  {
    if |s| > |p| {
      assert s[1..][|s[1..]| - |p|..] == s[|s| - |p|..];
      EndsWithContains(s[1..], p);
    } else {
      assert s[..|p|] == s;
    }
  }

  // ---------------------------------------------------------- number format

  function DigitChar(d: nat): char
    requires d < 10
  {
    "0123456789"[d]
  }

  /** `str(n)` for a natural number. */
  function NatToString(n: nat): (r: string)
    ensures |r| >= 1
    decreases n
  {
    if n < 10 then [DigitChar(n)] else NatToString(n / 10) + [DigitChar(n % 10)]
  }

  /** `str(i)` for any integer. */
  function IntToString(i: int): string {
    if i < 0 then "-" + NatToString(-i) else NatToString(i)
  }

  function Repeat<T>(x: T, n: nat): (r: seq<T>)
    ensures |r| == n
    ensures forall i :: 0 <= i < n ==> r[i] == x
  {
    if n == 0 then [] else [x] + Repeat(x, n - 1)
  }

  /** `"%0<width>d" % n` for a natural number: zero-padded to at least
      `width` characters. */
  function ZeroPad(n: nat, width: nat): (r: string)
    ensures |r| >= width
  {
    var digits := NatToString(n);
    if |digits| >= width then digits else Repeat('0', width - |digits|) + digits
  }

  /** The value of a decimal digit character. */
  function DigitValue(c: char): int {
    c as int - '0' as int
  }

  /** `int(s)` for a string of decimal digits, read most significant
      digit first. */
  function DecimalValue(s: string): int {
    if |s| == 0 then 0 else DecimalValue(s[..|s| - 1]) * 10 + DigitValue(s[|s| - 1])
  }

  lemma DigitCharValue(d: nat)
    requires d < 10
    ensures DigitValue(DigitChar(d)) == d
  {
    assert "0123456789"[d] as int == '0' as int + d by {
      if d == 0 {} else if d == 1 {} else if d == 2 {} else if d == 3 {} else if d == 4 {}
      else if d == 5 {} else if d == 6 {} else if d == 7 {} else if d == 8 {} else {}
    }
  }

  /** Reading back `str(n)` gives `n`. */
  lemma {:induction false} NatToStringRoundTrip(n: nat)
    ensures DecimalValue(NatToString(n)) == n
    decreases n
  {
    var s := NatToString(n);
    DigitCharValue(n % 10);
    if n < 10 {
      assert s[..0] == [];
    } else {
      NatToStringRoundTrip(n / 10);
      assert s[..|s| - 1] == NatToString(n / 10);
    }
  }

  /** Leading zeros do not change the value read. */
  lemma {:induction false} LeadingZerosIgnored(k: nat, s: string)
    ensures DecimalValue(Repeat('0', k) + s) == DecimalValue(s)
    decreases |s|, k
  {
    var z := Repeat('0', k);
    if |s| == 0 {
      assert z + s == z;
      if k > 0 {
        assert z[..k - 1] == Repeat('0', k - 1) + [];
        LeadingZerosIgnored(k - 1, []);
      }
    } else {
      assert (z + s)[..|z + s| - 1] == z + s[..|s| - 1];
      LeadingZerosIgnored(k, s[..|s| - 1]);
    }
  }

  /** Reading back `"%0<width>d" % n` gives `n`, so distinct numbers get
      distinct padded strings. */
  lemma ZeroPadRoundTrip(n: nat, width: nat)
    ensures DecimalValue(ZeroPad(n, width)) == n
  {
    NatToStringRoundTrip(n);
    var digits := NatToString(n);
    if |digits| < width {
      LeadingZerosIgnored(width - |digits|, digits);
    }
  }

  // ------------------------------------------------------------- rounding

  /** Python's `round(x)`: nearest integer, ties to the even one. */
  function RoundHalfEven(x: real): (r: int)
    ensures x - 1.0 / 2.0 <= r as real <= x + 1.0 / 2.0
  {
    var f := x.Floor;
    var frac := x - f as real;
    if frac < 1.0 / 2.0 then f
    else if frac > 1.0 / 2.0 then f + 1
    else if f % 2 == 0 then f
    else f + 1
  }

  /** `round(x, 3)` computed exactly on reals. */
  function Round3(x: real): real {
    RoundHalfEven(x * 1000.0) as real / 1000.0
  }

  // ---------------------------------------------------------- dictionaries

  /** An insertion-ordered Python `dict`, as an association list. */
  type Dict<K, V> = seq<(K, V)>

  function Keys<K, V>(d: Dict<K, V>): (r: seq<K>)
    ensures |r| == |d|
    ensures forall i :: 0 <= i < |d| ==> r[i] == d[i].0
  {
    if |d| == 0 then [] else [d[0].0] + Keys(d[1..])
  }

  function Values<K, V>(d: Dict<K, V>): (r: seq<V>)
    ensures |r| == |d|
    ensures forall i :: 0 <= i < |d| ==> r[i] == d[i].1
  {
    if |d| == 0 then [] else [d[0].1] + Values(d[1..])
  }

  predicate HasKey<K(==), V>(d: Dict<K, V>, k: K) {
    k in Keys(d)
  }

  /** `d.get(k)`: the value of the first entry with key `k`. */
  function Get<K(==), V>(d: Dict<K, V>, k: K): (r: Option<V>)
    ensures r.None? <==> !HasKey(d, k)
    ensures r.Some? ==> (k, r.value) in d
  {
    if |d| == 0 then None
    else if d[0].0 == k then Some(d[0].1)
    else Get(d[1..], k)
  }

  /** `d[k]`: the value of key `k`, or `KeyError` when it is missing. */
  function Lookup<K(==), V>(d: Dict<K, V>, k: K): (r: Result<V>)
    ensures r.Ok? <==> HasKey(d, k)
    ensures r.Ok? ==> Get(d, k) == Some(r.value)
    ensures r.Err? ==> r == Err(KeyError)
  {
    match Get(d, k)
    case None => Err(KeyError)
    case Some(v) => Ok(v)
  }

  /** `d[k] = v`: replaces the value in place when `k` is present,
      otherwise appends a new last entry. */
  function Put<K(==), V>(d: Dict<K, V>, k: K, v: V): (r: Dict<K, V>)
    ensures HasKey(d, k) ==> |r| == |d| && Keys(r) == Keys(d)
    ensures !HasKey(d, k) ==> r == d + [(k, v)]
  {
    if |d| == 0 then [(k, v)]
    else if d[0].0 == k then [(k, v)] + d[1..]
    else [d[0]] + Put(d[1..], k, v)
  }

  /** `d.pop(k, None)`: every entry with key `k` is dropped. */
  function Remove<K(==,!new), V(!new)>(d: Dict<K, V>, k: K): (r: Dict<K, V>)
    ensures !HasKey(r, k)
    ensures forall e :: e in r <==> e in d && e.0 != k
  {
    if |d| == 0 then []
    else if d[0].0 == k then Remove(d[1..], k)
    else [d[0]] + Remove(d[1..], k)
  }

  /** Entries whose key satisfies `keep`, in order. */
  function FilterKeys<V(!new)>(d: Dict<string, V>, keep: string -> bool): (r: Dict<string, V>)
    ensures forall e :: e in r <==> e in d && keep(e.0)
  {
    if |d| == 0 then []
    else if keep(d[0].0) then [d[0]] + FilterKeys(d[1..], keep)
    else FilterKeys(d[1..], keep)
  }

  /** A dict filled by assigning `pairs` in order: a repeated key keeps
      its first position and takes its last value. */
  function DictOf<K(==), V>(pairs: seq<(K, V)>): (r: Dict<K, V>)
    ensures |r| <= |pairs|
  {
    if |pairs| == 0 then []
    else Put(DictOf(pairs[..|pairs| - 1]), pairs[|pairs| - 1].0, pairs[|pairs| - 1].1)
  }

  /** The dict pairing each key with the value at the same place. */
  function Zip<K, V>(keys: seq<K>, values: seq<V>): (r: Dict<K, V>)
    requires |keys| == |values|
    ensures |r| == |keys| && Keys(r) == keys
    ensures forall i :: 0 <= i < |r| ==> r[i] == (keys[i], values[i])
  {
    seq(|keys|, i requires 0 <= i < |keys| => (keys[i], values[i]))
  }

  /** Zipping keeps the values, in order. */
  lemma ZipValues<K, V>(keys: seq<K>, values: seq<V>)
    requires |keys| == |values|
    ensures Values(Zip(keys, values)) == values
  {
  }

  lemma KeysAppend<K, V>(a: Dict<K, V>, b: Dict<K, V>)
    ensures Keys(a + b) == Keys(a) + Keys(b)
  {
  }

  /** A key of a concatenation is a key of one of its parts. */
  lemma HasKeyAppend<K, V>(a: Dict<K, V>, b: Dict<K, V>, k: K)
    ensures HasKey(a + b, k) <==> HasKey(a, k) || HasKey(b, k)
  {
    KeysAppend(a, b);
  }

  predicate DistinctKeys<K(==), V>(pairs: seq<(K, V)>) {
    forall i, j :: 0 <= i < j < |pairs| ==> pairs[i].0 != pairs[j].0
  }

  /** Assigning pairs whose keys are all different keeps every pair, in
      order. */
  lemma {:induction false} DictOfDistinct<K, V>(pairs: seq<(K, V)>)
    requires DistinctKeys(pairs)
    ensures DictOf(pairs) == pairs
  {
    if |pairs| > 0 {
      var prefix := pairs[..|pairs| - 1];
      DictOfDistinct(prefix);
      var last := pairs[|pairs| - 1];
      assert !HasKey(prefix, last.0);
      assert prefix + [last] == pairs;
    }
  }

  /** In a dict without repeated keys, looking up an entry's key finds
      that entry's value. */
  lemma {:induction false} GetDistinct<K, V>(d: Dict<K, V>, i: nat)
    requires DistinctKeys(d) && i < |d|
    ensures Get(d, d[i].0) == Some(d[i].1)
  {
    if i > 0 {
      assert DistinctKeys(d[1..]) by {
        forall a, b | 0 <= a < b < |d[1..]| ensures d[1..][a].0 != d[1..][b].0 {
          assert d[a + 1].0 != d[b + 1].0;
        }
      }
      GetDistinct(d[1..], i - 1);
      assert d[0].0 != d[i].0;
    }
  }

  /** A key assigned last, when it was absent before, is found with the
      value assigned. */
  lemma {:induction false} GetAppended<K, V>(d: Dict<K, V>, k: K, v: V)
    requires !HasKey(d, k)
    ensures Get(d + [(k, v)], k) == Some(v)
  {
    if |d| > 0 {
      assert (d + [(k, v)])[1..] == d[1..] + [(k, v)];
      assert Keys(d) == [d[0].0] + Keys(d[1..]);
      GetAppended(d[1..], k, v);
    }
  }

  /** Assigning a new last key leaves the lookup of every other key as it
      was. */
  lemma {:induction false} GetKeepsEarlier<K, V>(d: Dict<K, V>, k: K, v: V, other: K)
    requires other != k
    ensures Get(d + [(k, v)], other) == Get(d, other)
  {
    if |d| > 0 {
      assert (d + [(k, v)])[1..] == d[1..] + [(k, v)];
      GetKeepsEarlier(d[1..], k, v, other);
    }
  }

  /** `d[k] = v` then `d[k]` gives `v`. */
  lemma {:induction false} GetPut<K, V>(d: Dict<K, V>, k: K, v: V)
    ensures Get(Put(d, k, v), k) == Some(v)
  {
    if |d| > 0 && d[0].0 != k {
      GetPut(d[1..], k, v);
    }
  }

  /** `d[k] = v` leaves every other key's lookup as it was. */
  lemma {:induction false} GetPutOther<K, V>(d: Dict<K, V>, k: K, v: V, other: K)
    requires other != k
    ensures Get(Put(d, k, v), other) == Get(d, other)
  {
    if |d| > 0 && d[0].0 != k {
      GetPutOther(d[1..], k, v, other);
    }
  }

  /** The sequence in the opposite order. */
  function Reverse<T>(s: seq<T>): (r: seq<T>)
    ensures |r| == |s|
    ensures forall i :: 0 <= i < |s| ==> r[i] == s[|s| - 1 - i]
  {
    if |s| == 0 then [] else Reverse(s[1..]) + [s[0]]
  }

  // ---------------------------------------------------------------- numbers

  /** Python's `int()` of a float: truncation toward zero. */
  function Trunc(x: real): (r: int)
    ensures x >= 0.0 ==> r >= 0 && r as real <= x < r as real + 1.0
    ensures x < 0.0 ==> r <= 0 && r as real - 1.0 < x <= r as real
  {
    if x >= 0.0 then x.Floor else -((-x).Floor)
  }

  lemma MulMonotone(a: int, b: int, c: nat)
    requires a <= b
    ensures a * c <= b * c
  {
    assert b * c - a * c == (b - a) * c;
  }
}

=== FILE: utils.dfy ===
/** File-name derivation, coordinate-frame conversion and small lookups of
    `nexgen/utils.py`. */
module Utils {
  import opened Wrappers
  import opened Text
  import opened Paths

  /** Most frames written to one data file (and one VDS source link). */
  const MaxFramesPerDataset: nat := 1000
  /** Width of the zero-padded file index in data file names. */
  const MaxSuffixDigits: nat := 6
  /** The `%06d` placeholder a file-name template carries. */
  const IndexPlaceholder: string := "%06d"

  datatype Point3D = Point3D(x: real, y: real, z: real)

  /** The unsigned integer pixel types a virtual dataset is declared with. */
  datatype DType = UInt8 | UInt16 | UInt32 {
    function Bits(): nat {
      match this
      case UInt8 => 8
      case UInt16 => 16
      case UInt32 => 32
    }
  }

  // ------------------------------------------------------- file templates

  /** The data-file template derived from a master, meta or NeXus file name,
      exactly as the code tests it: "master" and "meta" are looked for in the
      whole path, but replaced only in the stem. */
  function FilenameTemplateAsWritten(p: FilePath): (r: Result<string>)
    ensures Suffix(p.name) != ".nxs" && Suffix(p.name) != ".h5" ==> r == Err(NameError)
    ensures Suffix(p.name) == ".nxs" ==>
              r == Ok(Posix(Sibling(p, Stem(p.name) + "_" + IndexPlaceholder + ".h5")))
  {
    var stem := Stem(p.name);
    if Suffix(p.name) == ".nxs" then
      Ok(Posix(Sibling(p, stem + "_" + IndexPlaceholder + ".h5")))
    else if Suffix(p.name) == ".h5" && Contains(Posix(p), "master") then
      Ok(Posix(Sibling(p, ReplaceAll(stem, "master", IndexPlaceholder) + ".h5")))
    else if Suffix(p.name) == ".h5" && Contains(Posix(p), "meta") then
      Ok(Posix(Sibling(p, ReplaceAll(stem, "meta", IndexPlaceholder) + ".h5")))
    else
      Err(NameError)
  }

  /** When "master" is in the directory but not in the stem of a `.h5`
      file, the template is the input path itself: it has nothing to
      number the data files with. */
  lemma TemplateAsWrittenKeepsPath(p: FilePath)
    requires Suffix(p.name) == ".h5"
    requires Contains(Posix(p), "master") && !Contains(Stem(p.name), "master")
    ensures FilenameTemplateAsWritten(p) == Ok(Posix(p))
  {
    ReplaceAllAbsent(Stem(p.name), "master", IndexPlaceholder);
    StemSuffixSplit(p.name);
  }

  /** A concrete input meeting those conditions: a meta file in a
      directory called "master". */
  lemma MasterDirectoryMetaFile(p: FilePath)
    requires p == FilePath("/dls/master", "run_meta.h5")
    ensures Suffix(p.name) == ".h5" && Stem(p.name) == "run_meta"
    ensures Contains(Posix(p), "master") && !Contains(Stem(p.name), "master")
  {
    RunMetaName(p);
    RunMetaPath(p);
    NoMasterInRunMeta();
  }

  lemma RunMetaName(p: FilePath)
    requires p == FilePath("/dls/master", "run_meta.h5")
    ensures Suffix(p.name) == ".h5" && Stem(p.name) == "run_meta"
  {
    RFindIsLast(p.name, '.', 8);
  }

  lemma RunMetaPath(p: FilePath)
    requires p == FilePath("/dls/master", "run_meta.h5")
    ensures Contains(Posix(p), "master")
  {
    assert Posix(p) == "/dls/" + "master/run_meta.h5";
    assert StartsWith("master/run_meta.h5", "master");
    ContainsAppendLeft("/dls/", "master/run_meta.h5", "master");
  }

  lemma NoMasterInRunMeta()
    ensures !Contains("run_meta", "master")
  {
    var s := "run_meta";
    assert s[0] != 'm' && s[1..][0] != 'm' && s[1..][1..][0] != 'm';
    assert |s[1..][1..][1..]| < 6;
    if Contains(s[1..][1..][1..], "master") {
      ContainsLength(s[1..][1..][1..], "master");
    }
  }

  /** The template derivation with the words looked for in the stem, where
      they are replaced. */
  function FilenameTemplate(p: FilePath): (r: Result<string>)
    ensures r.Ok? <==> Suffix(p.name) == ".nxs"
                       || (Suffix(p.name) == ".h5"
                           && (Contains(Stem(p.name), "master") || Contains(Stem(p.name), "meta")))
    ensures r.Err? ==> r.error == NameError
  {
    var stem := Stem(p.name);
    if Suffix(p.name) == ".nxs" then
      Ok(Posix(Sibling(p, stem + "_" + IndexPlaceholder + ".h5")))
    else if Suffix(p.name) == ".h5" && Contains(stem, "master") then
      Ok(Posix(Sibling(p, ReplaceAll(stem, "master", IndexPlaceholder) + ".h5")))
    else if Suffix(p.name) == ".h5" && Contains(stem, "meta") then
      Ok(Posix(Sibling(p, ReplaceAll(stem, "meta", IndexPlaceholder) + ".h5")))
    else
      Err(NameError)
  }

  /** Every template the corrected derivation returns can be numbered. */
  lemma FilenameTemplateHasPlaceholder(p: FilePath)
    requires FilenameTemplate(p).Ok?
    ensures Contains(FilenameTemplate(p).value, IndexPlaceholder)
  {
    var stem := Stem(p.name);
    if Suffix(p.name) == ".nxs" {
      assert StartsWith(IndexPlaceholder + ".h5", IndexPlaceholder);
      ContainsAppendLeft(stem + "_", IndexPlaceholder + ".h5", IndexPlaceholder);
      assert stem + "_" + IndexPlaceholder + ".h5" == (stem + "_") + (IndexPlaceholder + ".h5");
      PlaceholderSurvivesPath(p, stem + "_" + IndexPlaceholder + ".h5");
    } else {
      var word := if Contains(stem, "master") then "master" else "meta";
      ReplaceAllInserts(stem, word, IndexPlaceholder);
      ContainsAppendRight(ReplaceAll(stem, word, IndexPlaceholder), ".h5", IndexPlaceholder);
      PlaceholderSurvivesPath(p, ReplaceAll(stem, word, IndexPlaceholder) + ".h5");
    }
  }

  lemma PlaceholderSurvivesPath(p: FilePath, name: string)
    requires Contains(name, IndexPlaceholder)
    ensures Contains(Posix(Sibling(p, name)), IndexPlaceholder)
  {
    if p.parent != "." {
      ContainsAppendLeft(p.parent + "/", name, IndexPlaceholder);
    }
  }

  // ------------------------------------------------------ NeXus file names

  predicate IsDigit(c: char) { '0' <= c <= '9' }

  /** What may follow the last underscore of a data, meta or master stem:
      the alternatives of the pattern `(.*)_(?:meta|master|\d+)`. */
  predicate IsRunTag(t: string) {
    t == "meta" || t == "master" || (|t| > 0 && forall i :: 0 <= i < |t| ==> IsDigit(t[i]))
  }

  /** Group 1 of the full match of that pattern, or the whole stem when it
      does not match. A tag never holds an underscore, so the greedy group
      ends at the last underscore. */
  function RootOfStem(stem: string): string {
    var i := RFind(stem, '_');
    if i >= 0 && IsRunTag(stem[i + 1..]) then stem[..i] else stem
  }

  /** `get_nexus_filename`: the NeXus file sits next to its input and is
      named after the root of the input's stem. */
  function NexusFilename(input: FilePath, copy: bool): (r: FilePath)
    ensures r.parent == input.parent
    ensures EndsWith(r.name, ".nxs")
    ensures copy ==> StartsWith(r.name, RootOfStem(Stem(input.name)) + "_copy")
    ensures !copy ==> StartsWith(r.name, RootOfStem(Stem(input.name)))
    ensures |r.name| == |RootOfStem(Stem(input.name))| + (if copy then 9 else 4)
  {
    var root := RootOfStem(Stem(input.name));
    var name := if copy then root + "_copy.nxs" else root + ".nxs";
    Sibling(input, name)
  }

  /** Stripping a tag inverts appending it: `run_meta`, `run_master` and
      `run_000001` all give back `run`. */
  lemma {:induction false} RootOfTaggedStem(root: string, tag: string)
    requires IsRunTag(tag)
    ensures RootOfStem(root + "_" + tag) == root
  {
    var s := root + "_" + tag;
    assert forall i :: 0 <= i < |tag| ==> tag[i] != '_' by {
      if tag != "meta" && tag != "master" {
        assert forall i :: 0 <= i < |tag| ==> IsDigit(tag[i]);
      }
    }
    assert s[|root|] == '_';
    assert forall i :: |root| < i < |s| ==> s[i] == tag[i - |root| - 1];
    RFindIsLast(s, '_', |root|);
    assert s[|root| + 1..] == tag;
    assert s[..|root|] == root;
  }

  /** `str(n)` is made of decimal digits. */
  lemma {:induction false} NatToStringDigits(n: nat)
    ensures forall i :: 0 <= i < |NatToString(n)| ==> IsDigit(NatToString(n)[i])
    decreases n
  {
    var d := n % 10;
    assert IsDigit(DigitChar(d)) by {
      assert "0123456789"[d] == DigitChar(d);
      assert forall k :: 0 <= k < 10 ==> IsDigit("0123456789"[k]);
    }
    if n >= 10 {
      NatToStringDigits(n / 10);
    }
  }

  /** A zero-padded file number is a run tag, so it is stripped again when
      the NeXus name of a data file is derived. */
  lemma ZeroPadIsRunTag(n: nat, width: nat)
    ensures forall i :: 0 <= i < |ZeroPad(n, width)| ==> IsDigit(ZeroPad(n, width)[i])
    ensures IsRunTag(ZeroPad(n, width))
  {
    NatToStringDigits(n);
  }

  /** A stem without any tag is kept whole. */
  lemma UntaggedStemKept(stem: string)
    requires forall i :: 0 <= i < |stem| ==> stem[i] != '_'
    ensures RootOfStem(stem) == stem
  {
  }

  // ---------------------------------------------------------- coordinates

  /** `imgcif2mcstas`: the imgCIF frame becomes McStas by reversing x and z. */
  function Imgcif2Mcstas(v: Point3D): (r: Point3D)
    ensures r.y == v.y
    ensures r.x + v.x == 0.0 && r.z + v.z == 0.0
  {
    Point3D(-v.x, v.y, -v.z)
  }

  /** A 3 by 3 matrix, by rows. */
  datatype Mat3 = Mat3(r0: Point3D, r1: Point3D, r2: Point3D)

  function Dot(a: Point3D, b: Point3D): real {
    a.x * b.x + a.y * b.y + a.z * b.z
  }

  /** `coord2mcstas`: the product `mat . v`. The identity matrix leaves
      every vector as it is, and each basis vector goes to the matching
      column of the matrix. */
  function Coord2Mcstas(v: Point3D, mat: Mat3): (r: Point3D)
    ensures mat == Identity ==> r == v
    ensures v == Point3D(1.0, 0.0, 0.0) ==> r == Point3D(mat.r0.x, mat.r1.x, mat.r2.x)
    ensures v == Point3D(0.0, 1.0, 0.0) ==> r == Point3D(mat.r0.y, mat.r1.y, mat.r2.y)
    ensures v == Point3D(0.0, 0.0, 1.0) ==> r == Point3D(mat.r0.z, mat.r1.z, mat.r2.z)
  {
    Point3D(Dot(mat.r0, v), Dot(mat.r1, v), Dot(mat.r2, v))
  }

  const Identity: Mat3 :=
    Mat3(Point3D(1.0, 0.0, 0.0), Point3D(0.0, 1.0, 0.0), Point3D(0.0, 0.0, 1.0))

  function Scale(a: real, v: Point3D): Point3D {
    Point3D(a * v.x, a * v.y, a * v.z)
  }

  function Plus(u: Point3D, v: Point3D): Point3D {
    Point3D(u.x + v.x, u.y + v.y, u.z + v.z)
  }

  /** The conversion is linear: it maps a combination of vectors to the
      same combination of their images. */
  lemma Coord2McstasLinear(a: real, u: Point3D, b: real, v: Point3D, mat: Mat3)
    ensures Coord2Mcstas(Plus(Scale(a, u), Scale(b, v)), mat)
            == Plus(Scale(a, Coord2Mcstas(u, mat)), Scale(b, Coord2Mcstas(v, mat)))
  {
    forall w: Point3D ensures Dot(w, Plus(Scale(a, u), Scale(b, v))) == a * Dot(w, u) + b * Dot(w, v) {
      DotLinear(a, u, b, v, w);
    }
  }

  lemma DotLinear(a: real, u: Point3D, b: real, v: Point3D, w: Point3D)
    ensures Dot(w, Plus(Scale(a, u), Scale(b, v))) == a * Dot(w, u) + b * Dot(w, v)
  {
    calc {
      Dot(w, Plus(Scale(a, u), Scale(b, v)));
      w.x * (a * u.x + b * v.x) + w.y * (a * u.y + b * v.y) + w.z * (a * u.z + b * v.z);
      a * (w.x * u.x + w.y * u.y + w.z * u.z) + b * (w.x * v.x + w.y * v.y + w.z * v.z);
    }
  }

  /** The fixed imgCIF-to-McStas matrix of `imgcif2mcstas`. */
  const ImgcifToMcstas: Mat3 :=
    Mat3(Point3D(-1.0, 0.0, 0.0), Point3D(0.0, 1.0, 0.0), Point3D(0.0, 0.0, -1.0))

  /** The imgCIF conversion is the general conversion with that matrix. */
  lemma Imgcif2McstasIsMatrixProduct(v: Point3D)
    ensures Imgcif2Mcstas(v) == Coord2Mcstas(v, ImgcifToMcstas)
  {
  }

  /** Converting twice returns the original vector. */
  lemma Imgcif2McstasInvolution(v: Point3D)
    ensures Imgcif2Mcstas(Imgcif2Mcstas(v)) == v
  {
  }

  // ---------------------------------------------------------------- lookup

  /** `find_in_dict`. */
  function FindInDict<V>(key: string, d: Dict<string, V>): (r: bool)
    ensures r <==> exists i :: 0 <= i < |d| && d[i].0 == key
  {
    assert forall i :: 0 <= i < |d| ==> Keys(d)[i] == d[i].0;
    key in Keys(d)
  }

  // ------------------------------------------------------------ timestamps

  /** What `get_iso_timestamp` may be handed. */
  datatype TimestampArg = NoTimestamp | FloatTimestamp(seconds: real) | StringTimestamp(text: string) | OtherTimestamp

  /** The guards of `get_iso_timestamp`. Calendar arithmetic is a parameter:
      `fromEpoch` formats seconds since the epoch, `parse` is the search over
      the accepted formats (None when no format validates). */
  function IsoTimestamp(ts: TimestampArg, fromEpoch: real -> string, parse: string -> Option<string>): (r: Result<Option<string>>)
    ensures ts.NoTimestamp? ==> r == Ok(None)
    ensures ts.OtherTimestamp? ==> r == Err(ValueError)
    ensures ts.StringTimestamp? ==> (r.Err? <==> parse(ts.text).None? || parse(ts.text).value == "")
    ensures r.Ok? && r.value.Some? ==> EndsWith(r.value.value, "Z")
  {
    match ts
    case NoTimestamp => Ok(None)
    case OtherTimestamp => Err(ValueError)
    case FloatTimestamp(t) => Ok(Some(WithZulu(fromEpoch(t))))
    case StringTimestamp(s) =>
      var parsed := parse(s);
      if parsed.None? || parsed.value == "" then Err(ValueError)
      else Ok(Some(WithZulu(parsed.value)))
  }

  function WithZulu(s: string): (r: string)
    ensures EndsWith(r, "Z")
  {
    if EndsWith(s, "Z") then s else s + "Z"
  }
}

=== FILE: vds.dfy ===
/** The virtual-dataset frame planner of `nexgen/tools/vds_tools.py`: how a
    run of frames `[start, start + frames)` of the collection is split across
    external data files of at most 1000 frames each, how the pieces are laid
    end to end in the virtual dataset, and which links are left unused. */
module Vds {
  import opened Wrappers
  import Utils

  /** Most frames one source link holds. */
  const MaxFrames: int := Utils.MaxFramesPerDataset

  /** A data shape `(frames, *image_size)`. */
  datatype Shape = Shape(frames: int, image: seq<int>)

  /** One source link: the frames `[startIndex, stopIndex)` of a file whose
      full shape is `source`. */
  datatype Dataset = Dataset(name: string, source: Shape, startIndex: int, stopIndex: int)

  function Min(a: int, b: int): int { if a <= b then a else b }
  function Max(a: int, b: int): int { if a >= b then a else b }

  // ------------------------------------------------------------- Dataset

  /** First dimension of `dest_shape`, as `__post_init__` computes it. */
  function DestFrames(d: Dataset): (r: int)
    ensures d.stopIndex <= d.source.frames ==> r == d.stopIndex - d.startIndex
    ensures d.stopIndex < MaxFrames ==> r == d.stopIndex - d.startIndex
    ensures d.stopIndex > d.source.frames && d.stopIndex >= MaxFrames ==> r == d.source.frames - d.startIndex
  {
    var whole := d.source.frames - d.startIndex;
    if d.stopIndex < MaxFrames || d.stopIndex < d.source.frames
    then whole - (d.source.frames - d.stopIndex)
    else whole
  }

  /** `dest_shape`: the trailing dimensions are those of the source. */
  function DestShape(d: Dataset): (r: Shape)
    ensures r.image == d.source.image
    ensures r.frames == DestFrames(d)
  {
    Shape(DestFrames(d), d.source.image)
  }

  /** `a + b`: the dataset that appends `b` to `a`. */
  function Add(a: Dataset, b: Dataset): (r: Dataset)
    ensures r.name == ""
    ensures r.source.image == a.source.image
  {
    Dataset("", Shape(a.source.frames + b.source.frames, a.source.image),
            a.startIndex + b.startIndex, a.stopIndex + b.stopIndex)
  }

  /** Appending two datasets that stop inside their sources adds their
      destination lengths. */
  lemma AddDestFrames(a: Dataset, b: Dataset)
    requires a.stopIndex <= a.source.frames && b.stopIndex <= b.source.frames
    ensures DestFrames(Add(a, b)) == DestFrames(a) + DestFrames(b)
    ensures Add(a, b).stopIndex <= Add(a, b).source.frames
  {
  }

  // ------------------------------------------------------ split_datasets

  /** The dataset `split_datasets` builds for the link at position `k`,
      after `k` passes of the loop have each taken 1000 off the start index
      and the frame count. */
  function LinkAt(name: string, k: nat, full: int, vdsFrames: int, start: int, image: seq<int>): (r: Dataset)
    ensures r.name == name && r.source.image == image
  {
    var endCut := full - vdsFrames - start;
    var fullK := full - MaxFrames * k;
    Dataset(name,
            Shape(Min(MaxFrames, fullK), image),
            Min(MaxFrames, Max(start - MaxFrames * k, 0)),
            Min(MaxFrames, fullK - endCut))
  }

  /** A link is used unless it starts at the very end of its file or stops
      before its beginning. */
  predicate Kept(d: Dataset) {
    d.startIndex != MaxFrames && d.stopIndex > 0 && d.stopIndex <= MaxFrames
  }

  /** The loop of `split_datasets` over `names`, the first being link `k`. */
  function Links(names: seq<string>, k: nat, full: int, vdsFrames: int, start: int, image: seq<int>): (r: seq<Dataset>)
    ensures |r| <= |names|
    ensures forall d :: d in r ==>
              Kept(d) && d.source.image == image && d.source.frames <= MaxFrames
              && 0 <= d.startIndex < MaxFrames
    decreases |names|
  {
    if |names| == 0 then []
    else
      var d := LinkAt(names[0], k, full, vdsFrames, start, image);
      var rest := Links(names[1..], k + 1, full, vdsFrames, start, image);
      if Kept(d) then [d] + rest else rest
  }

  /** `split_datasets`. With no `vds_shape` the VDS holds every frame from
      the start index on. */
  function SplitDatasets(names: seq<string>, data: Shape, startIdx: int, vds: Option<Shape>): (r: Result<seq<Dataset>>)
    ensures r.Err? <==> startIdx > data.frames || startIdx < 0
    ensures r.Err? ==> r.error == ValueError
    ensures r.Ok? ==> forall d :: d in r.value ==>
              0 <= d.startIndex < MaxFrames && 0 < d.stopIndex <= MaxFrames
              && d.source.frames <= MaxFrames && d.source.image == data.image
  {
    if startIdx > data.frames then Err(ValueError)
    else if startIdx < 0 then Err(ValueError)
    else
      var vdsFrames := if vds.Some? then vds.value.frames else data.frames - startIdx;
      Ok(Links(names, 0, data.frames, vdsFrames, startIdx, data.image))
  }

  function VdsFrames(data: Shape, startIdx: int, vds: Option<Shape>): int {
    if vds.Some? then vds.value.frames else data.frames - startIdx
  }

  /** `xs` is an order-preserving subsequence of `names`, by name. */
  predicate NamedSubsequence(xs: seq<Dataset>, names: seq<string>)
    decreases |names|
  {
    |xs| == 0
    || (|names| > 0
        && ((xs[0].name == names[0] && NamedSubsequence(xs[1..], names[1..]))
            || NamedSubsequence(xs, names[1..])))
  }

  lemma {:induction false} LinksAreSubsequence(names: seq<string>, k: nat, full: int, vdsFrames: int, start: int, image: seq<int>)
    ensures NamedSubsequence(Links(names, k, full, vdsFrames, start, image), names)
    decreases |names|
  {
    if |names| > 0 {
      LinksAreSubsequence(names[1..], k + 1, full, vdsFrames, start, image);
      var d := LinkAt(names[0], k, full, vdsFrames, start, image);
      var rest := Links(names[1..], k + 1, full, vdsFrames, start, image);
      if Kept(d) {
        assert ([d] + rest)[1..] == rest;
      }
    }
  }

  /** Every returned dataset is the link built for some position. */
  lemma {:induction false} LinksComeFromPositions(names: seq<string>, k0: nat, full: int, vdsFrames: int, start: int, image: seq<int>)
    ensures forall i :: 0 <= i < |Links(names, k0, full, vdsFrames, start, image)| ==>
              exists j :: 0 <= j < |names|
                          && Links(names, k0, full, vdsFrames, start, image)[i] == LinkAt(names[j], k0 + j, full, vdsFrames, start, image)
    decreases |names|
  {
    if |names| > 0 {
      var tail := names[1..];
      var d := LinkAt(names[0], k0, full, vdsFrames, start, image);
      var rest := Links(tail, k0 + 1, full, vdsFrames, start, image);
      LinksComeFromPositions(tail, k0 + 1, full, vdsFrames, start, image);
      var r := Links(names, k0, full, vdsFrames, start, image);
      var off := if Kept(d) then 1 else 0;
      assert r == if Kept(d) then [d] + rest else rest;
      forall i | 0 <= i < |r|
        ensures exists j :: 0 <= j < |names| && r[i] == LinkAt(names[j], k0 + j, full, vdsFrames, start, image)
      {
        if i < off {
          assert r[i] == LinkAt(names[0], k0 + 0, full, vdsFrames, start, image);
        } else {
          assert r[i] == rest[i - off];
          var j :| 0 <= j < |tail| && rest[i - off] == LinkAt(tail[j], k0 + 1 + j, full, vdsFrames, start, image);
          assert tail[j] == names[j + 1];
        }
      }
    } else {
      assert |Links(names, k0, full, vdsFrames, start, image)| == 0;
    }
  }

  /** The returned datasets come from `names` in order, each the link built
      for its own position: its source is the rest of the frames, capped at
      1000. */
  lemma SplitDatasetsLinks(names: seq<string>, data: Shape, startIdx: int, vds: Option<Shape>)
    requires SplitDatasets(names, data, startIdx, vds).Ok?
    ensures NamedSubsequence(SplitDatasets(names, data, startIdx, vds).value, names)
    ensures var r := SplitDatasets(names, data, startIdx, vds).value;
            forall i :: 0 <= i < |r| ==>
              exists k :: 0 <= k < |names| && r[i].name == names[k]
                          && r[i].source.frames == Min(MaxFrames, data.frames - MaxFrames * k)
  {
    var V := VdsFrames(data, startIdx, vds);
    var ds := Links(names, 0, data.frames, V, startIdx, data.image);
    assert SplitDatasets(names, data, startIdx, vds).value == ds;
    LinksAreSubsequence(names, 0, data.frames, V, startIdx, data.image);
    LinksComeFromPositions(names, 0, data.frames, V, startIdx, data.image);
    forall i | 0 <= i < |ds|
      ensures exists k :: 0 <= k < |names| && ds[i].name == names[k]
                          && ds[i].source.frames == Min(MaxFrames, data.frames - MaxFrames * k)
    {
      var j :| 0 <= j < |names| && ds[i] == LinkAt(names[j], 0 + j, data.frames, V, startIdx, data.image);
      assert ds[i].name == names[j];
    }
  }

  // -------------------------------------------------- frames of the split

  /** Frames one dataset contributes. */
  function Length(d: Dataset): int { d.stopIndex - d.startIndex }

  function SumLengths(ds: seq<Dataset>): int {
    if |ds| == 0 then 0 else SumLengths(ds[..|ds| - 1]) + Length(ds[|ds| - 1])
  }

  lemma {:induction false} SumLengthsCons(d: Dataset, ds: seq<Dataset>)
    ensures SumLengths([d] + ds) == Length(d) + SumLengths(ds)
    decreases |ds|
  {
    if |ds| > 0 {
      assert ([d] + ds)[..|ds|] == [d] + ds[..|ds| - 1];
      SumLengthsCons(d, ds[..|ds| - 1]);
    } else {
      assert [d] + ds == [d];
      assert [d][..0] == [];
    }
  }

  /** Frame index `x` capped to one link's range `[0, 1000]`. */
  function Clamp(x: int): int { Min(MaxFrames, Max(0, x)) }

  /** `Clamp(x - 1000 j)` summed over the links `j` in `[k, k + m)`. */
  function ClampSum(x: int, k: nat, m: nat): int
    decreases m
  {
    if m == 0 then 0 else Clamp(x - MaxFrames * k) + ClampSum(x, k + 1, m - 1)
  }

  lemma {:induction false} ClampSumClosed(x: int, k: nat, m: nat)
    ensures ClampSum(x, k, m) == Min(Max(x - MaxFrames * k, 0), MaxFrames * m)
    decreases m
  {
    if m > 0 {
      ClampSumClosed(x, k + 1, m - 1);
    }
  }

  /** Each link adds the frames of `[start, start + vds)` that fall in it;
      links the loop drops would have added none. */
  lemma {:induction false} LinksSum(names: seq<string>, k: nat, full: int, vdsFrames: int, start: int, image: seq<int>)
    requires vdsFrames >= 0
    ensures SumLengths(Links(names, k, full, vdsFrames, start, image))
            == ClampSum(vdsFrames + start, k, |names|) - ClampSum(start, k, |names|)
    decreases |names|
  {
    if |names| > 0 {
      LinksSum(names[1..], k + 1, full, vdsFrames, start, image);
      var d := LinkAt(names[0], k, full, vdsFrames, start, image);
      var rest := Links(names[1..], k + 1, full, vdsFrames, start, image);
      if Kept(d) {
        SumLengthsCons(d, rest);
      }
    }
  }

  /** The copied lengths add up to the frames of `[start, start + vds)`
      that the links can hold; when they can hold them all, to the VDS
      frame count itself. */
  lemma SplitDatasetsFrameCount(names: seq<string>, data: Shape, startIdx: int, vds: Option<Shape>)
    requires SplitDatasets(names, data, startIdx, vds).Ok?
    requires VdsFrames(data, startIdx, vds) >= 0
    ensures SumLengths(SplitDatasets(names, data, startIdx, vds).value)
            == Min(VdsFrames(data, startIdx, vds) + startIdx, MaxFrames * |names|) - Min(startIdx, MaxFrames * |names|)
    ensures startIdx + VdsFrames(data, startIdx, vds) <= MaxFrames * |names| ==>
              SumLengths(SplitDatasets(names, data, startIdx, vds).value) == VdsFrames(data, startIdx, vds)
  {
    var V := VdsFrames(data, startIdx, vds);
    LinksSum(names, 0, data.frames, V, startIdx, data.image);
    ClampSumClosed(V + startIdx, 0, |names|);
    ClampSumClosed(startIdx, 0, |names|);
  }

  /** When the VDS asks for no more frames than the data holds, no link
      stops past the end of its source. */
  lemma SplitDatasetsStopInSource(names: seq<string>, data: Shape, startIdx: int, vds: Option<Shape>)
    requires SplitDatasets(names, data, startIdx, vds).Ok?
    requires startIdx + VdsFrames(data, startIdx, vds) <= data.frames
    ensures forall d :: d in SplitDatasets(names, data, startIdx, vds).value ==>
              d.stopIndex <= d.source.frames
  {
    var V := VdsFrames(data, startIdx, vds);
    var ds := Links(names, 0, data.frames, V, startIdx, data.image);
    assert SplitDatasets(names, data, startIdx, vds).value == ds;
    LinksComeFromPositions(names, 0, data.frames, V, startIdx, data.image);
    forall i | 0 <= i < |ds| ensures ds[i].stopIndex <= ds[i].source.frames {
      var j :| 0 <= j < |names| && ds[i] == LinkAt(names[j], 0 + j, data.frames, V, startIdx, data.image);
    }
  }

  // ------------------------------------------------ create_virtual_layout

  /** `reduce(operator.add, datasets)`, folding from the left. */
  function SumDataset(ds: seq<Dataset>): (r: Dataset)
    requires |ds| > 0
    ensures r.source.image == ds[0].source.image
  {
    if |ds| == 1 then ds[0] else Add(SumDataset(ds[..|ds| - 1]), ds[|ds| - 1])
  }

  /** How far the layout advances for one dataset. */
  function SliceLength(d: Dataset): (r: int)
    ensures d.stopIndex <= d.source.frames ==> r == Length(d)
  {
    if d.stopIndex == d.source.frames then d.source.frames - d.startIndex else DestFrames(d)
  }

  function SumSlices(ds: seq<Dataset>): int {
    if |ds| == 0 then 0 else SumSlices(ds[..|ds| - 1]) + SliceLength(ds[|ds| - 1])
  }

  /** The destination slices `[dest_start, dest_end)` of the loop in
      `create_virtual_layout`: each begins where the previous one ended. */
  function Slices(ds: seq<Dataset>): (r: seq<(int, int)>)
    ensures |r| == |ds|
    ensures |r| > 0 ==> r[0].0 == 0 && r[|r| - 1].1 == SumSlices(ds)
    ensures forall i :: 0 <= i < |r| ==> r[i].1 - r[i].0 == SliceLength(ds[i])
    ensures forall i :: 0 < i < |r| ==> r[i].0 == r[i - 1].1
  {
    if |ds| == 0 then []
    else
      var before := Slices(ds[..|ds| - 1]);
      var from := if |before| == 0 then 0 else before[|before| - 1].1;
      before + [(from, from + SliceLength(ds[|ds| - 1]))]
  }

  /** A virtual layout: its shape and the slice each dataset fills. */
  datatype Layout = Layout(shape: Shape, slices: seq<(int, int)>)

  /** `create_virtual_layout`; `reduce` of an empty list raises TypeError. */
  function VirtualLayout(ds: seq<Dataset>): (r: Result<Layout>)
    ensures r.Err? <==> |ds| == 0
    ensures r.Err? ==> r.error == TypeError
    ensures r.Ok? ==> |r.value.slices| == |ds| && r.value.shape.image == ds[0].source.image
  {
    if |ds| == 0 then Err(TypeError)
    else Ok(Layout(DestShape(SumDataset(ds)), Slices(ds)))
  }

  predicate StopsInSource(ds: seq<Dataset>) {
    forall d :: d in ds ==> d.stopIndex <= d.source.frames
  }

  lemma {:induction false} SumDatasetFrames(ds: seq<Dataset>)
    requires |ds| > 0 && StopsInSource(ds)
    ensures SumDataset(ds).stopIndex <= SumDataset(ds).source.frames
    ensures DestFrames(SumDataset(ds)) == SumSlices(ds)
    decreases |ds|
  {
    if |ds| > 1 {
      var pre := ds[..|ds| - 1];
      assert forall d :: d in pre ==> d in ds;
      SumDatasetFrames(pre);
      assert ds[|ds| - 1] in ds;
      AddDestFrames(SumDataset(pre), ds[|ds| - 1]);
    } else {
      assert ds[0] in ds;
      assert ds[..0] == [];
    }
  }

  lemma {:induction false} SumSlicesIsSumLengths(ds: seq<Dataset>)
    requires StopsInSource(ds)
    ensures SumSlices(ds) == SumLengths(ds)
    decreases |ds|
  {
    if |ds| > 0 {
      var pre := ds[..|ds| - 1];
      assert forall d :: d in pre ==> d in ds;
      SumSlicesIsSumLengths(pre);
      assert ds[|ds| - 1] in ds;
    }
  }

  /** When every dataset stops inside its source, the slices cover the
      layout exactly: they start at 0, each copies `stop - start` frames,
      and the last ends at the layout's length. */
  lemma VirtualLayoutContiguous(ds: seq<Dataset>)
    requires |ds| > 0 && StopsInSource(ds)
    ensures var l := VirtualLayout(ds).value;
            l.slices[0].0 == 0
            && l.slices[|ds| - 1].1 == l.shape.frames == SumLengths(ds)
            && forall i :: 0 <= i < |ds| ==> l.slices[i].1 - l.slices[i].0 == Length(ds[i])
  {
    SumDatasetFrames(ds);
    SumSlicesIsSumLengths(ds);
    forall i | 0 <= i < |ds| ensures SliceLength(ds[i]) == Length(ds[i]) {
      assert ds[i] in ds;
    }
  }

  // ------------------------------------------------------ image_vds_writer

  /** The datasets `image_vds_writer` lays out. The external links are
      found first (none is a KeyError); a single link over a run longer than
      1000 frames is used whole, without consulting `vds_shape`. */
  function ImageVdsDatasets(names: seq<string>, full: Shape, startIndex: int, vds: Option<Shape>): (r: Result<seq<Dataset>>)
    ensures |names| == 0 ==> r == Err(KeyError)
    ensures |names| == 1 && full.frames > MaxFrames ==>
              r == Ok([Dataset(names[0], full, startIndex, full.frames)])
    ensures !(|names| == 1 && full.frames > MaxFrames) && |names| > 0 ==>
              r == SplitDatasets(names, full, startIndex, Some(Shape(VdsFrames(full, startIndex, vds), full.image)))
  {
    if |names| == 0 then Err(KeyError)
    else
      var vdsShape := if vds.Some? then vds.value else Shape(full.frames - startIndex, full.image);
      if |names| == 1 && full.frames > MaxFrames then
        Ok([Dataset(names[0], full, startIndex, full.frames)])
      else
        SplitDatasets(names, full, startIndex, Some(vdsShape))
  }

  /** The layout `image_vds_writer` writes. */
  function ImageVdsLayout(names: seq<string>, full: Shape, startIndex: int, vds: Option<Shape>): (r: Result<Layout>)
    ensures ImageVdsDatasets(names, full, startIndex, vds).Err? ==> r.Err?
  {
    var ds :- ImageVdsDatasets(names, full, startIndex, vds);
    VirtualLayout(ds)
  }

  /** With the default shape, enough links for the data, and a start index
      inside it, the virtual dataset is exactly the frames from the start
      index to the end. */
  lemma ImageVdsCoversRequest(names: seq<string>, full: Shape, startIndex: int)
    requires |names| > 0
    requires 0 <= startIndex < full.frames
    requires full.frames <= MaxFrames * |names| || (|names| == 1 && full.frames > MaxFrames)
    ensures ImageVdsLayout(names, full, startIndex, None).Ok?
    ensures ImageVdsLayout(names, full, startIndex, None).value.shape.frames == full.frames - startIndex
  {
    var vds := Some(Shape(full.frames - startIndex, full.image));
    if !(|names| == 1 && full.frames > MaxFrames) {
      var ds := SplitDatasets(names, full, startIndex, vds).value;
      SplitDatasetsFrameCount(names, full, startIndex, vds);
      SplitDatasetsStopInSource(names, full, startIndex, vds);
      assert |ds| > 0;
      VirtualLayoutContiguous(ds);
    }
  }

  /** Passing the default shape explicitly lays out the same thing as
      passing none. */
  lemma ImageVdsDefaultShape(names: seq<string>, full: Shape, startIndex: int)
    ensures ImageVdsLayout(names, full, startIndex, Some(Shape(full.frames - startIndex, full.image)))
         == ImageVdsLayout(names, full, startIndex, None)
  {
  }

  /** The same coverage when the default shape is passed explicitly, as
      `write_vds` does. */
  lemma ImageVdsCoversExplicitShape(names: seq<string>, full: Shape, startIndex: int)
    requires |names| > 0
    requires 0 <= startIndex < full.frames
    requires full.frames <= MaxFrames * |names| || (|names| == 1 && full.frames > MaxFrames)
    ensures var layout := ImageVdsLayout(names, full, startIndex, Some(Shape(full.frames - startIndex, full.image)));
            layout.Ok? && layout.value.shape.frames == full.frames - startIndex
  {
    ImageVdsCoversRequest(names, full, startIndex);
    ImageVdsDefaultShape(names, full, startIndex);
  }

  // --------------------------------------------------- clean_unused_links

  /** Frames held by the first `i` links. */
  function Cumulative(lengths: seq<int>, i: nat): int
    requires i <= |lengths|
  {
    if i == 0 then 0 else Cumulative(lengths, i - 1) + lengths[i - 1]
  }

  function Total(lengths: seq<int>): int {
    Cumulative(lengths, |lengths|)
  }

  /** Link `i` ends before the VDS starts. */
  predicate EndsBefore(lengths: seq<int>, i: nat, start: int)
    requires i < |lengths|
  {
    Cumulative(lengths, i + 1) < start
  }

  /** Link `i` starts after the VDS ends. */
  predicate StartsAfter(lengths: seq<int>, i: nat, start: int, vdsFrames: int)
    requires i < |lengths|
  {
    Cumulative(lengths, i) > start + vdsFrames
  }

  predicate Unused(lengths: seq<int>, i: nat, start: int, vdsFrames: int)
    requires i < |lengths|
  {
    EndsBefore(lengths, i, start) || StartsAfter(lengths, i, start, vdsFrames)
  }

  /** The positions, from `i` on and in increasing order, of exactly the
      links the VDS uses. */
  function KeptIndices(lengths: seq<int>, i: nat, start: int, vdsFrames: int): (r: seq<nat>)
    requires i <= |lengths|
    ensures forall k :: 0 <= k < |r| ==> i <= r[k] < |lengths| && !Unused(lengths, r[k], start, vdsFrames)
    ensures forall k, l :: 0 <= k < l < |r| ==> r[k] < r[l]
    ensures forall j :: i <= j < |lengths| && !Unused(lengths, j, start, vdsFrames) ==> j in r
    decreases |lengths| - i
  {
    if i == |lengths| then []
    else
      var rest := KeptIndices(lengths, i + 1, start, vdsFrames);
      if Unused(lengths, i, start, vdsFrames) then rest else [i] + rest
  }

  /** The names of the links the clean-up pass keeps, from index `i` on:
      the names at the used positions, in link order. */
  function KeptFrom(links: seq<(string, int)>, lengths: seq<int>, i: nat, start: int, vdsFrames: int): (r: seq<string>)
    requires |lengths| == |links| && i <= |links|
    ensures |r| <= |links| - i
    ensures var ix := KeptIndices(lengths, i, start, vdsFrames);
            |r| == |ix| && forall k :: 0 <= k < |r| ==> r[k] == links[ix[k]].0
    decreases |links| - i
  {
    if i == |links| then []
    else
      var rest := KeptFrom(links, lengths, i + 1, start, vdsFrames);
      if Unused(lengths, i, start, vdsFrames) then rest else [links[i].0] + rest
  }

  /** HDF5 link names within one group are distinct. */
  predicate DistinctNames(links: seq<(string, int)>) {
    forall a, b :: 0 <= a < b < |links| ==> links[a].0 != links[b].0
  }

  function LinkLengths(links: seq<(string, int)>): (r: seq<int>)
    ensures |r| == |links| && forall i :: 0 <= i < |links| ==> r[i] == links[i].1
  {
    if |links| == 0 then [] else [links[0].1] + LinkLengths(links[1..])
  }

  function LinkNames(links: seq<(string, int)>): (r: seq<string>)
    ensures |r| == |links| && forall i :: 0 <= i < |links| ==> r[i] == links[i].0
  {
    if |links| == 0 then [] else [links[0].0] + LinkNames(links[1..])
  }

  /** `clean_unused_links` over the external links (name, frame count) in
      file order; it returns the names still linked. Deleting a link twice,
      when it both ends before and starts after the VDS, is a KeyError. */
  function CleanUnusedLinks(links: seq<(string, int)>, vdsFrames: int, start: int): (r: Result<seq<string>>)
    ensures |links| == 0 ==> r == Err(KeyError)
    ensures |links| == 1 ==> r == Ok([links[0].0])
    ensures |links| > 1 && Total(LinkLengths(links)) == vdsFrames ==>
              r == Ok(LinkNames(links))
    ensures |links| > 1 && Total(LinkLengths(links)) != vdsFrames && r.Ok? ==>
              var ix := KeptIndices(LinkLengths(links), 0, start, vdsFrames);
              |r.value| == |ix| && forall k :: 0 <= k < |ix| ==> r.value[k] == links[ix[k]].0
    ensures r.Ok? ==> forall i :: 0 <= i < |links| && !Unused(LinkLengths(links), i, start, vdsFrames) ==>
              links[i].0 in r.value
  {
    var lengths := LinkLengths(links);
    if |links| == 0 then Err(KeyError)
    else if |links| == 1 then Ok([links[0].0])
    else if Total(lengths) == vdsFrames then Ok(LinkNames(links))
    else if exists i :: 0 <= i < |links| && EndsBefore(lengths, i, start) && StartsAfter(lengths, i, start, vdsFrames)
    then Err(KeyError)
    else Ok(KeptFrom(links, lengths, 0, start, vdsFrames))
  }

  lemma {:induction false} CumulativeMonotone(lengths: seq<int>, i: nat, j: nat)
    requires i <= j <= |lengths|
    requires forall k :: 0 <= k < |lengths| ==> lengths[k] >= 0
    ensures Cumulative(lengths, i) <= Cumulative(lengths, j)
    decreases j - i
  {
    if i < j {
      CumulativeMonotone(lengths, i, j - 1);
    }
  }

  /** A link whose frames `[Cumulative(i), Cumulative(i + 1))` meet the
      VDS range `[start, start + frames)` is never removed. */
  lemma OverlappingLinkKept(links: seq<(string, int)>, vdsFrames: int, start: int, i: nat)
    requires i < |links|
    requires CleanUnusedLinks(links, vdsFrames, start).Ok?
    requires Cumulative(LinkLengths(links), i) < start + vdsFrames
    requires Cumulative(LinkLengths(links), i + 1) > start
    ensures links[i].0 in CleanUnusedLinks(links, vdsFrames, start).value
  {
  }

  /** When the pass does remove links, every link the VDS does not use is
      gone: with distinct names, its name is not among those kept. */
  lemma UnusedLinkRemoved(links: seq<(string, int)>, vdsFrames: int, start: int, j: nat)
    requires j < |links| && DistinctNames(links)
    requires |links| > 1 && Total(LinkLengths(links)) != vdsFrames
    requires CleanUnusedLinks(links, vdsFrames, start).Ok?
    requires Unused(LinkLengths(links), j, start, vdsFrames)
    ensures links[j].0 !in CleanUnusedLinks(links, vdsFrames, start).value
  {
    var lengths := LinkLengths(links);
    var r := CleanUnusedLinks(links, vdsFrames, start).value;
    var ix := KeptIndices(lengths, 0, start, vdsFrames);
    forall k | 0 <= k < |r|
      ensures r[k] != links[j].0
    {
      assert r[k] == links[ix[k]].0;
      assert ix[k] != j;
    }
  }

  /** With non-negative frame counts no link is removed twice, so the pass
      succeeds whenever there is a link. */
  lemma CleanUnusedLinksSucceeds(links: seq<(string, int)>, vdsFrames: int, start: int)
    requires |links| > 0 && vdsFrames >= 0
    requires forall i :: 0 <= i < |links| ==> links[i].1 >= 0
    ensures CleanUnusedLinks(links, vdsFrames, start).Ok?
  {
    var lengths := LinkLengths(links);
    forall i | 0 <= i < |links|
      ensures !(EndsBefore(lengths, i, start) && StartsAfter(lengths, i, start, vdsFrames))
    {
      CumulativeMonotone(lengths, i, i + 1);
    }
  }
}

=== FILE: wrappers.dfy ===
/** Failure-compatible result types shared by every module of the model.
    Each Python exception class the modelled code raises is one `Error`
    constructor; an operation that can raise returns a `Result`. */
module Wrappers {

  datatype Option<+T> = None | Some(value: T) {
    predicate IsFailure() { None? }

    function PropagateFailure<U>(): Option<U>
      requires None?
    {
      None
    }

    function Extract(): T
      requires Some?
    {
      value
    }

    function GetOr(default: T): T {
      match this
      case Some(v) => v
      case None => default
    }
  }

  /** The exception classes raised by the modelled code. */
  datatype Error =
    | ValueError
    | TypeError
    | KeyError
    | IndexError
    | NameError
    | IOError
    | ZeroDivisionError
    | ScanAxisNotFoundError
    | ScanAxisError
    | InvalidBeamlineError
    | UnknownExperimentTypeError
    | UnknownDetectorTypeError

  datatype Result<+T> = Ok(value: T) | Err(error: Error) {
    predicate IsFailure() { Err? }

    function PropagateFailure<U>(): Result<U>
      requires Err?
    {
      Err(error)
    }

    function Extract(): T
      requires Ok?
    {
      value
    }
  }
}

=== FILE: write_utils.dfy ===
/** The pure helpers of `nexgen/nxs_write/write_utils.py`: the
    `depends_on` value, the detector origin, the image count of a set of
    data files and the guards of the compressed copy. */
module WriteUtils {
  import opened Wrappers
  import opened Text
  import opened Utils

  // ------------------------------------------------------------ depends_on

  /** `set_dependency`: "." ends the chain whatever the path; otherwise the
      transformation name joined to the path (given as `None` or the empty
      string when there is none) with exactly one "/" added when the path
      does not end in one. */
  function SetDependency(dep: string, path: Option<string>): (r: string)
    ensures dep == "." ==> r == "."
    ensures dep != "." && (path.None? || path == Some("")) ==> r == dep
    ensures dep != "." && path.Some? && path.value != "" ==>
              && |r| == |path.value| + |dep| + (if EndsWith(path.value, "/") then 0 else 1)
              && StartsWith(r, path.value)
              && EndsWith(r, dep)
              && r[|r| - |dep| - 1] == '/'
  {
    if dep == "." then "."
    else if path.Some? && path.value != "" then
      var p := if EndsWith(path.value, "/") then path.value else path.value + "/";
      assert p[..|path.value|] == path.value;
      assert (p + dep)[..|path.value|] == p[..|path.value|];
      assert (p + dep)[|p|..] == dep;
      p + dep
    else dep
  }

  /** A trailing "/" on the path makes no difference. */
  lemma TrailingSlashIrrelevant(dep: string, p: string)
    requires p != "" && !EndsWith(p, "/")
    ensures SetDependency(dep, Some(p)) == SetDependency(dep, Some(p + "/"))
  {
    assert EndsWith(p + "/", "/");
  }

  /** The path part and the name part can be read back off the value. */
  lemma DependencySplits(dep: string, p: string)
    requires dep != "." && p != ""
    ensures var r := SetDependency(dep, Some(p));
            var q := if EndsWith(p, "/") then p else p + "/";
            r[..|q|] == q && r[|q|..] == dep
  {
  }

  lemma DependencyExamples()
    ensures SetDependency(".", Some("/entry/sample/transformations/")) == "."
    ensures SetDependency("sam_z", Some("/entry")) == "/entry/sam_z"
    ensures SetDependency("whatever", None) != "."
  {
    assert !EndsWith("/entry", "/");
  }

  // ---------------------------------------------------------- the origin

  /** `calculate_origin`: the beam centre scaled by the pixel size and
      carried along the fast and slow axes, negated; the offset is 1.0 in
      mode "1" and the in-plane length of the origin otherwise, with the
      floating-point `hypot` passed in. */
  function CalculateOrigin(beamCentre: (real, real), pixelSize: (real, real), fast: Point3D, slow: Point3D,
                           mode: string, hypot: (real, real) -> real): (r: (Point3D, real))
    ensures mode == "1" ==> r.1 == 1.0
    ensures mode != "1" ==> r.1 == hypot(r.0.x, r.0.y)
  {
    var xs := beamCentre.0 * pixelSize.0;
    var ys := beamCentre.1 * pixelSize.1;
    var origin := Point3D(-(xs * fast.x + ys * slow.x), -(xs * fast.y + ys * slow.y), -(xs * fast.z + ys * slow.z));
    (origin, if mode == "1" then 1.0 else hypot(origin.x, origin.y))
  }

  /** With orthonormal fast and slow axes, the origin projected back on
      each axis is minus the beam centre in metres along it. */
  lemma OriginProjectsToBeamCentre(beamCentre: (real, real), pixelSize: (real, real), fast: Point3D, slow: Point3D,
                                   mode: string, hypot: (real, real) -> real)
    requires Dot(fast, fast) == 1.0 && Dot(slow, slow) == 1.0 && Dot(fast, slow) == 0.0
    ensures var o := CalculateOrigin(beamCentre, pixelSize, fast, slow, mode, hypot).0;
            && Dot(o, fast) == -(beamCentre.0 * pixelSize.0)
            && Dot(o, slow) == -(beamCentre.1 * pixelSize.1)
  {
    var xs := beamCentre.0 * pixelSize.0;
    var ys := beamCentre.1 * pixelSize.1;
    DotCombination(xs, ys, fast, slow, fast);
    DotCombination(xs, ys, fast, slow, slow);
    assert Dot(slow, fast) == Dot(fast, slow);
  }

  /** The dot product distributes over a negated linear combination. */
  lemma DotCombination(a: real, b: real, u: Point3D, v: Point3D, w: Point3D)
    ensures Dot(Point3D(-(a * u.x + b * v.x), -(a * u.y + b * v.y), -(a * u.z + b * v.z)), w)
            == -(a * Dot(u, w) + b * Dot(v, w))
  {
    assert -(a * u.x + b * v.x) * w.x == -(a * (u.x * w.x) + b * (v.x * w.x));
    assert -(a * u.y + b * v.y) * w.y == -(a * (u.y * w.y) + b * (v.y * w.y));
    assert -(a * u.z + b * v.z) * w.z == -(a * (u.z * w.z) + b * (v.z * w.z));
  }

  // ---------------------------------------------------- number of images

  /** A data file, abstracted as the first dimension of each of its
      datasets. */
  type DataFile = Dict<string, nat>

  /** The reference count: the first dimensions summed, file by file. */
  function FramesIn(files: seq<DataFile>, key: string): Option<nat>
  {
    if |files| == 0 then Some(0)
    else
      match (FramesIn(files[..|files| - 1], key), Get(files[|files| - 1], key))
      case (Some(rest), Some(n)) => Some(rest + n)
      case _ => None
  }

  /** `find_number_of_images`: a `KeyError` as soon as one file has no
      dataset under the key, the total otherwise. */
  method FindNumberOfImages(files: seq<DataFile>, key: string) returns (r: Result<nat>)
    ensures r.Err? <==> exists i :: 0 <= i < |files| && Get(files[i], key).None?
    ensures r.Err? ==> r.error == KeyError
    ensures r.Ok? ==> Some(r.value) == FramesIn(files, key)
  {
    var total: nat := 0;
    for i := 0 to |files|
      invariant FramesIn(files[..i], key) == Some(total)
    {
      var n := Get(files[i], key);
      if n.None? {
        return Err(KeyError);
      }
      FramesStep(files, key, i, total, n.value);
      total := total + n.value;
    }
    assert files[..|files|] == files;
    FramesPresent(files, key);
    return Ok(total);
  }

  /** A total means every file has the key. */
  lemma FramesPresent(files: seq<DataFile>, key: string)
    requires FramesIn(files, key).Some?
    ensures forall j :: 0 <= j < |files| ==> Get(files[j], key).Some?
  {
    forall j | 0 <= j < |files| ensures Get(files[j], key).Some? {
      if Get(files[j], key).None? {
        FramesMissing(files, key, j);
      }
    }
  }

  lemma FramesStep(files: seq<DataFile>, key: string, i: nat, total: nat, n: nat)
    requires i < |files| && FramesIn(files[..i], key) == Some(total) && Get(files[i], key) == Some(n)
    ensures FramesIn(files[..i + 1], key) == Some(total + n)
  {
    assert files[..i + 1][..i] == files[..i];
  }

  /** One file without the key leaves no total. */
  lemma {:induction false} FramesMissing(files: seq<DataFile>, key: string, i: nat)
    requires i < |files| && !HasKey(files[i], key)
    ensures FramesIn(files, key).None?
    decreases |files|
  {
    if i < |files| - 1 {
      assert files[..|files| - 1][i] == files[i];
      FramesMissing(files[..|files| - 1], key, i);
    }
  }

  /** With the key in every file, the total is the sum over the files, and
      splitting the list splits the sum. */
  lemma {:induction false} FramesAppend(a: seq<DataFile>, b: seq<DataFile>, key: string)
    requires FramesIn(a, key).Some? && FramesIn(b, key).Some?
    ensures FramesIn(a + b, key) == Some(FramesIn(a, key).value + FramesIn(b, key).value)
    decreases |b|
  {
    if |b| == 0 {
      assert a + b == a;
    } else {
      var b' := b[..|b| - 1];
      var last := b[|b| - 1];
      assert FramesIn(b', key).Some? && Get(last, key).Some?;
      assert FramesIn(b, key) == Some(FramesIn(b', key).value + Get(last, key).value);
      assert (a + b)[..|a + b| - 1] == a + b';
      assert (a + b)[|a + b| - 1] == last;
      FramesAppend(a, b', key);
      assert FramesIn(a + b, key) == Some(FramesIn(a + b', key).value + Get(last, key).value);
    }
  }

  lemma NoFilesNoImages(key: string)
    ensures FramesIn([], key) == Some(0)
  {
  }

  // ---------------------------------------------------- compressed copy

  datatype Filter = Blosc | Bitshuffle(blockSize: int)

  /** Where the copied data comes from. */
  datatype CopySource = FromData | FromFile(filename: string, key: string) | Nothing

  datatype CopyOutcome = Written(filter: Filter, source: CopySource) | Skipped

  /** The guards of `write_compressed_copy`: data and a file name together
      are refused; a file name without a dataset key, or a filter other
      than blosc or bitshuffle in any case, writes nothing. */
  function CompressedCopy(hasData: bool, filename: Option<string>, filterChoice: string, dsetKey: string,
                          blockSize: Option<int>): (r: Result<CopyOutcome>)
    ensures r.Err? <==> hasData && filename.Some?
    ensures r.Err? ==> r.error == ValueError
    ensures r.Ok? && r.value.Written? <==>
              && !(hasData && filename.Some?)
              && !(filename.Some? && filename.value != "" && dsetKey == "")
              && Lower(filterChoice) in ["blosc", "bitshuffle"]
    ensures r.Ok? && r.value.Written? && r.value.filter.Bitshuffle? ==> r.value.filter.blockSize == blockSize.GetOr(0)
    ensures r.Ok? && r.value.Written? && filename.Some? && filename.value != "" ==>
              r.value.source == FromFile(filename.value, dsetKey)
  {
    if hasData && filename.Some? then Err(ValueError)
    else if filename.Some? && filename.value != "" && dsetKey == "" then Ok(Skipped)
    else
      var source := if filename.Some? && filename.value != "" then FromFile(filename.value, dsetKey)
                    else if hasData then FromData else Nothing;
      if Lower(filterChoice) == "blosc" then Ok(Written(Blosc, source))
      else if Lower(filterChoice) == "bitshuffle" then Ok(Written(Bitshuffle(blockSize.GetOr(0)), source))
      else Ok(Skipped)
  }

  /** The filter is chosen without regard to case: the choice in lower
      case gives the same outcome as the choice as typed. */
  lemma CompressedCopyIgnoresCase(hasData: bool, filename: Option<string>, filterChoice: string,
                                  dsetKey: string, blockSize: Option<int>)
    ensures CompressedCopy(hasData, filename, Lower(filterChoice), dsetKey, blockSize)
         == CompressedCopy(hasData, filename, filterChoice, dsetKey, blockSize)
  {
    LowerIdempotent(filterChoice);
  }
}
